=== FILE: README.md ===
# RPT workout tracker: a Dafny model of its core

RPT is an iOS tracker for reverse pyramid training. In that style of lifting the first working set of an exercise is the heaviest, and each later set drops by a configured percentage. This project models the tracker's core as pure Dafny functions over immutable values and proves properties of them. The core covers:

- **Workout domain** (`Domain`): sets, workouts and their derived values. These are exercise groups, best sets, total volume, working-set count, completion, and adding sets.
- **Workout repository** (`WorkoutManager`, `DataManager`): creating, saving, completing and deleting workouts; adding, editing and deleting sets; recent workouts, date ranges, exercise history, statistics and the one-rep-max estimate. Failures of the store are reported through `DataError`.
- **RPT arithmetic** (`RPT`, `DropSets`, `FollowUp`): rounding to 5 lb, the drop-percentage weight table, the example string shown in the settings, and the calculator screen. It also covers propagating a first-set edit to the later sets, and the "follow-up" workout that raises the weights and keeps each set's drop.
- **The active session** (`Session`, `ActiveWorkout`, `SetRow`): the sets grouped per exercise, the exercise order kept across edits, the next set proposed from the last one, and pre-filling sets from history. The set row's steppers and its save rule are modelled too.
- **Templates** (`Templates`): template exercises, the rep ranges that follow the set count, template edits, and creating a workout from a template.
- **Settings, users and the exercise library** (`Settings`, `Users`, `Exercises`): validated setting updates, the user profile and statistics with personal bests and the streak, and the exercise library with its seeding, search and most-used list.
- **The discard gate and the home screen** (`DiscardState`, `Home`): the process-wide "last workout was discarded" flag, and the home screen that refuses to resume a discarded workout.
- **The rest timer** (`RestTimer`): countdown, pause, reset, skip, the ring colour and the labels.

Persistent stores are values passed in and returned. A store read that fails is an absent (`None`) input, and a save that fails is a `saveOk` flag. The clock is a `now` parameter. Times and weights are `real`, because the source works on `Double` seconds and pounds. Swift's dictionary iteration order is not specified, so wherever the source enumerates a dictionary the model takes the order as an argument. The argument must list exactly the dictionary's keys (`IsListing`). Swift's `round`, truncating integer `/` and `%`, and `max(by:)`'s choice among ties are written out explicitly (`RoundHalfAway`, `QuotTrunc`, `RemTrunc`, `HeaviestIndex`).

Three behaviours of the code worth knowing, all modelled as written:

- `startNewWorkout` (RPT/ViewModels/HomeViewModel.swift:52-54) leaves the discard flag set. Only `markWorkoutAsSaved` clears it, through `clearDiscardedState` (RPT/Managers/WorkoutStateManager.swift:75-90).
- Deleting a custom exercise deletes its sets too, because the relationship's delete rule is cascade (RPT/Models/Exercise.swift:20).
- When counting the stored exercises fails, the default exercises are seeded again (RPT/Managers/ExerciseManager.swift:121-130).

## Model

| member | source | states |
|---|---|---|
| Basics.SafeGet | RPT/Utilities/Array+Extensions.swift:13-16 | An index inside the array yields its element and any other index yields nothing. |
| Basics.SafeGetEmpty | RPT/Utilities/Array+Extensions.swift:13-16 | An empty array yields nothing at any index, negative ones included. |
| Domain.NewSet | RPT/Models/ExerciseSet.swift:26-42 | A new set carries the given weight, reps and exercise. It is stamped with the given time, or with now when none is given. Workout, warm-up flag, RPE and notes are the given values. |
| Domain.NewSetDefaults | RPT/Models/ExerciseSet.swift:26-33 | By default a new set is a working set, stamped now, with no RPE, no notes and no workout. |
| Domain.NewWorkout | RPT/Models/Workout.swift:26-41 | A new workout is dated now and has no sets, zero duration, empty notes and no user. It is not completed and records the template it came from. |
| Domain.ExerciseIds | RPT/Models/Workout.swift:44-46 | The exercises of a set list are exactly those that some set refers to. |
| Domain.ExerciseIdsAppend | RPT/Models/Workout.swift:44-46 | Appending a set adds its exercise, if it has one, and nothing else. |
| Domain.ExerciseCountBound | RPT/Models/Workout.swift:44-46 | A workout never has more distinct exercises than sets. |
| Domain.TotalVolumeAppend | RPT/Models/Workout.swift:49-51 | Volume is additive over concatenated set lists. |
| Domain.TotalVolumeCons | RPT/Models/Workout.swift:49-51 | The volume of a set list is the first set's weight × reps plus the volume of the rest. |
| Domain.TotalVolumeSplitsByWarmup | RPT/Models/Workout.swift:49-51 | The total volume is the warm-up volume plus the working volume, so warm-ups are included. |
| Domain.TotalVolumeNonNegative | RPT/Models/Workout.swift:49-51 | With non-negative weights and reps the volume is non-negative. |
| Domain.WorkingSetsCount | RPT/Models/Workout.swift:54-56 | The working-set count never exceeds the number of sets. |
| Domain.WorkingSetsCountComplement | RPT/Models/Workout.swift:54-56 | Working sets plus warm-up sets make up all sets. The count equals the number of sets exactly when no set is a warm-up. |
| Domain.ExerciseGroups | RPT/Models/Workout.swift:59-61 | There is one group per exercise used. Each group is non-empty, holds only that exercise's sets and is ordered by completion time. |
| Domain.GroupOf | RPT/Models/Workout.swift:59-61 | A group is ordered by completion time and is a permutation of the exercise's sets. It is non-empty when the exercise is used. |
| Domain.FilterCommuteWithSort | RPT/Models/Workout.swift:59-61 | Filtering the time-sorted sets gives the same sets as filtering first, still in time order. |
| Domain.FilterSorted | RPT/Models/Workout.swift:59-61 | Filtering keeps a time-ordered list ordered. |
| Domain.GroupOfMembers | RPT/Models/Workout.swift:59-61 | A set is in an exercise's group exactly when it is in the workout and refers to that exercise. |
| Domain.HeaviestIndex | RPT/Models/Workout.swift:68 | The chosen index holds a maximal weight, and no earlier set weighs as much, so the first maximum wins. |
| Domain.HeaviestOf | RPT/Models/Workout.swift:68 | The chosen set belongs to the list and no set in it is heavier. |
| Domain.InHeaviest | RPT/Models/Workout.swift:68 | No member of the list outweighs the chosen set. |
| Domain.BestSets | RPT/Models/Workout.swift:64-75 | There is one best set per exercise used in the workout. |
| Domain.BestSetIsHeaviest | RPT/Models/Workout.swift:64-75 | An exercise's best set is one of its own sets in the workout, and none of its sets is heavier. |
| Domain.Complete | RPT/Models/Workout.swift:101-108 | Completing marks the workout completed. It sets the duration to the elapsed time only when no duration was recorded. Nothing else changes. |
| Domain.CompleteIdempotent | RPT/Models/Workout.swift:101-108 | Completing twice is completing once, whenever the first completion left a non-zero duration. |
| Domain.SaveWorkout | RPT/Managers/WorkoutManager.swift:39-46 | Saving fills in the elapsed time only when the duration is 0, and otherwise changes nothing. |
| Domain.SaveAfterSave | RPT/Managers/WorkoutManager.swift:39-46 | A second save at the same instant keeps the duration the first one recorded, whatever sets the workout holds by then. |
| Domain.CompleteTimed | RPT/Models/Workout.swift:101-108 | Corrected (intended); the as-written twin is `Domain.Complete`. Completion records the time from the start to now as the duration, whatever an earlier save stored. |
| Domain.CompleteTimedAfterSaves | RPT/Models/Workout.swift:101-108 | After any save and any edit of the sets, the corrected completion still records the whole time from the start. On a workout never saved it agrees with `Domain.Complete`. |
| Domain.AddSet | RPT/Models/Workout.swift:111-123 | The new set is appended to the workout and attached to it; nothing else in the workout changes. |
| Domain.AddSetVolume | RPT/Models/Workout.swift:111-123 | Adding a set raises the volume by exactly its weight × reps. |
| Domain.AddSetWorkingCount | RPT/Models/Workout.swift:111-123 | Adding a working set raises the working count by one; adding a warm-up leaves it unchanged. |
| Domain.AddSetExerciseCount | RPT/Models/Workout.swift:111-123 | Adding a set raises the exercise count by one exactly when its exercise was not yet in the workout. |
| WorkoutManager.CreateWorkout | RPT/Managers/WorkoutManager.swift:26-36 | The store gains exactly one new empty workout, appended at the end. |
| WorkoutManager.SaveThenComplete | RPT/Managers/WorkoutManager.swift:39-56 | A second save changes nothing. Completing after a save keeps the saved duration and only sets the completed flag. |
| WorkoutManager.CompleteWorkout | RPT/Managers/WorkoutManager.swift:49-56 | The workout is completed with its sets kept and its duration filled in if it was 0. When a user exists, the workout is credited to the first user: one more workout and its volume added. |
| WorkoutManager.DeleteWorkout | RPT/Managers/WorkoutManager.swift:59-62 | No workout with the deleted id remains. Every other workout stays, in its original order. |
| WorkoutManager.DeleteWorkoutCascades | RPT/Managers/WorkoutManager.swift:59-62 | After a deletion the stored sets are exactly the sets of the other workouts: the deleted workout's sets go with it. |
| WorkoutManager.CreateThenDelete | RPT/Managers/WorkoutManager.swift:26-62 | Deleting a workout just created under a fresh id restores the store. |
| WorkoutManager.AddExercise | RPT/Managers/WorkoutManager.swift:67-79 | One set with the given id is appended: 0 lb, 8 reps, the given exercise, attached to the workout, a working set with no RPE, stamped now. Nothing else about the workout changes. |
| WorkoutManager.RemoveExercise | RPT/Managers/WorkoutManager.swift:119-123 | No set of the exercise remains, and nothing but the set list changes. |
| WorkoutManager.RemoveExerciseEffect | RPT/Managers/WorkoutManager.swift:119-123 | The kept sets are exactly the sets of other exercises, in their original order. The exercise drops out of the workout's exercises and no other exercise does. |
| WorkoutManager.AddThenRemoveExercise | RPT/Managers/WorkoutManager.swift:67-123 | Removing an exercise just added leaves the same workout as removing it directly. |
| WorkoutManager.DeleteSet | RPT/Managers/WorkoutManager.swift:113-116 | No set with the deleted id remains, every other set stays in its original order, and nothing but the set list changes. |
| WorkoutManager.AddThenDeleteSet | RPT/Managers/WorkoutManager.swift:82-116 | Adding a set under a fresh id and deleting it again gives back the workout. |
| WorkoutManager.UpdateSetAsWritten | RPT/Managers/WorkoutManager.swift:99-110 | As written, the update keeps the number of sets, leaves every set with another id as it was, and changes nothing but the set list. |
| WorkoutManager.UpdateSetAsWrittenNeverRestamps | RPT/Managers/WorkoutManager.swift:99-110 | As written, no set's completion time ever changes. The first-weight re-stamp is dead code because the test reads the weight just assigned. |
| WorkoutManager.UpdateSet | RPT/Managers/WorkoutManager.swift:99-110 | Corrected (intended); the as-written twin is `WorkoutManager.UpdateSetAsWritten`. The target set gets the new weight, reps and RPE. It is re-stamped now exactly when its old weight was 0 and the new one is positive. Every other set is untouched. |
| WorkoutManager.UpdateSetDiscrepancy | RPT/Managers/WorkoutManager.swift:99-110 | Given a first weight of 100, the as-written update keeps the old stamp and the intended one takes the current time. |
| WorkoutManager.GetRecentWorkouts | RPT/Managers/WorkoutManager.swift:128-135 | The result has min(limit, stored) workouts, newest first, all taken from the store. |
| WorkoutManager.RecentWorkoutsAreNewest | RPT/Managers/WorkoutManager.swift:128-135 | Every returned workout is at least as recent as any workout left out. |
| WorkoutManager.GetWorkouts | RPT/Managers/WorkoutManager.swift:138-147 | The result is oldest first and is a permutation of the workouts dated in the closed range. |
| WorkoutManager.GetWorkoutsMembers | RPT/Managers/WorkoutManager.swift:138-147 | A workout is returned exactly when it is stored and its date lies in [from, to]. |
| WorkoutManager.HistoryOf | RPT/Managers/WorkoutManager.swift:164-176 | Each entry pairs a listed workout with the sets picked from it, and no entry is empty. |
| WorkoutManager.ConsNewestFirst | RPT/Managers/WorkoutManager.swift:155-179 | An entry at least as recent as all later ones keeps the history newest first. |
| WorkoutManager.HistoryOrdered | RPT/Managers/WorkoutManager.swift:155-179 | Entries taken from a newest-first workout list are themselves newest first. |
| WorkoutManager.GetWorkoutHistory | RPT/Managers/WorkoutManager.swift:155-179 | Workouts without sets of the exercise get no entry. |
| WorkoutManager.GetWorkoutHistoryEntry | RPT/Managers/WorkoutManager.swift:155-179 | Each entry is a stored workout with its sets of the exercise in completion order. A set is in the entry exactly when it belongs to that workout and exercise. |
| WorkoutManager.GetWorkoutHistoryOrdered | RPT/Managers/WorkoutManager.swift:155-179 | The history runs from the newest workout to the oldest. |
| WorkoutManager.HistorySetsOfExercise | RPT/Managers/WorkoutManager.swift:167-171 | A workout's picked sets are exactly its sets of the exercise. |
| WorkoutManager.HistoryComplete | RPT/Managers/WorkoutManager.swift:166-176 | Every listed workout with something picked has an entry. |
| WorkoutManager.GetWorkoutHistoryComplete | RPT/Managers/WorkoutManager.swift:155-179 | Every stored workout that has a set of the exercise appears in the history. |
| WorkoutManager.SessionHistoryShape | RPT/Managers/WorkoutManager.swift:155-179 | Each past session the active workout reads is non-empty, holds only that exercise and is in completion order. |
| WorkoutManager.WorkoutStats | RPT/Managers/WorkoutManager.swift:197-221 | The count is the number of workouts dated from the start to now. The volume is their summed volume and the average is their mean duration, 0 when there are none. |
| WorkoutManager.Mean | RPT/Managers/WorkoutManager.swift:218 | The mean times the count gives the total; no workouts give 0. |
| WorkoutManager.EmptyStats | RPT/Managers/WorkoutManager.swift:197-221 | An empty store gives count 0, volume 0 and duration 0. |
| WorkoutManager.FormatVolume | RPT/Managers/WorkoutManager.swift:229-235 | The thousands form is chosen exactly above 1000 lb and shows volume/1000; otherwise the pounds are shown. |
| WorkoutManager.FormatVolumeBoundary | RPT/Managers/WorkoutManager.swift:229-235 | 1000 lb is still shown in pounds, while 1500 lb is 1.5k. |
| WorkoutManager.DurationSplit | RPT/Managers/WorkoutManager.swift:241-243 | For a non-negative duration the minutes and seconds fields recombine to the whole seconds, with seconds in [0, 60). |
| WorkoutManager.WorkoutStatsFormatted | RPT/Managers/WorkoutManager.swift:238-250 | The formatted statistics are the count, the volume form and the m:ss duration of the same statistics. |
| WorkoutManager.EmptyStatsFormatted | RPT/Managers/WorkoutManager.swift:238-250 | With no workouts the formatted statistics read 0, 0 lb and "0:00". |
| WorkoutManager.DurationExample | RPT/Managers/WorkoutManager.swift:241-243 | A mean of 125.7 seconds reads "2:05". |
| Basics.QuotTrunc | RPT/Views/Workout/RestTimerView.swift:148 | Swift's integer division truncates toward zero. On a non-negative dividend and a positive divisor it agrees with floor division. |
| Basics.RemTrunc | RPT/Views/Workout/RestTimerView.swift:149 | Swift's remainder completes the truncating division: dividend = divisor × quotient + remainder. |
| Basics.QuotRemTruncBounds | RPT/Views/Workout/RestTimerView.swift:148-149 | For a non-negative time the minutes and seconds are the floor quotient and remainder, with seconds in [0, 60). |
| Basics.TruncReal | RPT/Views/Workout/RPTCalculatorView.swift:69 | `Int(x)` drops the fraction toward zero: the result is within 1 of x, on the side of zero. |
| Basics.IntToStringInjective | RPT/Managers/SettingsManager.swift:196-199 | Different integers print differently. |
| RPT.RoundHalfAway | RPT/Views/Workout/ActiveWorkoutView.swift:354 | Swift's `round` gives the nearest integer, with halves going away from zero; the sign is kept. |
| RPT.Round5 | RPT/Views/Workout/ActiveWorkoutView.swift:354 | The result is a multiple of 5 within 2.5 of the input, with ties going away from zero. |
| RPT.Round5Nearest | RPT/Views/Workout/ActiveWorkoutView.swift:354 | No multiple of 5 is closer to the input than the rounded weight. |
| RPT.Round5Fixed | RPT/Models/Workout.swift:150 | A multiple of 5 rounds to itself. |
| RPT.Round5Idempotent | RPT/Models/Workout.swift:150 | Rounding a rounded weight changes nothing. |
| RPT.Round5Monotone | RPT/Models/Workout.swift:150 | A heavier weight never rounds lower. |
| RPT.Round5TieGoesUp | RPT/Views/Workout/ActiveWorkoutView.swift:354 | 202.5 rounds to 205, and -202.5 rounds to -205. |
| RPT.CalculateRPTWeights | RPT/Managers/WorkoutManager.swift:184-186 | There is one weight per drop: the first-set weight × (1 − drop). |
| RPT.RPTWeightsShape | RPT/Managers/WorkoutManager.swift:184-186 | If the table starts at 0 and its drops never decrease, the first weight is the first-set weight and later weights never increase. |
| RPT.RPTWeightsExample | RPT/Managers/WorkoutManager.swift:184-186 | 225 lb with drops 0, 10 % and 20 % gives 225, 202.5 and 180. An empty table gives no weights. |
| RPT.ExampleWeights | RPT/Managers/SettingsManager.swift:186-190 | There is one weight per drop after the first: the first-set weight reduced by that drop and rounded to 5. |
| RPT.ShowInts | RPT/Managers/SettingsManager.swift:192 | Each weight is rendered as its decimal string, in order. |
| RPT.CalculateRPTExample | RPT/Managers/SettingsManager.swift:182-193 | The example always ends in " lb", and a table with at most one drop gives just " lb". |
| RPT.ExampleAgreesWithCalculator | RPT/Managers/SettingsManager.swift:186-190 | Each example weight equals the calculator screen's weight for the same set. |
| RPT.ExampleWeightsOfTests | RPT/Managers/SettingsManager.swift:186-190 | With drops 0, 10 % and 20 %, 200 gives 180 and 160, and 225 gives 205 and 180. |
| RPT.ExampleStrings | RPT/Managers/SettingsManager.swift:182-193 | The examples read "180 → 160 lb" for 200 and "205 → 180 lb" for 225. |
| RPT.Example200 | RPT/Managers/SettingsManager.swift:182-193 | 200 lb with drops 0, 10 % and 20 % reads "180 → 160 lb". |
| RPT.Example225 | RPT/Managers/SettingsManager.swift:182-193 | 225 lb with the same drops reads "205 → 180 lb"; 202.5 rounds up. |
| RPT.ExampleString | RPT/Managers/SettingsManager.swift:192 | Two example weights are joined by " → " and followed by " lb". |
| RPT.FormatWeightInt | RPT/Managers/SettingsManager.swift:196-199 | The weight is shown as "<n> lb", or as "<n>" without the unit. |
| RPT.FormatWeightIntProperties | RPT/Managers/SettingsManager.swift:196-199 | The unit form is the bare form plus " lb". 225 reads "225 lb" and 0 reads "0 lb". Distinct weights read differently. |
| RPT.CalculateWeight | RPT/Views/Workout/RPTCalculatorView.swift:112-116 | A set beyond the drop table weighs 0; any other set's weight is a multiple of 5. |
| RPT.CalculateWeightMatchesTable | RPT/Views/Workout/RPTCalculatorView.swift:112-116 | A set's weight is the reduced-weight table entry for that set, rounded to 5. |
| RPT.RoundFirstWeight | RPT/Views/Workout/RPTCalculatorView.swift:29-32 | A typed first weight becomes a multiple of 5 within 2.5 of it. |
| RPT.RoundFirstWeightSettles | RPT/Views/Workout/RPTCalculatorView.swift:29-32 | The value written back rounds to itself, so the change handler settles after one extra call. |
| RPT.DropPercentShown | RPT/Views/Workout/RPTCalculatorView.swift:69 | In exact arithmetic, a drop is shown as its percentage truncated to a whole number. |
| RPT.DropFromPercent | RPT/Views/Workout/RPTCalculatorView.swift:70 | A typed whole percentage v becomes the drop v / 100. |
| RPT.DropFieldRoundTrip | RPT/Views/Workout/RPTCalculatorView.swift:69-70 | In exact arithmetic, a typed percentage is shown back unchanged, and a drop that is a whole percentage survives display and re-entry. |
| DropSets.EditAll | RPT/Views/Workout/ActiveWorkoutView.swift:348-362 | Applying the loop's updates keeps the number of sets, their ids and their exercises. |
| DropSets.EditAllAt | RPT/Views/Workout/ActiveWorkoutView.swift:348-362 | With distinct targets, a set with no update is untouched. A set named by an update takes exactly that update's weight, reps and RPE and keeps everything else, its completion time included, because `updateSet` never re-stamps as written. |
| DropSets.EditAllAtEdit | RPT/Views/Workout/ActiveWorkoutView.swift:348-362 | The set named by the k-th update takes the k-th update's weight, reps and RPE, and keeps its completion time. |
| DropSets.ApplyEdits | RPT/Views/Workout/ActiveWorkoutView.swift:348-362 | With no edit nothing changes. Otherwise the session's workout holds the sets as the as-written `updateSet` calls leave them, and the saves they make fill a duration still at 0. Nothing else in the workout changes. |
| DropSets.ApplyEditsPreservesInv | RPT/Views/Workout/ActiveWorkoutView.swift:348-362 | The loop keeps the session consistent: its groups match the workout and its exercise order is unchanged. |
| DropSets.Touched | RPT/Views/Workout/ActiveWorkoutView.swift:348 | The loop reaches at most as many sets as there are sets and drops. |
| DropSets.DropWeights | RPT/Views/Workout/ActiveWorkoutView.swift:350-353 | Each drop gives the first weight reduced by it and rounded to 5. |
| DropSets.DropEdits | RPT/Views/Workout/ActiveWorkoutView.swift:348-362 | The k-th update targets the (k+1)-th set by time, with that drop's weight and the set's own reps and RPE. |
| DropSets.UpdateDropSets | RPT/Views/Workout/ActiveWorkoutView.swift:339-365 | With at most one set of the exercise nothing changes. |
| DropSets.DistinctSetsIds | RPT/Models/ExerciseSet.swift:11-24 | Two different sets of one workout have different ids. |
| DropSets.SortedGroupFacts | RPT/Views/Workout/ActiveWorkoutView.swift:339-365 | An exercise's sets sorted by time are distinct sets of the workout, all of that exercise. |
| DropSets.DropEditsDistinct | RPT/Views/Workout/ActiveWorkoutView.swift:348-362 | No set is updated twice by the loop. |
| DropSets.UpdateDropSetsPreservesInv | RPT/Views/Workout/ActiveWorkoutView.swift:339-365 | Propagating the drops keeps the session consistent and its exercise order unchanged. |
| DropSets.UpdateDropSetsEffect | RPT/Views/Workout/ActiveWorkoutView.swift:339-365 | Every set the loop reaches after the first gets the rounded drop weight and keeps its reps, RPE and completion time. Every other set is unchanged, and no set is added or removed. |
| DropSets.DropSetTouched | RPT/Views/Workout/ActiveWorkoutView.swift:348-362 | A set the loop reaches gets its drop weight and keeps everything else, its completion time included. |
| DropSets.DropSetUntouched | RPT/Views/Workout/ActiveWorkoutView.swift:348-362 | A set the loop does not reach is unchanged. |
| SetRow.AdjustWeight | RPT/Views/Workout/ExerciseSetRowView.swift:238-250 | A parsed weight moves by the amount but never below 0, and is written back with one decimal, within 0.05 of the exact value. An unparsable field gets \|amount\| to one decimal when the amount is positive and is otherwise left alone. |
| SetRow.AdjustReps | RPT/Views/Workout/ExerciseSetRowView.swift:252-264 | The same rule as for the weight, over whole reps. |
| SetRow.AdjustRoundTrip | RPT/Views/Workout/ExerciseSetRowView.swift:238-264 | For a weight and a step on the 0.1 grid, stepping up and back down restores the value; reps always round-trip. Stepping below zero sticks at 0. |
| SetRow.AdjustRoundTripWithin | RPT/Views/Workout/ExerciseSetRowView.swift:238-250 | Off the grid, stepping up and back down returns within 0.1 of the starting weight. |
| SetRow.RoundHalfEven | RPT/Views/Workout/ExerciseSetRowView.swift:245 | The result is within one half of the input, and it is an even number whenever the input lies exactly halfway. |
| SetRow.Tenths | RPT/Views/Workout/ExerciseSetRowView.swift:245 | The one-decimal value is within 0.05 of the number formatted. |
| SetRow.TenthsOnGrid | RPT/Views/Workout/ExerciseSetRowView.swift:245 | A value that already has one decimal is written back exactly. |
| SetRow.AdjustShowsOneDecimal | RPT/Views/Workout/ExerciseSetRowView.swift:238-250 | A typed 0.25 stepped by +2.5 reads 2.8, and stepping back by 2.5 gives 0.3. |
| SetRow.ClampRpe | RPT/Views/Workout/ExerciseSetRowView.swift:275-278 | An RPE stays absent when absent; a present RPE is clamped into [1, 10], and one already in range is kept. |
| SetRow.SaveSet | RPT/Views/Workout/ExerciseSetRowView.swift:267-300 | Nothing is saved unless both weight and reps parse. A save clamps weight and reps to at least 0 and the RPE into [1, 10]; empty RPE text gives none. Drop sets update only for a first set with a positive weight. The rest timer starts only for a positive weight. |
| SetRow.SaveSetIdempotent | RPT/Views/Workout/ExerciseSetRowView.swift:267-300 | Saving the saved values again gives the same result. |
| SetRow.SaveSetExamples | RPT/Views/Workout/ExerciseSetRowView.swift:267-300 | -5 lb × -2 with RPE 12 saves as 0 × 0 with RPE 10 and triggers nothing. Missing reps save nothing. |
| Session.Project | RPT/ViewModels/ActiveWorkoutViewModel.swift:246 | The grouping has one entry per exercise used, holding exactly that exercise's sets in workout order. |
| Session.MinTime | RPT/ViewModels/ActiveWorkoutViewModel.swift:263-267 | The earliest completion time is attained by some set and no set is earlier. |
| Session.InitialOrder | RPT/ViewModels/ActiveWorkoutViewModel.swift:259-273 | The first order lists every exercise of the workout once, sorted by the time of its earliest set. |
| Session.AppendMissing | RPT/ViewModels/ActiveWorkoutViewModel.swift:253-258 | The kept order stays as a prefix, missing exercises are added after it, and no exercise is listed twice. |
| Session.AppendMissingNoop | RPT/ViewModels/ActiveWorkoutViewModel.swift:253-258 | When every exercise is already listed, nothing is appended. |
| Session.MaintainedOrder | RPT/ViewModels/ActiveWorkoutViewModel.swift:249-258 | The surviving part of the old order is kept as a prefix, and the result lists each current exercise exactly once. |
| Session.MaintainedListing | RPT/ViewModels/ActiveWorkoutViewModel.swift:249-258 | Filtering the old order and appending the missing keys lists exactly the current exercises. |
| Session.MaintainedOrderUnchanged | RPT/ViewModels/ActiveWorkoutViewModel.swift:249-258 | An order that already lists the current exercises is kept as it is. |
| Session.Rebuild | RPT/ViewModels/ActiveWorkoutViewModel.swift:244-274 | The groups are rebuilt from the workout and the order lists every exercise once, so the session becomes consistent. |
| Session.AppendToGroup | RPT/ViewModels/ActiveWorkoutViewModel.swift:125-132 | The set is appended to its exercise's group, creating the group when missing; other groups are untouched. |
| Session.AddExercise | RPT/ViewModels/ActiveWorkoutViewModel.swift:117-135 | One 0 lb × 8 set of the exercise is appended to the workout and its group. A new exercise goes to the end of the order. The workout is then saved: a duration still at 0 becomes the time since the start. Nothing else changes. |
| Session.GroupsAppend | RPT/ViewModels/ActiveWorkoutViewModel.swift:125-132 | Appending a set to the workout and to its group keeps the grouping exact. |
| Session.OrderAfterAppend | RPT/ViewModels/ActiveWorkoutViewModel.swift:125-132 | After appending, the order lists every exercise once: unchanged for a known exercise, extended by a new one. |
| Session.AddExercisePreservesInv | RPT/ViewModels/ActiveWorkoutViewModel.swift:117-135 | Adding an exercise under a fresh set id keeps the session consistent. |
| Session.DurationFrozenAtFirstEdit | RPT/ViewModels/ActiveWorkoutViewModel.swift:117-135 | As written, adding the first exercise to a new workout at t1 fixes its duration at t1 minus the start. Completing it later at t2 keeps that value, not t2 minus the start. |
| Session.ReductionPercentage | RPT/ViewModels/ActiveWorkoutViewModel.swift:238-242 | Sets 0 to 3 drop by 0, 10, 15 and 20 %; any other set number drops by 10 %. |
| Session.LatestSet | RPT/ViewModels/ActiveWorkoutViewModel.swift:144-149 | The last set by completion time is one of the exercise's sets and none is later. |
| Session.SortedLastIsLatest | RPT/ViewModels/ActiveWorkoutViewModel.swift:144-149 | The last element of the time-sorted sets is a set of the list completed no earlier than any other. |
| Session.ProposeNextSet | RPT/ViewModels/ActiveWorkoutViewModel.swift:141-159 | A first set is 0 lb × 8. Otherwise the latest set's weight is reduced by the percentage for the number of sets, and its reps grow by 2 up to 15. |
| Session.NextSet | RPT/ViewModels/ActiveWorkoutViewModel.swift:161-166 | The proposed set belongs to the exercise and carries the fresh id. |
| Session.AddSetToExercise | RPT/ViewModels/ActiveWorkoutViewModel.swift:137-180 | The proposed set is appended to the workout and its group. The order gains the exercise only when it was unknown. The workout is then saved, which fills a duration still at 0. Nothing else changes. |
| Session.ProposalExamples | RPT/ViewModels/ActiveWorkoutViewModel.swift:141-159 | No sets give 0 × 8. One 225 × 6 set gives 202.5 × 8. A latest set of 14 reps gives 15 reps at 85 % of its weight. |
| Session.AddSetToExercisePreservesInv | RPT/ViewModels/ActiveWorkoutViewModel.swift:137-180 | Adding a set under a fresh id keeps the session consistent. |
| Session.EditSetAsWritten | RPT/ViewModels/ActiveWorkoutViewModel.swift:182-198 | As written, the edit replaces weight, reps and RPE and leaves the set's completion time and every other field as they were. |
| Session.EditSetAsWrittenNeverRestamps | RPT/ViewModels/ActiveWorkoutViewModel.swift:182-198 | As written, an edit only replaces weight, reps and RPE. The re-stamp never happens because the test reads the weight just assigned. |
| Session.EditSet | RPT/ViewModels/ActiveWorkoutViewModel.swift:182-198 | Corrected (intended); the as-written twin is `Session.EditSetAsWritten`. The set takes the new weight, reps and RPE. It is re-stamped exactly when its old weight was 0 and the new one is positive. Nothing else changes. |
| Session.EditSetDiscrepancy | RPT/ViewModels/ActiveWorkoutViewModel.swift:182-198 | A first weight of 100 on an unweighted set keeps the old stamp as written and takes the current time as intended. |
| Session.EditById | RPT/ViewModels/ActiveWorkoutViewModel.swift:182-198 | Exactly the sets with the target id are edited as written (new weight, reps and RPE, completion time kept), and the others are kept, position by position. |
| Session.EditByIdKeepsShape | RPT/ViewModels/ActiveWorkoutViewModel.swift:182-198 | Editing keeps the exercises used, attachment to exercises and id uniqueness. |
| Session.UpdateSet | RPT/ViewModels/ActiveWorkoutViewModel.swift:182-198 | The workout holds the sets as the as-written edit leaves them and is saved, which fills a duration still at 0. Nothing else in the workout changes, and the groups are rebuilt from the sets. |
| Session.UpdateSetPreservesInv | RPT/ViewModels/ActiveWorkoutViewModel.swift:182-198 | Updating a set keeps the session consistent and the exercise order unchanged. |
| Session.RemoveFirstId | RPT/ViewModels/ActiveWorkoutViewModel.swift:204-207 | With no set of that id the list is unchanged. |
| Session.RemoveFirstIdAt | RPT/ViewModels/ActiveWorkoutViewModel.swift:204-207 | Only the first set with the id is removed; everything before and after it stays in order. |
| Session.RemoveFirstIdIsFilter | RPT/ViewModels/ActiveWorkoutViewModel.swift:204-207 | With unique ids, removing the first set with the id removes every set with it. |
| Session.DeleteSet | RPT/ViewModels/ActiveWorkoutViewModel.swift:200-221 | A set without exercise deletes nothing and saves nothing. Otherwise the set leaves the workout and its group, and the workout is saved, which fills a duration still at 0. An emptied group is dropped along with the exercise's place in the order. |
| Session.DeleteSetShape | RPT/ViewModels/ActiveWorkoutViewModel.swift:200-221 | With unique ids the deletion is a filter of the workout by id, with the group either shrunk or removed. |
| Session.DeleteSetPreservesInv | RPT/ViewModels/ActiveWorkoutViewModel.swift:200-221 | Deleting a set of the workout keeps the session consistent. |
| Session.DeleteExercise | RPT/ViewModels/ActiveWorkoutViewModel.swift:223-234 | The exercise's sets, group and place in the order are removed. The workout is saved, which fills a duration still at 0. Nothing else changes. |
| Session.DeleteExerciseEffects | RPT/ViewModels/ActiveWorkoutViewModel.swift:223-234 | No set of the deleted exercise remains, and every other exercise keeps exactly its sets. |
| Session.DeleteExercisePreservesInv | RPT/ViewModels/ActiveWorkoutViewModel.swift:223-234 | Deleting an exercise keeps the session consistent. |
| Session.UpdateWorkoutName | RPT/ViewModels/ActiveWorkoutViewModel.swift:98-101 | The workout takes the edited name and nothing else changes. |
| Session.StartRestTimer | RPT/ViewModels/ActiveWorkoutViewModel.swift:277-284 | The rest timer shows with the configured duration; workout, groups and order are untouched. |
| Session.CancelRestTimer | RPT/ViewModels/ActiveWorkoutViewModel.swift:287-289 | The rest timer is hidden and nothing else changes. |
| Session.RestTimerRoundTrip | RPT/ViewModels/ActiveWorkoutViewModel.swift:277-289 | Starting and cancelling the timer restores the session, except for the remembered duration. |
| Session.FirstWeighted | RPT/ViewModels/ActiveWorkoutViewModel.swift:58-63 | The chosen past workout is the newest one with a weighted set; none means no past workout has one. |
| Session.Refill | RPT/ViewModels/ActiveWorkoutViewModel.swift:71-82 | The set takes the previous weight and RPE, takes the previous reps only when it has none, and keeps its identity. |
| Session.PopulatedSet | RPT/ViewModels/ActiveWorkoutViewModel.swift:64-85 | Populating keeps a set's id, exercise and completion time. |
| Session.Populate | RPT/ViewModels/ActiveWorkoutViewModel.swift:50-93 | Only a template workout with an unweighted set is populated. The set count, groups' keys, order and name stay. |
| Session.PopulatePreservesInv | RPT/ViewModels/ActiveWorkoutViewModel.swift:50-93 | Populating keeps the session consistent. |
| Session.PopulateFollowsHistory | RPT/ViewModels/ActiveWorkoutViewModel.swift:64-85 | The k-th set by time takes the k-th set of the newest weighted past workout, when there is one; later sets stay. |
| Session.PopulatedGroupSorted | RPT/ViewModels/ActiveWorkoutViewModel.swift:64-85 | The populated group in time order is the old group in time order with each set populated. |
| Session.PopulateWithoutHistory | RPT/ViewModels/ActiveWorkoutViewModel.swift:57-63 | An exercise with no weighted past workout keeps its sets. |
| ActiveWorkout.Open | RPT/ViewModels/ActiveWorkoutViewModel.swift:31-45 | Opening a workout copies its name, hides the rest timer with the 90 s default, keeps its id and set count, and lists each exercise once in the order. |
| ActiveWorkout.OpenConsistent | RPT/ViewModels/ActiveWorkoutViewModel.swift:31-45 | A freshly opened session is consistent whenever the workout's set ids are unique. |
| ActiveWorkout.OpenPlainWorkout | RPT/ViewModels/ActiveWorkoutViewModel.swift:31-45 | A workout not started from a template is opened unchanged, with groups built from its sets. |
| ActiveWorkout.Save | RPT/ViewModels/ActiveWorkoutViewModel.swift:103-105 | Saving goes through the manager's save and keeps the sets. |
| ActiveWorkout.Rename | RPT/ViewModels/ActiveWorkoutViewModel.swift:98-101 | Renaming stores the edited name, keeps the sets and keeps a recorded duration. |
| ActiveWorkout.SavePreservesInv | RPT/ViewModels/ActiveWorkoutViewModel.swift:98-105 | Saving and renaming keep the session consistent. |
| ActiveWorkout.CompleteSession | RPT/ViewModels/ActiveWorkoutViewModel.swift:107-109 | The workout is completed with its sets, groups and order kept, and the first user counts one more workout. |
| ActiveWorkout.Discard | RPT/ViewModels/ActiveWorkoutViewModel.swift:111-113 | After discarding, no stored workout has the session's id. |
| ActiveWorkout.DiscardUndoesCreate | RPT/ViewModels/ActiveWorkoutViewModel.swift:111-113 | Discarding a workout just created under a fresh id restores the store. |
| FollowUp.SlotStarts | RPT/Models/Workout.swift:139-140 | The slot starts are increasing positions, each starting a run of equal completion times, and every run start is listed. |
| FollowUp.Slots | RPT/Models/Workout.swift:139-144 | The first slot is the first working set. |
| FollowUp.SlotTimesIncrease | RPT/Models/Workout.swift:139-140 | Slots are in strictly increasing time order: sets sharing a time collapse into one slot. |
| FollowUp.SlotIsFirstOfItsTime | RPT/Models/Workout.swift:139-144 | Each slot is the first set with its completion time. |
| FollowUp.EveryTimeHasSlot | RPT/Models/Workout.swift:139-140 | Every completion time in the list has a slot. |
| FollowUp.RunStart | RPT/Models/Workout.swift:139-140 | Every set has an earlier or equal run start with the same time. |
| FollowUp.SlotsOfTie | RPT/Models/Workout.swift:139-144 | Two sets with one time and a later set give two slots: the first of the tie and the later set. |
| FollowUp.Shapes | RPT/Models/Workout.swift:153-180 | A shape holds each set's weight, reps and RPE, position by position. |
| FollowUp.RaisedWeight | RPT/Models/Workout.swift:149-150 | The raised first weight is a multiple of 5. |
| FollowUp.KeptDropArithmetic | RPT/Models/Workout.swift:166-171 | Keeping a later set's drop from the first set is scaling its weight by the new first weight over the old one. |
| FollowUp.KeptDropIsScaling | RPT/Models/Workout.swift:166-171 | The drop-preserving weight equals the scaled weight, rounded to 5. |
| FollowUp.Weights | RPT/Models/Workout.swift:162-166 | The weights of the slots, in order. |
| FollowUp.PlannedShapes | RPT/Models/Workout.swift:143-182 | The first slot is raised and rounded to 5. Later slots follow only when the first weight was positive. Reps and RPE are copied. |
| FollowUp.Block | RPT/Models/Workout.swift:143-182 | An exercise's new sets are working sets of that exercise in the follow-up, with consecutive ids. Each is stamped one tick after the one before, as each `addSet` reads the clock anew. |
| FollowUp.BlockMatchesPlan | RPT/Models/Workout.swift:143-182 | The sets created for an exercise have exactly the planned shapes. |
| FollowUp.PlannedWeightsMultiplesOf5 | RPT/Models/Workout.swift:150-171 | Every planned weight is a multiple of 5. |
| FollowUp.Build | RPT/Models/Workout.swift:133-183 | The follow-up's sets are working sets with consecutive ids, each of an exercise in the order. |
| FollowUp.BuildStamps | RPT/Models/Workout.swift:133-183 | The stamps run on one tick apart across all exercises: set `i` is stamped `i` ticks after the first. |
| FollowUp.StampedAppend | RPT/Models/Workout.swift:133-183 | A block stamped from `start`, followed by one stamped from where it stops, is stamped from `start` throughout. |
| FollowUp.StampedAfter | RPT/Models/Workout.swift:126-186 | Sets stamped one tick apart from one tick after `now` on are all later than `now` and strictly increasing. |
| FollowUp.BuildProjection | RPT/Models/Workout.swift:133-183 | One exercise's sets in the follow-up have its planned shapes, or none when it is absent. |
| FollowUp.CreateFollowUpWorkout | RPT/Models/Workout.swift:126-186 | The follow-up is named "Follow-up: " plus the name, keeps the template, is new and uncompleted, has only working sets with unique ids, and uses only the old workout's exercises. Its sets are stamped after its start, in strictly increasing order. |
| FollowUp.FollowUpPerExercise | RPT/Models/Workout.swift:126-186 | Each exercise of the old workout gets its planned shapes from its working slots; other exercises get none. |
| FollowUp.SlotsOfDistinctTimes | RPT/Models/Workout.swift:139-144 | Sets that all have different times are each a slot of their own. |
| FollowUp.FollowUpSetsAreSlots | RPT/Models/Workout.swift:126-186 | In a follow-up every set of an exercise is a slot of its own. So the next follow-up plans from all of them, and a follow-up of a follow-up keeps the whole pyramid. |
| FollowUp.FollowUpExample | RPT/Models/Workout.swift:126-186 | 225 × 5 then 185 × 8 plans 230 × 5 then 190 × 8 with a 2.5 % increase. |
| Home.LoadRecentWorkouts | RPT/ViewModels/HomeViewModel.swift:27-50 | The recent list is exactly `GetRecentWorkouts(ws, 5)`: the five newest stored workouts (fewer if fewer exist), newest first, none newer left out (`RecentWorkoutsAreNewest`). The user's statistics are loaded. An incomplete workout is offered for resumption exactly when no discard is recorded and one exists, and then it is the first one. |
| Home.DiscardBlocksResume | RPT/ViewModels/HomeViewModel.swift:27-50 | After a discard no workout is offered for resumption. Once the discard is cleared by a save, the first incomplete workout is offered again. |
| Home.StartNewWorkout | RPT/ViewModels/HomeViewModel.swift:52-54 | A new empty, uncompleted workout is stored at the end and becomes the current one; the recent list and statistics stay. |
| Home.StartKeepsDiscardFlag | RPT/ViewModels/HomeViewModel.swift:27-54 | Starting a workout does not clear a recorded discard, so a reload still offers nothing to resume. |
| Home.ResumeWorkout | RPT/ViewModels/HomeViewModel.swift:56-58 | The chosen workout becomes current and nothing else changes. |
| Home.ProgressOf | RPT/ViewModels/HomeViewModel.swift:60-63 | Progress is the workout count over seven, never negative. |
| Home.WeeklyProgress | RPT/ViewModels/HomeViewModel.swift:60-63 | Seven times the progress is the number of workouts dated this week up to now. |
| Home.ProgressUnclamped | RPT/ViewModels/HomeViewModel.swift:60-63 | Progress is 1 exactly at seven workouts and exceeds 1 beyond seven: it is not clamped. |
| Home.FormatTotalVolumeAsWritten | RPT/ViewModels/HomeViewModel.swift:65-78 | No statistics read "0". Up to 1000 the whole pounds are shown. Above 1000 a whole volume is shown as whole thousands with "k", whatever its hundreds. |
| Home.FormatTotalVolumeLosesHundreds | RPT/ViewModels/HomeViewModel.swift:65-78 | As written, 5500 lb reads "5k" while 5500.5 lb reads 5.5k; the corrected label for 5500 lb is not "5k". |
| Home.FormatTotalVolume | RPT/ViewModels/HomeViewModel.swift:65-78 | Corrected (intended); the as-written twin is `Home.FormatTotalVolumeAsWritten`. Above 1000 the whole-thousands form is chosen exactly when the volume is a whole number of thousands. |
| Home.FormatTotalVolumeExact | RPT/ViewModels/HomeViewModel.swift:65-78 | Corrected (intended), about `Home.FormatTotalVolume`; the as-written twin is `Home.FormatTotalVolumeAsWritten`. A "k" label without decimals stands for exactly that many thousands, and the decimal form shows volume/1000. |
| Home.FormatTotalVolumeAgreement | RPT/ViewModels/HomeViewModel.swift:65-78 | The two versions agree everywhere except on whole volumes above 1000 that are not whole thousands. |
| Home.WholeThousandsAreWhole | RPT/ViewModels/HomeViewModel.swift:68-73 | A whole number of thousands is a whole volume. |
| Home.FormatTotalVolumeExamples | RPT/ViewModels/HomeViewModel.swift:65-78 | Corrected (intended), about `Home.FormatTotalVolume`; the as-written twin is `Home.FormatTotalVolumeAsWritten`. None and 0 read "0", 5000 reads "5k", 950 reads "950", and 5500 reads 5.5k. |
| Settings.Description | RPT/Managers/SettingsManager.swift:14-28 | Every settings error has a non-empty message. |
| Settings.DescriptionInjective | RPT/Managers/SettingsManager.swift:14-28 | Different errors have different messages. |
| Settings.Start | RPT/Managers/SettingsManager.swift:36-58 | Stored settings are adopted. With none stored the defaults are used and inserted. A failed fetch falls back to the defaults without inserting. |
| Settings.UpdateSettings | RPT/Managers/SettingsManager.swift:72-80 | The settings are kept in memory, and the update fails with a save error exactly when the save fails. |
| Settings.UpdateRestTimerDuration | RPT/Managers/SettingsManager.swift:92-97 | A duration outside (0, 3600] is rejected with nothing changed. Otherwise it is stored, and success needs the save too. |
| Settings.UpdateRPTPercentageDrops | RPT/Managers/SettingsManager.swift:109-119 | A table that is empty, does not start at 0 or has a drop outside [0, 1] is rejected with nothing changed. Otherwise it is stored, and success needs the save too. |
| Settings.AllFractions | RPT/Managers/SettingsManager.swift:111 | True exactly when every drop lies in [0, 1]. |
| Settings.RejectedDrops | RPT/Managers/SettingsManager.swift:109-119 | [0.1, 0.2], [0.0, 1.5] and [] are all rejected as invalid. |
| Settings.UpdateShowRPE | RPT/Managers/SettingsManager.swift:131-134 | The flag is stored, and success is the save's success. |
| Settings.UpdateDarkModePreference | RPT/Managers/SettingsManager.swift:146-149 | The preference is stored, and success is the save's success. |
| Settings.ResetToDefaults | RPT/Managers/SettingsManager.swift:161-168 | Reset gives a 180 s timer, drops 0, 10 and 15 %, RPE shown and the system appearance. |
| Settings.Safely | RPT/Managers/SettingsManager.swift:83-90 | The wrapper keeps the resulting settings and reports success exactly when there was no error. |
| Settings.SafelyReportsSuccess | RPT/Managers/SettingsManager.swift:100-144 | Each safe wrapper reports success exactly when the value is valid and the save works; a rejected value leaves the settings alone. |
| Settings.DefaultsValid | RPT/Models/UserSettings.swift:18-22 | The initial defaults are valid. Reset uses 180 s where a new settings record uses 90 s, and otherwise matches it. |
| Settings.ResetForgets | RPT/Managers/SettingsManager.swift:161-168 | Reset ignores the previous settings and is idempotent. |
| Settings.DarkModeCases | RPT/Models/UserSettings.swift:30-34 | Every preference is one of exactly three distinct cases. |
| Settings.CalculateRPTExample | RPT/Managers/SettingsManager.swift:182-193 | The example always ends in " lb", and a table with at most one drop gives just " lb". |
| Settings.CalculateRPTExampleOfTests | RPT/Managers/SettingsManager.swift:182-193 | With drops 0, 10 and 20 %, 200 reads "180 → 160 lb" and 225 reads "205 → 180 lb". |
| DiscardState.Put | RPT/Managers/WorkoutStateManager.swift:92-96 | Writing a value stores it under its key and writing nil removes the key; other keys are untouched. |
| DiscardState.SaveToStore | RPT/Managers/WorkoutStateManager.swift:92-96 | The three keys then hold the id, the flag and the time of the in-memory state; nothing else changes. |
| DiscardState.LoadFromStore | RPT/Managers/WorkoutStateManager.swift:98-104 | Loading reads id, flag and time back from the store, with a missing flag read as false, and marks the state loaded. |
| DiscardState.Init | RPT/Managers/WorkoutStateManager.swift:18-20 | A new coordinator is loaded, and reports a discard exactly when the store holds a true flag. |
| DiscardState.MarkDiscarded | RPT/Managers/WorkoutStateManager.swift:23-51 | The discard flag is set and stamped now, in memory and in the store. A given id replaces the remembered one and no id keeps it. |
| DiscardState.EnsureLoaded | RPT/Managers/WorkoutStateManager.swift:56-58 | After the lazy check the state is loaded; an already loaded state is unchanged. |
| DiscardState.WasAnyWorkoutDiscarded | RPT/Managers/WorkoutStateManager.swift:65-72 | The answer is the flag of the loaded state. |
| DiscardState.IsWorkoutDiscarded | RPT/Managers/WorkoutStateManager.swift:54-62 | The answer is the flag of the loaded state. |
| DiscardState.IsWorkoutDiscardedIgnoresId | RPT/Managers/WorkoutStateManager.swift:54-72 | The per-workout query ignores its id and answers like the global one. |
| DiscardState.ClearDiscarded | RPT/Managers/WorkoutStateManager.swift:75-84 | The flag, id and time are cleared in memory and their keys removed from the store; other keys stay. |
| DiscardState.MarkSaved | RPT/Managers/WorkoutStateManager.swift:87-90 | After a save no discard is recorded. |
| DiscardState.MarkSavedIsClear | RPT/Managers/WorkoutStateManager.swift:87-90 | Marking any workout as saved is exactly clearing the state. |
| DiscardState.MarkMirrored | RPT/Managers/WorkoutStateManager.swift:23-51 | After a mark, reloading from the store gives back the same state and the remembered id. |
| DiscardState.ClearMirrored | RPT/Managers/WorkoutStateManager.swift:75-84 | After clearing, reloading from the store finds no discard, id or time. |
| DiscardState.LazyLoadNeverRuns | RPT/Managers/WorkoutStateManager.swift:54-72 | On a state that mirrors its store the queries change nothing, and a save keeps it mirrored. |
| DiscardState.InitMirrored | RPT/Managers/WorkoutStateManager.swift:18-20 | A fresh coordinator mirrors its store. |
| DiscardState.MarkKeepsEarlierId | RPT/Managers/WorkoutStateManager.swift:23-51 | A mark without an id keeps the id of an earlier mark, unless the state was cleared in between. |
| Users.NewUser | RPT/Models/User.swift:34-63 | A new user has no workouts, volume, streak or bests, no optional profile fields, and was joined and active now. |
| Users.Bmi | RPT/Models/User.swift:75-80 | A BMI exists exactly with both measures and a positive height, and it is 703 × weight / height². |
| Users.BmiMonotone | RPT/Models/User.swift:75-80 | At a fixed height a heavier user has a BMI at least as high. |
| Users.UpdatePersonalBests | RPT/Models/User.swift:121-130 | Existing bests never drop, and a newly added best is positive. |
| Users.BestsCoverSets | RPT/Models/User.swift:121-130 | Every named set with positive weight has a best, at least as heavy as the set. |
| Users.BestsAttained | RPT/Models/User.swift:121-130 | Every best is either the previous best or the weight of some set of that exercise. |
| Users.UnattachedSetsIgnored | RPT/Models/User.swift:122-123 | Sets without an exercise never change the bests. |
| Users.UpdateStreak | RPT/Models/User.swift:101-118 | Same day keeps the streak, the day before extends it by one, and anything else resets it to 1. |
| Users.StreakAtLeastOne | RPT/Models/User.swift:101-118 | Except on a same-day workout the streak is at least 1, and it only drops on a reset. |
| Users.LatestDate | RPT/Models/User.swift:105 | The latest date is one of the dates and no date is later. There is none exactly when there are no dates. |
| Users.RelateLatest | RPT/Models/User.swift:100-117 | No workout counts as earlier. Otherwise the latest workout is on the same day exactly when its calendar day is today's, and on the day before exactly when its day is one less. |
| Users.UpdateStats | RPT/Models/User.swift:83-98 | One more workout, its volume added, active now, bests never lower. The streak is updated from the user's own workouts as they stand. Nothing else changes. |
| Users.UpdateStatsAccumulates | RPT/Models/User.swift:83-98 | Two completions add two workouts and the volume of both. |
| Users.CurrentUser | RPT/Managers/UserManager.swift:42-47 | The current user is the first stored one, absent exactly when none is stored. |
| Users.CreateDefaultUserIfNeeded | RPT/Managers/UserManager.swift:23-39 | Existing users are left alone. Otherwise one user named "User" with "user@example.com" is created. |
| Users.CreateDefaultUserIdempotent | RPT/Managers/UserManager.swift:23-39 | Calling it twice creates at most one user. |
| Users.ApplyProfile | RPT/Managers/UserManager.swift:55-77 | Each given field replaces the stored one and each omitted field is kept; nothing else changes. |
| Users.ProfileEditsCompose | RPT/Managers/UserManager.swift:50-80 | Two edits compose into one, repeating an edit changes nothing, and an empty edit is the identity. |
| Users.UpdateUserProfile | RPT/Managers/UserManager.swift:50-80 | Only the first user is edited; with no user nothing happens. |
| Users.ProcessCompletedWorkout | RPT/Managers/UserManager.swift:83-94 | With no user nothing happens. Otherwise the workout is attached to the first user, appended to its workouts and counted with its volume; other users stay. The streak compares today with the latest of the earlier workouts' dates and the workout's own date. |
| Users.LatestIsLast | RPT/Models/User.swift:105 | When every earlier date is at or before t, the latest of them followed by t is t. |
| Users.TodaysWorkoutKeepsStreak | RPT/Managers/UserManager.swift:83-94 | As written, completing the user's newest workout when it is dated today leaves the streak unchanged. |
| Users.ProcessCompletedWorkoutIntended | RPT/Managers/UserManager.swift:83-94 | Corrected (intended); the as-written twin is `Users.ProcessCompletedWorkout`. The streak compares today with the user's latest workout before this one, so a first workout starts the streak at 1. Everything else is as written. |
| Users.StreakDiscrepancy | RPT/Managers/UserManager.swift:83-94 | A new user completing a first workout today keeps a streak of 0 as written and gets 1 as intended. |
| Users.GetUserStats | RPT/Managers/UserManager.swift:97-101 | The statistics are the first user's counts, or zeros without a user. |
| Users.StatsAfterProcessing | RPT/Managers/UserManager.swift:83-101 | Processing a workout raises the reported count by one and the volume by the workout's volume. |
| Users.Entries | RPT/Managers/UserManager.swift:107 | Each listed name is paired with its best. |
| Users.GetPersonalBests | RPT/Managers/UserManager.swift:104-109 | Bests are listed heaviest first, and there are none without a user. |
| Users.PersonalBestsListed | RPT/Managers/UserManager.swift:104-109 | The list holds every best exactly once with its weight, and nothing else. |
| Templates.Synthesized | RPT/Models/WorkoutTemplate.swift:46-56 | A made-up range carries the set number it was made for. |
| Templates.SynthesizedBounds | RPT/Models/WorkoutTemplate.swift:47-54 | Made-up ranges run from 6 to at most 20 reps with min below max, and weigh 50 to 100 % of the first set. Later sets get no fewer reps and no more weight. |
| Templates.Fill | RPT/Models/WorkoutTemplate.swift:44-58 | The ranges already present stay as a prefix. |
| Templates.FillCovers | RPT/Models/WorkoutTemplate.swift:44-58 | After the loop every set number in range has a rep range. |
| Templates.FillTail | RPT/Models/WorkoutTemplate.swift:44-58 | Only missing set numbers are made up, each with the made-up range, in increasing set order. |
| Templates.FillCovered | RPT/Models/WorkoutTemplate.swift:44-58 | When every set number is already covered, nothing is added. |
| Templates.MakeExercise | RPT/Models/WorkoutTemplate.swift:35-62 | The exercise keeps id, name, count and notes, and its ranges cover sets 1 to the count with none beyond it. |
| Templates.MakeExerciseShape | RPT/Models/WorkoutTemplate.swift:41-60 | The kept ranges are exactly the inputs numbered up to the count, in their order, followed only by made-up ranges for missing sets. |
| Templates.MakeExerciseIdempotent | RPT/Models/WorkoutTemplate.swift:35-62 | Rebuilding an already normalised exercise gives it back unchanged. |
| Templates.MakeExerciseExample | RPT/Models/WorkoutTemplate.swift:35-62 | Three sets with ranges for sets 1 and 5 keep set 1, drop set 5, and make up 8–10 at 90 % and 10–12 at 80 %. |
| Templates.LastBySetNumber | RPT/Views/Template/TemplateExerciseEditView.swift:34-40 | The base is a range with the highest set number, or set 0 with 8–10 reps when there is none. |
| Templates.UpdateRepRangesForSets | RPT/Views/Template/TemplateExerciseEditView.swift:32-62 | Growing appends one range per new set, all derived from the same pre-change last range. Shrinking keeps exactly the ranges up to the new count, in order. An equal count changes nothing. |
| Templates.AddedToEmpty | RPT/Views/Template/TemplateExerciseEditView.swift:40-44 | With no ranges, every added range is 10–12 reps. |
| Templates.GrowThenShrink | RPT/Views/Template/TemplateExerciseEditView.swift:32-62 | Growing and then shrinking back restores the ranges. |
| Templates.ResizeKeepsNormalised | RPT/Views/Template/TemplateExerciseEditView.swift:32-62 | Resizing a normalised exercise keeps a range for every set and none beyond the count. |
| Templates.GrowKeepsNormalised | RPT/Views/Template/TemplateExerciseEditView.swift:36-57 | Growing keeps the exercise normalised. |
| Templates.ShrinkKeepsNormalised | RPT/Views/Template/TemplateExerciseEditView.swift:58-61 | Shrinking keeps the exercise normalised. |
| Templates.StepSetCount | RPT/Views/Template/TemplateExerciseEditView.swift:75 | The set count moves by one and stays within 1 to 5. |
| Templates.StepPercentage | RPT/Views/Template/TemplateExerciseEditView.swift:99-108 | The percentage, unset read as 100 %, moves by 5 points and stays within 50–100 %. |
| Templates.StepReps | RPT/Views/Template/TemplateExerciseEditView.swift:116-123 | Both ends move together, so the width is kept. A decrement at a minimum of 1 is refused. |
| Templates.StepRepsRoundTrip | RPT/Views/Template/TemplateExerciseEditView.swift:116-123 | Up then down restores the range. Down then up from a minimum of 1 does not, because the decrement was refused. |
| Templates.UpdateTemplate | RPT/Managers/TemplateManager.swift:55-82 | The template takes the new name and notes. Each exercise keeps its id, name, count and notes and is normalised again. |
| Templates.UpdateTemplateKeepsNormalised | RPT/Managers/TemplateManager.swift:55-82 | Already normalised exercises are stored unchanged. |
| Templates.AddExerciseToTemplate | RPT/Managers/TemplateManager.swift:134-149 | One 3-set exercise with 6–8, 8–10 and 10–12 reps at 100, 90 and 80 % is appended. |
| Templates.FirstWithId | RPT/Managers/TemplateManager.swift:152 | The found position is the first exercise with that id; none means no exercise has it. |
| Templates.UpdateTemplateExercise | RPT/Managers/TemplateManager.swift:151-156 | Only the first exercise with the id is replaced; without a match nothing changes. |
| Templates.UpdateTemplateExerciseFirstOnly | RPT/Managers/TemplateManager.swift:151-156 | A later exercise with the same id is left alone. |
| Templates.RemoveExerciseFromTemplate | RPT/Managers/TemplateManager.swift:158-161 | Exactly the exercises with that id are removed, and the rest keep their order. |
| Templates.AddThenRemove | RPT/Managers/TemplateManager.swift:134-161 | Removing an exercise just added under a fresh id restores the template. |
| Templates.TargetRepsWithin | RPT/Managers/TemplateManager.swift:110 | The midpoint target lies within the rep range. |
| Templates.SetsForExercise | RPT/Managers/TemplateManager.swift:108-125 | One set per range in set-number order: no weight, midpoint reps, consecutive ids, stamped now + index + k/10. |
| Templates.PlannedRun | RPT/Managers/TemplateManager.swift:108-124 | The inner loop from range k on: set m carries id nextId + k + m, the midpoint reps of range m, no weight, the exercise and workout, and the stamp of set k + m. |
| Templates.Instantiate | RPT/Managers/TemplateManager.swift:101-126 | The outer loop lays the exercises' blocks (`SetsIfKnown`) end to end. The result has one set per range of each known exercise, numbered on from nextId, all attached and unweighted. With at most ten ranges each, the stamps increase. |
| Templates.InstantiateBlock | RPT/Managers/TemplateManager.swift:101-126 | Set k of exercise i's block sits right after the sets planned for the exercises before it. It is the block made for position index + i, numbered from nextId plus that count. |
| Templates.KnownBlocksApply | RPT/Managers/TemplateManager.swift:103-124 | The block laid for an exercise is exactly `SetsIfKnown` of that exercise, position and first id. |
| Templates.KnownBlocksFacts | RPT/Managers/TemplateManager.swift:103-124 | Every block has the planned length and holds fresh sets numbered from its first id. With at most ten ranges its stamps lie in its own position's second and increase. |
| Templates.LayBlock | RPT/Managers/TemplateManager.swift:101-126 | In blocks laid end to end, element k of block i sits right after the blocks of the items before it. |
| Templates.LayBlockPlanned | RPT/Managers/TemplateManager.swift:101-126 | With blocks of the planned size, the offset of block i is the number of sets planned for the items before it. |
| Templates.LayLength | RPT/Managers/TemplateManager.swift:101-126 | Blocks of the planned size lay out exactly the planned number of sets. |
| Templates.LayFresh | RPT/Managers/TemplateManager.swift:101-126 | Blocks of fresh sets numbered from their first id lay out fresh sets numbered from nextId without gaps. |
| Templates.LayStamps | RPT/Managers/TemplateManager.swift:101-126 | Blocks stamped within their own position's second lay out stamps that increase across the whole run. |
| Templates.SetsIfKnown | RPT/Managers/TemplateManager.swift:103-105 | An exercise with an unknown name produces no sets. |
| Templates.SetsForExerciseStamps | RPT/Managers/TemplateManager.swift:114 | With at most ten ranges, one exercise's stamps increase and stay below the next exercise's base. |
| Templates.ConcatStamps | RPT/Managers/TemplateManager.swift:114 | Two increasing runs, the first entirely before the second, make one increasing run. |
| Templates.StampBaseMonotone | RPT/Managers/TemplateManager.swift:114 | Later exercises start at later stamps. |
| Templates.StampsCollideBeyondTen | RPT/Managers/TemplateManager.swift:114 | The eleventh set of one exercise gets the same stamp as the first set of the next. |
| Templates.UnknownExerciseKeepsPosition | RPT/Managers/TemplateManager.swift:101-114 | A skipped exercise still uses up its index, so the next one starts at now + 1. |
| Templates.CreateWorkoutFromTemplate | RPT/Managers/TemplateManager.swift:91-130 | A new uncompleted workout named after the template and marked as started from it is stored. Its sets are unweighted, attached, uniquely numbered, and stamped in order when every exercise has at most ten ranges. |
| Templates.CreatedSetsAreInstantiated | RPT/Managers/TemplateManager.swift:91-126 | The new workout holds exactly the sets the loop over the template's exercises makes, from position 0 and id nextId. |
| Templates.CreatedSetsPerExercise | RPT/Managers/TemplateManager.swift:91-126 | In the new workout, set k of template exercise i comes right after the sets planned for the exercises before it, and is set k of that exercise's block for position i. |
| Exercises.FirstWhere | RPT/Managers/ExerciseManager.swift:30-35 | The result is the first exercise satisfying the test, and none means no exercise does. |
| Exercises.FetchExerciseNamed | RPT/Managers/ExerciseManager.swift:30-35 | A found exercise is in the library and has the name; none means no exercise has it. |
| Exercises.FetchExerciseById | RPT/Managers/ExerciseManager.swift:37-39 | A found exercise is in the library and has the id; none means no exercise has it. |
| Exercises.FetchByCategory | RPT/Managers/ExerciseManager.swift:41-47 | Exactly the exercises of the category, in library order. |
| Exercises.FetchByMuscleGroup | RPT/Managers/ExerciseManager.swift:49-56 | Exactly the exercises that list the group as primary or secondary, in library order. |
| Exercises.MuscleGroupCountsSecondary | RPT/Managers/ExerciseManager.swift:52-55 | An exercise that works the group only as a secondary muscle is still returned. |
| Exercises.AddExercise | RPT/Managers/ExerciseManager.swift:60-72 | One custom exercise with the given fields is appended; the library is otherwise unchanged. |
| Exercises.UpdateExercise | RPT/Managers/ExerciseManager.swift:74-82 | The exercise with the id gets the new name, category, muscles and instructions and keeps its id and custom flag; every other exercise is unchanged. |
| Exercises.UpdateIdempotent | RPT/Managers/ExerciseManager.swift:74-82 | Repeating an update changes nothing. |
| Exercises.UpdateThenFetch | RPT/Managers/ExerciseManager.swift:74-82 | An update never adds or loses the exercise, and the exercise reads back by id with its new name and its old custom flag. |
| Exercises.FirstWhereEdited | RPT/Managers/ExerciseManager.swift:74-82 | An edit that keeps ids is found by id exactly when the original is, and the found one is the edited original. |
| Exercises.DeleteExercise | RPT/Managers/ExerciseManager.swift:84-90 | A built-in exercise is never deleted. A custom one leaves the library, with the rest in order. Each workout becomes exactly that workout with the exercise's sets removed (`RemoveExercise`), so its sets leave every workout and nothing else changes. |
| Exercises.AddThenDelete | RPT/Managers/ExerciseManager.swift:60-90 | Deleting an exercise just added under a fresh id restores the library. |
| Exercises.BuiltInSurvives | RPT/Managers/ExerciseManager.swift:84-90 | A built-in exercise stays in the library after a delete request. |
| Exercises.Ranked | RPT/Managers/ExerciseManager.swift:105-116 | The ranking holds only library exercises used at least once, in non-increasing order of use. |
| Exercises.GetMostUsedExercises | RPT/Managers/ExerciseManager.swift:94-117 | At most `limit` exercises, each used at least once, in non-increasing order of use. A failed set fetch gives none. |
| Exercises.MostUsedIsTop | RPT/Managers/ExerciseManager.swift:94-117 | A used exercise left out means the list is full and every listed exercise is used at least as often. |
| Exercises.MostUsedTiesKeepOrder | RPT/Managers/ExerciseManager.swift:112-114 | Exercises used equally often keep their library order. |
| Exercises.BuiltinExercises | RPT/Managers/ExerciseManager.swift:155-165 | Each default becomes one built-in exercise with its name, category, muscles and instructions. |
| Exercises.SeedDefaults | RPT/Managers/ExerciseManager.swift:121-168 | A library that is known to be non-empty is left alone. Otherwise 16 built-in exercises are appended. |
| Exercises.SeedOnce | RPT/Managers/ExerciseManager.swift:121-168 | Seeding twice is seeding once, and a seeded library is non-empty. |
| Exercises.DefaultsShape | RPT/Managers/ExerciseManager.swift:131-153 | There are 16 defaults, all built-in, each compound, isolation or bodyweight. |
| Exercises.DefaultNamesDistinct | RPT/Managers/ExerciseManager.swift:131-153 | No two defaults share a name. |
| Exercises.Lower | RPT/ViewModels/ExerciseLibraryViewModel.swift:35 | Case folding keeps the length of the text. |
| Exercises.HasInfixCorrect | RPT/ViewModels/ExerciseLibraryViewModel.swift:35 | The search test holds exactly when the text occurs at some position of the name. |
| Exercises.FetchExercises | RPT/ViewModels/ExerciseLibraryViewModel.swift:30-48 | Exactly the exercises matching search, category and muscle together, in their original order. |
| Exercises.NoFilterKeepsAll | RPT/ViewModels/ExerciseLibraryViewModel.swift:34-44 | With empty search and no filters every exercise is returned. |
| Exercises.CategoryNarrows | RPT/ViewModels/ExerciseLibraryViewModel.swift:38-46 | Choosing a category keeps exactly the category's exercises among the other matches. |
| Exercises.SearchIgnoresCase | RPT/ViewModels/ExerciseLibraryViewModel.swift:35 | Searching "dIP" finds "Dip". |
| DataManager.Description | RPT/Managers/DataManager.swift:225-233 | Every data error has a non-empty message. |
| DataManager.DescriptionsOfTests | RPT/Managers/DataManager.swift:225-233 | The save, fetch and invalid-data messages read as fixed, and different errors have different messages. |
| DataManager.Safely | RPT/Managers/DataManager.swift:415-421 | A non-throwing variant returns the value on success and its neutral value exactly on failure. |
| DataManager.Fetched | RPT/Managers/DataManager.swift:285-290 | A store read succeeds exactly when the data is there; a failure is reported as a fetch error. |
| DataManager.SaveChanges | RPT/Managers/DataManager.swift:236-243 | The save succeeds exactly when the store accepts it, and a failure is a save error. |
| DataManager.SaveChangesSafely | RPT/Managers/DataManager.swift:246-253 | The result is true exactly when the save works. |
| DataManager.ExportData | RPT/Managers/DataManager.swift:257-265 | Export always fails with an export error. |
| DataManager.ImportData | RPT/Managers/DataManager.swift:267-275 | Import always fails with an import error, whatever the data. |
| DataManager.FetchRecentWorkouts | RPT/Managers/DataManager.swift:279-291 | A readable store gives exactly `GetRecentWorkouts(stored, limit)`: min(limit, stored) workouts, newest first. An unreadable one gives a fetch error. |
| DataManager.FetchRecentWorkoutsSafely | RPT/Managers/DataManager.swift:294-300 | A failed fetch gives no workouts; otherwise exactly what the fetch returns, min(limit, stored) of them. |
| DataManager.FetchedAreNewest | RPT/Managers/DataManager.swift:279-300 | The fetched workouts are the newest in the store: every stored workout left out is no newer than any returned one. |
| DataManager.FindExercise | RPT/Managers/DataManager.swift:302-314 | A found exercise is stored and has the name; none means no stored exercise has it. A failed fetch is a fetch error. |
| DataManager.FindExerciseSafely | RPT/Managers/DataManager.swift:317-323 | A failed fetch gives none, and anything returned is stored under that name. |
| DataManager.FetchExerciseSets | RPT/Managers/DataManager.swift:325-347 | The result holds exactly the sets of the exercise inside the time frame, each once, sorted by completion time. A failed read is a fetch error. |
| DataManager.FetchExerciseSetsMembers | RPT/Managers/DataManager.swift:332-342 | A set is returned exactly when it is stored, refers to the exercise and lies in the frame, if any. |
| DataManager.FrameIsClosed | RPT/Managers/DataManager.swift:337-339 | A set completed exactly at either end of the frame is included. |
| DataManager.FetchExerciseSetsSafely | RPT/Managers/DataManager.swift:350-356 | A failed read gives no sets; otherwise the fetched sets. |
| DataManager.ClampReps | RPT/Managers/DataManager.swift:406 | Reps are clamped into [1, 10], and reps already in range are kept. |
| DataManager.EstimateBounds | RPT/Managers/DataManager.swift:405-408 | The estimate lies between the weight and 4/3 of it. One rep or fewer gives the weight itself; ten or more gives 4/3 of it. |
| DataManager.FactorBounds | RPT/Managers/DataManager.swift:407 | With reps in [1, 10] the Brzycki factor 36/(37 − reps) lies in [1, 4/3]. |
| DataManager.MaxEstimate | RPT/Managers/DataManager.swift:411 | The maximum is attained by some set and no set's estimate exceeds it. |
| DataManager.CalculateOneRepMax | RPT/Managers/DataManager.swift:391-412 | A failed read is a fetch error, and an exercise without sets has a maximum of 0. |
| DataManager.OneRepMaxIsBest | RPT/Managers/DataManager.swift:391-412 | The maximum is at least every set's estimate and is the estimate of some set of the exercise. |
| DataManager.CalculateOneRepMaxSafely | RPT/Managers/DataManager.swift:415-421 | A failed read gives 0; otherwise the computed maximum. |
| DataManager.OneRepMaxExamples | RPT/Managers/DataManager.swift:405-408 | 100 lb for 10 reps and for 20 reps both estimate 3600/27, and for 1 rep estimate 100. |
| RestTimer.Init | RPT/Views/Workout/RestTimerView.swift:20-24 | The countdown starts at the default duration, unpaused and not yet ticking. |
| RestTimer.StartTimer | RPT/Views/Workout/RestTimerView.swift:178-217 | Starting makes the timer tick unpaused and keeps the remaining time. |
| RestTimer.StopTimer | RPT/Views/Workout/RestTimerView.swift:219-227 | Stopping ends the ticking and changes nothing else. |
| RestTimer.Tick | RPT/Views/Workout/RestTimerView.swift:190-213 | A tick lowers the time by one exactly when the timer runs unpaused above 0, so it never goes negative. Reaching 0 schedules the close. Nothing else changes. |
| RestTimer.Countdown | RPT/Views/Workout/RestTimerView.swift:190-213 | After n ticks of a running timer the time is max(0, t − n), and the close is scheduled once the time ran out. |
| RestTimer.PausedFreezes | RPT/Views/Workout/RestTimerView.swift:191 | A paused or stopped timer does not move. |
| RestTimer.ToggleTimer | RPT/Views/Workout/RestTimerView.swift:237-240 | Toggling flips the pause flag and nothing else. |
| RestTimer.ToggleTwice | RPT/Views/Workout/RestTimerView.swift:237-240 | Toggling twice restores the timer. |
| RestTimer.ResetTimer | RPT/Views/Workout/RestTimerView.swift:229-235 | The time returns to the default and the timer is unpaused. A paused timer is started again; an unpaused one changes only its time. |
| RestTimer.SetTime | RPT/Views/Workout/RestTimerView.swift:259-265 | A preset sets the chosen time and unpauses the timer. A paused timer is started again; an unpaused one changes only its time. |
| RestTimer.ResetRestarts | RPT/Views/Workout/RestTimerView.swift:229-235 | After a reset, n ticks leave max(0, default − n). |
| RestTimer.SkipTimer | RPT/Views/Workout/RestTimerView.swift:242-257 | Skipping sets 0 and schedules the close. It stops a running timer and leaves a paused one as it was. |
| RestTimer.SkipIsFinal | RPT/Views/Workout/RestTimerView.swift:242-257 | Nothing changes after a skip, however many ticks follow. |
| RestTimer.Close | RPT/Views/Workout/RestTimerView.swift:35-44 | The close button stops the timer and hides it. |
| RestTimer.CloseFires | RPT/Views/Workout/RestTimerView.swift:206-210 | The delayed close hides the timer. |
| RestTimer.TimeFormatted | RPT/Views/Workout/RestTimerView.swift:147-151 | The clock is never shorter than the four characters of m:ss. |
| RestTimer.TimeFormattedRoundTrip | RPT/Views/Workout/RestTimerView.swift:147-151 | Reading the clock back as minutes × 60 + seconds gives the time, with seconds below 60. |
| RestTimer.TimeFormattedInjective | RPT/Views/Workout/RestTimerView.swift:147-151 | Different times read differently. |
| RestTimer.FormatTimeButtonAsWritten | RPT/Views/Workout/RestTimerView.swift:153-159 | Below 60 the label is the seconds with "s"; otherwise the whole minutes with "m". |
| RestTimer.PresetLabelsCollide | RPT/Views/Workout/RestTimerView.swift:122-159 | As written, the 60 s and 90 s presets are both labelled "1m". |
| RestTimer.FormatTimeButton | RPT/Views/Workout/RestTimerView.swift:153-159 | Corrected (intended); the as-written twin is `RestTimer.FormatTimeButtonAsWritten`. Only a whole number of minutes is labelled in minutes; anything else is labelled in seconds. |
| RestTimer.FormatTimeButtonInjective | RPT/Views/Workout/RestTimerView.swift:153-159 | Corrected (intended), about `RestTimer.FormatTimeButton`; the as-written twin is `RestTimer.FormatTimeButtonAsWritten`. Different preset times get different labels. |
| RestTimer.PresetLabels | RPT/Views/Workout/RestTimerView.swift:122-159 | Corrected (intended), about `RestTimer.FormatTimeButton`; the as-written twin is `RestTimer.FormatTimeButtonAsWritten`. The presets read "30s", "1m", "90s", "2m" and "3m". |
| RestTimer.TimerColor | RPT/Views/Workout/RestTimerView.swift:166-174 | Blue exactly above a third of the default, red exactly at or below a sixth, orange in between. |
| RestTimer.ColorOnlyEscalates | RPT/Views/Workout/RestTimerView.swift:166-174 | Less time left never gives a calmer colour. A full timer is blue and an empty one red. |
| RestTimer.Progress | RPT/Views/Workout/RestTimerView.swift:161-164 | Progress is the elapsed fraction of the default, and 0 when the default is not positive. |
| RestTimer.ProgressBounds | RPT/Views/Workout/RestTimerView.swift:161-164 | Within the default duration progress lies in [0, 1]: 0 when full and 1 when done. |

## Left out

- SwiftData and UserDefaults I/O is not modelled. Stores are values, a failed read is `None`, and a failed save is a `saveOk` input. `try?` makes every swallowed failure look like success.
- `DataManager` initialisation (RPT/Managers/DataManager.swift:90-214) is left out. It seeds through the same store I/O, and the exercise seeding it repeats is modelled by `Exercises.SeedDefaults`.
- `calculateVolumeProgress` and its Safely variant (RPT/Managers/DataManager.swift:360-389) are left out. They group sets by calendar day, and calendar arithmetic is not modelled.
- Calendar arithmetic in general is left out: timeframe start dates, the start of the week and age. The statistics take their start time as an input. The streak update takes the calendar as a `dayOf` input that maps a time to its day number, and the dates of the user's workouts as a `dateOf` lookup by id into the store. `Date.distantPast`, the date the source uses when there is no workout, is taken to be neither today nor yesterday.
- `%.1f` text formatting is left out, because it is floating-point printing, except in the set row's weight steppers, where the value the text denotes is modelled (`SetRow.Tenths`). This covers `formatWeight(Double)` (RPT/Managers/WorkoutManager.swift:224-226), the workout summaries and `formattedTotalVolume` (RPT/Models/Workout.swift:77-98 and 189-214), and the digits of the "k" volume form. Only the branch chosen and the value shown are modelled.
- `getWorkout(id:)` (RPT/Managers/WorkoutManager.swift:150-152) and `getDefaultRPTPercentageDrops` (RPT/Managers/WorkoutManager.swift:189-192) are plain store and settings reads, and are not modelled as separate members.
- `roundToNearest5` is called but not defined in the source files available. It is modelled by the inline formula `round(x / 5) * 5` that the follow-up and drop-set code write out (`RPT.Round5`).
- `getIncompleteWorkouts` is not defined in the source files available. Its result is an input to `Home.LoadRecentWorkouts`.
- The template list operations are left out: `fetchAllTemplates`, `fetchTemplateByName`, `fetchTemplate(byId:)`, `createTemplate`, `deleteTemplate` and `createDefaultTemplatesIfNeeded`. They are store I/O. The localised name sort in the template and exercise fetches is left out too; lists are taken in stored order.
- Equality and hashing of templates by id (RPT/Models/WorkoutTemplate.swift:64-70) are left out. Template exercises are compared by their `id` field explicitly wherever the source looks them up.
- Haptics and sound are left out, as fire-and-forget side effects.
- Combine timer publishers and `asyncAfter` delays are not modelled as time. The rest timer is stepped by explicit ticks, and the delayed close is a `closeScheduled` flag that `RestTimer.CloseFires` consumes.
- Text parsing (`Double(String)`, `Int(String)`) is left out: the set row takes already-parsed optional values.
- Locale-aware case folding is left out: the library search lower-cases ASCII letters only (`Exercises.Lower`).
- Swift's `sorted(by:)` is not documented as stable. The model sorts stably, so the order it gives to ties (`Exercises.MostUsedTiesKeepOrder`, sets with equal times) is one of the orders the source may produce.
- Set ids come from a `nextId` counter, and exercise identity is an id, standing in for SwiftData's object identity.
- The conversion of a workout id to a string in `markWorkoutAsDiscarded` is left out; the id arrives as a string.
- SwiftUI `Stepper(in:)` is taken to clamp at its bounds. The template editor's step functions clamp explicitly.
- Time is `real` seconds, not `int`. Template instantiation stamps set k of exercise i with now + i + k/10, which needs fractions.
- RPT.DropFieldRoundTrip: holds in exact (`real`) arithmetic only. With `Double`, `drop * 100` for the drops 0.29, 0.57 and 0.58 lands just below the whole percentage, so `Int(drop * 100)` shows 28, 56 and 57 (RPT/Views/Workout/RPTCalculatorView.swift:68-70).
- RPT.DropPercentShown: the truncated percentage is that of the exact drop. Floating-point products just below a whole number, as above, are not modelled.
- WorkoutManager.GetRecentWorkouts: requires a limit of at least 1. A fetch limit of 0 is left out.
- DataManager.FetchRecentWorkouts: requires a limit of at least 1, for the same reason. `DataManager.FetchRecentWorkoutsSafely` does the same.
- DropSets.UpdateDropSets: requires a non-empty drop table when the exercise has two or more sets, because the source's range `1..<min(count, 0)` traps.
- RPT.CalculateWeight: requires a non-negative set index. The calculator only passes indices of its own list.
- Session.Rebuild: requires every set to be attached to an exercise, because the source force-unwraps the exercise. `Session.UpdateSet` and `ActiveWorkout.Open` require the same.
- Templates.MakeExercise: requires at least one suggested set, because `1...suggestedSets` traps below 1. `Templates.UpdateTemplate` requires the same of every exercise.
- Users.GetPersonalBests: personal bests are `real`, where the source declares them `[String: Int]`. The source assigns a set's `Double` weight into that dictionary and compares the two (RPT/Models/User.swift:28 and 125-127), which does not type-check as written. The model resolves this by keeping bests as `real`, so no weight is truncated.
- Domain.AddSet: takes the weight as `real`. The source declares `addSet(exercise:weight: Int, …)` but hands the value to `ExerciseSet(weight: Double)` (RPT/Models/Workout.swift:111-113), and its caller passes a `Double` (RPT/ViewModels/ActiveWorkoutViewModel.swift:161-165), which does not type-check as written. The model resolves this with a `real` weight.
- Domain.ExerciseGroups: requires every set to be attached to an exercise, because the grouping force-unwraps `$0.exercise!` and traps on a detached set. The trap itself is not modelled.
- Domain.BestSets: requires every set to be attached, for the same force unwrap in its grouping.
- FollowUp.CreateFollowUpWorkout: requires every set to be attached, for the same force unwrap in the follow-up's grouping. The set stamps are one millisecond apart: the source reads the clock once per `addSet`, and only their strict increase is relied on.
- DropSets.ApplyEdits: requires every set to be attached, because each `updateSet` rebuilds the grouping with the same force unwrap.
- Exercises.GetMostUsedExercises: the limit is a `nat`. A negative limit makes the source's `prefix(limit)` trap, and that trap is not modelled.
- SetRow.AdjustWeight: the one-decimal text is rounded from the exact `real` value, ties to even. Where a `Double` sits just off a tie, the source may round the other way, and that is not modelled.
- SetRow.AdjustRoundTrip: the exact round trip is stated only for weights and steps on the 0.1 grid, because the one-decimal text loses the rest. `SetRow.AdjustRoundTripWithin` states the 0.1 bound that holds for any weight and step.

## Findings

| source | as written | input that shows it | evidently intended | confidence | as-written member | corrected member |
|---|---|---|---|---|---|---|
| RPT/ViewModels/ActiveWorkoutViewModel.swift:182-198 | `updateSet` assigns the new weight before testing `set.weight == 0 && weight > 0`, so the test always reads the new weight and the set is never re-stamped | a set of weight 0 edited to a first weight of 100: its `completedAt` stays the creation time | a set given its first positive weight is re-stamped with the current time | not executed | Session.EditSetAsWrittenNeverRestamps | Session.EditSet |
| RPT/Managers/WorkoutManager.swift:99-110 | the same assign-then-test order in the repository's `updateSet` | a set of weight 0 updated to 100: its `completedAt` is unchanged | re-stamp on the first positive weight | not executed | WorkoutManager.UpdateSetAsWrittenNeverRestamps | WorkoutManager.UpdateSet |
| RPT/ViewModels/HomeViewModel.swift:65-78 | the whole-number test is applied to the volume, not to the volume in thousands, and then `Int(v / 1000)` truncates | a total volume of 5500 reads "5k" | only round thousands drop the fraction, as the source's own test of 5000 → "5k" describes (RPTTests/HomeViewModelTests.swift:49-58), so 5500 reads "5.5k" | not executed | Home.FormatTotalVolumeLosesHundreds | Home.FormatTotalVolumeExact |
| RPT/Views/Workout/RestTimerView.swift:153-159 | any duration of 60 s or more is labelled with its whole minutes | the 90 s preset is labelled "1m", the same as the 60 s preset | a duration that is not a whole number of minutes keeps a seconds label | not executed | RestTimer.PresetLabelsCollide | RestTimer.FormatTimeButtonInjective |
| RPT/Managers/WorkoutManager.swift:39-46 | every edit of the active workout ends with `saveWorkout`, which fills a duration still at 0, so the first edit fixes the duration and `complete()` no longer sees 0 | a new workout started at t0 gets its first exercise at t1 and is completed at t2: its duration is t1 − t0 | the duration runs from the start to the completion, t2 − t0 | not executed | Session.DurationFrozenAtFirstEdit | Domain.CompleteTimed |
| RPT/Managers/UserManager.swift:83-94 | the workout is appended to the user's workouts before `updateWorkoutStreak` reads the latest workout date, so a workout dated today always finds "already counted for today" | a new user completes a first workout today: the streak stays 0, and a workout the day after the last one never extends the streak | the streak compares today with the latest earlier workout: a first workout gives 1, a workout the next day adds 1 | not executed | Users.TodaysWorkoutKeepsStreak | Users.ProcessCompletedWorkoutIntended |

=== FILE: active_workout.dfy ===
/** Opening and closing an active session: what `ActiveWorkoutViewModel`
    does when it is created and the save, complete, rename and discard
    actions it forwards to the workout repository. */
module ActiveWorkout {
  import opened Basics
  import opened Domain
  import opened Users
  import opened Session
  import WorkoutManager

  /** The view model's initial field values before the grouping is built:
      no groups, no order, the timer hidden, a 90-second rest. */
  function Fresh(w: Workout): SessionState
  {
    SessionState(w, w.name, map[], [], false, 90)
  }

  /** `init(workout:...)`: group the sets and order the exercises by first
      completion, then refill a template workout's empty sets from the
      exercise history of the store `ws`, saving the workout when that ran.
      A set without an exercise would trap in the grouping, hence the first
      precondition. */
  function Open(w: Workout, ws: seq<Workout>, keys: seq<ExerciseId>, now: Time): (r: SessionState)
    requires AllAttached(w.sets)
    requires IsListing(keys, ExerciseIds(w.sets))
    ensures r.workoutName == w.name && !r.showingRestTimer && r.currentRestDuration == 90
    ensures r.workout.id == w.id && |r.workout.sets| == |w.sets|
    ensures IsListing(r.order, ExerciseIds(w.sets))
  {
    var st := Rebuild(Fresh(w), false, keys);
    var populated := Populate(st, WorkoutManager.SessionHistory(ws));
    if !(w.startedFromTemplate.Some? && HasUnweighted(w.sets)) then populated
    else populated.(workout := SaveWorkout(populated.workout, now))
  }

  /** A freshly opened session is consistent whenever the workout's set ids
      are unique. */
  lemma OpenConsistent(w: Workout, ws: seq<Workout>, keys: seq<ExerciseId>, now: Time)
    requires AllAttached(w.sets) && UniqueIds(w.sets)
    requires IsListing(keys, ExerciseIds(w.sets))
    ensures Inv(Open(w, ws, keys, now))
  {
    var st := Rebuild(Fresh(w), false, keys);
    assert Inv(st);
    var p := Populate(st, WorkoutManager.SessionHistory(ws));
    PopulatePreservesInv(st, WorkoutManager.SessionHistory(ws));
    SavePreservesInv(p, now);
  }

  /** A workout not started from a template opens with its sets, name and
      duration exactly as stored. */
  lemma OpenPlainWorkout(w: Workout, ws: seq<Workout>, keys: seq<ExerciseId>, now: Time)
    requires AllAttached(w.sets)
    requires IsListing(keys, ExerciseIds(w.sets))
    requires w.startedFromTemplate.None?
    ensures Open(w, ws, keys, now).workout == w
    ensures Open(w, ws, keys, now).groups == Project(w.sets)
  {
  }

  /** `saveWorkout()`. */
  function Save(st: SessionState, now: Time): (r: SessionState)
    ensures r == st.(workout := SaveWorkout(st.workout, now))
    ensures r.workout.sets == st.workout.sets
  {
    st.(workout := SaveWorkout(st.workout, now))
  }

  /** `updateWorkoutName()`: the edited name is copied into the workout,
      which is then saved. */
  function Rename(st: SessionState, now: Time): (r: SessionState)
    ensures r.workout.name == st.workoutName
    ensures r.workout.sets == st.workout.sets
    ensures st.workout.duration != 0.0 ==> r.workout.duration == st.workout.duration
  {
    Save(UpdateWorkoutName(st), now)
  }

  /** Saving keeps the session consistent: only the duration can change. */
  lemma SavePreservesInv(st: SessionState, now: Time)
    requires Inv(st)
    ensures Inv(Save(st, now)) && Inv(Rename(st, now))
  {
  }

  /** `completeWorkout()`: completion and the user's statistics. */
  function CompleteSession(st: SessionState, users: seq<User>, now: Time, dateOf: WorkoutId -> Time,
                           dayOf: DayOf, nameOf: ExerciseId -> string): (r: (seq<User>, SessionState))
    ensures r.1.workout.isCompleted && r.1.workout.sets == st.workout.sets
    ensures r.1.groups == st.groups && r.1.order == st.order
    ensures |users| > 0 ==> |r.0| == |users| && r.0[0].totalWorkouts == users[0].totalWorkouts + 1
  {
    var done := WorkoutManager.CompleteWorkout(users, st.workout, now, dateOf, dayOf, nameOf);
    (done.0, st.(workout := done.1))
  }

  /** `discardWorkout()`: the workout and its sets leave the store. */
  function Discard(ws: seq<Workout>, st: SessionState): (r: seq<Workout>)
    ensures forall i :: 0 <= i < |r| ==> r[i].id != st.workout.id
  {
    var r := WorkoutManager.DeleteWorkout(ws, st.workout.id);
    assert !WorkoutManager.HasId(r, st.workout.id);
    r
  }

  /** Discarding a session whose workout was just created with a fresh id
      leaves the store as it was before the creation. */
  lemma DiscardUndoesCreate(ws: seq<Workout>, id: WorkoutId, now: Time, name: string, template: Option<string>)
    requires !WorkoutManager.HasId(ws, id)
    ensures var created := WorkoutManager.CreateWorkout(ws, id, now, name, template);
      Discard(created.0, Fresh(created.1)) == ws
  {
    WorkoutManager.CreateThenDelete(ws, id, now, name, template);
  }
}

=== FILE: basics.dfy ===
/** Shared building blocks: optional values, the bounds-checked subscript,
    order-preserving filters, listings of finite sets, Swift's truncating
    integer and real conversions, and decimal rendering of integers. */
module Basics {

  datatype Option<T> = None | Some(value: T)

  // ---------------------------------------------------------------------
  // min and max
  // ---------------------------------------------------------------------

  function MinInt(a: int, b: int): int
  {
    if a <= b then a else b
  }

  function MaxInt(a: int, b: int): int
  {
    if a >= b then a else b
  }

  function MinNat(a: nat, b: nat): nat
  {
    if a <= b then a else b
  }

  function MinReal(a: real, b: real): real
  {
    if a <= b then a else b
  }

  function MaxReal(a: real, b: real): real
  {
    if a >= b then a else b
  }

  // ---------------------------------------------------------------------
  // subscript(safe:) of Array+Extensions
  // ---------------------------------------------------------------------

  /** Element access that never traps: `None` for every index outside `0 ..< |xs|`. */
  function SafeGet<T>(xs: seq<T>, i: int): (r: Option<T>)
    ensures r.Some? <==> 0 <= i < |xs|
    ensures r.Some? ==> r.value == xs[i]
  {
    if 0 <= i < |xs| then Some(xs[i]) else None
  }

  /** On an empty array every index, negative or not, yields `None`. */
  lemma SafeGetEmpty<T>(xs: seq<T>, i: int)
    requires |xs| == 0
    ensures SafeGet(xs, i) == None
  {
  }

  /** `GetOr` plays Swift's `??`. */
  function GetOr<T>(o: Option<T>, default: T): T
  {
    match o
    case Some(v) => v
    case None => default
  }

  // ---------------------------------------------------------------------
  // Order-preserving filtering
  // ---------------------------------------------------------------------

  function Not<T>(p: T -> bool): T -> bool
  {
    x => !p(x)
  }

  /** `xs.filter(p)`: the elements satisfying `p`, in their original order. */
  function Filter<T>(xs: seq<T>, p: T -> bool): (r: seq<T>)
    ensures |r| <= |xs|
    ensures forall i :: 0 <= i < |r| ==> p(r[i])
  {
    if |xs| == 0 then []
    else (if p(xs[0]) then [xs[0]] else []) + Filter(xs[1..], p)
  }

  /** The filter keeps exactly the elements of `xs` that satisfy `p`. */
  lemma {:induction false} FilterMember<T>(xs: seq<T>, p: T -> bool, x: T)
    ensures x in Filter(xs, p) <==> x in xs && p(x)
  {
    if |xs| > 0 {
      FilterMember(xs[1..], p, x);
      assert xs == [xs[0]] + xs[1..];
    }
  }

  lemma {:induction false} FilterAppend<T>(a: seq<T>, b: seq<T>, p: T -> bool)
    ensures Filter(a + b, p) == Filter(a, p) + Filter(b, p)
  {
    if |a| == 0 {
      assert a + b == b;
    } else {
      assert (a + b)[1..] == a[1..] + b;
      FilterAppend(a[1..], b, p);
    }
  }

  lemma {:induction false} FilterAll<T>(xs: seq<T>, p: T -> bool)
    requires forall x :: x in xs ==> p(x)
    ensures Filter(xs, p) == xs
  {
    if |xs| > 0 {
      FilterAll(xs[1..], p);
    }
  }

  lemma {:induction false} FilterNone<T>(xs: seq<T>, p: T -> bool)
    requires forall x :: x in xs ==> !p(x)
    ensures Filter(xs, p) == []
  {
    if |xs| > 0 {
      FilterNone(xs[1..], p);
    }
  }

  /** Filtering with `p` and with its negation splits the sequence. */
  lemma {:induction false} FilterSplitsLength<T>(xs: seq<T>, p: T -> bool)
    ensures |Filter(xs, p)| + |Filter(xs, Not(p))| == |xs|
  {
    if |xs| > 0 {
      FilterSplitsLength(xs[1..], p);
    }
  }

  /** Multiplicities after a filter: kept ones unchanged, the others gone. */
  lemma {:induction false} FilterMultiset<T>(xs: seq<T>, p: T -> bool, x: T)
    ensures multiset(Filter(xs, p))[x] == if p(x) then multiset(xs)[x] else 0
  {
    if |xs| > 0 {
      FilterMultiset(xs[1..], p, x);
      assert xs == [xs[0]] + xs[1..];
    }
  }

  lemma {:induction false} FilterCommute<T>(xs: seq<T>, p: T -> bool, q: T -> bool)
    ensures Filter(Filter(xs, p), q) == Filter(Filter(xs, q), p)
  {
    if |xs| > 0 {
      FilterCommute(xs[1..], p, q);
      assert Filter(xs, p) == (if p(xs[0]) then [xs[0]] else []) + Filter(xs[1..], p);
      assert Filter(xs, q) == (if q(xs[0]) then [xs[0]] else []) + Filter(xs[1..], q);
      FilterAppend(if p(xs[0]) then [xs[0]] else [], Filter(xs[1..], p), q);
      FilterAppend(if q(xs[0]) then [xs[0]] else [], Filter(xs[1..], q), p);
    }
  }

  /** `b` keeps some of the elements of `a` in their original relative order. */
  predicate IsSubsequence<T(==)>(b: seq<T>, a: seq<T>)
    decreases |a|
  {
    if |b| == 0 then true
    else if |a| == 0 then false
    else if b[0] == a[0] then IsSubsequence(b[1..], a[1..])
    else IsSubsequence(b, a[1..])
  }

  lemma {:induction false} FilterIsSubsequence<T>(xs: seq<T>, p: T -> bool)
    ensures IsSubsequence(Filter(xs, p), xs)
  {
    if |xs| > 0 {
      FilterIsSubsequence(xs[1..], p);
      if p(xs[0]) {
        assert Filter(xs, p) == [xs[0]] + Filter(xs[1..], p);
        assert Filter(xs, p)[1..] == Filter(xs[1..], p);
      } else {
        assert Filter(xs, p) == Filter(xs[1..], p);
      }
    }
  }

  /** The filter keeps exactly the elements satisfying `p`, in order. */
  lemma FilterExactly<T>(xs: seq<T>, p: T -> bool)
    ensures IsSubsequence(Filter(xs, p), xs)
    ensures forall x :: x in Filter(xs, p) <==> x in xs && p(x)
  {
    FilterIsSubsequence(xs, p);
    forall x
      ensures x in Filter(xs, p) <==> x in xs && p(x)
    {
      FilterMember(xs, p, x);
    }
  }

  /** Number of elements satisfying `p`. */
  function Count<T>(xs: seq<T>, p: T -> bool): nat
  {
    |Filter(xs, p)|
  }

  // ---------------------------------------------------------------------
  // Element-wise transformation (`map`, or mutating shared objects in place)
  // ---------------------------------------------------------------------

  function MapSeq<T, U>(xs: seq<T>, f: T -> U): (r: seq<U>)
    ensures |r| == |xs|
    ensures forall i :: 0 <= i < |xs| ==> r[i] == f(xs[i])
  {
    if |xs| == 0 then [] else [f(xs[0])] + MapSeq(xs[1..], f)
  }

  lemma MapSeqIdentity<T>(xs: seq<T>, f: T -> T)
    requires forall i :: 0 <= i < |xs| ==> f(xs[i]) == xs[i]
    ensures MapSeq(xs, f) == xs
  {
  }

  /** Mapping with a function that keeps the filter's verdict commutes with
      the filter. */
  lemma {:induction false} FilterMap<T>(xs: seq<T>, f: T -> T, p: T -> bool)
    requires forall i :: 0 <= i < |xs| ==> p(f(xs[i])) == p(xs[i])
    ensures Filter(MapSeq(xs, f), p) == MapSeq(Filter(xs, p), f)
  {
    if |xs| > 0 {
      FilterMap(xs[1..], f, p);
      var m := MapSeq(xs, f);
      assert m[1..] == MapSeq(xs[1..], f);
      assert p(f(xs[0])) == p(xs[0]);
    }
  }

  // ---------------------------------------------------------------------
  // Listings: a sequence naming every element of a finite set exactly once
  // ---------------------------------------------------------------------

  predicate IsListing<T>(xs: seq<T>, s: set<T>)
  {
    multiset(xs) == multiset(s)
  }

  predicate NoDup<T(==)>(xs: seq<T>)
  {
    forall i, j :: 0 <= i < j < |xs| ==> xs[i] != xs[j]
  }

  lemma ListingMembers<T>(xs: seq<T>, s: set<T>)
    requires IsListing(xs, s)
    ensures forall x :: x in xs <==> x in s
    ensures forall x :: x in s ==> multiset(xs)[x] == 1
  {
    forall x
      ensures x in xs <==> x in s
    {
      assert x in xs <==> x in multiset(xs);
      assert x in s <==> x in multiset(s);
    }
  }

  lemma ListingNoDup<T>(xs: seq<T>, s: set<T>)
    requires IsListing(xs, s)
    ensures NoDup(xs)
  {
    forall i, j | 0 <= i < j < |xs|
      ensures xs[i] != xs[j]
    {
      var x := xs[i];
      assert xs == xs[..j] + [xs[j]] + xs[j+1..];
      assert x in xs[..j];
      assert multiset(xs)[x] >= multiset(xs[..j])[x] + multiset([xs[j]])[x];
      assert multiset(s)[x] <= 1;
    }
  }

  /** A duplicate-free sequence lists the set of its own elements. */
  lemma {:induction false} NoDupIsListing<T>(xs: seq<T>)
    requires NoDup(xs)
    ensures IsListing(xs, set x | x in xs)
  {
    if |xs| > 0 {
      var t := xs[1..];
      assert NoDup(t);
      NoDupIsListing(t);
      assert xs == [xs[0]] + t;
      assert xs[0] !in t;
      assert (set x | x in xs) == {xs[0]} + (set x | x in t);
    }
  }

  lemma {:induction false} FilterKeepsNoDup<T>(xs: seq<T>, p: T -> bool)
    requires NoDup(xs)
    ensures NoDup(Filter(xs, p))
  {
    if |xs| > 0 {
      assert NoDup(xs[1..]);
      FilterKeepsNoDup(xs[1..], p);
      assert xs[0] !in xs[1..];
      FilterMember(xs[1..], p, xs[0]);
    }
  }

  /** A rearrangement of a duplicate-free sequence is duplicate-free. */
  lemma PermutationKeepsNoDup<T>(xs: seq<T>, ys: seq<T>)
    requires NoDup(xs) && multiset(ys) == multiset(xs)
    ensures NoDup(ys)
  {
    NoDupIsListing(xs);
    ListingNoDup(ys, set x | x in xs);
  }

  /** Index of the first occurrence, if any (`firstIndex(where: == x)`). */
  function FirstIndexOf<T(==)>(xs: seq<T>, x: T): (r: Option<nat>)
    ensures r.Some? ==> r.value < |xs| && xs[r.value] == x
    ensures r.Some? ==> forall k :: 0 <= k < r.value ==> xs[k] != x
    ensures r.None? <==> x !in xs
  {
    if |xs| == 0 then None
    else if xs[0] == x then Some(0)
    else match FirstIndexOf(xs[1..], x)
      case None => None
      case Some(k) => Some(k + 1)
  }

  /** `if let i = xs.firstIndex(of: x) { xs.remove(at: i) }`. */
  function RemoveFirst<T(==)>(xs: seq<T>, x: T): (r: seq<T>)
    ensures x !in xs ==> r == xs
    ensures multiset(r) == multiset(xs) - multiset{x}
  {
    match FirstIndexOf(xs, x)
    case None => xs
    case Some(i) =>
      assert xs == xs[..i] + [x] + xs[i+1..];
      xs[..i] + xs[i+1..]
  }

  lemma RemoveFirstListing<T>(xs: seq<T>, s: set<T>, x: T)
    requires IsListing(xs, s)
    ensures IsListing(RemoveFirst(xs, x), s - {x})
  {
    assert multiset(s - {x}) == multiset(s) - multiset{x};
  }

  // ---------------------------------------------------------------------
  // Swift's truncating integer division and Double -> Int conversion
  // ---------------------------------------------------------------------

  /** Swift `a / b` on `Int`: rounds toward zero (Dafny's `/` is Euclidean). */
  function QuotTrunc(a: int, b: int): (q: int)
    requires b != 0
    ensures a >= 0 && b > 0 ==> q == a / b
  {
    if a >= 0 then (if b > 0 then a / b else -(a / -b))
    else (if b > 0 then -((-a) / b) else (-a) / (-b))
  }

  /** Swift `a % b` on `Int`: the remainder takes the sign of `a`. */
  function RemTrunc(a: int, b: int): (r: int)
    requires b != 0
    ensures a == b * QuotTrunc(a, b) + r
  {
    a - b * QuotTrunc(a, b)
  }

  lemma QuotRemTruncBounds(a: int, b: int)
    requires a >= 0 && b > 0
    ensures 0 <= RemTrunc(a, b) < b
    ensures QuotTrunc(a, b) == a / b && RemTrunc(a, b) == a % b
  {
  }

  /** Swift `Int(x)` for a `Double`: drops the fraction, toward zero. */
  function TruncReal(x: real): (n: int)
    ensures x >= 0.0 ==> n as real <= x < n as real + 1.0
    ensures x < 0.0 ==> n as real - 1.0 < x <= n as real
  {
    if x >= 0.0 then x.Floor else -((-x).Floor)
  }

  /** Swift `x.truncatingRemainder(dividingBy: 1) == 0`. */
  predicate IsWhole(x: real)
  {
    x == (TruncReal(x) as real)
  }

  // ---------------------------------------------------------------------
  // Decimal rendering ("\(n)") and joining
  // ---------------------------------------------------------------------

  function DigitChar(d: nat): (c: char)
    requires d < 10
    ensures '0' <= c <= '9'
  {
    (48 + d) as char
  }

  /** Decimal digits of `n`, most significant first, without leading zeros. */
  function NatToString(n: nat): (s: string)
    ensures |s| >= 1
    ensures forall i :: 0 <= i < |s| ==> '0' <= s[i] <= '9'
    ensures n >= 10 ==> s[0] != '0'
  {
    if n < 10 then [DigitChar(n)] else NatToString(n / 10) + [DigitChar(n % 10)]
  }

  /** Value of a string of decimal digits; the reading back of `NatToString`. */
  function DigitsValue(s: string): int
  {
    if |s| == 0 then 0
    else DigitsValue(s[..|s| - 1]) * 10 + (s[|s| - 1] as int - 48)
  }

  lemma {:induction false} NatToStringRoundTrip(n: nat)
    ensures DigitsValue(NatToString(n)) == n
  {
    if n >= 10 {
      NatToStringRoundTrip(n / 10);
      var s := NatToString(n);
      assert s[..|s| - 1] == NatToString(n / 10);
    }
  }

  /** Swift's `"\(i)"` for an `Int`. */
  function IntToString(i: int): (s: string)
    ensures |s| >= 1
    ensures (s[0] == '-') <==> i < 0
  {
    if i < 0 then "-" + NatToString(-i) else NatToString(i)
  }

  /** Decimal rendering is injective: distinct integers print differently. */
  lemma IntToStringInjective(a: int, b: int)
    requires IntToString(a) == IntToString(b)
    ensures a == b
  {
    IntToStringSign(a);
    IntToStringSign(b);
    if a < 0 {
      NatToStringInjective(-a, -b);
    } else {
      NatToStringInjective(a, b);
    }
  }

  /** The sign is the first character; the rest is the magnitude. */
  lemma IntToStringSign(i: int)
    ensures i < 0 ==> IntToString(i)[0] == '-' && IntToString(i)[1..] == NatToString(-i)
    ensures i >= 0 ==> IntToString(i) == NatToString(i)
  {
  }

  lemma NatToStringInjective(a: nat, b: nat)
    requires NatToString(a) == NatToString(b)
    ensures a == b
  {
    NatToStringRoundTrip(a);
    NatToStringRoundTrip(b);
  }

  /** Swift `"%02d"`: at least two characters, zero-padded. */
  function Pad2(i: int): (s: string)
    ensures 0 <= i < 10 ==> s == "0" + IntToString(i)
    ensures !(0 <= i < 10) ==> s == IntToString(i)
  {
    if 0 <= i < 10 then "0" + IntToString(i) else IntToString(i)
  }

  /** `parts.joined(separator: sep)`. */
  function Join(parts: seq<string>, sep: string): (r: string)
    ensures |parts| == 0 ==> r == ""
    ensures |parts| == 1 ==> r == parts[0]
  {
    if |parts| == 0 then ""
    else if |parts| == 1 then parts[0]
    else parts[0] + sep + Join(parts[1..], sep)
  }
}

=== FILE: data_manager.dfy ===
/** The shared data service (`DataManager`): its error values, the throwing
    queries with their non-throwing variants, the per-exercise set history
    and the one-repetition-maximum estimate. Every store access either
    succeeds with the stored data or fails; that outcome is an input
    (`Some` for the fetched data, `None` for a failed fetch). */
module DataManager {
  import opened Basics
  import opened Sorting
  import opened Domain
  import WorkoutManager
  import Exercises

  datatype DataError = SaveFailed | ExportFailed | ImportFailed | FetchFailed | InvalidData

  function Description(e: DataError): (r: string)
    ensures |r| > 0
  {
    match e
    case SaveFailed => "Failed to save changes to database"
    case ExportFailed => "Failed to export data"
    case ImportFailed => "Failed to import data"
    case FetchFailed => "Failed to fetch data"
    case InvalidData => "Data is invalid or corrupted"
  }

  /** The descriptions the error tests expect, and no two errors share one. */
  lemma DescriptionsOfTests(a: DataError, b: DataError)
    ensures Description(SaveFailed) == "Failed to save changes to database"
    ensures Description(FetchFailed) == "Failed to fetch data"
    ensures Description(InvalidData) == "Data is invalid or corrupted"
    ensures Description(a) == Description(b) ==> a == b
  {
  }

  /** What a throwing call returns. */
  datatype Outcome<T> = Ok(value: T) | Err(error: DataError)

  /** The pattern of every `...Safely` variant: the value on success, the
      neutral value (`false`, `[]`, `nil` or `0`) when the call throws. */
  function Safely<T>(o: Outcome<T>, neutral: T): (r: T)
    ensures o.Ok? ==> r == o.value
    ensures o.Err? ==> r == neutral
  {
    match o
    case Ok(v) => v
    case Err(_) => neutral
  }

  /** A fetched value, or `fetchFailed` when the fetch throws. */
  function Fetched<T>(data: Option<T>): (r: Outcome<T>)
    ensures r.Ok? <==> data.Some?
    ensures r.Ok? ==> r.value == data.value
    ensures r.Err? ==> r.error == FetchFailed
  {
    match data
    case Some(d) => Ok(d)
    case None => Err(FetchFailed)
  }

  /** `saveChanges()`: a failed save becomes `saveFailed`. */
  function SaveChanges(saveOk: bool): (r: Outcome<()>)
    ensures r.Ok? <==> saveOk
    ensures r.Err? ==> r.error == SaveFailed
  {
    if saveOk then Ok(()) else Err(SaveFailed)
  }

  /** `saveChangesSafely()`: `true` exactly when the save went through. */
  function SaveChangesSafely(saveOk: bool): (r: bool)
    ensures r <==> saveOk
  {
    SaveChanges(saveOk).Ok?
  }

  /** `exportData()`: not implemented, so it always throws `exportFailed`. */
  function ExportData(): (r: Outcome<seq<bv8>>)
    ensures r == Err(ExportFailed)
  {
    Err(ExportFailed)
  }

  /** `importData(from:)`: always throws `importFailed`, whatever the data. */
  function ImportData(data: seq<bv8>): (r: Outcome<bool>)
    ensures r == Err(ImportFailed)
  {
    Err(ImportFailed)
  }

  /** `fetchRecentWorkouts(limit:)`: the newest workouts, at most `limit`. */
  function FetchRecentWorkouts(stored: Option<seq<Workout>>, limit: nat := 5): (r: Outcome<seq<Workout>>)
    requires limit >= 1
    ensures r.Ok? <==> stored.Some?
    ensures r.Err? ==> r.error == FetchFailed
    ensures r.Ok? ==> |r.value| == MinNat(limit, |stored.value|)
    ensures r.Ok? ==> forall i, j :: 0 <= i < j < |r.value| ==> r.value[i].date >= r.value[j].date
    ensures r.Ok? ==> r.value == WorkoutManager.GetRecentWorkouts(stored.value, limit)
  {
    match stored
    case None => Err(FetchFailed)
    case Some(ws) => Ok(WorkoutManager.GetRecentWorkouts(ws, limit))
  }

  /** `findExercise(byName:)`. */
  function FindExercise(stored: Option<seq<Exercise>>, name: string): (r: Outcome<Option<Exercise>>)
    ensures r.Ok? <==> stored.Some?
    ensures r.Err? ==> r.error == FetchFailed
    ensures r.Ok? && r.value.Some? ==> r.value.value in stored.value && r.value.value.name == name
    ensures r.Ok? && r.value.None? ==> forall i :: 0 <= i < |stored.value| ==> stored.value[i].name != name
  {
    match stored
    case None => Err(FetchFailed)
    case Some(lib) => Ok(Exercises.FetchExerciseNamed(lib, name))
  }

  /** `fetchRecentWorkoutsSafely(limit:)`: no workouts when the fetch fails. */
  function FetchRecentWorkoutsSafely(stored: Option<seq<Workout>>, limit: nat := 5): (r: seq<Workout>)
    requires limit >= 1
    ensures stored.None? ==> r == []
    ensures stored.Some? ==> |r| == MinNat(limit, |stored.value|)
    ensures stored.Some? ==> r == FetchRecentWorkouts(stored, limit).value
  {
    Safely(FetchRecentWorkouts(stored, limit), [])
  }

  /** A successful fetch returns the newest stored workouts: every stored
      workout it leaves out is no newer than any workout it returns. */
  lemma FetchedAreNewest(stored: Option<seq<Workout>>, limit: nat, w: Workout)
    requires limit >= 1
    requires stored.Some? && w in stored.value && w !in FetchRecentWorkoutsSafely(stored, limit)
    ensures forall i :: 0 <= i < |FetchRecentWorkoutsSafely(stored, limit)| ==>
      FetchRecentWorkoutsSafely(stored, limit)[i].date >= w.date
  {
    WorkoutManager.RecentWorkoutsAreNewest(stored.value, limit, w);
  }

  /** `findExerciseSafely(byName:)`: `nil` when the fetch fails. */
  function FindExerciseSafely(stored: Option<seq<Exercise>>, name: string): (r: Option<Exercise>)
    ensures stored.None? ==> r == None
    ensures r.Some? ==> stored.Some? && r.value in stored.value && r.value.name == name
  {
    Safely(FindExercise(stored, name), None)
  }

  // ---------------------------------------------------------------------
  // Set history of one exercise
  // ---------------------------------------------------------------------

  /** The time frame is a closed interval `[start, end]`. */
  datatype Interval = Interval(start: Time, end: Time)

  predicate Within(t: Time, frame: Option<Interval>)
  {
    frame.None? || (frame.value.start <= t && t <= frame.value.end)
  }

  /** The set belongs to the exercise and lies in the time frame. */
  function InFrame(e: ExerciseId, frame: Option<Interval>): ExerciseSet -> bool
  {
    (s: ExerciseSet) => s.exercise == Some(e) && Within(s.completedAt, frame)
  }

  /** `fetchExerciseSets(for:timeFrame:)`: the exercise's sets inside the
      frame, oldest first; sets stamped at the same moment keep their
      stored order. */
  function FetchExerciseSets(all: Option<seq<ExerciseSet>>, e: ExerciseId, frame: Option<Interval> := None)
    : (r: Outcome<seq<ExerciseSet>>)
    ensures r.Ok? <==> all.Some?
    ensures r.Err? ==> r.error == FetchFailed
    ensures r.Ok? ==> SortedBy(r.value, CompletedAt)
    ensures r.Ok? ==> multiset(r.value) == multiset(Filter(all.value, InFrame(e, frame)))
  {
    match all
    case None => Err(FetchFailed)
    case Some(sets) => Ok(SortBy(Filter(sets, InFrame(e, frame)), CompletedAt))
  }

  /** A set is returned exactly when it is stored, belongs to the exercise
      and its stamp lies in the closed frame. */
  lemma FetchExerciseSetsMembers(all: seq<ExerciseSet>, e: ExerciseId, frame: Option<Interval>, s: ExerciseSet)
    ensures var r := FetchExerciseSets(Some(all), e, frame).value;
      s in r <==> s in all && s.exercise == Some(e) && Within(s.completedAt, frame)
  {
    SortByMembers(Filter(all, InFrame(e, frame)), CompletedAt, s);
    FilterMember(all, InFrame(e, frame), s);
  }

  /** The frame's ends are included: a set stamped at either end is kept. */
  lemma FrameIsClosed(all: seq<ExerciseSet>, e: ExerciseId, s: ExerciseSet, other: Time)
    requires s in all && s.exercise == Some(e)
    ensures s in FetchExerciseSets(Some(all), e, Some(Interval(s.completedAt, s.completedAt))).value
    ensures other >= s.completedAt ==> s in FetchExerciseSets(Some(all), e, Some(Interval(s.completedAt, other))).value
    ensures other <= s.completedAt ==> s in FetchExerciseSets(Some(all), e, Some(Interval(other, s.completedAt))).value
  {
    FetchExerciseSetsMembers(all, e, Some(Interval(s.completedAt, s.completedAt)), s);
    FetchExerciseSetsMembers(all, e, Some(Interval(s.completedAt, other)), s);
    FetchExerciseSetsMembers(all, e, Some(Interval(other, s.completedAt)), s);
  }

  /** `fetchExerciseSetsSafely(for:timeFrame:)`. */
  function FetchExerciseSetsSafely(all: Option<seq<ExerciseSet>>, e: ExerciseId, frame: Option<Interval> := None)
    : (r: seq<ExerciseSet>)
    ensures all.None? ==> r == []
    ensures all.Some? ==> r == FetchExerciseSets(all, e, frame).value
  {
    Safely(FetchExerciseSets(all, e, frame), [])
  }

  // ---------------------------------------------------------------------
  // One-repetition maximum
  // ---------------------------------------------------------------------

  /** Reps clamped to `[1, 10]`, where the formula is trusted. */
  function ClampReps(reps: int): (r: int)
    ensures 1 <= r <= 10
    ensures 1 <= reps <= 10 ==> r == reps
    ensures reps < 1 ==> r == 1
    ensures reps > 10 ==> r == 10
  {
    MinInt(MaxInt(1, reps), 10)
  }

  /** Brzycki's estimate for one set, `weight × 36 / (37 − reps)`. */
  function Estimate(s: ExerciseSet): real
  {
    s.weight * (36.0 / (37.0 - ClampReps(s.reps) as real))
  }

  /** For a non-negative weight the estimate lies between the weight (one
      rep) and four thirds of it (ten reps or more), since the divisor stays
      within `[27, 36]`. */
  lemma EstimateBounds(s: ExerciseSet)
    requires s.weight >= 0.0
    ensures s.weight <= Estimate(s) <= s.weight * 4.0 / 3.0
    ensures s.reps <= 1 ==> Estimate(s) == s.weight
    ensures s.reps >= 10 ==> Estimate(s) == s.weight * 4.0 / 3.0
  {
    var f := 36.0 / (37.0 - ClampReps(s.reps) as real);
    FactorBounds(ClampReps(s.reps));
    assert Estimate(s) == s.weight * f;
    MulMonotone(s.weight, 1.0, f);
    assert s.weight * 1.0 == s.weight;
    assert s.weight * f <= s.weight * (4.0 / 3.0) by { MulMonotone(s.weight, f, 4.0 / 3.0); }
  }

  /** The Brzycki factor `36 / (37 − reps)` over the trusted reps grows from
      1 (one rep) to 4/3 (ten reps). */
  lemma FactorBounds(reps: int)
    requires 1 <= reps <= 10
    ensures 1.0 <= 36.0 / (37.0 - reps as real) <= 4.0 / 3.0
    ensures reps == 1 ==> 36.0 / (37.0 - reps as real) == 1.0
    ensures reps == 10 ==> 36.0 / (37.0 - reps as real) == 4.0 / 3.0
  {
    var d := 37.0 - reps as real;
    var f := 36.0 / d;
    assert f * d == 36.0;
    if f < 1.0 {
      MulMonotone(d, f, 1.0);
      assert false;
    }
    if f > 4.0 / 3.0 {
      assert false;
    }
  }

  /** Scaling by a non-negative weight keeps order. */
  lemma MulMonotone(w: real, a: real, b: real)
    requires w >= 0.0 && a <= b
    ensures w * a <= w * b
  {
    assert w * b - w * a == w * (b - a);
  }

  /** The largest estimate, for a non-empty list of sets. */
  function MaxEstimate(sets: seq<ExerciseSet>): (r: real)
    requires |sets| > 0
    ensures forall i :: 0 <= i < |sets| ==> Estimate(sets[i]) <= r
    ensures exists i :: 0 <= i < |sets| && Estimate(sets[i]) == r
  {
    if |sets| == 1 then Estimate(sets[0])
    else
      var rest := MaxEstimate(sets[1..]);
      assert forall i :: 1 <= i < |sets| ==> sets[i] == sets[1..][i - 1];
      MaxReal(Estimate(sets[0]), rest)
  }

  /** `calculateOneRepMax(for:)`: 0 without sets, otherwise the highest
      estimate over all the exercise's sets. */
  function CalculateOneRepMax(all: Option<seq<ExerciseSet>>, e: ExerciseId): (r: Outcome<real>)
    ensures r.Ok? <==> all.Some?
    ensures r.Err? ==> r.error == FetchFailed
    ensures r.Ok? && Count(all.value, IsOf(e)) == 0 ==> r.value == 0.0
  {
    match FetchExerciseSets(all, e)
    case Err(err) => Err(err)
    case Ok(sets) =>
      if |sets| == 0 then Ok(0.0)
      else
        assert |Filter(all.value, IsOf(e))| > 0 by {
          FilterSameVerdict(all.value, InFrame(e, None), IsOf(e));
          assert multiset(sets)[sets[0]] > 0;
        }
        Ok(MaxEstimate(sets))
  }

  /** Two predicates that agree everywhere filter alike. */
  lemma {:induction false} FilterSameVerdict<T>(xs: seq<T>, p: T -> bool, q: T -> bool)
    requires forall x :: p(x) == q(x)
    ensures Filter(xs, p) == Filter(xs, q)
  {
    if |xs| > 0 {
      FilterSameVerdict(xs[1..], p, q);
    }
  }

  /** The estimate is attained by one of the exercise's stored sets and no
      stored set of the exercise estimates higher. */
  lemma OneRepMaxIsBest(all: seq<ExerciseSet>, e: ExerciseId, s: ExerciseSet)
    requires s in all && s.exercise == Some(e)
    ensures var r := CalculateOneRepMax(Some(all), e);
      r.Ok? && Estimate(s) <= r.value
    ensures var r := CalculateOneRepMax(Some(all), e);
      exists t :: t in all && t.exercise == Some(e) && Estimate(t) == r.value
  {
    var sets := FetchExerciseSets(Some(all), e).value;
    FetchExerciseSetsMembers(all, e, None, s);
    var i :| 0 <= i < |sets| && sets[i] == s;
    assert Estimate(sets[i]) <= MaxEstimate(sets);
    var j :| 0 <= j < |sets| && Estimate(sets[j]) == MaxEstimate(sets);
    FetchExerciseSetsMembers(all, e, None, sets[j]);
  }

  /** `calculateOneRepMaxSafely(for:)`: 0 when the fetch fails. */
  function CalculateOneRepMaxSafely(all: Option<seq<ExerciseSet>>, e: ExerciseId): (r: real)
    ensures all.None? ==> r == 0.0
    ensures all.Some? ==> r == CalculateOneRepMax(all, e).value
  {
    Safely(CalculateOneRepMax(all, e), 0.0)
  }

  /** A single set of 100 for 10 reps estimates 133.33…, for 1 rep 100. */
  lemma OneRepMaxExamples(s: ExerciseSet)
    requires s.weight == 100.0
    ensures s.reps == 10 ==> Estimate(s) == 3600.0 / 27.0
    ensures s.reps == 1 ==> Estimate(s) == 100.0
    ensures s.reps == 20 ==> Estimate(s) == 3600.0 / 27.0
  {
  }
}

=== FILE: discard_state.dfy ===
/** The discard coordinator (`WorkoutStateManager`): a flag saying that a
    workout was discarded, the id of the last discarded workout and when it
    happened, mirrored to a key-value store that outlives the process. The
    store is a map; a key the store does not hold reads as `false` or nil. */
module DiscardState {
  import opened Basics
  import opened Domain

  /** The kinds of value the three keys hold. */
  datatype Value = Text(s: string) | Flag(b: bool) | Stamp(t: Time)

  type Store = map<string, Value>

  const IdKey: string := "workout_discarded_id"
  const FlagKey: string := "workout_discarded_flag"
  const TimeKey: string := "workout_discarded_time"

  datatype Coordinator = Coordinator(lastDiscardedId: Option<string>, wasDiscarded: bool,
                                     discardedAt: Option<Time>, loaded: bool, store: Store)

  /** Writing an optional value: nil removes the key. */
  function Put(store: Store, key: string, v: Option<Value>): (r: Store)
    ensures v.Some? ==> key in r && r[key] == v.value
    ensures v.None? ==> key !in r
    ensures forall k :: k != key ==> (k in r <==> k in store)
    ensures forall k :: k != key && k in store ==> r[k] == store[k]
  {
    match v
    case Some(x) => store[key := x]
    case None => store - {key}
  }

  function ReadText(store: Store, key: string): Option<string>
  {
    if key in store && store[key].Text? then Some(store[key].s) else None
  }

  function ReadFlag(store: Store, key: string): bool
  {
    key in store && store[key].Flag? && store[key].b
  }

  function ReadStamp(store: Store, key: string): Option<Time>
  {
    if key in store && store[key].Stamp? then Some(store[key].t) else None
  }

  /** `saveStateToDefaults()`: all three fields go to the store. */
  function SaveToStore(c: Coordinator): (r: Coordinator)
    ensures r.lastDiscardedId == c.lastDiscardedId && r.wasDiscarded == c.wasDiscarded
    ensures r.discardedAt == c.discardedAt && r.loaded == c.loaded
    ensures ReadText(r.store, IdKey) == c.lastDiscardedId
    ensures ReadFlag(r.store, FlagKey) == c.wasDiscarded
    ensures ReadStamp(r.store, TimeKey) == c.discardedAt
    ensures forall k :: k != IdKey && k != FlagKey && k != TimeKey ==>
      (k in r.store <==> k in c.store) && (k in c.store ==> r.store[k] == c.store[k])
  {
    var s1 := Put(c.store, IdKey, if c.lastDiscardedId.Some? then Some(Text(c.lastDiscardedId.value)) else None);
    var s2 := Put(s1, FlagKey, Some(Flag(c.wasDiscarded)));
    var s3 := Put(s2, TimeKey, if c.discardedAt.Some? then Some(Stamp(c.discardedAt.value)) else None);
    c.(store := s3)
  }

  /** `loadStateFromDefaults()`: the fields are read back from the store and
      the coordinator remembers that it has loaded. */
  function LoadFromStore(c: Coordinator): (r: Coordinator)
    ensures r.loaded && r.store == c.store
    ensures r.lastDiscardedId == ReadText(c.store, IdKey)
    ensures r.wasDiscarded == ReadFlag(c.store, FlagKey)
    ensures r.discardedAt == ReadStamp(c.store, TimeKey)
  {
    Coordinator(ReadText(c.store, IdKey), ReadFlag(c.store, FlagKey), ReadStamp(c.store, TimeKey), true, c.store)
  }

  /** The shared instance's construction: the fields start empty and are
      immediately loaded from the store. */
  function Init(store: Store): (r: Coordinator)
    ensures r.loaded && r.store == store
    ensures r.wasDiscarded <==> FlagKey in store && store[FlagKey] == Flag(true)
  {
    LoadFromStore(Coordinator(None, false, None, false, store))
  }

  /** `markWorkoutAsDiscarded(_:)`. The caller's id of whatever type is
      passed as its string form, or `None` when no id is given. */
  function MarkDiscarded(c: Coordinator, id: Option<string>, now: Time): (r: Coordinator)
    ensures r.wasDiscarded && r.discardedAt == Some(now)
    ensures r.lastDiscardedId == (if id.Some? then id else c.lastDiscardedId)
    ensures r.loaded == c.loaded
    ensures ReadFlag(r.store, FlagKey) && ReadStamp(r.store, TimeKey) == Some(now)
  {
    var marked := c.(wasDiscarded := true, discardedAt := Some(now));
    var named := if id.Some? then marked.(lastDiscardedId := id) else marked;
    SaveToStore(named)
  }

  /** The lazy load both queries perform when the coordinator has not loaded
      yet. */
  function EnsureLoaded(c: Coordinator): (r: Coordinator)
    ensures r.loaded
    ensures c.loaded ==> r == c
  {
    if c.loaded then c else LoadFromStore(c)
  }

  /** `wasAnyWorkoutDiscarded()`: the flag, after the lazy load. */
  function WasAnyWorkoutDiscarded(c: Coordinator): (r: (bool, Coordinator))
    ensures r.1 == EnsureLoaded(c) && r.0 == r.1.wasDiscarded
  {
    var s := EnsureLoaded(c);
    (s.wasDiscarded, s)
  }

  /** `isWorkoutDiscarded(_:)`: the id is not consulted. */
  function IsWorkoutDiscarded(c: Coordinator, id: Option<string>): (r: (bool, Coordinator))
    ensures r.1.loaded && r.0 == r.1.wasDiscarded
  {
    var s := EnsureLoaded(c);
    (s.wasDiscarded, s)
  }

  /** Which workout is asked about makes no difference: the answer is the
      global flag, for any two ids. */
  lemma IsWorkoutDiscardedIgnoresId(c: Coordinator, a: Option<string>, b: Option<string>)
    ensures IsWorkoutDiscarded(c, a) == IsWorkoutDiscarded(c, b) == WasAnyWorkoutDiscarded(c)
  {
  }

  /** `clearDiscardedState()`: the fields are reset and the three keys
      removed; other keys stay. */
  function ClearDiscarded(c: Coordinator): (r: Coordinator)
    ensures !r.wasDiscarded && r.lastDiscardedId.None? && r.discardedAt.None?
    ensures r.loaded == c.loaded
    ensures IdKey !in r.store && FlagKey !in r.store && TimeKey !in r.store
    ensures forall k :: k in c.store && k != IdKey && k != FlagKey && k != TimeKey ==>
      k in r.store && r.store[k] == c.store[k]
    ensures forall k :: k in r.store ==> k in c.store
  {
    Coordinator(None, false, None, c.loaded, c.store - {IdKey, FlagKey, TimeKey})
  }

  /** `markWorkoutAsSaved(_:)`: clears, whatever id is given. */
  function MarkSaved(c: Coordinator, id: Option<string>): (r: Coordinator)
    ensures !r.wasDiscarded
  {
    ClearDiscarded(c)
  }

  /** Marking a workout as saved is clearing, for every id. */
  lemma MarkSavedIsClear(c: Coordinator, id: Option<string>)
    ensures MarkSaved(c, id) == ClearDiscarded(c)
  {
  }

  /** The coordinator's fields agree with what the store would give back. */
  predicate Mirrored(c: Coordinator)
  {
    c.loaded && LoadFromStore(c) == c
  }

  /** Reloading after a mark gives back what was marked; the fresh instance
      is mirrored from the start. */
  lemma {:induction false} MarkMirrored(c: Coordinator, id: Option<string>, now: Time)
    requires c.loaded
    ensures Mirrored(MarkDiscarded(c, id, now))
    ensures LoadFromStore(MarkDiscarded(c, id, now)).lastDiscardedId == (if id.Some? then id else c.lastDiscardedId)
  {
    var r := MarkDiscarded(c, id, now);
    assert ReadText(r.store, IdKey) == r.lastDiscardedId;
    assert ReadStamp(r.store, TimeKey) == r.discardedAt;
  }

  /** Reloading after a clear gives an unmarked coordinator with no id and
      no timestamp: the removed keys read as `false` and nil. */
  lemma ClearMirrored(c: Coordinator)
    requires c.loaded
    ensures Mirrored(ClearDiscarded(c))
    ensures var r := LoadFromStore(ClearDiscarded(c));
      !r.wasDiscarded && r.lastDiscardedId.None? && r.discardedAt.None?
  {
  }

  /** Every state reachable from construction through marks, clears and
      queries is mirrored, so the queries' lazy-load branch never runs: the
      query leaves the coordinator exactly as it was. */
  lemma LazyLoadNeverRuns(c: Coordinator, id: Option<string>)
    requires Mirrored(c)
    ensures WasAnyWorkoutDiscarded(c).1 == c && IsWorkoutDiscarded(c, id).1 == c
    ensures Mirrored(MarkSaved(c, id))
  {
    ClearMirrored(c);
  }

  lemma InitMirrored(store: Store)
    ensures Mirrored(Init(store))
  {
  }

  /** A mark without an id keeps the id recorded by an earlier mark; a
      clear in between forgets it. */
  lemma MarkKeepsEarlierId(c: Coordinator, id: string, t1: Time, t2: Time)
    ensures MarkDiscarded(MarkDiscarded(c, Some(id), t1), None, t2).lastDiscardedId == Some(id)
    ensures MarkDiscarded(ClearDiscarded(MarkDiscarded(c, Some(id), t1)), None, t2).lastDiscardedId.None?
  {
  }
}

=== FILE: domain.dfy ===
/** The workout domain: exercises, sets and workouts as immutable records,
    with the values a workout derives from its sets (volume, working-set
    count, distinct exercises, per-exercise groups and best sets), completion
    and appending a set.

    Object identity of the persistent models becomes an explicit numeric id.
    A set refers to its exercise and workout by id, so a renamed exercise is
    seen from every set, as with the source's shared references. */
module Domain {
  import opened Basics
  import opened Sorting

  /** Seconds, as `Date` / `TimeInterval` are `Double` seconds. */
  type Time = real
  type ExerciseId = nat
  type SetId = nat
  type WorkoutId = nat
  type UserId = nat

  datatype Category = Compound | Isolation | Bodyweight | Cardio | OtherCategory

  datatype MuscleGroup =
    | Chest | Back | Shoulders | Biceps | Triceps | Quadriceps | Hamstrings
    | Glutes | Calves | Forearms | Abs | Obliques | Traps | LowerBack | OtherMuscle

  datatype Exercise = Exercise(
    id: ExerciseId,
    name: string,
    category: Category,
    primaryMuscles: seq<MuscleGroup>,
    secondaryMuscles: seq<MuscleGroup>,
    instructions: string,
    isCustom: bool)

  datatype ExerciseSet = ExerciseSet(
    id: SetId,
    weight: real,
    reps: int,
    completedAt: Time,
    isWarmup: bool,
    rpe: Option<int>,
    notes: string,
    exercise: Option<ExerciseId>,
    workout: Option<WorkoutId>)

  datatype Workout = Workout(
    id: WorkoutId,
    date: Time,
    name: string,
    notes: string,
    duration: real,
    isCompleted: bool,
    startedFromTemplate: Option<string>,
    sets: seq<ExerciseSet>,
    user: Option<UserId>)

  // ---------------------------------------------------------------------
  // Construction with the source's default arguments
  // ---------------------------------------------------------------------

  /** `ExerciseSet.init`: the exercise argument is not optional, so a new set
      is always attached to one; `completedAt` is the creation time unless
      supplied. */
  function NewSet(id: SetId, weight: real, reps: int, exercise: ExerciseId, now: Time,
                  workout: Option<WorkoutId> := None, completedAt: Option<Time> := None,
                  isWarmup: bool := false, rpe: Option<int> := None, notes: string := ""): (s: ExerciseSet)
    ensures s.id == id && s.weight == weight && s.reps == reps
    ensures s.exercise == Some(exercise)
    ensures s.completedAt == (if completedAt.Some? then completedAt.value else now)
    ensures s.workout == workout && s.isWarmup == isWarmup && s.rpe == rpe && s.notes == notes
  {
    ExerciseSet(id, weight, reps, GetOr(completedAt, now), isWarmup, rpe, notes, Some(exercise), workout)
  }

  /** With every optional argument left out, a set is detached from any
      workout, a working set, without RPE or notes, and stamped now. */
  lemma NewSetDefaults(id: SetId, weight: real, reps: int, e: ExerciseId, now: Time)
    ensures NewSet(id, weight, reps, e, now).workout == None
    ensures !NewSet(id, weight, reps, e, now).isWarmup
    ensures NewSet(id, weight, reps, e, now).rpe == None
    ensures NewSet(id, weight, reps, e, now).notes == ""
    ensures NewSet(id, weight, reps, e, now).completedAt == now
    ensures NewSet(id, weight, reps, e, now).exercise.Some?
  {
  }

  /** `Workout.init` with its defaults: named "Workout", dated now, empty. */
  function NewWorkout(id: WorkoutId, now: Time, name: string := "Workout",
                      startedFromTemplate: Option<string> := None): (w: Workout)
    ensures w.id == id && w.date == now && w.name == name
    ensures w.sets == [] && w.duration == 0.0 && !w.isCompleted
    ensures w.notes == "" && w.user == None
    ensures w.startedFromTemplate == startedFromTemplate
  {
    Workout(id, now, name, "", 0.0, false, startedFromTemplate, [], None)
  }

  // ---------------------------------------------------------------------
  // Set predicates and keys used throughout
  // ---------------------------------------------------------------------

  function CompletedAt(s: ExerciseSet): real
  {
    s.completedAt
  }

  function Weight(s: ExerciseSet): real
  {
    s.weight
  }

  /** Predicate constructor: the set belongs to exercise `e`. */
  function IsOf(e: ExerciseId): ExerciseSet -> bool
  {
    (s: ExerciseSet) => s.exercise == Some(e)
  }

  function IsWarmupSet(): ExerciseSet -> bool
  {
    (s: ExerciseSet) => s.isWarmup
  }

  /** Every set names an exercise; the force-unwrapping groupings need this. */
  predicate AllAttached(sets: seq<ExerciseSet>)
  {
    forall i :: 0 <= i < |sets| ==> sets[i].exercise.Some?
  }

  predicate UniqueIds(sets: seq<ExerciseSet>)
  {
    forall i, j :: 0 <= i < j < |sets| ==> sets[i].id != sets[j].id
  }

  function SetIds(sets: seq<ExerciseSet>): set<SetId>
  {
    set s | s in sets :: s.id
  }

  // ---------------------------------------------------------------------
  // Derived values
  // ---------------------------------------------------------------------

  /** The distinct exercises the sets refer to (`Set(sets.compactMap { $0.exercise })`). */
  function ExerciseIds(sets: seq<ExerciseSet>): (ids: set<ExerciseId>)
    ensures forall e :: e in ids <==> exists s :: s in sets && s.exercise == Some(e)
  {
    set s | s in sets && s.exercise.Some? :: s.exercise.value
  }

  lemma ExerciseIdsAppend(sets: seq<ExerciseSet>, s: ExerciseSet)
    ensures ExerciseIds(sets + [s])
         == ExerciseIds(sets) + (if s.exercise.Some? then {s.exercise.value} else {})
  {
    var l := ExerciseIds(sets + [s]);
    var r := ExerciseIds(sets) + (if s.exercise.Some? then {s.exercise.value} else {});
    forall e | e in r
      ensures e in l
    {
      if e in ExerciseIds(sets) {
        var t :| t in sets && t.exercise == Some(e);
        assert t in sets + [s];
      } else {
        assert s in sets + [s];
      }
    }
  }

  function ExerciseCount(w: Workout): nat
  {
    |ExerciseIds(w.sets)|
  }

  /** Never more distinct exercises than sets. */
  lemma {:induction false} ExerciseCountBound(sets: seq<ExerciseSet>)
    ensures |ExerciseIds(sets)| <= |sets|
  {
    if |sets| > 0 {
      var init, last := sets[..|sets| - 1], sets[|sets| - 1];
      assert sets == init + [last];
      ExerciseCountBound(init);
      ExerciseIdsAppend(init, last);
    }
  }

  function Volume(s: ExerciseSet): real
  {
    s.weight * s.reps as real
  }

  /** `sets.reduce(0) { $0 + weight * reps }`, warm-ups included. */
  function TotalVolume(sets: seq<ExerciseSet>): real
  {
    if |sets| == 0 then 0.0
    else TotalVolume(sets[..|sets| - 1]) + Volume(sets[|sets| - 1])
  }

  /** Volume is additive over concatenation. */
  lemma {:induction false} TotalVolumeAppend(a: seq<ExerciseSet>, b: seq<ExerciseSet>)
    ensures TotalVolume(a + b) == TotalVolume(a) + TotalVolume(b)
  {
    if |b| > 0 {
      var b' := b[..|b| - 1];
      assert (a + b)[..|a + b| - 1] == a + b';
      TotalVolumeAppend(a, b');
    } else {
      assert a + b == a;
    }
  }

  lemma {:induction false} TotalVolumeCons(s: ExerciseSet, rest: seq<ExerciseSet>)
    ensures TotalVolume([s] + rest) == Volume(s) + TotalVolume(rest)
  {
    TotalVolumeAppend([s], rest);
    assert [s][..0] == [];
  }

  /** Warm-up sets count towards the volume: it is the working sets' volume
      plus the warm-ups' volume. */
  lemma {:induction false} TotalVolumeSplitsByWarmup(sets: seq<ExerciseSet>)
    ensures TotalVolume(sets)
         == TotalVolume(Filter(sets, IsWarmupSet())) + TotalVolume(Filter(sets, Not(IsWarmupSet())))
  {
    if |sets| > 0 {
      var h, t := sets[0], sets[1..];
      var W, N := IsWarmupSet(), Not(IsWarmupSet());
      assert sets == [h] + t;
      TotalVolumeSplitsByWarmup(t);
      TotalVolumeCons(h, t);
      var v, vw, vn := Volume(h), TotalVolume(Filter(t, W)), TotalVolume(Filter(t, N));
      if h.isWarmup {
        assert Filter(sets, W) == [h] + Filter(t, W);
        assert Filter(sets, N) == Filter(t, N);
        TotalVolumeCons(h, Filter(t, W));
      } else {
        assert Filter(sets, W) == Filter(t, W);
        assert Filter(sets, N) == [h] + Filter(t, N);
        TotalVolumeCons(h, Filter(t, N));
      }
    }
  }

  /** With non-negative weights and reps the volume is non-negative. */
  lemma {:induction false} TotalVolumeNonNegative(sets: seq<ExerciseSet>)
    requires forall i :: 0 <= i < |sets| ==> sets[i].weight >= 0.0 && sets[i].reps >= 0
    ensures TotalVolume(sets) >= 0.0
  {
    if |sets| > 0 {
      TotalVolumeNonNegative(sets[..|sets| - 1]);
    }
  }

  /** The non-warm-up sets counted. */
  function WorkingSetsCount(w: Workout): (n: nat)
    ensures n <= |w.sets|
  {
    |Filter(w.sets, Not(IsWarmupSet()))|
  }

  /** Working sets and warm-ups together make up all sets; the count equals
      the number of sets exactly when there is no warm-up. */
  lemma WorkingSetsCountComplement(w: Workout)
    ensures WorkingSetsCount(w) + |Filter(w.sets, IsWarmupSet())| == |w.sets|
    ensures WorkingSetsCount(w) == |w.sets| <==> forall i :: 0 <= i < |w.sets| ==> !w.sets[i].isWarmup
  {
    var W, N := IsWarmupSet(), Not(IsWarmupSet());
    FilterSplitsLength(w.sets, W);
    forall i | 0 <= i < |w.sets| && w.sets[i].isWarmup
      ensures |Filter(w.sets, W)| > 0
    {
      FilterMember(w.sets, W, w.sets[i]);
    }
    if forall i :: 0 <= i < |w.sets| ==> !w.sets[i].isWarmup {
      forall x | x in w.sets
        ensures N(x)
      {
        var i :| 0 <= i < |w.sets| && w.sets[i] == x;
      }
      FilterAll(w.sets, N);
    }
  }

  /** `Dictionary(grouping: sets.sorted(by: completedAt), by: { $0.exercise! })`:
      each exercise's sets in completion order. The force unwrap traps on a
      detached set, hence the precondition. */
  function ExerciseGroups(sets: seq<ExerciseSet>): (g: map<ExerciseId, seq<ExerciseSet>>)
    requires AllAttached(sets)
    ensures g.Keys == ExerciseIds(sets)
    ensures forall e :: e in g ==> |g[e]| > 0 && SortedBy(g[e], CompletedAt)
    ensures forall e :: e in g ==> forall i :: 0 <= i < |g[e]| ==> g[e][i].exercise == Some(e)
  {
    map e | e in ExerciseIds(sets) :: GroupOf(sets, e)
  }

  /** One exercise's sets, stably sorted by completion time. */
  function GroupOf(sets: seq<ExerciseSet>, e: ExerciseId): (g: seq<ExerciseSet>)
    ensures SortedBy(g, CompletedAt)
    ensures forall i :: 0 <= i < |g| ==> g[i].exercise == Some(e)
    ensures multiset(g) == multiset(Filter(sets, IsOf(e)))
    ensures e in ExerciseIds(sets) ==> |g| > 0
  {
    var sorted := SortBy(sets, CompletedAt);
    FilterCommuteWithSort(sets, e);
    if e in ExerciseIds(sets) then
      var s :| s in sets && s.exercise == Some(e);
      SortByMembers(sets, CompletedAt, s);
      FilterMember(sorted, IsOf(e), s);
      Filter(sorted, IsOf(e))
    else
      Filter(sorted, IsOf(e))
  }

  lemma FilterCommuteWithSort(sets: seq<ExerciseSet>, e: ExerciseId)
    ensures multiset(Filter(SortBy(sets, CompletedAt), IsOf(e))) == multiset(Filter(sets, IsOf(e)))
    ensures SortedBy(Filter(SortBy(sets, CompletedAt), IsOf(e)), CompletedAt)
  {
    var sorted := SortBy(sets, CompletedAt);
    forall x
      ensures multiset(Filter(sorted, IsOf(e)))[x] == multiset(Filter(sets, IsOf(e)))[x]
    {
      FilterMultiset(sorted, IsOf(e), x);
      FilterMultiset(sets, IsOf(e), x);
    }
    FilterSorted(sorted, IsOf(e));
  }

  lemma {:induction false} FilterSorted(xs: seq<ExerciseSet>, p: ExerciseSet -> bool)
    requires SortedBy(xs, CompletedAt)
    ensures SortedBy(Filter(xs, p), CompletedAt)
  {
    if |xs| > 0 {
      FilterSorted(xs[1..], p);
      var r := Filter(xs[1..], p);
      forall i | 0 <= i < |r|
        ensures xs[0].completedAt <= r[i].completedAt
      {
        FilterMember(xs[1..], p, r[i]);
        var j :| 0 <= j < |xs[1..]| && xs[1..][j] == r[i];
      }
    }
  }

  /** A set belongs to exactly the group of its own exercise. */
  lemma GroupOfMembers(sets: seq<ExerciseSet>, e: ExerciseId, s: ExerciseSet)
    ensures s in GroupOf(sets, e) <==> s in sets && s.exercise == Some(e)
  {
    var g := GroupOf(sets, e);
    var f := Filter(sets, IsOf(e));
    assert s in g <==> s in multiset(g);
    assert s in f <==> s in multiset(f);
    FilterMember(sets, IsOf(e), s);
  }

  // ---------------------------------------------------------------------
  // Best set per exercise
  // ---------------------------------------------------------------------

  /** Position of `xs.max(by: { $0.weight < $1.weight })`: a heaviest set,
      the earliest one among equally heavy sets. */
  function HeaviestIndex(xs: seq<ExerciseSet>): (k: nat)
    requires |xs| > 0
    ensures k < |xs|
    ensures forall i :: 0 <= i < |xs| ==> xs[i].weight <= xs[k].weight
    ensures forall i :: 0 <= i < k ==> xs[i].weight < xs[k].weight
  {
    if |xs| == 1 then 0
    else
      var m := HeaviestIndex(xs[..|xs| - 1]);
      if xs[m].weight < xs[|xs| - 1].weight then |xs| - 1 else m
  }

  /** `bestSets`: for every exercise of the workout, one of its heaviest sets. */
  function BestSets(w: Workout): (b: map<ExerciseId, ExerciseSet>)
    requires AllAttached(w.sets)
    ensures b.Keys == ExerciseIds(w.sets)
  {
    map e | e in ExerciseIds(w.sets) :: HeaviestOf(GroupOf(w.sets, e))
  }

  function HeaviestOf(xs: seq<ExerciseSet>): (r: ExerciseSet)
    requires |xs| > 0
    ensures r in xs
    ensures forall i :: 0 <= i < |xs| ==> xs[i].weight <= r.weight
  {
    xs[HeaviestIndex(xs)]
  }

  lemma InHeaviest(xs: seq<ExerciseSet>, s: ExerciseSet)
    requires s in xs
    ensures s.weight <= HeaviestOf(xs).weight
  {
    var i :| 0 <= i < |xs| && xs[i] == s;
  }

  /** The best set of an exercise is one of its sets, and no set of that
      exercise in the workout is heavier. */
  lemma BestSetIsHeaviest(w: Workout, e: ExerciseId)
    requires AllAttached(w.sets)
    requires e in ExerciseIds(w.sets)
    ensures BestSets(w)[e] in w.sets && BestSets(w)[e].exercise == Some(e)
    ensures forall s :: s in w.sets && s.exercise == Some(e) ==> s.weight <= BestSets(w)[e].weight
  {
    var g := GroupOf(w.sets, e);
    var b := HeaviestOf(g);
    assert BestSets(w)[e] == b;
    GroupOfMembers(w.sets, e, b);
    forall s | s in w.sets && s.exercise == Some(e)
      ensures s.weight <= b.weight
    {
      GroupOfMembers(w.sets, e, s);
      InHeaviest(g, s);
    }
  }

  // ---------------------------------------------------------------------
  // complete() and addSet
  // ---------------------------------------------------------------------

  /** `complete()`: marks the workout done and fills the duration from the
      clock only when none was recorded. */
  function Complete(w: Workout, now: Time): (r: Workout)
    ensures r.isCompleted
    ensures w.duration != 0.0 ==> r.duration == w.duration
    ensures w.duration == 0.0 ==> r.duration == now - w.date
    ensures r == w.(isCompleted := true, duration := r.duration)
  {
    w.(isCompleted := true, duration := if w.duration == 0.0 then now - w.date else w.duration)
  }

  /** Completing twice is completing once, unless the first completion
      happened at the very instant the workout started (which leaves the
      duration at zero, so the second one fills it again). */
  lemma CompleteIdempotent(w: Workout, t1: Time, t2: Time)
    requires w.duration != 0.0 || t1 != w.date
    ensures Complete(Complete(w, t1), t2) == Complete(w, t1)
  {
  }

  /** What `WorkoutManager.saveWorkout(_:)` does to the workout (the store
      write itself is not modelled): the duration is filled from the clock
      only when it is still 0; nothing else changes. Every edit of an
      active session ends with this save. */
  function SaveWorkout(w: Workout, now: Time): (r: Workout)
    ensures w.duration != 0.0 ==> r == w
    ensures w.duration == 0.0 ==> r == w.(duration := now - w.date)
  {
    if w.duration == 0.0 then w.(duration := now - w.date) else w
  }

  /** A second save at the same instant, whatever sets the workout holds by
      then, leaves the duration the first save recorded. */
  lemma SaveAfterSave(w: Workout, xs: seq<ExerciseSet>, ys: seq<ExerciseSet>, now: Time)
    ensures SaveWorkout(SaveWorkout(w, now).(sets := xs), now).(sets := ys) == SaveWorkout(w, now).(sets := ys)
  {
  }

  /** Corrected (intended) completion: the recorded duration runs from the
      start to the completion, whatever an earlier save stored. */
  function CompleteTimed(w: Workout, now: Time): (r: Workout)
    ensures r.isCompleted && r.duration == now - w.date
    ensures r == w.(isCompleted := true, duration := r.duration)
  {
    w.(isCompleted := true, duration := now - w.date)
  }

  /** The corrected completion measures the whole workout even after saves,
      and agrees with `Complete` on a workout that was never saved. */
  lemma CompleteTimedAfterSaves(w: Workout, t1: Time, xs: seq<ExerciseSet>, t2: Time)
    ensures CompleteTimed(SaveWorkout(w, t1).(sets := xs), t2).duration == t2 - w.date
    ensures CompleteTimed(SaveWorkout(w, t1).(sets := xs), t2).sets == xs
    ensures w.duration == 0.0 ==> CompleteTimed(w, t2) == Complete(w, t2)
  {
  }

  /** `addSet(exercise:weight:reps:isWarmup:rpe:)`: appends one new set that
      belongs to this workout, stamped now. */
  function AddSet(w: Workout, setId: SetId, e: ExerciseId, weight: real, reps: int, now: Time,
                  isWarmup: bool := false, rpe: Option<int> := None): (r: (Workout, ExerciseSet))
    ensures r.0.sets == w.sets + [r.1]
    ensures r.0 == w.(sets := r.0.sets)
    ensures r.1 == NewSet(setId, weight, reps, e, now, Some(w.id), None, isWarmup, rpe)
  {
    var s := NewSet(setId, weight, reps, e, now, workout := Some(w.id), isWarmup := isWarmup, rpe := rpe);
    (w.(sets := w.sets + [s]), s)
  }

  /** Appending a set adds its volume. */
  lemma AddSetVolume(w: Workout, setId: SetId, e: ExerciseId, weight: real, reps: int, now: Time,
                     isWarmup: bool, rpe: Option<int>)
    ensures TotalVolume(AddSet(w, setId, e, weight, reps, now, isWarmup, rpe).0.sets)
         == TotalVolume(w.sets) + weight * reps as real
  {
    var r := AddSet(w, setId, e, weight, reps, now, isWarmup, rpe);
    TotalVolumeAppend(w.sets, [r.1]);
    assert [r.1][..0] == [];
  }

  /** Appending a set counts it as a working set unless it is a warm-up. */
  lemma AddSetWorkingCount(w: Workout, setId: SetId, e: ExerciseId, weight: real, reps: int, now: Time,
                           isWarmup: bool, rpe: Option<int>)
    ensures WorkingSetsCount(AddSet(w, setId, e, weight, reps, now, isWarmup, rpe).0)
         == WorkingSetsCount(w) + (if isWarmup then 0 else 1)
  {
    var r := AddSet(w, setId, e, weight, reps, now, isWarmup, rpe);
    FilterAppend(w.sets, [r.1], Not(IsWarmupSet()));
  }

  /** Appending a set raises the distinct-exercise count exactly when its
      exercise is new to the workout. */
  lemma AddSetExerciseCount(w: Workout, setId: SetId, e: ExerciseId, weight: real, reps: int, now: Time,
                            isWarmup: bool, rpe: Option<int>)
    ensures ExerciseCount(AddSet(w, setId, e, weight, reps, now, isWarmup, rpe).0)
         == ExerciseCount(w) + (if e in ExerciseIds(w.sets) then 0 else 1)
  {
    var r := AddSet(w, setId, e, weight, reps, now, isWarmup, rpe);
    ExerciseIdsAppend(w.sets, r.1);
    var ids := ExerciseIds(w.sets);
    assert ExerciseIds(r.0.sets) == ids + {e};
    if e in ids {
      assert ids + {e} == ids;
    } else {
      assert |ids + {e}| == |ids| + 1;
    }
  }
}

=== FILE: drop_sets.dfy ===
/** Drop-set propagation of the workout screen (`updateDropSets`): once the
    first set of an exercise is saved with a weight, every later set that
    has an entry in the drop table is re-weighted from it, rounded to 5 lb,
    through the session's `updateSet`. */
module DropSets {
  import opened Basics
  import opened Sorting
  import opened Domain
  import opened RPT
  import opened Session

  /** One call of `updateSet`: which set, and the values handed over. */
  datatype SetEdit = SetEdit(target: SetId, weight: real, reps: int, rpe: Option<int>)

  /** The sets after a sequence of edits, applied in turn. */
  function EditAll(sets: seq<ExerciseSet>, edits: seq<SetEdit>, now: Time): (r: seq<ExerciseSet>)
    decreases |edits|
    ensures |r| == |sets|
    ensures forall j :: 0 <= j < |r| ==> r[j].id == sets[j].id && r[j].exercise == sets[j].exercise
  {
    if |edits| == 0 then sets
    else EditAll(EditById(sets, edits[0].target, edits[0].weight, edits[0].reps, edits[0].rpe, now), edits[1..], now)
  }

  predicate DistinctTargets(edits: seq<SetEdit>)
  {
    forall a, b :: 0 <= a < b < |edits| ==> edits[a].target != edits[b].target
  }

  /** With distinct targets every set is edited at most once: a targeted set
      takes the edit's weight, reps and RPE and keeps everything else,
      its completion time included; every other set stays as it was. */
  lemma {:induction false} EditAllAt(sets: seq<ExerciseSet>, edits: seq<SetEdit>, now: Time, j: nat)
    requires j < |sets| && DistinctTargets(edits)
    decreases |edits|
    ensures (forall k :: 0 <= k < |edits| ==> edits[k].target != sets[j].id) ==> EditAll(sets, edits, now)[j] == sets[j]
    ensures forall k :: 0 <= k < |edits| && edits[k].target == sets[j].id ==>
      EditAll(sets, edits, now)[j] == sets[j].(weight := edits[k].weight, reps := edits[k].reps, rpe := edits[k].rpe)
  {
    if |edits| > 0 {
      var e0 := edits[0];
      var sets1 := EditById(sets, e0.target, e0.weight, e0.reps, e0.rpe, now);
      var rest := edits[1..];
      assert DistinctTargets(rest);
      EditAllAt(sets1, rest, now, j);
      assert sets1[j].id == sets[j].id;
      forall k | 0 <= k < |edits| && edits[k].target == sets[j].id
        ensures EditAll(sets, edits, now)[j] == sets[j].(weight := edits[k].weight, reps := edits[k].reps, rpe := edits[k].rpe)
      {
        if k == 0 {
          assert forall m :: 0 <= m < |rest| ==> rest[m] == edits[m + 1];
        } else {
          assert rest[k - 1] == edits[k];
        }
      }
    }
  }

  lemma EditAllAtEdit(sets: seq<ExerciseSet>, edits: seq<SetEdit>, now: Time, j: nat, k: nat)
    requires j < |sets| && DistinctTargets(edits)
    requires k < |edits| && edits[k].target == sets[j].id
    ensures EditAll(sets, edits, now)[j] == sets[j].(weight := edits[k].weight, reps := edits[k].reps, rpe := edits[k].rpe)
  {
    EditAllAt(sets, edits, now, j);
  }

  /** `updateSet` once per edit, each followed by a save and the
      order-keeping rebuild; with no edit nothing is saved. */
  function ApplyEdits(st: SessionState, edits: seq<SetEdit>, now: Time, keys: seq<ExerciseId>): (r: SessionState)
    requires AllAttached(st.workout.sets)
    requires IsListing(keys, ExerciseIds(st.workout.sets))
    decreases |edits|
    ensures |edits| == 0 ==> r == st
    ensures |edits| > 0 ==> r.workout == SaveWorkout(st.workout, now).(sets := EditAll(st.workout.sets, edits, now))
  {
    if |edits| == 0 then st
    else
      var e0 := edits[0];
      EditByIdKeepsShape(st.workout.sets, e0.target, e0.weight, e0.reps, e0.rpe, now);
      var st1 := UpdateSet(st, e0.target, e0.weight, e0.reps, e0.rpe, now, keys);
      var r := ApplyEdits(st1, edits[1..], now, keys);
      SaveAfterSave(st.workout, st1.workout.sets, EditAll(st1.workout.sets, edits[1..], now), now);
      r
  }

  /** Every `updateSet` keeps the session consistent and the order fixed, so
      the whole sequence does. */
  lemma {:induction false} ApplyEditsPreservesInv(st: SessionState, edits: seq<SetEdit>, now: Time,
                                                  keys: seq<ExerciseId>)
    requires Inv(st)
    requires IsListing(keys, ExerciseIds(st.workout.sets))
    decreases |edits|
    ensures Inv(ApplyEdits(st, edits, now, keys))
    ensures ApplyEdits(st, edits, now, keys).order == st.order
  {
    if |edits| > 0 {
      var e0 := edits[0];
      var st1 := UpdateSet(st, e0.target, e0.weight, e0.reps, e0.rpe, now, keys);
      EditByIdKeepsShape(st.workout.sets, e0.target, e0.weight, e0.reps, e0.rpe, now);
      UpdateSetPreservesInv(st, e0.target, e0.weight, e0.reps, e0.rpe, now, keys);
      ApplyEditsPreservesInv(st1, edits[1..], now, keys);
    }
  }

  /** Number of sets the loop `for index in 1..<min(sets.count, drops.count)`
      reaches, counting the first set: the loop's exclusive upper bound. */
  function Touched<T>(n: nat, drops: seq<T>): (t: nat)
    ensures 1 <= t
    ensures n > 1 && |drops| > 0 ==> t <= n && t <= |drops|
  {
    if n <= 1 || |drops| <= 1 then 1 else MinInt(n, |drops|)
  }

  /** `round(first * (1 - d) / 5) * 5`, the weight a drop `d` leads to. */
  function DropWeight(first: real, d: real): real
  {
    Round5(first * (1.0 - d)) as real
  }

  function DropWeights(first: real, drops: seq<real>): (r: seq<real>)
    ensures |r| == |drops|
    ensures forall i :: 0 <= i < |drops| ==> r[i] == DropWeight(first, drops[i])
  {
    seq(|drops|, i requires 0 <= i < |drops| => DropWeight(first, drops[i]))
  }

  /** The edits of that loop: set `i` of the sorted list gets weight
      `weights[i]` and keeps its own reps and RPE. */
  function DropEdits(sorted: seq<ExerciseSet>, weights: seq<real>): (r: seq<SetEdit>)
    requires |sorted| <= 1 || |weights| > 0
    ensures |r| == Touched(|sorted|, weights) - 1
    ensures forall k :: 0 <= k < |r| ==>
      r[k] == SetEdit(sorted[k + 1].id, weights[k + 1], sorted[k + 1].reps, sorted[k + 1].rpe)
  {
    if |sorted| <= 1 then []
    else
      var end := Touched(|sorted|, weights);
      seq(end - 1, k requires 0 <= k < end - 1 => SetEdit(sorted[k + 1].id, weights[k + 1], sorted[k + 1].reps, sorted[k + 1].rpe))
  }

  /** `updateDropSets(exercise:firstSetWeight:sets:)` with the exercise's sets
      sorted by completion time and the drop table from the settings. With
      two or more sets an empty table would make the loop's range trap. */
  function UpdateDropSets(st: SessionState, e: ExerciseId, first: real, drops: seq<real>, now: Time,
                          keys: seq<ExerciseId>): (r: SessionState)
    requires AllAttached(st.workout.sets)
    requires IsListing(keys, ExerciseIds(st.workout.sets))
    requires e in st.groups
    requires |st.groups[e]| <= 1 || |drops| > 0
    ensures |st.groups[e]| <= 1 ==> r == st
  {
    ApplyEdits(st, DropEdits(SortBy(st.groups[e], CompletedAt), DropWeights(first, drops)), now, keys)
  }

  /** Distinct sets of a workout with unique ids have distinct ids. */
  lemma DistinctSetsIds(sets: seq<ExerciseSet>, x: ExerciseSet, y: ExerciseSet)
    requires UniqueIds(sets) && x in sets && y in sets && x != y
    ensures x.id != y.id
  {
    var i :| 0 <= i < |sets| && sets[i] == x;
    var j :| 0 <= j < |sets| && sets[j] == y;
    assert i != j;
  }

  /** An exercise's sets sorted by completion time: duplicate-free sets of
      the workout, all of that exercise. */
  lemma SortedGroupFacts(sets: seq<ExerciseSet>, e: ExerciseId)
    requires UniqueIds(sets)
    ensures var sorted := SortBy(Filter(sets, IsOf(e)), CompletedAt);
      && NoDup(sorted)
      && forall i :: 0 <= i < |sorted| ==> sorted[i] in sets && sorted[i].exercise == Some(e)
  {
    var g := Filter(sets, IsOf(e));
    var sorted := SortBy(g, CompletedAt);
    UniqueIdsNoDup(sets);
    FilterKeepsNoDup(sets, IsOf(e));
    PermutationKeepsNoDup(g, sorted);
    forall i | 0 <= i < |sorted|
      ensures sorted[i] in sets && sorted[i].exercise == Some(e)
    {
      SortByMembers(g, CompletedAt, sorted[i]);
      FilterMember(sets, IsOf(e), sorted[i]);
    }
  }

  lemma DropEditsDistinct(sets: seq<ExerciseSet>, sorted: seq<ExerciseSet>, first: real, drops: seq<real>)
    requires UniqueIds(sets) && NoDup(sorted)
    requires forall i :: 0 <= i < |sorted| ==> sorted[i] in sets
    requires |sorted| <= 1 || |drops| > 0
    ensures DistinctTargets(DropEdits(sorted, DropWeights(first, drops)))
  {
    var edits := DropEdits(sorted, DropWeights(first, drops));
    forall a, b | 0 <= a < b < |edits|
      ensures edits[a].target != edits[b].target
    {
      DistinctSetsIds(sets, sorted[a + 1], sorted[b + 1]);
    }
  }

  /** Propagation keeps the session consistent and the exercise order as it
      was. */
  lemma UpdateDropSetsPreservesInv(st: SessionState, e: ExerciseId, first: real, drops: seq<real>, now: Time,
                                   keys: seq<ExerciseId>)
    requires Inv(st) && e in st.groups
    requires IsListing(keys, ExerciseIds(st.workout.sets))
    requires |st.groups[e]| <= 1 || |drops| > 0
    ensures Inv(UpdateDropSets(st, e, first, drops, now, keys))
    ensures UpdateDropSets(st, e, first, drops, now, keys).order == st.order
  {
    ApplyEditsPreservesInv(st, DropEdits(SortBy(st.groups[e], CompletedAt), DropWeights(first, drops)), now, keys);
  }

  /** Set `i` of the sorted group, for `1 <= i < min(count, drops.count)`, gets
      the rounded reduced weight and nothing else changes in it: reps, RPE
      and completion time pass through. The
      first set, the sets beyond the drop table and every other exercise's
      sets are left as they were. */
  lemma UpdateDropSetsEffect(st: SessionState, e: ExerciseId, first: real, drops: seq<real>, now: Time,
                             keys: seq<ExerciseId>, j: nat)
    requires Inv(st) && e in st.groups
    requires IsListing(keys, ExerciseIds(st.workout.sets))
    requires |st.groups[e]| <= 1 || |drops| > 0
    requires j < |st.workout.sets|
    ensures |UpdateDropSets(st, e, first, drops, now, keys).workout.sets| == |st.workout.sets|
    ensures forall i :: 1 <= i < Touched(|st.groups[e]|, drops) && SortBy(st.groups[e], CompletedAt)[i] == st.workout.sets[j] ==>
      UpdateDropSets(st, e, first, drops, now, keys).workout.sets[j]
        == st.workout.sets[j].(weight := DropWeights(first, drops)[i])
    ensures (forall i :: 1 <= i < Touched(|st.groups[e]|, drops) ==> SortBy(st.groups[e], CompletedAt)[i] != st.workout.sets[j]) ==>
      UpdateDropSets(st, e, first, drops, now, keys).workout.sets[j] == st.workout.sets[j]
  {
    var sets := st.workout.sets;
    var sorted := SortBy(st.groups[e], CompletedAt);
    assert st.groups[e] == Filter(sets, IsOf(e));
    SortedGroupFacts(sets, e);
    forall i | 1 <= i < Touched(|sorted|, drops) && sorted[i] == sets[j]
      ensures EditAll(sets, DropEdits(sorted, DropWeights(first, drops)), now)[j]
           == sets[j].(weight := DropWeights(first, drops)[i])
    {
      DropSetTouched(sets, sorted, first, drops, now, j, i);
    }
    if forall i :: 1 <= i < Touched(|sorted|, drops) ==> sorted[i] != sets[j] {
      DropSetUntouched(sets, sorted, first, drops, now, j);
    }
  }

  /** A set the loop reaches gets its drop weight and keeps everything else. */
  lemma DropSetTouched(sets: seq<ExerciseSet>, sorted: seq<ExerciseSet>, first: real, drops: seq<real>, now: Time,
                       j: nat, i: nat)
    requires UniqueIds(sets) && NoDup(sorted)
    requires forall i :: 0 <= i < |sorted| ==> sorted[i] in sets
    requires |sorted| <= 1 || |drops| > 0
    requires j < |sets| && 1 <= i < Touched(|sorted|, drops) && sorted[i] == sets[j]
    ensures EditAll(sets, DropEdits(sorted, DropWeights(first, drops)), now)[j]
         == sets[j].(weight := DropWeights(first, drops)[i])
  {
    var edits := DropEdits(sorted, DropWeights(first, drops));
    DropEditsDistinct(sets, sorted, first, drops);
    assert edits[i - 1].target == sets[j].id;
    EditAllAtEdit(sets, edits, now, j, i - 1);
  }

  /** A set the loop does not reach is left alone. */
  lemma DropSetUntouched(sets: seq<ExerciseSet>, sorted: seq<ExerciseSet>, first: real, drops: seq<real>, now: Time,
                         j: nat)
    requires UniqueIds(sets) && NoDup(sorted)
    requires forall i :: 0 <= i < |sorted| ==> sorted[i] in sets
    requires |sorted| <= 1 || |drops| > 0
    requires j < |sets|
    requires forall i :: 1 <= i < Touched(|sorted|, drops) ==> sorted[i] != sets[j]
    ensures EditAll(sets, DropEdits(sorted, DropWeights(first, drops)), now)[j] == sets[j]
  {
    var edits := DropEdits(sorted, DropWeights(first, drops));
    DropEditsDistinct(sets, sorted, first, drops);
    forall k | 0 <= k < |edits|
      ensures edits[k].target != sets[j].id
    {
      DistinctSetsIds(sets, sorted[k + 1], sets[j]);
    }
    EditAllAt(sets, edits, now, j);
  }
}

=== FILE: exercises.dfy ===
/** The exercise library (`ExerciseManager` and `ExerciseLibraryViewModel`):
    lookups and filters over the stored exercises, adding, editing and
    deleting them, the usage ranking and the seeding of the built-in
    exercises. The library is a sequence in stored order (the fetch's
    localised name sort is not modelled); the store's identity of an
    exercise is its `id`. */
module Exercises {
  import opened Basics
  import opened Sorting
  import opened Domain
  import WorkoutManager

  // ---------------------------------------------------------------------
  // Lookups and filters
  // ---------------------------------------------------------------------

  /** The exercise lists the group as a primary or a secondary muscle. */
  predicate Works(x: Exercise, m: MuscleGroup)
  {
    m in x.primaryMuscles || m in x.secondaryMuscles
  }

  function WorksMuscle(m: MuscleGroup): Exercise -> bool
  {
    (x: Exercise) => Works(x, m)
  }

  function InCategory(c: Category): Exercise -> bool
  {
    (x: Exercise) => x.category == c
  }

  /** The first exercise satisfying `p`, if any. */
  function FirstWhere(lib: seq<Exercise>, p: Exercise -> bool): (r: Option<Exercise>)
    ensures r.Some? ==> r.value in lib && p(r.value)
    ensures r.None? <==> forall i :: 0 <= i < |lib| ==> !p(lib[i])
    ensures r.Some? ==> exists i :: 0 <= i < |lib| && lib[i] == r.value && forall j :: 0 <= j < i ==> !p(lib[j])
  {
    if |lib| == 0 then None
    else if p(lib[0]) then Some(lib[0])
    else
      var r := FirstWhere(lib[1..], p);
      assert forall i :: 0 < i < |lib| ==> lib[i] == lib[1..][i - 1];
      r
  }

  function Named(name: string): Exercise -> bool
  {
    (x: Exercise) => x.name == name
  }

  function HasExerciseId(id: ExerciseId): Exercise -> bool
  {
    (x: Exercise) => x.id == id
  }

  /** `fetchExercise(withName:)`: the first exercise with that name. */
  function FetchExerciseNamed(lib: seq<Exercise>, name: string): (r: Option<Exercise>)
    ensures r.Some? ==> r.value in lib && r.value.name == name
    ensures r.None? <==> forall i :: 0 <= i < |lib| ==> lib[i].name != name
  {
    FirstWhere(lib, Named(name))
  }

  /** `fetchExercise(byId:)`. */
  function FetchExerciseById(lib: seq<Exercise>, id: ExerciseId): (r: Option<Exercise>)
    ensures r.Some? ==> r.value in lib && r.value.id == id
    ensures r.None? <==> forall i :: 0 <= i < |lib| ==> lib[i].id != id
  {
    FirstWhere(lib, HasExerciseId(id))
  }

  /** `fetchExercises(byCategory:)`: exactly the exercises of the category,
      in library order. */
  function FetchByCategory(lib: seq<Exercise>, c: Category): (r: seq<Exercise>)
    ensures IsSubsequence(r, lib)
    ensures forall x :: x in r <==> x in lib && x.category == c
  {
    FilterExactly(lib, InCategory(c));
    Filter(lib, InCategory(c))
  }

  /** `fetchExercises(byMuscleGroup:)`: exactly the exercises that list the
      group as primary or secondary, in library order. */
  function FetchByMuscleGroup(lib: seq<Exercise>, m: MuscleGroup): (r: seq<Exercise>)
    ensures IsSubsequence(r, lib)
    ensures forall x :: x in r <==> x in lib && (m in x.primaryMuscles || m in x.secondaryMuscles)
  {
    FilterExactly(lib, WorksMuscle(m));
    Filter(lib, WorksMuscle(m))
  }

  /** The muscle-group fetch is the union of two narrower fetches: an
      exercise is found through its secondary muscles as well. */
  lemma MuscleGroupCountsSecondary(lib: seq<Exercise>, x: Exercise, m: MuscleGroup)
    requires x in lib && m !in x.primaryMuscles && m in x.secondaryMuscles
    ensures x in FetchByMuscleGroup(lib, m)
  {
  }

  // ---------------------------------------------------------------------
  // Adding, editing and deleting
  // ---------------------------------------------------------------------

  /** `addExercise(...)`: the new exercise is always a custom one. */
  function AddExercise(lib: seq<Exercise>, id: ExerciseId, name: string, category: Category,
                       primary: seq<MuscleGroup>, secondary: seq<MuscleGroup>, instructions: string): (r: seq<Exercise>)
    ensures |r| == |lib| + 1 && r[..|lib|] == lib
    ensures r[|lib|].isCustom && r[|lib|].id == id && r[|lib|].name == name && r[|lib|].category == category
    ensures r[|lib|].primaryMuscles == primary && r[|lib|].secondaryMuscles == secondary
    ensures r[|lib|].instructions == instructions
  {
    lib + [Exercise(id, name, category, primary, secondary, instructions, true)]
  }

  /** The edit `updateExercise` applies to the exercise with the given id. */
  function Edit(id: ExerciseId, name: string, category: Category, primary: seq<MuscleGroup>,
                secondary: seq<MuscleGroup>, instructions: string): Exercise -> Exercise
  {
    (x: Exercise) =>
      if x.id == id
      then x.(name := name, category := category, primaryMuscles := primary,
              secondaryMuscles := secondary, instructions := instructions)
      else x
  }

  /** `updateExercise(_:...)`: the five descriptive fields are overwritten,
      whether the exercise is built in or custom. */
  function UpdateExercise(lib: seq<Exercise>, id: ExerciseId, name: string, category: Category,
                          primary: seq<MuscleGroup>, secondary: seq<MuscleGroup>, instructions: string): (r: seq<Exercise>)
    ensures |r| == |lib|
    ensures forall i :: 0 <= i < |r| ==> r[i].id == lib[i].id && r[i].isCustom == lib[i].isCustom
    ensures forall i :: 0 <= i < |r| && lib[i].id != id ==> r[i] == lib[i]
    ensures forall i :: 0 <= i < |r| && lib[i].id == id ==>
      && r[i].name == name && r[i].category == category && r[i].primaryMuscles == primary
      && r[i].secondaryMuscles == secondary && r[i].instructions == instructions
  {
    MapSeq(lib, Edit(id, name, category, primary, secondary, instructions))
  }

  /** An edit applied twice is applied once. */
  lemma UpdateIdempotent(lib: seq<Exercise>, id: ExerciseId, name: string, category: Category,
                         primary: seq<MuscleGroup>, secondary: seq<MuscleGroup>, instructions: string)
    ensures var once := UpdateExercise(lib, id, name, category, primary, secondary, instructions);
      UpdateExercise(once, id, name, category, primary, secondary, instructions) == once
  {
  }

  /** A lookup by id after an edit finds the edited exercise exactly when one
      was there before, with its new name and its custom flag unchanged. */
  lemma UpdateThenFetch(lib: seq<Exercise>, id: ExerciseId, name: string, category: Category,
                        primary: seq<MuscleGroup>, secondary: seq<MuscleGroup>, instructions: string)
    ensures FetchExerciseById(UpdateExercise(lib, id, name, category, primary, secondary, instructions), id).Some?
      <==> FetchExerciseById(lib, id).Some?
    ensures FetchExerciseById(lib, id).Some? ==>
      && FetchExerciseById(UpdateExercise(lib, id, name, category, primary, secondary, instructions), id).value.name == name
      && FetchExerciseById(UpdateExercise(lib, id, name, category, primary, secondary, instructions), id).value.isCustom
         == FetchExerciseById(lib, id).value.isCustom
  {
    FirstWhereEdited(lib, id, Edit(id, name, category, primary, secondary, instructions));
  }

  /** Looking up by id commutes with an edit that keeps ids. */
  lemma {:induction false} FirstWhereEdited(lib: seq<Exercise>, id: ExerciseId, f: Exercise -> Exercise)
    requires forall x: Exercise :: f(x).id == x.id
    ensures FirstWhere(MapSeq(lib, f), HasExerciseId(id)).Some? <==> FirstWhere(lib, HasExerciseId(id)).Some?
    ensures FirstWhere(lib, HasExerciseId(id)).Some? ==>
      FirstWhere(MapSeq(lib, f), HasExerciseId(id)).value == f(FirstWhere(lib, HasExerciseId(id)).value)
  {
    if |lib| > 0 {
      FirstWhereEdited(lib[1..], id, f);
      assert MapSeq(lib, f)[1..] == MapSeq(lib[1..], f);
    }
  }

  function NotExercise(id: ExerciseId): Exercise -> bool
  {
    (x: Exercise) => x.id != id
  }

  /** The cascade on an exercise's sets: every workout loses the sets of the
      deleted exercise. */
  function WithoutSetsOf(id: ExerciseId): Workout -> Workout
  {
    (w: Workout) => WorkoutManager.RemoveExercise(w, id)
  }

  /** `deleteExercise(_:)`: a custom exercise leaves the library together
      with its sets (the cascade rule of the exercise's set relationship);
      a built-in one is kept and nothing changes. */
  function DeleteExercise(lib: seq<Exercise>, ws: seq<Workout>, x: Exercise): (r: (seq<Exercise>, seq<Workout>))
    ensures !x.isCustom ==> r == (lib, ws)
    ensures x.isCustom ==> IsSubsequence(r.0, lib)
    ensures x.isCustom ==> forall y :: y in r.0 <==> y in lib && y.id != x.id
    ensures |r.1| == |ws|
    ensures x.isCustom ==> forall i :: 0 <= i < |ws| ==>
      r.1[i].id == ws[i].id && forall k :: 0 <= k < |r.1[i].sets| ==> r.1[i].sets[k].exercise != Some(x.id)
    ensures x.isCustom ==> forall i :: 0 <= i < |ws| ==> r.1[i] == WorkoutManager.RemoveExercise(ws[i], x.id)
  {
    if x.isCustom then
      FilterExactly(lib, NotExercise(x.id));
      (Filter(lib, NotExercise(x.id)), MapSeq(ws, WithoutSetsOf(x.id)))
    else (lib, ws)
  }

  /** Deleting an exercise just added removes it again: the library is back
      to what it was, provided the new id was fresh. */
  lemma AddThenDelete(lib: seq<Exercise>, ws: seq<Workout>, id: ExerciseId, name: string, category: Category,
                      primary: seq<MuscleGroup>, secondary: seq<MuscleGroup>, instructions: string)
    requires forall i :: 0 <= i < |lib| ==> lib[i].id != id
    ensures var added := AddExercise(lib, id, name, category, primary, secondary, instructions);
      DeleteExercise(added, ws, added[|lib|]).0 == lib
  {
    var added := AddExercise(lib, id, name, category, primary, secondary, instructions);
    var x := added[|lib|];
    assert added == lib + [x];
    FilterAppend(lib, [x], NotExercise(id));
    FilterAll(lib, NotExercise(id));
    assert Filter([x], NotExercise(id)) == [] by {
      assert Filter([x][1..], NotExercise(id)) == [];
    }
  }

  /** A built-in exercise survives every delete request. */
  lemma BuiltInSurvives(lib: seq<Exercise>, ws: seq<Workout>, x: Exercise)
    requires x in lib && !x.isCustom
    ensures x in DeleteExercise(lib, ws, x).0
  {
  }

  // ---------------------------------------------------------------------
  // Usage ranking
  // ---------------------------------------------------------------------

  /** How many sets refer to the exercise. */
  function Usage(sets: seq<ExerciseSet>, id: ExerciseId): nat
  {
    Count(sets, IsOf(id))
  }

  function UsedIn(sets: seq<ExerciseSet>): Exercise -> bool
  {
    (x: Exercise) => Usage(sets, x.id) > 0
  }

  /** Ascending order on this key is descending usage. */
  function UsageKey(sets: seq<ExerciseSet>): Exercise -> real
  {
    (x: Exercise) => -(Usage(sets, x.id) as real)
  }

  /** The used exercises, most used first; ties keep library order. */
  function Ranked(lib: seq<Exercise>, sets: seq<ExerciseSet>): (r: seq<Exercise>)
    ensures forall i :: 0 <= i < |r| ==> r[i] in lib && Usage(sets, r[i].id) >= 1
    ensures forall i, j :: 0 <= i < j < |r| ==> Usage(sets, r[i].id) >= Usage(sets, r[j].id)
  {
    var used := Filter(lib, UsedIn(sets));
    var sorted := SortBy(used, UsageKey(sets));
    forall i | 0 <= i < |sorted| ensures sorted[i] in lib && Usage(sets, sorted[i].id) >= 1 {
      SortByMembers(used, UsageKey(sets), sorted[i]);
      FilterMember(lib, UsedIn(sets), sorted[i]);
    }
    forall i, j | 0 <= i < j < |sorted| ensures Usage(sets, sorted[i].id) >= Usage(sets, sorted[j].id) {
      assert UsageKey(sets)(sorted[i]) <= UsageKey(sets)(sorted[j]);
    }
    sorted
  }

  /** `getMostUsedExercises(limit:)`: nothing when the sets cannot be
      fetched (`None`), otherwise the first `limit` used exercises by
      descending usage. A negative limit traps in the source. */
  function GetMostUsedExercises(lib: seq<Exercise>, sets: Option<seq<ExerciseSet>>, limit: nat := 5): (r: seq<Exercise>)
    ensures |r| <= limit
    ensures sets.None? ==> r == []
    ensures sets.Some? ==> forall i :: 0 <= i < |r| ==> r[i] in lib && Usage(sets.value, r[i].id) >= 1
    ensures sets.Some? ==> forall i, j :: 0 <= i < j < |r| ==> Usage(sets.value, r[i].id) >= Usage(sets.value, r[j].id)
  {
    match sets
    case None => []
    case Some(all) => Ranked(lib, all)[..MinNat(limit, |Ranked(lib, all)|)]
  }

  /** The ranking is a top list: a used exercise left out ranks no higher
      than any exercise kept, and is only left out when the list is full. */
  lemma MostUsedIsTop(lib: seq<Exercise>, sets: seq<ExerciseSet>, limit: nat, x: Exercise)
    requires x in lib && Usage(sets, x.id) >= 1
    requires x !in GetMostUsedExercises(lib, Some(sets), limit)
    ensures |GetMostUsedExercises(lib, Some(sets), limit)| == limit
    ensures forall i :: 0 <= i < limit ==> Usage(sets, GetMostUsedExercises(lib, Some(sets), limit)[i].id) >= Usage(sets, x.id)
  {
    var used := Filter(lib, UsedIn(sets));
    var ranked := Ranked(lib, sets);
    FilterMember(lib, UsedIn(sets), x);
    SortByMembers(used, UsageKey(sets), x);
    var k :| 0 <= k < |ranked| && ranked[k] == x;
    var r := GetMostUsedExercises(lib, Some(sets), limit);
    assert r == ranked[..MinNat(limit, |ranked|)];
    assert k >= |r|;
    forall i | 0 <= i < limit ensures Usage(sets, r[i].id) >= Usage(sets, x.id) {
      assert r[i] == ranked[i];
      assert UsageKey(sets)(ranked[i]) <= UsageKey(sets)(ranked[k]);
    }
  }

  /** Equally used exercises keep their library (name) order. */
  lemma MostUsedTiesKeepOrder(lib: seq<Exercise>, sets: seq<ExerciseSet>, k: real)
    ensures Filter(Ranked(lib, sets), HasKey(UsageKey(sets), k))
         == Filter(Filter(lib, UsedIn(sets)), HasKey(UsageKey(sets), k))
  {
    SortByStable(Filter(lib, UsedIn(sets)), UsageKey(sets), k);
  }

  // ---------------------------------------------------------------------
  // Built-in exercises
  // ---------------------------------------------------------------------

  datatype Builtin = Builtin(name: string, category: Category, primary: seq<MuscleGroup>,
                             secondary: seq<MuscleGroup>, instructions: string)

  /** The sixteen exercises a new library is seeded with. */
  const DefaultExercises: seq<Builtin> := [
    Builtin("Barbell Bench Press", Compound, [Chest], [Triceps, Shoulders],
            "Lie on a bench and press the barbell from chest to full extension."),
    Builtin("Barbell Squat", Compound, [Quadriceps], [Glutes, Hamstrings, LowerBack],
            "Place bar on upper back, squat down until thighs are parallel to floor, then stand up."),
    Builtin("Deadlift", Compound, [Back, Hamstrings], [Glutes, Quadriceps, Traps, Forearms],
            "Bend at hips and knees to grab bar, then stand up straight while keeping back flat."),
    Builtin("Overhead Press", Compound, [Shoulders], [Triceps, Traps],
            "Press barbell from shoulders to overhead with straight arms."),
    Builtin("Pull-up", Compound, [Back], [Biceps, Shoulders],
            "Hang from bar and pull yourself up until chin is over the bar."),
    Builtin("Barbell Row", Compound, [Back], [Biceps, Shoulders, Traps],
            "Bend at hips with back flat, pull barbell to lower chest."),
    Builtin("Dip", Compound, [Chest, Triceps], [Shoulders],
            "Support yourself on parallel bars, lower body until upper arms are parallel to floor, then push up."),
    Builtin("Bicep Curl", Isolation, [Biceps], [Forearms],
            "Curl weight from full extension to full flexion."),
    Builtin("Tricep Extension", Isolation, [Triceps], [],
            "Extend arms from flexed position to straight position."),
    Builtin("Leg Extension", Isolation, [Quadriceps], [],
            "Extend knees from 90 degrees to full extension."),
    Builtin("Leg Curl", Isolation, [Hamstrings], [],
            "Curl legs from straight position to full flexion."),
    Builtin("Lateral Raise", Isolation, [Shoulders], [],
            "Raise arms out to sides until parallel with floor."),
    Builtin("Calf Raise", Isolation, [Calves], [],
            "Raise heels off ground by extending ankles."),
    Builtin("Push-up", Bodyweight, [Chest], [Triceps, Shoulders],
            "Lower body to ground and push back up with arms."),
    Builtin("Body Weight Squat", Bodyweight, [Quadriceps], [Glutes, Hamstrings],
            "Squat down until thighs are parallel to floor, then stand up."),
    Builtin("Lunge", Bodyweight, [Quadriceps], [Glutes, Hamstrings],
            "Step forward and lower body until both knees are at 90 degrees, then push back up.")
  ]

  /** The built-in exercises as stored, with ids from `nextId` on. */
  function BuiltinExercises(defs: seq<Builtin>, nextId: nat): (r: seq<Exercise>)
    ensures |r| == |defs|
    ensures forall i :: 0 <= i < |r| ==>
      && !r[i].isCustom && r[i].id == nextId + i && r[i].name == defs[i].name
      && r[i].category == defs[i].category && r[i].primaryMuscles == defs[i].primary
      && r[i].secondaryMuscles == defs[i].secondary && r[i].instructions == defs[i].instructions
  {
    seq(|defs|, i requires 0 <= i < |defs| =>
      Exercise(nextId + i, defs[i].name, defs[i].category, defs[i].primary, defs[i].secondary,
               defs[i].instructions, false))
  }

  /** `loadDefaultExercisesIfNeeded()`: the defaults are added unless the
      count query succeeds (`countOk`) and finds an exercise. A failed count
      seeds even a non-empty library. */
  function SeedDefaults(lib: seq<Exercise>, countOk: bool, nextId: nat): (r: seq<Exercise>)
    ensures countOk && |lib| > 0 ==> r == lib
    ensures !(countOk && |lib| > 0) ==> |r| == |lib| + 16 && r[..|lib|] == lib
    ensures !(countOk && |lib| > 0) ==> forall i :: |lib| <= i < |r| ==> !r[i].isCustom
  {
    if countOk && |lib| > 0 then lib
    else lib + BuiltinExercises(DefaultExercises, nextId)
  }

  /** Seeding happens at most once when the count query succeeds: a seeded
      library is never seeded again. */
  lemma SeedOnce(lib: seq<Exercise>, n: nat, m: nat)
    ensures SeedDefaults(SeedDefaults(lib, true, n), true, m) == SeedDefaults(lib, true, n)
    ensures |SeedDefaults(lib, true, n)| > 0
  {
  }

  /** The defaults: sixteen, none custom, and every one a compound,
      isolation or bodyweight exercise. */
  lemma DefaultsShape(nextId: nat)
    ensures |DefaultExercises| == 16
    ensures forall i :: 0 <= i < 16 ==> !BuiltinExercises(DefaultExercises, nextId)[i].isCustom
    ensures forall i :: 0 <= i < 16 ==> DefaultExercises[i].category in {Compound, Isolation, Bodyweight}
  {
  }

  /** No two defaults share a name. */
  lemma DefaultNamesDistinct()
    ensures forall i, j :: 0 <= i < j < |DefaultExercises| ==> DefaultExercises[i].name != DefaultExercises[j].name
  {
  }

  // ---------------------------------------------------------------------
  // The library screen's filter
  // ---------------------------------------------------------------------

  /** ASCII upper-case letters folded to lower case. */
  function LowerAscii(c: char): char
  {
    if 'A' <= c <= 'Z' then (c as int + 32) as char else c
  }

  function Lower(s: string): (r: string)
    ensures |r| == |s|
  {
    MapSeq(s, LowerAscii)
  }

  /** `n` occurs in `h` as a contiguous run. */
  function HasInfix(h: string, n: string): (r: bool)
    decreases |h|
  {
    if |n| > |h| then false
    else if h[..|n|] == n then true
    else HasInfix(h[1..], n)
  }

  /** The reference definition of containment. */
  predicate OccursAt(h: string, n: string, i: int)
  {
    0 <= i && i + |n| <= |h| && h[i..i + |n|] == n
  }

  lemma {:induction false} HasInfixCorrect(h: string, n: string)
    decreases |h|
    ensures HasInfix(h, n) <==> exists i :: OccursAt(h, n, i)
  {
    if |n| > |h| {
    } else if h[..|n|] == n {
      assert OccursAt(h, n, 0);
    } else {
      HasInfixCorrect(h[1..], n);
      if exists i :: OccursAt(h[1..], n, i) {
        var i :| OccursAt(h[1..], n, i);
        assert h[i + 1..i + 1 + |n|] == h[1..][i..i + |n|];
        assert OccursAt(h, n, i + 1);
      }
      if exists i :: OccursAt(h, n, i) {
        var i :| OccursAt(h, n, i);
        assert i != 0;
        assert h[1..][i - 1..i - 1 + |n|] == h[i..i + |n|];
        assert OccursAt(h[1..], n, i - 1);
      }
    }
  }

  /** `localizedCaseInsensitiveContains`, with ASCII case folding. */
  predicate ContainsIgnoringCase(h: string, n: string)
  {
    HasInfix(Lower(h), Lower(n))
  }

  /** The three tests of `fetchExercises()`. */
  predicate Matches(x: Exercise, search: string, category: Option<Category>, muscle: Option<MuscleGroup>)
  {
    && (|search| == 0 || ContainsIgnoringCase(x.name, search))
    && (category.None? || x.category == category.value)
    && (muscle.None? || Works(x, muscle.value))
  }

  function MatchesAll(search: string, category: Option<Category>, muscle: Option<MuscleGroup>): Exercise -> bool
  {
    (x: Exercise) => Matches(x, search, category, muscle)
  }

  /** `fetchExercises()`: the loaded exercises that pass all three tests,
      in their original order. */
  function FetchExercises(exercises: seq<Exercise>, search: string, category: Option<Category>,
                          muscle: Option<MuscleGroup>): (r: seq<Exercise>)
    ensures IsSubsequence(r, exercises)
    ensures forall x :: x in r <==> x in exercises && Matches(x, search, category, muscle)
  {
    FilterExactly(exercises, MatchesAll(search, category, muscle));
    Filter(exercises, MatchesAll(search, category, muscle))
  }

  /** With an empty search and no filter every exercise is listed. */
  lemma NoFilterKeepsAll(exercises: seq<Exercise>)
    ensures FetchExercises(exercises, "", None, None) == exercises
  {
    FilterAll(exercises, MatchesAll("", None, None));
  }

  /** Choosing a category only narrows the list, to the exercises of that
      category among those listed before. */
  lemma CategoryNarrows(exercises: seq<Exercise>, search: string, c: Category, muscle: Option<MuscleGroup>)
    ensures FetchExercises(exercises, search, Some(c), muscle)
         == Filter(FetchExercises(exercises, search, None, muscle), InCategory(c))
  {
    FilterBoth(exercises, MatchesAll(search, None, muscle), InCategory(c), MatchesAll(search, Some(c), muscle));
  }

  /** Filtering by a conjunction is filtering twice. */
  lemma {:induction false} FilterBoth<T>(xs: seq<T>, p: T -> bool, q: T -> bool, pq: T -> bool)
    requires forall x :: pq(x) == (p(x) && q(x))
    ensures Filter(xs, pq) == Filter(Filter(xs, p), q)
  {
    if |xs| > 0 {
      FilterBoth(xs[1..], p, q, pq);
      FilterAppend(if p(xs[0]) then [xs[0]] else [], Filter(xs[1..], p), q);
      assert Filter(if p(xs[0]) then [xs[0]] else [], q) == if pq(xs[0]) then [xs[0]] else [] by {
        if p(xs[0]) {
          assert Filter([xs[0]], q) == (if q(xs[0]) then [xs[0]] else []) + Filter([xs[0]][1..], q);
        }
      }
    }
  }

  /** The search ignores ASCII case: "dIP" finds "Dip". */
  lemma SearchIgnoresCase()
    ensures ContainsIgnoringCase("Dip", "dIP")
  {
    var h := Lower("Dip");
    var n := Lower("dIP");
    forall i | 0 <= i < 3 ensures h[i] == n[i] {
      assert h[i] == LowerAscii("Dip"[i]) && n[i] == LowerAscii("dIP"[i]);
    }
    assert h[..3] == n;
  }
}

=== FILE: followup.dfy ===
/** `Workout.createFollowUpWorkout`: the next session of a reverse-pyramid
    plan. For each exercise the previous working sets are grouped by
    completion time into slots (only the first set of a slot counts); slot 1
    is raised by a percentage and every later slot keeps its original ratio
    to slot 1; every weight is rounded to 5 lb. */
module FollowUp {
  import opened Basics
  import opened Sorting
  import opened RPT
  import opened Domain

  // ---------------------------------------------------------------------
  // Slots: the first set of each run of equal completion times
  // ---------------------------------------------------------------------

  predicate StartsRun(xs: seq<ExerciseSet>, i: int)
    requires 0 <= i < |xs|
  {
    i == 0 || xs[i - 1].completedAt != xs[i].completedAt
  }

  /** Positions at which a new completion time begins, in increasing order. */
  function SlotStarts(xs: seq<ExerciseSet>): (r: seq<nat>)
    ensures forall k :: 0 <= k < |r| ==> r[k] < |xs| && StartsRun(xs, r[k])
    ensures forall k, l :: 0 <= k < l < |r| ==> r[k] < r[l]
    ensures forall i :: 0 <= i < |xs| && StartsRun(xs, i) ==> i in r
    ensures |xs| > 0 ==> |r| > 0 && r[0] == 0
  {
    if |xs| == 0 then []
    else
      var n := |xs|;
      var prev := SlotStarts(xs[..n - 1]);
      assert forall i :: 0 <= i < n - 1 ==> (StartsRun(xs[..n - 1], i) <==> StartsRun(xs, i));
      prev + (if StartsRun(xs, n - 1) then [n - 1] else [])
  }

  /** `Dictionary(grouping: sets, by: completedAt)` with the groups ordered by
      time and each group reduced to its first element. */
  function Slots(xs: seq<ExerciseSet>): (r: seq<ExerciseSet>)
    ensures |xs| > 0 ==> |r| > 0 && r[0] == xs[0]
  {
    var starts := SlotStarts(xs);
    seq(|starts|, k requires 0 <= k < |starts| => xs[starts[k]])
  }

  /** On time-sorted sets, slot times strictly increase. */
  lemma SlotTimesIncrease(xs: seq<ExerciseSet>)
    requires SortedBy(xs, CompletedAt)
    ensures forall k, l :: 0 <= k < l < |Slots(xs)| ==> Slots(xs)[k].completedAt < Slots(xs)[l].completedAt
  {
    forall k, l | 0 <= k < l < |Slots(xs)|
      ensures Slots(xs)[k].completedAt < Slots(xs)[l].completedAt
    {
      SlotTimeBelow(xs, k, l);
    }
  }

  lemma SlotTimeBelow(xs: seq<ExerciseSet>, k: nat, l: nat)
    requires SortedBy(xs, CompletedAt)
    requires k < l < |Slots(xs)|
    ensures Slots(xs)[k].completedAt < Slots(xs)[l].completedAt
  {
    var starts := SlotStarts(xs);
    var a, b := starts[k], starts[l];
    assert a < b && b < |xs|;
    assert StartsRun(xs, b);
    var before, at := xs[b - 1].completedAt, xs[b].completedAt;
    assert before <= at && before != at;
    assert xs[a].completedAt <= before;
    assert Slots(xs)[k] == xs[a] && Slots(xs)[l] == xs[b];
  }

  /** On time-sorted sets, a slot is the earliest-listed set with its time. */
  lemma SlotIsFirstOfItsTime(xs: seq<ExerciseSet>, k: nat)
    requires SortedBy(xs, CompletedAt)
    requires k < |Slots(xs)|
    ensures Slots(xs)[k] == xs[SlotStarts(xs)[k]]
    ensures forall j :: 0 <= j < SlotStarts(xs)[k] ==> xs[j].completedAt < Slots(xs)[k].completedAt
  {
    var b := SlotStarts(xs)[k];
    if b > 0 {
      assert xs[b - 1].completedAt != xs[b].completedAt;
      assert forall j :: 0 <= j < b ==> xs[j].completedAt <= xs[b - 1].completedAt;
    }
  }

  /** Every completion time among the sets has a slot. */
  lemma EveryTimeHasSlot(xs: seq<ExerciseSet>, i: nat)
    requires i < |xs|
    ensures exists k :: 0 <= k < |Slots(xs)| && Slots(xs)[k].completedAt == xs[i].completedAt
  {
    var starts := SlotStarts(xs);
    var b := RunStart(xs, i);
    assert b in starts;
    var k :| 0 <= k < |starts| && starts[k] == b;
    assert Slots(xs)[k] == xs[b];
  }

  /** The position where the run containing `i` begins. */
  function RunStart(xs: seq<ExerciseSet>, i: nat): (b: nat)
    requires i < |xs|
    ensures b <= i && StartsRun(xs, b)
    ensures xs[b].completedAt == xs[i].completedAt
  {
    if StartsRun(xs, i) then i else RunStart(xs, i - 1)
  }

  /** Two sets logged at the same instant form one slot and only the first
      one is used. */
  lemma SlotsOfTie(a: ExerciseSet, b: ExerciseSet, c: ExerciseSet)
    requires a.completedAt == b.completedAt != c.completedAt
    ensures Slots([a, b, c]) == [a, c]
  {
    var xs := [a, b, c];
    assert xs[..2][..1] == [a];
    assert SlotStarts(xs[..2][..1]) == [0];
    assert SlotStarts(xs[..2]) == [0];
    assert SlotStarts(xs) == [0, 2];
  }

  // ---------------------------------------------------------------------
  // Per-exercise block
  // ---------------------------------------------------------------------

  /** An exercise's working sets in completion order. */
  function WorkingSlots(w: Workout, e: ExerciseId): seq<ExerciseSet>
  {
    Slots(Filter(GroupOf(w.sets, e), Not(IsWarmupSet())))
  }

  /** What a follow-up set keeps of its slot: weight, reps and RPE. */
  datatype Shape = Shape(weight: real, reps: int, rpe: Option<int>)

  function Shapes(xs: seq<ExerciseSet>): (r: seq<Shape>)
    ensures |r| == |xs|
    ensures forall i :: 0 <= i < |r| ==> r[i] == Shape(xs[i].weight, xs[i].reps, xs[i].rpe)
  {
    seq(|xs|, i requires 0 <= i < |xs| => Shape(xs[i].weight, xs[i].reps, xs[i].rpe))
  }

  /** Slot 1 of the follow-up: the old slot-1 weight raised by `p`, rounded to 5. */
  function RaisedWeight(w1: real, p: real): (r: int)
    ensures r % 5 == 0
  {
    Round5(w1 * (1.0 + p))
  }

  /** A later slot as the source computes it: the old drop from slot 1,
      `1 - w / w1`, applied to the new slot-1 weight, rounded to 5. */
  function KeptDropWeight(n1: real, w1: real, w: real): real
    requires w1 > 0.0
  {
    Round5(n1 * (1.0 - (1.0 - w / w1))) as real
  }

  /** A later slot as a plain ratio: `n1 * w / w1`, rounded to 5. */
  function ScaledWeight(n1: real, w1: real, w: real): real
    requires w1 > 0.0
  {
    Round5(n1 * w / w1) as real
  }

  lemma KeptDropArithmetic(n1: real, w1: real, w: real)
    requires w1 > 0.0
    ensures Round5(n1 * (1.0 - (1.0 - w / w1))) == Round5(n1 * w / w1)
  {
    assert 1.0 - (1.0 - w / w1) == w / w1;
    assert n1 * (w / w1) == n1 * w / w1;
  }

  /** Re-applying the old drop is the same as scaling by the old ratio. */
  lemma KeptDropIsScaling(n1: real, w1: real, w: real)
    requires w1 > 0.0
    ensures KeptDropWeight(n1, w1, w) == ScaledWeight(n1, w1, w)
  {
    KeptDropArithmetic(n1, w1, w);
  }

  function Weights(xs: seq<ExerciseSet>): (r: seq<real>)
    ensures |r| == |xs|
    ensures forall i :: 0 <= i < |r| ==> r[i] == xs[i].weight
  {
    seq(|xs|, i requires 0 <= i < |xs| => xs[i].weight)
  }

  /** Reference definition of an exercise's follow-up: slot 1 raised by `p`
      and rounded; every later slot scaled by its ratio to the old slot 1 and
      rounded, or dropped altogether when the old slot 1 weighed nothing. */
  function PlannedShapes(slots: seq<ExerciseSet>, p: real): (r: seq<Shape>)
    ensures |slots| == 0 ==> r == []
    ensures |slots| > 0 ==> |r| == (if slots[0].weight > 0.0 then |slots| else 1)
    ensures |slots| > 0 ==> r[0].weight == RaisedWeight(slots[0].weight, p) as real
    ensures forall i :: 0 <= i < |r| ==> r[i].reps == slots[i].reps && r[i].rpe == slots[i].rpe
  {
    if |slots| == 0 then []
    else
      var w1 := slots[0].weight;
      var n1 := RaisedWeight(w1, p) as real;
      var later := slots[1..];
      [Shape(n1, slots[0].reps, slots[0].rpe)]
      + (if w1 > 0.0 then
           seq(|later|, k requires 0 <= k < |later| =>
             Shape(ScaledWeight(n1, w1, later[k].weight), later[k].reps, later[k].rpe))
         else [])
  }

  /** The clock `k` ticks after `now`. Each `addSet` builds its set with
      its own `Date()`, so every set of the follow-up reads a later clock
      than the one before; the model advances the clock by one millisecond
      per set. */
  function StampAt(now: Time, k: nat): Time
  {
    now + k as real / 1000.0
  }

  lemma StampAtIncreasing(now: Time, a: nat, b: nat)
    ensures a < b <==> StampAt(now, a) < StampAt(now, b)
  {
  }

  lemma StampAtShift(now: Time, a: nat, b: nat)
    ensures StampAt(StampAt(now, a), b) == StampAt(now, a + b)
  {
  }

  /** The sets created for one exercise, numbered from `nextId` and stamped
      from `start` on, one tick apart: set 0 at the raised weight, then, when
      the old slot 1 weighed something, one set per later slot at its kept
      drop ratio. */
  function Block(e: ExerciseId, slots: seq<ExerciseSet>, p: real, followId: WorkoutId,
                 nextId: SetId, start: Time): (r: seq<ExerciseSet>)
    ensures forall i :: 0 <= i < |r| ==> r[i].id == nextId + i
    ensures forall i :: 0 <= i < |r| ==> r[i].exercise == Some(e) && !r[i].isWarmup
    ensures forall i :: 0 <= i < |r| ==> r[i].workout == Some(followId) && r[i].completedAt == StampAt(start, i)
  {
    if |slots| == 0 then []
    else
      var w1 := slots[0].weight;
      var n1 := RaisedWeight(w1, p) as real;
      var count := if w1 > 0.0 then |slots| else 1;
      seq(count, i requires 0 <= i < count =>
        NewSet(nextId + i, if i == 0 then n1 else KeptDropWeight(n1, w1, slots[i].weight), slots[i].reps, e,
               StampAt(start, i), Some(followId), None, false, slots[i].rpe))
  }

  /** The source's formula agrees with the reference definition. */
  lemma BlockMatchesPlan(e: ExerciseId, slots: seq<ExerciseSet>, p: real, followId: WorkoutId,
                         nextId: SetId, start: Time)
    ensures Shapes(Block(e, slots, p, followId, nextId, start)) == PlannedShapes(slots, p)
  {
    if |slots| > 0 {
      var w1 := slots[0].weight;
      var n1 := RaisedWeight(w1, p) as real;
      var got := Shapes(Block(e, slots, p, followId, nextId, start));
      var want := PlannedShapes(slots, p);
      forall i | 1 <= i < |got|
        ensures got[i] == want[i]
      {
        assert w1 > 0.0;
        assert want[i] == Shape(ScaledWeight(n1, w1, slots[i].weight), slots[i].reps, slots[i].rpe);
        KeptDropIsScaling(n1, w1, slots[i].weight);
      }
    }
  }

  /** Every planned weight is a whole multiple of 5. */
  lemma PlannedWeightsMultiplesOf5(slots: seq<ExerciseSet>, p: real)
    ensures forall i :: 0 <= i < |PlannedShapes(slots, p)| ==>
      exists m: int :: m % 5 == 0 && PlannedShapes(slots, p)[i].weight == m as real
  {
    var r := PlannedShapes(slots, p);
    forall i | 0 <= i < |r|
      ensures exists m: int :: m % 5 == 0 && r[i].weight == m as real
    {
      if i == 0 {
        var m := RaisedWeight(slots[0].weight, p);
        assert r[i].weight == m as real;
      } else {
        var w1 := slots[0].weight;
        var n1 := RaisedWeight(w1, p) as real;
        var m := Round5(n1 * slots[i].weight / w1);
        assert r[i].weight == ScaledWeight(n1, w1, slots[i].weight);
      }
    }
  }

  // ---------------------------------------------------------------------
  // The whole follow-up workout
  // ---------------------------------------------------------------------

  /** Concatenates the blocks of the exercises in dictionary order `order`;
      the clock keeps running from one block to the next. */
  function Build(slotsOf: ExerciseId -> seq<ExerciseSet>, order: seq<ExerciseId>, p: real,
                 followId: WorkoutId, nextId: SetId, start: Time): (r: seq<ExerciseSet>)
    ensures forall i :: 0 <= i < |r| ==>
      && r[i].id == nextId + i
      && !r[i].isWarmup && r[i].workout == Some(followId)
      && r[i].exercise.Some? && r[i].exercise.value in order
    decreases |order|
  {
    if |order| == 0 then []
    else
      var b := Block(order[0], slotsOf(order[0]), p, followId, nextId, start);
      b + Build(slotsOf, order[1..], p, followId, nextId + |b|, StampAt(start, |b|))
  }

  /** Set `i` of `xs` is stamped `i` ticks after `start`. */
  predicate StampedFrom(xs: seq<ExerciseSet>, start: Time)
  {
    forall i :: 0 <= i < |xs| ==> xs[i].completedAt == StampAt(start, i)
  }

  lemma StampedAppend(xs: seq<ExerciseSet>, ys: seq<ExerciseSet>, start: Time)
    requires StampedFrom(xs, start) && StampedFrom(ys, StampAt(start, |xs|))
    ensures StampedFrom(xs + ys, start)
  {
    forall i | |xs| <= i < |xs + ys|
      ensures (xs + ys)[i].completedAt == StampAt(start, i)
    {
      var j := i - |xs|;
      assert (xs + ys)[i] == ys[j];
      StampAtShift(start, |xs|, j);
    }
  }

  /** `createFollowUpWorkout(percentageIncrease:)` (default 2.5 %). The
      exercise grouping force-unwraps every set's exercise; `order` is the
      unspecified enumeration order of that grouping. The workout is dated
      `now` and its sets are stamped after it, one tick apart. */
  function CreateFollowUpWorkout(w: Workout, order: seq<ExerciseId>, followId: WorkoutId,
                                 firstSetId: SetId, now: Time, p: real := 0.025): (f: Workout)
    requires AllAttached(w.sets)
    requires IsListing(order, ExerciseIds(w.sets))
    ensures f.name == "Follow-up: " + w.name
    ensures f.startedFromTemplate == w.startedFromTemplate
    ensures f.id == followId && f.date == now && !f.isCompleted && f.duration == 0.0
    ensures forall i :: 0 <= i < |f.sets| ==> !f.sets[i].isWarmup
    ensures UniqueIds(f.sets)
    ensures ExerciseIds(f.sets) <= ExerciseIds(w.sets)
    ensures forall i :: 0 <= i < |f.sets| ==> f.sets[i].completedAt == StampAt(now, 1 + i)
    ensures forall i, j :: 0 <= i < j < |f.sets| ==> now < f.sets[i].completedAt < f.sets[j].completedAt
  {
    ListingMembers(order, ExerciseIds(w.sets));
    var sets := Build((x: ExerciseId) => WorkingSlots(w, x), order, p, followId, firstSetId, StampAt(now, 1));
    BuildStamps((x: ExerciseId) => WorkingSlots(w, x), order, p, followId, firstSetId, StampAt(now, 1));
    StampedAfter(sets, now);
    NewWorkout(followId, now, "Follow-up: " + w.name, w.startedFromTemplate).(sets := sets)
  }

  /** Sets stamped one tick apart from one tick after `now` on. */
  lemma StampedAfter(sets: seq<ExerciseSet>, now: Time)
    requires StampedFrom(sets, StampAt(now, 1))
    ensures forall i :: 0 <= i < |sets| ==> sets[i].completedAt == StampAt(now, 1 + i)
    ensures forall i, j :: 0 <= i < j < |sets| ==> now < sets[i].completedAt < sets[j].completedAt
  {
    forall i | 0 <= i < |sets|
      ensures sets[i].completedAt == StampAt(now, 1 + i)
    {
      StampAtShift(now, 1, i);
    }
    forall i, j | 0 <= i < j < |sets|
      ensures now < sets[i].completedAt < sets[j].completedAt
    {
      StampAtIncreasing(now, 0, 1 + i);
      StampAtIncreasing(now, 1 + i, 1 + j);
    }
  }

  lemma {:induction false} BuildProjection(slotsOf: ExerciseId -> seq<ExerciseSet>, order: seq<ExerciseId>,
                                           p: real, followId: WorkoutId, nextId: SetId, start: Time,
                                           e: ExerciseId)
    requires NoDup(order)
    ensures Shapes(Filter(Build(slotsOf, order, p, followId, nextId, start), IsOf(e)))
         == (if e in order then PlannedShapes(slotsOf(e), p) else [])
    decreases |order|
  {
    if |order| > 0 {
      var b := Block(order[0], slotsOf(order[0]), p, followId, nextId, start);
      var rest := Build(slotsOf, order[1..], p, followId, nextId + |b|, StampAt(start, |b|));
      assert NoDup(order[1..]);
      BuildProjection(slotsOf, order[1..], p, followId, nextId + |b|, StampAt(start, |b|), e);
      if order[0] == e {
        BlockMatchesPlan(e, slotsOf(e), p, followId, nextId, start);
      }
      BuildStep(slotsOf, order, p, followId, nextId, start, b, rest);
      ProjectionStep(Build(slotsOf, order, p, followId, nextId, start), b, rest, e, order,
                     PlannedShapes(slotsOf(e), p));
    }
  }

  /** The clock runs on across the blocks: set `i` of the follow-up is
      stamped `i` ticks after `start`. */
  lemma {:induction false} BuildStamps(slotsOf: ExerciseId -> seq<ExerciseSet>, order: seq<ExerciseId>, p: real,
                                       followId: WorkoutId, nextId: SetId, start: Time)
    ensures StampedFrom(Build(slotsOf, order, p, followId, nextId, start), start)
    decreases |order|
  {
    if |order| > 0 {
      var b := Block(order[0], slotsOf(order[0]), p, followId, nextId, start);
      var rest := Build(slotsOf, order[1..], p, followId, nextId + |b|, StampAt(start, |b|));
      BuildStamps(slotsOf, order[1..], p, followId, nextId + |b|, StampAt(start, |b|));
      StampedAppend(b, rest, start);
      BuildStep(slotsOf, order, p, followId, nextId, start, b, rest);
    }
  }

  /** One step of `Build`: the first exercise's block, then the rest. */
  lemma BuildStep(slotsOf: ExerciseId -> seq<ExerciseSet>, order: seq<ExerciseId>, p: real,
                  followId: WorkoutId, nextId: SetId, start: Time, b: seq<ExerciseSet>, rest: seq<ExerciseSet>)
    requires |order| > 0
    requires b == Block(order[0], slotsOf(order[0]), p, followId, nextId, start)
    requires rest == Build(slotsOf, order[1..], p, followId, nextId + |b|, StampAt(start, |b|))
    ensures Build(slotsOf, order, p, followId, nextId, start) == b + rest
  {
  }

  /** One block in front of the rest: the block contributes to exercise `e`
      exactly when it is `e`'s block, and no exercise has two blocks. */
  lemma ProjectionStep(all: seq<ExerciseSet>, b: seq<ExerciseSet>, rest: seq<ExerciseSet>, e: ExerciseId,
                       order: seq<ExerciseId>, planned: seq<Shape>)
    requires |order| > 0 && NoDup(order)
    requires all == b + rest
    requires forall i :: 0 <= i < |b| ==> b[i].exercise == Some(order[0])
    requires order[0] == e ==> Shapes(b) == planned
    requires Shapes(Filter(rest, IsOf(e))) == (if e in order[1..] then planned else [])
    ensures Shapes(Filter(all, IsOf(e))) == (if e in order then planned else [])
  {
    FilterAppend(b, rest, IsOf(e));
    if order[0] == e {
      FilterAll(b, IsOf(e));
      assert e !in order[1..];
      assert Filter(rest, IsOf(e)) == [];
      assert Filter(all, IsOf(e)) == b;
    } else {
      FilterNone(b, IsOf(e));
      assert Filter(all, IsOf(e)) == Filter(rest, IsOf(e));
      assert e in order <==> e in order[1..];
    }
  }

  /** Whatever the enumeration order, each exercise of the old workout gets
      exactly its planned sets in the follow-up, in slot order, and the
      follow-up has nothing for other exercises. */
  lemma FollowUpPerExercise(w: Workout, order: seq<ExerciseId>, followId: WorkoutId,
                            firstSetId: SetId, now: Time, p: real, e: ExerciseId)
    requires AllAttached(w.sets)
    requires IsListing(order, ExerciseIds(w.sets))
    ensures Shapes(Filter(CreateFollowUpWorkout(w, order, followId, firstSetId, now, p).sets, IsOf(e)))
         == (if e in ExerciseIds(w.sets) then PlannedShapes(WorkingSlots(w, e), p) else [])
  {
    ListingNoDup(order, ExerciseIds(w.sets));
    ListingMembers(order, ExerciseIds(w.sets));
    BuildProjection((x: ExerciseId) => WorkingSlots(w, x), order, p, followId, firstSetId, StampAt(now, 1), e);
  }

  /** No two of the sets share a completion time. */
  predicate DistinctTimes(xs: seq<ExerciseSet>)
  {
    forall i, j :: 0 <= i < j < |xs| ==> xs[i].completedAt != xs[j].completedAt
  }

  /** With pairwise distinct times every position starts a slot. */
  lemma {:induction false} SlotStartsEverywhere(xs: seq<ExerciseSet>)
    requires DistinctTimes(xs)
    ensures |SlotStarts(xs)| == |xs|
    ensures forall k :: 0 <= k < |xs| ==> SlotStarts(xs)[k] == k
  {
    if |xs| > 0 {
      var n := |xs|;
      var init := xs[..n - 1];
      assert DistinctTimes(init);
      SlotStartsEverywhere(init);
      assert StartsRun(xs, n - 1);
      assert forall i :: 0 <= i < n - 1 ==> (StartsRun(init, i) <==> StartsRun(xs, i));
      assert SlotStarts(xs) == SlotStarts(init) + [n - 1];
    }
  }

  /** Sets with pairwise distinct times are each a slot of their own. */
  lemma SlotsOfDistinctTimes(xs: seq<ExerciseSet>)
    requires DistinctTimes(xs)
    ensures Slots(xs) == xs
  {
    SlotStartsEverywhere(xs);
  }

  /** Sets of a sequence whose times strictly increase, picked and
      rearranged without repetition, still have pairwise distinct times. */
  lemma DistinctTimesOfPicked(sets: seq<ExerciseSet>, g: seq<ExerciseSet>)
    requires forall i, j :: 0 <= i < j < |sets| ==> sets[i].completedAt < sets[j].completedAt
    requires NoDup(g) && forall x :: x in g ==> x in sets
    ensures DistinctTimes(g)
  {
    forall i, j | 0 <= i < j < |g|
      ensures g[i].completedAt != g[j].completedAt
    {
      assert g[i] in sets && g[j] in sets;
      var a :| 0 <= a < |sets| && sets[a] == g[i];
      var b :| 0 <= b < |sets| && sets[b] == g[j];
      assert a != b;
    }
  }

  /** The follow-up's sets are stamped one after the other, so in the next
      follow-up every one of them is a slot of its own: a follow-up of a
      follow-up keeps the whole pyramid of each exercise. */
  lemma FollowUpSetsAreSlots(w: Workout, order: seq<ExerciseId>, followId: WorkoutId,
                             firstSetId: SetId, now: Time, p: real, e: ExerciseId)
    requires AllAttached(w.sets)
    requires IsListing(order, ExerciseIds(w.sets))
    ensures var f := CreateFollowUpWorkout(w, order, followId, firstSetId, now, p);
      && multiset(WorkingSlots(f, e)) == multiset(Filter(f.sets, IsOf(e)))
      && |WorkingSlots(f, e)| == |Filter(f.sets, IsOf(e))|
  {
    var f := CreateFollowUpWorkout(w, order, followId, firstSetId, now, p);
    var sets := f.sets;
    var fe := Filter(sets, IsOf(e));
    var g := GroupOf(sets, e);
    assert NoDup(sets);
    FilterKeepsNoDup(sets, IsOf(e));
    PermutationKeepsNoDup(fe, g);
    forall x | x in g
      ensures x in sets && Not(IsWarmupSet())(x)
    {
      assert x in multiset(g);
      FilterMember(sets, IsOf(e), x);
    }
    FilterAll(g, Not(IsWarmupSet()));
    DistinctTimesOfPicked(sets, g);
    SlotsOfDistinctTimes(g);
    assert |g| == |multiset(g)| == |multiset(fe)| == |fe|;
  }

  /** The worked example: 225 × 5 then 185 × 8 with a 2.5 % raise becomes
      230 × 5 then 190 × 8. */
  lemma FollowUpExample(a: ExerciseSet, b: ExerciseSet)
    requires a.weight == 225.0 && a.reps == 5 && a.rpe == None
    requires b.weight == 185.0 && b.reps == 8 && b.rpe == None
    ensures PlannedShapes([a, b], 0.025) == [Shape(230.0, 5, None), Shape(190.0, 8, None)]
  {
    assert Round5(225.0 * 1.025) == 230;
    assert Round5(230.0 * 185.0 / 225.0) == 190;
  }
}

=== FILE: home.dfy ===
/** The home screen's logic (`HomeViewModel`): which workout it offers to
    resume, starting a new one, the weekly progress ratio and the total
    volume label. */
module Home {
  import opened Basics
  import opened Domain
  import opened Users
  import opened DiscardState
  import WorkoutManager

  datatype HomeState = HomeState(recentWorkouts: seq<Workout>, currentWorkout: Option<Workout>,
                                 userStats: Option<(int, real, int)>)

  /** The view model's initial fields. */
  const Initial: HomeState := HomeState([], None, None)

  /** `loadRecentWorkouts()`: the five newest workouts and the user's
      statistics, then the resume gate. While the discard flag is set no
      workout is offered; otherwise the first incomplete workout is. The
      incomplete-workout query is an input. The coordinator is returned
      because the flag query may load it. */
  function LoadRecentWorkouts(h: HomeState, ws: seq<Workout>, users: seq<User>, c: Coordinator,
                              incomplete: seq<Workout>): (r: (HomeState, Coordinator))
    ensures |r.0.recentWorkouts| == MinNat(5, |ws|)
    ensures multiset(r.0.recentWorkouts) <= multiset(ws)
    ensures r.0.recentWorkouts == WorkoutManager.GetRecentWorkouts(ws, 5)
    ensures r.0.userStats == Some(GetUserStats(users))
    ensures r.1 == WasAnyWorkoutDiscarded(c).1
    ensures r.0.currentWorkout.Some? ==> !r.1.wasDiscarded && |incomplete| > 0 && r.0.currentWorkout.value == incomplete[0]
    ensures r.0.currentWorkout.None? ==> r.1.wasDiscarded || |incomplete| == 0
  {
    var recent := WorkoutManager.GetRecentWorkouts(ws, 5);
    var stats := Some(GetUserStats(users));
    var (discarded, c') := WasAnyWorkoutDiscarded(c);
    if discarded then (HomeState(recent, None, stats), c')
    else (HomeState(recent, SafeGet(incomplete, 0), stats), c')
  }

  /** A discard blocks resumption whatever incomplete workouts exist, until
      the flag is cleared (a save clears it); after a clear the first
      incomplete workout is offered again. */
  lemma DiscardBlocksResume(h: HomeState, ws: seq<Workout>, users: seq<User>, c: Coordinator,
                            id: Option<string>, now: Time, incomplete: seq<Workout>)
    requires c.loaded
    ensures LoadRecentWorkouts(h, ws, users, MarkDiscarded(c, id, now), incomplete).0.currentWorkout.None?
    ensures var cleared := MarkSaved(MarkDiscarded(c, id, now), id);
      |incomplete| > 0 ==> LoadRecentWorkouts(h, ws, users, cleared, incomplete).0.currentWorkout == Some(incomplete[0])
  {
  }

  /** `startNewWorkout()`: a new workout is created and becomes current. */
  function StartNewWorkout(h: HomeState, ws: seq<Workout>, id: WorkoutId, now: Time): (r: (seq<Workout>, HomeState))
    ensures r.1.currentWorkout.Some? && r.1.currentWorkout.value.id == id
    ensures r.0 == ws + [r.1.currentWorkout.value]
    ensures !r.1.currentWorkout.value.isCompleted && |r.1.currentWorkout.value.sets| == 0
    ensures r.1.recentWorkouts == h.recentWorkouts && r.1.userStats == h.userStats
  {
    var created := WorkoutManager.CreateWorkout(ws, id, now);
    (created.0, h.(currentWorkout := Some(created.1)))
  }

  /** Starting a new workout does not touch the discard flag: if a discard
      preceded it, the next load still offers nothing to resume, not even
      the workout just started. */
  lemma StartKeepsDiscardFlag(h: HomeState, ws: seq<Workout>, users: seq<User>, c: Coordinator,
                              id: WorkoutId, now: Time)
    requires c.loaded && c.wasDiscarded
    ensures var started := StartNewWorkout(h, ws, id, now);
      LoadRecentWorkouts(started.1, started.0, users, c, [started.1.currentWorkout.value]).0.currentWorkout.None?
  {
  }

  /** `resumeWorkout(_:)`. */
  function ResumeWorkout(h: HomeState, w: Workout): (r: HomeState)
    ensures r.currentWorkout == Some(w) && r.recentWorkouts == h.recentWorkouts
  {
    h.(currentWorkout := Some(w))
  }

  /** The ratio behind `calculateWeeklyProgress()`: workouts over seven,
      with no upper clamp. */
  function ProgressOf(count: nat): (r: real)
    ensures r >= 0.0 && r * 7.0 == count as real
  {
    if count > 0 then count as real / 7.0 else 0.0
  }

  /** `calculateWeeklyProgress()`, over the workouts dated from the week's
      start (an input) to now. */
  function WeeklyProgress(ws: seq<Workout>, weekStart: Time, now: Time): (r: real)
    ensures r * 7.0 == |Filter(ws, WorkoutManager.DatedWithin(weekStart, now))| as real
    ensures r >= 0.0
  {
    ProgressOf(WorkoutManager.WorkoutStats(ws, weekStart, now).count)
  }

  /** Seven workouts make a full week; more exceed 1, since nothing clamps
      the ratio. */
  lemma ProgressUnclamped(count: nat)
    ensures ProgressOf(count) == 1.0 <==> count == 7
    ensures ProgressOf(count) > 1.0 <==> count > 7
  {
  }

  /** The total volume label: plain text, or the `"%.1fk"` rendering of a
      number of thousands (decimal formatting is not modelled). */
  datatype VolumeLabel = Plain(text: string) | OneDecimalK(thousands: real)

  /** `formatTotalVolume()` as written: the whole-number test is made on the
      volume, not on the thousands, so any whole volume above 1000 is shown
      as its truncated thousands. */
  function FormatTotalVolumeAsWritten(stats: Option<(int, real, int)>): (r: VolumeLabel)
    ensures stats.None? ==> r == Plain("0")
    ensures stats.Some? && stats.value.1 <= 1000.0 ==> r == Plain(IntToString(TruncReal(stats.value.1)))
    ensures stats.Some? && stats.value.1 > 1000.0 ==>
      (r.Plain? <==> IsWhole(stats.value.1))
  {
    match stats
    case None => Plain("0")
    case Some((_, volume, _)) =>
      var isWholeNumber := IsWhole(volume);
      if volume > 1000.0 then
        var thousands := volume / 1000.0;
        if isWholeNumber then Plain(IntToString(TruncReal(thousands)) + "k") else OneDecimalK(thousands)
      else Plain(IntToString(TruncReal(volume)))
  }

  /** A whole volume of 5500 is labelled "5k": the 500 are lost, while a
      volume of 5500.5 would read "5.5k". */
  lemma FormatTotalVolumeLosesHundreds()
    ensures FormatTotalVolumeAsWritten(Some((10, 5500.0, 5))) == Plain("5k")
    ensures FormatTotalVolumeAsWritten(Some((10, 5500.5, 5))) == OneDecimalK(5.5005)
    ensures FormatTotalVolume(Some((10, 5500.0, 5))) != Plain("5k")
  {
    assert TruncReal(5.5) == 5;
    assert IsWhole(5500.0);
    assert IntToString(5) == "5";
  }

  /** `formatTotalVolume()` with the whole-number test on the thousands, so
      that a "k" label with no decimal is exact. */
  function FormatTotalVolume(stats: Option<(int, real, int)>): (r: VolumeLabel)
    ensures stats.None? ==> r == Plain("0")
    ensures stats.Some? && stats.value.1 <= 1000.0 ==> r == Plain(IntToString(TruncReal(stats.value.1)))
    ensures stats.Some? && stats.value.1 > 1000.0 ==>
      (r.Plain? <==> IsWhole(stats.value.1 / 1000.0))
  {
    match stats
    case None => Plain("0")
    case Some((_, volume, _)) =>
      if volume > 1000.0 then
        var thousands := volume / 1000.0;
        if IsWhole(thousands) then Plain(IntToString(TruncReal(thousands)) + "k") else OneDecimalK(thousands)
      else Plain(IntToString(TruncReal(volume)))
  }

  /** Above 1000, a label "<n>k" means exactly n thousand; any other volume
      gets a decimal rendering of its thousands. */
  lemma FormatTotalVolumeExact(stats: (int, real, int))
    requires stats.1 > 1000.0
    ensures var r := FormatTotalVolume(Some(stats));
      r.Plain? ==> (r.text == IntToString(TruncReal(stats.1 / 1000.0)) + "k"
                    && (TruncReal(stats.1 / 1000.0) * 1000) as real == stats.1)
    ensures var r := FormatTotalVolume(Some(stats));
      r.OneDecimalK? ==> r.thousands == stats.1 / 1000.0
  {
  }

  /** The two versions agree except on whole volumes above 1000 that are not
      whole thousands: on "0", 950, 5000 and every volume up to 1000. */
  lemma FormatTotalVolumeAgreement(stats: Option<(int, real, int)>)
    requires stats.None? || stats.value.1 <= 1000.0 || !IsWhole(stats.value.1) || IsWhole(stats.value.1 / 1000.0)
    ensures FormatTotalVolumeAsWritten(stats) == FormatTotalVolume(stats)
  {
    if stats.Some? && stats.value.1 > 1000.0 && IsWhole(stats.value.1 / 1000.0) {
      WholeThousandsAreWhole(stats.value.1);
    }
  }

  /** n thousand is a whole number. */
  lemma WholeThousandsAreWhole(v: real)
    requires IsWhole(v / 1000.0)
    ensures IsWhole(v)
  {
    var n := TruncReal(v / 1000.0);
    assert v == (n * 1000) as real;
    assert TruncReal(v) == n * 1000;
  }

  lemma FormatTotalVolumeExamples()
    ensures FormatTotalVolume(None) == Plain("0")
    ensures FormatTotalVolume(Some((0, 0.0, 0))) == Plain("0")
    ensures FormatTotalVolume(Some((10, 5000.0, 5))) == Plain("5k")
    ensures FormatTotalVolume(Some((5, 950.0, 3))) == Plain("950")
    ensures FormatTotalVolume(Some((10, 5500.0, 5))) == OneDecimalK(5.5)
  {
    assert TruncReal(0.0) == 0 && IntToString(0) == "0";
    assert TruncReal(5.0) == 5 && IntToString(5) == "5";
    assert TruncReal(950.0) == 950;
    assert IntToString(950) == "950" by {
      assert NatToString(950) == NatToString(95) + [DigitChar(0)];
      assert NatToString(95) == NatToString(9) + [DigitChar(5)];
    }
    assert !IsWhole(5.5);
  }
}

=== FILE: rest_timer.dfy ===
/** The rest timer overlay (`RestTimerView`): a countdown from the rest
    duration with pause, reset, skip and preset buttons, its `m:ss`
    display, the preset labels and the colour of the ring. Each firing of
    the one-second timer is one `Tick`; the delayed auto-close is a flag
    that `CloseFires` later acts on. */
module RestTimer {
  import opened Basics

  datatype Timer = Timer(defaultDuration: int, timeRemaining: int, isPaused: bool,
                         ticking: bool, isShowing: bool, closeScheduled: bool)

  /** `init(defaultDuration:isShowing:)`: the countdown starts full and no
      timer runs until the view appears. */
  function Init(defaultDuration: int, isShowing: bool): (r: Timer)
    ensures r.timeRemaining == r.defaultDuration == defaultDuration
    ensures !r.isPaused && !r.ticking && !r.closeScheduled && r.isShowing == isShowing
  {
    Timer(defaultDuration, defaultDuration, false, false, isShowing, false)
  }

  /** `startTimer()`, also run when the view appears: any previous
      subscription is cancelled first, so exactly one runs, unpaused. */
  function StartTimer(t: Timer): (r: Timer)
    ensures r.ticking && !r.isPaused
    ensures r.timeRemaining == t.timeRemaining && r.defaultDuration == t.defaultDuration
    ensures r.isShowing == t.isShowing && r.closeScheduled == t.closeScheduled
  {
    t.(ticking := true, isPaused := false)
  }

  /** `stopTimer()`, also run when the view disappears. */
  function StopTimer(t: Timer): (r: Timer)
    ensures !r.ticking && r == t.(ticking := false)
  {
    t.(ticking := false)
  }

  /** One firing of the timer: ignored while paused or stopped and once the
      countdown is at 0; otherwise one second less, and reaching 0 schedules
      the auto-close. */
  function Tick(t: Timer): (r: Timer)
    ensures r.timeRemaining <= t.timeRemaining && r.timeRemaining >= t.timeRemaining - 1
    ensures t.timeRemaining >= 0 ==> r.timeRemaining >= 0
    ensures r.timeRemaining != t.timeRemaining <==> t.ticking && !t.isPaused && t.timeRemaining > 0
    ensures r.closeScheduled <==> t.closeScheduled || (r.timeRemaining == 0 && t.timeRemaining == 1)
    ensures r == t.(timeRemaining := r.timeRemaining, closeScheduled := r.closeScheduled)
  {
    if !t.ticking || t.isPaused then t
    else if t.timeRemaining > 0 then
      var left := t.timeRemaining - 1;
      t.(timeRemaining := left, closeScheduled := t.closeScheduled || left == 0)
    else t
  }

  /** `n` firings in a row. */
  function Ticks(t: Timer, n: nat): Timer
    decreases n
  {
    if n == 0 then t else Ticks(Tick(t), n - 1)
  }

  /** A running countdown from a non-negative time reaches `max(0, t − n)`
      after `n` seconds, and schedules the close exactly when it hits 0
      within them. */
  lemma {:induction false} Countdown(t: Timer, n: nat)
    requires t.ticking && !t.isPaused && t.timeRemaining >= 0
    ensures Ticks(t, n).timeRemaining == MaxInt(0, t.timeRemaining - n)
    ensures Ticks(t, n).closeScheduled <==> t.closeScheduled || (0 < t.timeRemaining <= n)
    ensures Ticks(t, n) == t.(timeRemaining := Ticks(t, n).timeRemaining, closeScheduled := Ticks(t, n).closeScheduled)
    decreases n
  {
    if n > 0 {
      Countdown(Tick(t), n - 1);
    }
  }

  /** While paused (or stopped) nothing moves, however many seconds pass. */
  lemma {:induction false} PausedFreezes(t: Timer, n: nat)
    requires t.isPaused || !t.ticking
    ensures Ticks(t, n) == t
    decreases n
  {
    if n > 0 {
      PausedFreezes(Tick(t), n - 1);
    }
  }

  /** `toggleTimer()`. */
  function ToggleTimer(t: Timer): (r: Timer)
    ensures r.isPaused != t.isPaused && r == t.(isPaused := r.isPaused)
  {
    t.(isPaused := !t.isPaused)
  }

  /** Pausing twice resumes where the countdown was. */
  lemma ToggleTwice(t: Timer)
    ensures ToggleTimer(ToggleTimer(t)) == t
  {
  }

  /** `resetTimer()`: back to the full duration; a paused timer is started
      again, a running one keeps running. */
  function ResetTimer(t: Timer): (r: Timer)
    ensures r.timeRemaining == t.defaultDuration && !r.isPaused
    ensures t.isPaused ==> r.ticking
    ensures !t.isPaused ==> r == t.(timeRemaining := t.defaultDuration)
  {
    SetTimeRemaining(t, t.defaultDuration)
  }

  /** `setTime(_:)` behind the preset buttons: the countdown is set to the
      preset; a paused timer is started again. */
  function SetTime(t: Timer, seconds: int): (r: Timer)
    ensures r.timeRemaining == seconds && !r.isPaused && r.defaultDuration == t.defaultDuration
    ensures t.isPaused ==> r.ticking
    ensures !t.isPaused ==> r == t.(timeRemaining := seconds)
  {
    SetTimeRemaining(t, seconds)
  }

  /** What reset and the presets share. */
  function SetTimeRemaining(t: Timer, seconds: int): Timer
  {
    var updated := t.(timeRemaining := seconds);
    if t.isPaused then StartTimer(updated) else updated
  }

  /** A reset, whatever came before, is like a fresh start: a running timer
      then counts the full duration down again. */
  lemma ResetRestarts(t: Timer, n: nat)
    requires t.ticking && t.defaultDuration >= 0
    ensures Ticks(ResetTimer(t), n).timeRemaining == MaxInt(0, t.defaultDuration - n)
  {
    Countdown(ResetTimer(t), n);
  }

  /** `skipTimer()`: the countdown drops to 0 and the close is scheduled; a
      running timer is stopped, a paused one stays subscribed but paused. */
  function SkipTimer(t: Timer): (r: Timer)
    ensures r.timeRemaining == 0 && r.closeScheduled && r.isPaused == t.isPaused
    ensures !t.isPaused ==> !r.ticking
    ensures t.isPaused ==> r.ticking == t.ticking
  {
    var stopped := if !t.isPaused then StopTimer(t) else t;
    stopped.(timeRemaining := 0, closeScheduled := true)
  }

  /** After a skip no firing changes anything. */
  lemma SkipIsFinal(t: Timer, n: nat)
    ensures Ticks(SkipTimer(t), n) == SkipTimer(t)
  {
    PausedFreezes(SkipTimer(t), n);
  }

  /** The close button: the timer stops and the overlay hides. */
  function Close(t: Timer): (r: Timer)
    ensures !r.ticking && !r.isShowing
    ensures r.timeRemaining == t.timeRemaining && r.isPaused == t.isPaused
  {
    StopTimer(t).(isShowing := false)
  }

  /** The scheduled auto-close firing: it hides the overlay whatever
      happened meanwhile. */
  function CloseFires(t: Timer): (r: Timer)
    requires t.closeScheduled
    ensures !r.isShowing && !r.closeScheduled
    ensures r.timeRemaining == t.timeRemaining && r.ticking == t.ticking
  {
    t.(isShowing := false, closeScheduled := false)
  }

  // ---------------------------------------------------------------------
  // Display
  // ---------------------------------------------------------------------

  /** `timeFormatted`: `"%01d:%02d"` of the minutes and seconds, both
      truncated toward zero. */
  function TimeFormatted(seconds: int): (r: string)
    ensures |r| >= 4
  {
    IntToString(QuotTrunc(seconds, 60)) + ":" + Pad2(RemTrunc(seconds, 60))
  }

  /** Reads an `m:ss` display back into seconds. */
  function ClockSeconds(s: string): int
  {
    if |s| < 4 then 0 else DigitsValue(s[..|s| - 3]) * 60 + DigitsValue(s[|s| - 2..])
  }

  /** A non-negative countdown shows its minutes, a colon and exactly two
      digits of seconds, and reading the display back gives the time. */
  lemma TimeFormattedRoundTrip(seconds: nat)
    ensures var r := TimeFormatted(seconds);
      r[|r| - 3] == ':' && r[..|r| - 3] == NatToString(seconds / 60)
    ensures ClockSeconds(TimeFormatted(seconds)) == seconds
  {
    QuotRemTruncBounds(seconds, 60);
    var m := seconds / 60;
    var sec := seconds % 60;
    var two := Pad2(sec);
    assert two == [DigitChar(sec / 10), DigitChar(sec % 10)] by {
      if sec >= 10 {
        assert NatToString(sec / 10) == [DigitChar(sec / 10)];
      }
    }
    var r := TimeFormatted(seconds);
    assert r == NatToString(m) + ":" + two;
    assert r[..|r| - 3] == NatToString(m);
    assert r[|r| - 2..] == two;
    NatToStringRoundTrip(m);
    assert DigitsValue(two) == sec by {
      var first := [DigitChar(sec / 10)];
      assert two[..|two| - 1] == first;
      assert first[..0] == [];
      assert DigitsValue(first) == sec / 10;
    }
  }

  /** Distinct non-negative times show distinct displays. */
  lemma TimeFormattedInjective(a: nat, b: nat)
    requires TimeFormatted(a) == TimeFormatted(b)
    ensures a == b
  {
    TimeFormattedRoundTrip(a);
    TimeFormattedRoundTrip(b);
  }

  /** The seconds of the quick buttons. */
  const Presets: seq<int> := [30, 60, 90, 120, 180]

  /** `formatTimeButton(_:)` as written: seconds below a minute, otherwise
      whole minutes truncated, so 90 seconds reads "1m" like 60 does. */
  function FormatTimeButtonAsWritten(seconds: int): (r: string)
    ensures seconds < 60 ==> r == IntToString(seconds) + "s"
    ensures seconds >= 60 ==> r == IntToString(seconds / 60) + "m"
  {
    if seconds < 60 then IntToString(seconds) + "s" else IntToString(QuotTrunc(seconds, 60)) + "m"
  }

  /** Two different presets carry the same label. */
  lemma PresetLabelsCollide()
    ensures Presets[1] != Presets[2]
    ensures FormatTimeButtonAsWritten(Presets[1]) == FormatTimeButtonAsWritten(Presets[2]) == "1m"
  {
    assert QuotTrunc(90, 60) == 1 && QuotTrunc(60, 60) == 1;
    assert IntToString(1) == "1";
  }

  /** The label with minutes only for whole minutes: otherwise the seconds
      are shown. */
  function FormatTimeButton(seconds: int): (r: string)
    ensures seconds < 60 || RemTrunc(seconds, 60) != 0 ==> r == IntToString(seconds) + "s"
    ensures seconds >= 60 && RemTrunc(seconds, 60) == 0 ==> r == IntToString(seconds / 60) + "m"
  {
    if seconds < 60 || RemTrunc(seconds, 60) != 0 then IntToString(seconds) + "s"
    else IntToString(QuotTrunc(seconds, 60)) + "m"
  }

  /** Every label names its time exactly: distinct times get distinct
      labels, and the presets read "30s", "1m", "90s", "2m", "3m". */
  lemma FormatTimeButtonInjective(a: int, b: int)
    requires FormatTimeButton(a) == FormatTimeButton(b)
    ensures a == b
  {
    var ra := FormatTimeButton(a);
    var rb := FormatTimeButton(b);
    assert ra[|ra| - 1] == rb[|rb| - 1];
    if a < 60 || RemTrunc(a, 60) != 0 {
      assert ra[..|ra| - 1] == IntToString(a);
      assert rb[..|rb| - 1] == IntToString(b);
      IntToStringInjective(a, b);
    } else {
      assert ra[..|ra| - 1] == IntToString(a / 60);
      assert rb[..|rb| - 1] == IntToString(b / 60);
      IntToStringInjective(a / 60, b / 60);
    }
  }

  lemma PresetLabels()
    ensures FormatTimeButton(30) == "30s" && FormatTimeButton(60) == "1m" && FormatTimeButton(90) == "90s"
    ensures FormatTimeButton(120) == "2m" && FormatTimeButton(180) == "3m"
  {
    assert NatToString(30) == NatToString(3) + [DigitChar(0)];
    assert NatToString(90) == NatToString(9) + [DigitChar(0)];
  }

  datatype RingColor = Blue | Orange | Red

  /** `timerColor`: blue above a third of the duration, orange above a
      sixth, red below (thirds and sixths truncated). */
  function TimerColor(timeRemaining: int, defaultDuration: int): (r: RingColor)
    ensures r == Blue <==> timeRemaining > QuotTrunc(defaultDuration, 3)
    ensures r == Red <==> timeRemaining <= QuotTrunc(defaultDuration, 3) && timeRemaining <= QuotTrunc(defaultDuration, 6)
  {
    if timeRemaining > QuotTrunc(defaultDuration, 3) then Blue
    else if timeRemaining > QuotTrunc(defaultDuration, 6) then Orange
    else Red
  }

  function Urgency(c: RingColor): nat
  {
    match c
    case Blue => 0
    case Orange => 1
    case Red => 2
  }

  /** As the countdown runs the colour only moves from blue toward red; a
      full countdown starts blue and an expired one is red. */
  lemma ColorOnlyEscalates(t1: int, t2: int, d: int)
    requires t1 <= t2
    ensures Urgency(TimerColor(t1, d)) >= Urgency(TimerColor(t2, d))
    ensures d > 0 ==> TimerColor(d, d) == Blue
    ensures d >= 0 ==> TimerColor(0, d) == Red
  {
  }

  /** `progress`: the share of the duration already elapsed, 0 for a
      non-positive duration. */
  function Progress(timeRemaining: int, defaultDuration: int): (r: real)
    ensures defaultDuration > 0 ==> r * defaultDuration as real == (defaultDuration - timeRemaining) as real
    ensures defaultDuration <= 0 ==> r == 0.0
  {
    if defaultDuration <= 0 then 0.0
    else 1.0 - timeRemaining as real / defaultDuration as real
  }

  /** Within a countdown the ring fills from empty to full. */
  lemma ProgressBounds(timeRemaining: int, defaultDuration: int)
    requires 0 <= timeRemaining <= defaultDuration && defaultDuration > 0
    ensures 0.0 <= Progress(timeRemaining, defaultDuration) <= 1.0
    ensures Progress(defaultDuration, defaultDuration) == 0.0
    ensures Progress(0, defaultDuration) == 1.0
  {
    var p := Progress(timeRemaining, defaultDuration);
    var d := defaultDuration as real;
    assert p * d == d - timeRemaining as real;
    if p < 0.0 {
      assert false;
    }
    if p > 1.0 {
      assert false;
    }
  }
}

=== FILE: rpt.dfy ===
/** Reverse-pyramid arithmetic: rounding to the nearest 5 lb, the unrounded
    weight table, the settings screen's example string and the calculator
    screen's per-set weight. */
module RPT {
  import opened Basics

  /** Swift's `round(_:)` on a `Double`: to the nearest integer, halves away
      from zero. */
  function RoundHalfAway(x: real): (r: int)
    ensures x >= 0.0 ==> r as real - 0.5 <= x < r as real + 0.5
    ensures x < 0.0 ==> r as real - 0.5 < x <= r as real + 0.5
    ensures x >= 0.0 ==> r >= 0
    ensures x <= 0.0 ==> r <= 0
  {
    if x >= 0.0 then (x + 0.5).Floor else -((-x + 0.5).Floor)
  }

  /** `round(x / 5) * 5`, the rounding written out where drop sets and
      follow-up weights are computed. */
  function Round5(x: real): (r: int)
    ensures r % 5 == 0
    ensures x >= 0.0 ==> r as real - 2.5 <= x < r as real + 2.5
    ensures x < 0.0 ==> r as real - 2.5 < x <= r as real + 2.5
  {
    RoundHalfAway(x / 5.0) * 5
  }

  function Abs(x: real): real
  {
    if x < 0.0 then -x else x
  }

  /** No multiple of 5 lies closer to `x` than `Round5(x)`. */
  lemma Round5Nearest(x: real, m: int)
    requires m % 5 == 0
    ensures Abs(Round5(x) as real - x) <= Abs(m as real - x)
  {
    var r := Round5(x);
    if m != r {
      assert (m - r) % 5 == 0;
      assert m - r >= 5 || m - r <= -5;
    }
  }

  /** A multiple of 5 is left where it is: the calculator's re-rounding of the
      first-set weight reaches a fixed point after one step. */
  lemma Round5Fixed(m: int)
    requires m % 5 == 0
    ensures Round5(m as real) == m
  {
    var r := Round5(m as real);
    assert (m - r) % 5 == 0;
  }

  lemma Round5Idempotent(x: real)
    ensures Round5(Round5(x) as real) == Round5(x)
  {
    Round5Fixed(Round5(x));
  }

  /** Heavier input never rounds lighter. */
  lemma Round5Monotone(x: real, y: real)
    requires x <= y
    ensures Round5(x) <= Round5(y)
  {
    var a, b := Round5(x), Round5(y);
    assert (a - b) % 5 == 0;
  }

  /** The tie case relied on by the formatting tests: 202.5 rounds up to 205. */
  lemma Round5TieGoesUp()
    ensures Round5(202.5) == 205
    ensures Round5(-202.5) == -205
  {
    assert (202.5 / 5.0 + 0.5).Floor == 41;
  }

  // ---------------------------------------------------------------------
  // WorkoutManager.calculateRPTWeights
  // ---------------------------------------------------------------------

  /** One unrounded weight per drop: `first * (1 - drops[i])`. */
  function CalculateRPTWeights(first: real, drops: seq<real>): (r: seq<real>)
    ensures |r| == |drops|
    ensures forall i :: 0 <= i < |r| ==> r[i] == first * (1.0 - drops[i])
  {
    seq(|drops|, i requires 0 <= i < |drops| => first * (1.0 - drops[i]))
  }

  /** A table that starts with a zero drop reproduces the first weight, and
      growing drops give shrinking weights for a non-negative first weight. */
  lemma RPTWeightsShape(first: real, drops: seq<real>)
    requires first >= 0.0
    requires |drops| > 0 && drops[0] == 0.0
    requires forall i, j :: 0 <= i < j < |drops| ==> drops[i] <= drops[j]
    ensures CalculateRPTWeights(first, drops)[0] == first
    ensures forall i, j :: 0 <= i < j < |drops| ==>
      CalculateRPTWeights(first, drops)[j] <= CalculateRPTWeights(first, drops)[i]
  {
    var r := CalculateRPTWeights(first, drops);
    forall i, j | 0 <= i < j < |drops|
      ensures r[j] <= r[i]
    {
      assert r[i] == first * (1.0 - drops[i]) && r[j] == first * (1.0 - drops[j]);
      ScaleDropMono(first, drops[i], drops[j]);
    }
  }

  lemma MulLeftMono(c: real, a: real, b: real)
    requires c >= 0.0 && a <= b
    ensures c * a <= c * b
  {
  }

  /** A larger drop never leaves more weight. */
  lemma ScaleDropMono(c: real, a: real, b: real)
    requires c >= 0.0 && a <= b
    ensures c * (1.0 - b) <= c * (1.0 - a)
  {
    assert c * (1.0 - b) == c - c * b;
    assert c * (1.0 - a) == c - c * a;
    MulLeftMono(c, a, b);
  }

  /** The worked example of the manager tests: 225 lb with drops 0, 10 % and 20 %. */
  lemma RPTWeightsExample()
    ensures CalculateRPTWeights(225.0, [0.0, 0.1, 0.2]) == [225.0, 202.5, 180.0]
    ensures CalculateRPTWeights(225.0, []) == []
  {
  }

  // ---------------------------------------------------------------------
  // SettingsManager.calculateRPTExample and formatWeight(Int)
  // ---------------------------------------------------------------------

  /** The rounded weights shown for every set after the first. */
  function ExampleWeights(first: int, drops: seq<real>): (r: seq<int>)
    ensures |drops| == 0 ==> r == []
    ensures |drops| > 0 ==> |r| == |drops| - 1
    ensures forall i :: 0 <= i < |r| ==>
      r[i] == Round5(CalculateRPTWeights(first as real, drops)[i + 1])
  {
    if |drops| == 0 then []
    else seq(|drops| - 1, i requires 0 <= i < |drops| - 1 => Round5(first as real * (1.0 - drops[i + 1])))
  }

  function ShowInts(ws: seq<int>): (r: seq<string>)
    ensures |r| == |ws|
    ensures forall i :: 0 <= i < |r| ==> r[i] == IntToString(ws[i])
  {
    seq(|ws|, i requires 0 <= i < |ws| => IntToString(ws[i]))
  }

  /** The settings screen's example line: the later sets' weights joined by
      " → ", then " lb". */
  function CalculateRPTExample(first: int, drops: seq<real>): (r: string)
    ensures |r| >= 3 && r[|r| - 3..] == " lb"
    ensures |drops| <= 1 ==> r == " lb"
  {
    Join(ShowInts(ExampleWeights(first, drops)), " → ") + " lb"
  }

  /** The example shows, for every later set, the weight the calculator
      screen computes for that set. */
  lemma ExampleAgreesWithCalculator(first: int, drops: seq<real>, i: int)
    requires 0 <= i < |drops| - 1
    ensures ExampleWeights(first, drops)[i] == CalculateWeight(first, drops, i + 1)
  {
    assert CalculateRPTWeights(first as real, drops)[i + 1] == first as real * (1.0 - drops[i + 1]);
  }

  lemma Show180And160()
    ensures IntToString(180) == "180" && IntToString(160) == "160"
    ensures IntToString(205) == "205"
  {
    assert NatToString(18) == "18";
    assert NatToString(16) == "16";
    assert NatToString(20) == "20";
  }

  lemma ExampleWeightsOfTests()
    ensures ExampleWeights(200, [0.0, 0.1, 0.2]) == [180, 160]
    ensures ExampleWeights(225, [0.0, 0.1, 0.2]) == [205, 180]
  {
    Round5Fixed(180);
    Round5Fixed(160);
    Round5TieGoesUp();
    assert 200.0 * (1.0 - 0.1) == 180.0 && 200.0 * (1.0 - 0.2) == 160.0;
    assert 225.0 * (1.0 - 0.1) == 202.5 && 225.0 * (1.0 - 0.2) == 180.0;
  }

  /** The two examples of the formatting tests, with drops 0, 10 % and 20 %. */
  lemma ExampleStrings()
    ensures CalculateRPTExample(200, [0.0, 0.1, 0.2]) == "180 → 160 lb"
    ensures CalculateRPTExample(225, [0.0, 0.1, 0.2]) == "205 → 180 lb"
  {
    Example200();
    Example225();
  }

  lemma Example200()
    ensures CalculateRPTExample(200, [0.0, 0.1, 0.2]) == "180 → 160 lb"
  {
    ExampleWeightsOfTests();
    Show180And160();
    ExampleString(200, [0.0, 0.1, 0.2], 180, 160, "180", "160");
  }

  lemma Example225()
    ensures CalculateRPTExample(225, [0.0, 0.1, 0.2]) == "205 → 180 lb"
  {
    ExampleWeightsOfTests();
    Show180And160();
    ExampleString(225, [0.0, 0.1, 0.2], 205, 180, "205", "180");
  }

  /** An example line with exactly two later sets. */
  lemma ExampleString(first: int, drops: seq<real>, a: int, b: int, sa: string, sb: string)
    requires ExampleWeights(first, drops) == [a, b]
    requires IntToString(a) == sa && IntToString(b) == sb
    ensures CalculateRPTExample(first, drops) == sa + " → " + sb + " lb"
  {
    ShowTwo(a, b, sa, sb);
  }

  /** Rendering two weights joined by the arrow. */
  lemma ShowTwo(a: int, b: int, sa: string, sb: string)
    requires IntToString(a) == sa && IntToString(b) == sb
    ensures Join(ShowInts([a, b]), " → ") == sa + " → " + sb
  {
    assert ShowInts([a, b]) == [sa, sb];
    assert Join([sa, sb], " → ") == sa + " → " + sb;
  }

  /** `formatWeight(_: Int, useUnit:)`. */
  function FormatWeightInt(w: int, useUnit: bool): (r: string)
    ensures useUnit ==> r == IntToString(w) + " lb"
    ensures !useUnit ==> r == IntToString(w)
  {
    if useUnit then IntToString(w) + " lb" else IntToString(w)
  }

  /** The plain and the unit form differ by the suffix only, and the
      number can be read back. */
  lemma FormatWeightIntProperties(w: int)
    ensures FormatWeightInt(w, true) == FormatWeightInt(w, false) + " lb"
    ensures FormatWeightInt(225, true) == "225 lb" && FormatWeightInt(0, true) == "0 lb"
    ensures forall v :: FormatWeightInt(v, false) == FormatWeightInt(w, false) ==> v == w
  {
    assert NatToString(22) == "22";
    forall v | FormatWeightInt(v, false) == FormatWeightInt(w, false)
      ensures v == w
    {
      IntToStringInjective(v, w);
    }
  }

  // ---------------------------------------------------------------------
  // RPTCalculatorView
  // ---------------------------------------------------------------------

  /** `calculateWeight(for:)`: 0 outside the drop table, otherwise the rounded
      weight for that set. A negative index would trap in the source. */
  function CalculateWeight(first: int, drops: seq<real>, index: int): (r: int)
    requires 0 <= index
    ensures index >= |drops| ==> r == 0
    ensures index < |drops| ==> r % 5 == 0
  {
    if index < |drops| then Round5(first as real * (1.0 - drops[index])) else 0
  }

  /** The calculator agrees with the manager's weight table, rounded. */
  lemma CalculateWeightMatchesTable(first: int, drops: seq<real>, index: int)
    requires 0 <= index < |drops|
    ensures CalculateWeight(first, drops, index) == Round5(CalculateRPTWeights(first as real, drops)[index])
  {
  }

  /** The first-set field re-rounds every new value. */
  function RoundFirstWeight(v: int): (r: int)
    ensures r % 5 == 0
    ensures Abs(r as real - v as real) <= 2.5
  {
    Round5(v as real)
  }

  /** Re-rounding a rounded first weight is a no-op, so the field settles. */
  lemma RoundFirstWeightSettles(v: int)
    ensures RoundFirstWeight(RoundFirstWeight(v)) == RoundFirstWeight(v)
  {
    Round5Idempotent(v as real);
  }

  /** A drop field shows the truncated whole percentage. */
  function DropPercentShown(d: real): (r: int)
    ensures d >= 0.0 ==> r as real <= d * 100.0 < r as real + 1.0
  {
    TruncReal(d * 100.0)
  }

  /** Typing a whole percentage stores it divided by 100. */
  function DropFromPercent(v: int): (r: real)
    ensures r * 100.0 == v as real
  {
    v as real / 100.0
  }

  /** Writing a percentage and reading the field back shows the same number,
      and a drop that is a whole percentage survives the opposite trip. */
  lemma DropFieldRoundTrip(v: int, d: real)
    ensures DropPercentShown(DropFromPercent(v)) == v
    ensures IsWhole(d * 100.0) ==> DropFromPercent(DropPercentShown(d)) == d
  {
  }
}

=== FILE: session.dfy ===
/** The active workout session (`ActiveWorkoutViewModel`): a workout, the
    per-exercise grouping of its sets, the order in which exercises are shown,
    and the rest-timer flags. Every operation is a function from the old
    state to the new one. The edits end, as in the source, with a save of
    the workout, which fills a duration still at 0 (`SaveWorkout`); the
    store write itself is left to the caller.

    Swift `Dictionary` enumeration order is unspecified, so wherever the
    source iterates over the grouping, the order is an extra argument `keys`
    that lists the grouping's keys in some order. */
module Session {
  import opened Basics
  import opened Sorting
  import opened Domain

  datatype SessionState = SessionState(
    workout: Workout,
    workoutName: string,
    groups: map<ExerciseId, seq<ExerciseSet>>,
    order: seq<ExerciseId>,
    showingRestTimer: bool,
    currentRestDuration: int)

  /** `groups` holds, for every exercise of `sets`, that exercise's sets in
      workout order, and nothing else. */
  predicate GroupsOf(groups: map<ExerciseId, seq<ExerciseSet>>, sets: seq<ExerciseSet>)
  {
    && groups.Keys == ExerciseIds(sets)
    && forall e :: e in groups ==> groups[e] == Filter(sets, IsOf(e))
  }

  /** `Dictionary(grouping: workout.sets) { $0.exercise! }`. */
  function Project(sets: seq<ExerciseSet>): (g: map<ExerciseId, seq<ExerciseSet>>)
    ensures GroupsOf(g, sets)
  {
    map e | e in ExerciseIds(sets) :: Filter(sets, IsOf(e))
  }

  /** The consistency the view model maintains between its fields. */
  predicate Inv(st: SessionState)
  {
    && AllAttached(st.workout.sets)
    && UniqueIds(st.workout.sets)
    && GroupsOf(st.groups, st.workout.sets)
    && IsListing(st.order, ExerciseIds(st.workout.sets))
  }

  // ---------------------------------------------------------------------
  // updateExerciseGroupsAndOrder
  // ---------------------------------------------------------------------

  /** Earliest completion time among `xs`. */
  function MinTime(xs: seq<ExerciseSet>): (t: real)
    requires |xs| > 0
    ensures exists i :: 0 <= i < |xs| && xs[i].completedAt == t
    ensures forall i :: 0 <= i < |xs| ==> t <= xs[i].completedAt
  {
    if |xs| == 1 then xs[0].completedAt
    else
      var m := MinTime(xs[1..]);
      if xs[0].completedAt <= m then xs[0].completedAt else m
  }

  /** The timestamp of an exercise's first set (0 for an exercise without sets,
      which the source never asks for). */
  function EarliestTime(sets: seq<ExerciseSet>, e: ExerciseId): real
  {
    var own := Filter(sets, IsOf(e));
    if |own| == 0 then 0.0 else MinTime(own)
  }

  function EarliestKey(sets: seq<ExerciseSet>): ExerciseId -> real
  {
    (e: ExerciseId) => EarliestTime(sets, e)
  }

  /** Initial mode: exercises sorted by the time of their first set; ties keep
      the dictionary's order `keys`. */
  function InitialOrder(sets: seq<ExerciseSet>, keys: seq<ExerciseId>): (r: seq<ExerciseId>)
    requires IsListing(keys, ExerciseIds(sets))
    ensures IsListing(r, ExerciseIds(sets))
    ensures SortedBy(r, EarliestKey(sets))
  {
    SortBy(keys, EarliestKey(sets))
  }

  /** Predicate constructor: membership in `s`. */
  function InSet(s: set<ExerciseId>): ExerciseId -> bool
  {
    (x: ExerciseId) => x in s
  }

  /** Appends, in the order of `xs`, each element not yet present. */
  function AppendMissing(acc: seq<ExerciseId>, xs: seq<ExerciseId>): (r: seq<ExerciseId>)
    ensures |acc| <= |r| && r[..|acc|] == acc
    ensures forall x :: x in r <==> x in acc || x in xs
    ensures NoDup(acc) ==> NoDup(r)
    decreases |xs|
  {
    if |xs| == 0 then acc
    else
      var acc' := if xs[0] in acc then acc else acc + [xs[0]];
      var r := AppendMissing(acc', xs[1..]);
      assert r[..|acc|] == r[..|acc'|][..|acc|];
      r
  }

  /** Nothing is appended when every element is already present. */
  lemma {:induction false} AppendMissingNoop(acc: seq<ExerciseId>, xs: seq<ExerciseId>)
    requires forall x :: x in xs ==> x in acc
    ensures AppendMissing(acc, xs) == acc
    decreases |xs|
  {
    if |xs| > 0 {
      AppendMissingNoop(acc, xs[1..]);
    }
  }

  /** Maintain mode: drop exercises that lost all their sets, keep the rest
      in their order, and append newly grouped exercises in `keys` order. */
  function MaintainedOrder(order: seq<ExerciseId>, sets: seq<ExerciseSet>, keys: seq<ExerciseId>): (r: seq<ExerciseId>)
    requires IsListing(keys, ExerciseIds(sets))
    ensures |r| >= |Filter(order, InSet(ExerciseIds(sets)))|
    ensures r[..|Filter(order, InSet(ExerciseIds(sets)))|] == Filter(order, InSet(ExerciseIds(sets)))
    ensures NoDup(order) ==> IsListing(r, ExerciseIds(sets))
  {
    var ids := ExerciseIds(sets);
    var kept := Filter(order, InSet(ids));
    ListingMembers(keys, ids);
    MaintainedListing(order, ids, keys);
    AppendMissing(kept, keys)
  }

  lemma MaintainedListing(order: seq<ExerciseId>, ids: set<ExerciseId>, keys: seq<ExerciseId>)
    requires forall x :: x in keys <==> x in ids
    ensures NoDup(order) ==> IsListing(AppendMissing(Filter(order, InSet(ids)), keys), ids)
  {
    if NoDup(order) {
      var kept := Filter(order, InSet(ids));
      var r := AppendMissing(kept, keys);
      FilterKeepsNoDup(order, InSet(ids));
      NoDupIsListing(r);
      assert (set x | x in r) == ids;
    }
  }

  /** With the same exercises as before, maintain mode keeps the order as is. */
  lemma MaintainedOrderUnchanged(order: seq<ExerciseId>, sets: seq<ExerciseSet>, keys: seq<ExerciseId>)
    requires IsListing(order, ExerciseIds(sets))
    requires IsListing(keys, ExerciseIds(sets))
    ensures MaintainedOrder(order, sets, keys) == order
  {
    var ids := ExerciseIds(sets);
    ListingMembers(order, ids);
    ListingMembers(keys, ids);
    FilterAll(order, InSet(ids));
    AppendMissingNoop(order, keys);
  }

  /** `updateExerciseGroupsAndOrder(maintainOrder:)`. */
  function Rebuild(st: SessionState, maintainOrder: bool, keys: seq<ExerciseId>): (r: SessionState)
    requires AllAttached(st.workout.sets)
    requires IsListing(keys, ExerciseIds(st.workout.sets))
    ensures r.groups == Project(st.workout.sets)
    ensures r.workout == st.workout
    ensures !maintainOrder || NoDup(st.order) ==> IsListing(r.order, ExerciseIds(st.workout.sets))
    ensures UniqueIds(st.workout.sets) && (!maintainOrder || NoDup(st.order)) ==> Inv(r)
  {
    var sets := st.workout.sets;
    var order := if maintainOrder then MaintainedOrder(st.order, sets, keys) else InitialOrder(sets, keys);
    st.(groups := Project(sets), order := order)
  }

  // ---------------------------------------------------------------------
  // addExerciseToWorkout
  // ---------------------------------------------------------------------

  /** Appends to a group, creating it if missing. */
  function AppendToGroup(groups: map<ExerciseId, seq<ExerciseSet>>, e: ExerciseId, s: ExerciseSet)
    : (g: map<ExerciseId, seq<ExerciseSet>>)
    ensures g.Keys == groups.Keys + {e}
    ensures g[e] == (if e in groups then groups[e] else []) + [s]
    ensures forall x :: x in groups && x != e ==> g[x] == groups[x]
  {
    groups[e := (if e in groups then groups[e] else []) + [s]]
  }

  /** `addExerciseToWorkout`: one new set of 8 reps at weight 0; the exercise
      joins the order only if it had no group yet; the workout is saved. */
  function AddExercise(st: SessionState, e: ExerciseId, setId: SetId, now: Time): (r: SessionState)
    ensures r.workout.sets == st.workout.sets + [NewSet(setId, 0.0, 8, e, now, Some(st.workout.id))]
    ensures r.workout == SaveWorkout(st.workout, now).(sets := r.workout.sets)
    ensures r.order == (if e in st.groups then st.order else st.order + [e])
    ensures r.groups == AppendToGroup(st.groups, e, NewSet(setId, 0.0, 8, e, now, Some(st.workout.id)))
    ensures r.workoutName == st.workoutName && r.showingRestTimer == st.showingRestTimer
    ensures r.currentRestDuration == st.currentRestDuration
  {
    var (w, s) := AddSet(st.workout, setId, e, 0.0, 8, now);
    st.(workout := SaveWorkout(w, now),
        groups := AppendToGroup(st.groups, e, s),
        order := if e in st.groups then st.order else st.order + [e])
  }

  /** Grouping after appending a set: only its exercise's group grows. */
  lemma GroupsAppend(groups: map<ExerciseId, seq<ExerciseSet>>, sets: seq<ExerciseSet>, s: ExerciseSet, e: ExerciseId)
    requires GroupsOf(groups, sets) && s.exercise == Some(e)
    ensures GroupsOf(AppendToGroup(groups, e, s), sets + [s])
  {
    ExerciseIdsAppend(sets, s);
    var r := AppendToGroup(groups, e, s);
    forall x | x in r
      ensures r[x] == Filter(sets + [s], IsOf(x))
    {
      FilterAppend(sets, [s], IsOf(x));
      if x == e {
        assert Filter([s], IsOf(x)) == [s];
        if e !in groups {
          NoneOfAbsent(sets, e);
        }
      } else {
        assert Filter([s], IsOf(x)) == [];
      }
    }
  }

  /** An exercise without sets has an empty filter. */
  lemma NoneOfAbsent(sets: seq<ExerciseSet>, e: ExerciseId)
    requires e !in ExerciseIds(sets)
    ensures Filter(sets, IsOf(e)) == []
  {
    forall t | t in sets
      ensures !IsOf(e)(t)
    {
    }
    FilterNone(sets, IsOf(e));
  }

  /** Appending a set and, for a new exercise, a new order entry keeps the
      order a listing of the workout's exercises. */
  lemma OrderAfterAppend(order: seq<ExerciseId>, sets: seq<ExerciseSet>, s: ExerciseSet, e: ExerciseId)
    requires IsListing(order, ExerciseIds(sets)) && s.exercise == Some(e)
    ensures e in ExerciseIds(sets) ==> IsListing(order, ExerciseIds(sets + [s]))
    ensures e !in ExerciseIds(sets) ==> IsListing(order + [e], ExerciseIds(sets + [s]))
  {
    var ids := ExerciseIds(sets);
    ExerciseIdsAppend(sets, s);
    if e !in ids {
      assert multiset(ids + {e}) == multiset(ids) + multiset{e};
    } else {
      assert ids + {e} == ids;
    }
  }

  lemma FreshAppendKeepsUnique(sets: seq<ExerciseSet>, s: ExerciseSet)
    requires UniqueIds(sets) && s.id !in SetIds(sets)
    ensures UniqueIds(sets + [s])
  {
    forall i | 0 <= i < |sets|
      ensures sets[i].id != s.id
    {
      assert sets[i] in sets;
    }
  }

  /** Appending a fresh, attached set to a consistent session, with the
      matching group and order updates, gives a consistent session. */
  lemma AppendPreservesInv(st: SessionState, s: ExerciseSet, e: ExerciseId, r: SessionState)
    requires Inv(st)
    requires s.exercise == Some(e) && s.id !in SetIds(st.workout.sets)
    requires r.workout.sets == st.workout.sets + [s]
    requires r.groups == AppendToGroup(st.groups, e, s)
    requires r.order == (if e in ExerciseIds(st.workout.sets) then st.order else st.order + [e])
    ensures Inv(r)
  {
    var sets := st.workout.sets;
    GroupsAppend(st.groups, sets, s, e);
    OrderAfterAppend(st.order, sets, s, e);
    FreshAppendKeepsUnique(sets, s);
    AttachedAppend(sets, s);
    assert GroupsOf(r.groups, r.workout.sets);
    assert IsListing(r.order, ExerciseIds(r.workout.sets));
  }

  lemma AttachedFilter(sets: seq<ExerciseSet>, q: ExerciseSet -> bool)
    requires AllAttached(sets)
    ensures AllAttached(Filter(sets, q))
  {
    var f := Filter(sets, q);
    forall i | 0 <= i < |f|
      ensures f[i].exercise.Some?
    {
      FilterMember(sets, q, f[i]);
    }
  }

  lemma AttachedAppend(sets: seq<ExerciseSet>, s: ExerciseSet)
    requires AllAttached(sets) && s.exercise.Some?
    ensures AllAttached(sets + [s])
  {
    forall i | 0 <= i < |sets| + 1
      ensures (sets + [s])[i].exercise.Some?
    {
      if i < |sets| {
        assert (sets + [s])[i] == sets[i];
      }
    }
  }

  lemma AddExercisePreservesInv(st: SessionState, e: ExerciseId, setId: SetId, now: Time)
    requires Inv(st)
    requires setId !in SetIds(st.workout.sets)
    ensures Inv(AddExercise(st, e, setId, now))
  {
    var s := NewSet(setId, 0.0, 8, e, now, Some(st.workout.id));
    AppendPreservesInv(st, s, e, AddExercise(st, e, setId, now));
  }

  /** As written, the save that ends the first edit of a new workout fixes
      its duration: completing the workout later keeps the time of that
      edit, not the time of the completion. */
  lemma DurationFrozenAtFirstEdit(st: SessionState, e: ExerciseId, setId: SetId, t1: Time, t2: Time)
    requires st.workout.duration == 0.0 && t1 != st.workout.date
    ensures Complete(AddExercise(st, e, setId, t1).workout, t2).duration == t1 - st.workout.date
    ensures t2 != t1 ==> Complete(AddExercise(st, e, setId, t1).workout, t2).duration != t2 - st.workout.date
  {
  }

  // ---------------------------------------------------------------------
  // addSetToExercise
  // ---------------------------------------------------------------------

  /** `getReductionPercentage(forSetNumber:)`: 0, 10, 15 and 20 % for the
      first four positions, 10 % beyond (and for negative positions). */
  function ReductionPercentage(setNumber: int): (d: real)
    ensures 0 <= setNumber < 4 ==> d == [0.0, 0.1, 0.15, 0.2][setNumber]
    ensures !(0 <= setNumber < 4) ==> d == 0.1
  {
    GetOr(SafeGet([0.0, 0.1, 0.15, 0.2], setNumber), 0.1)
  }

  /** Weight and reps proposed for the next set of an exercise. */
  datatype Proposal = Proposal(weight: real, reps: int)

  /** The latest set by completion time: the last element after a stable sort,
      so among equal times the one listed last. */
  function LatestSet(existing: seq<ExerciseSet>): (s: ExerciseSet)
    requires |existing| > 0
    ensures s in existing
    ensures forall i :: 0 <= i < |existing| ==> existing[i].completedAt <= s.completedAt
  {
    SortedLastIsLatest(existing);
    SortBy(existing, CompletedAt)[|existing| - 1]
  }

  lemma SortedLastIsLatest(xs: seq<ExerciseSet>)
    requires |xs| > 0
    ensures SortBy(xs, CompletedAt)[|xs| - 1] in xs
    ensures forall i :: 0 <= i < |xs| ==> xs[i].completedAt <= SortBy(xs, CompletedAt)[|xs| - 1].completedAt
  {
    var sorted := SortBy(xs, CompletedAt);
    var last := sorted[|sorted| - 1];
    SortByMembers(xs, CompletedAt, last);
    forall i | 0 <= i < |xs|
      ensures xs[i].completedAt <= last.completedAt
    {
      SortByMembers(xs, CompletedAt, xs[i]);
      var j :| 0 <= j < |sorted| && sorted[j] == xs[i];
      if j < |sorted| - 1 {
        assert CompletedAt(sorted[j]) <= CompletedAt(sorted[|sorted| - 1]);
      }
    }
  }

  /** The proposal of `addSetToExercise`. */
  function ProposeNextSet(existing: seq<ExerciseSet>): (p: Proposal)
    ensures |existing| == 0 ==> p == Proposal(0.0, 8)
    ensures |existing| > 0 ==>
      p.weight == LatestSet(existing).weight * (1.0 - ReductionPercentage(|existing|))
    ensures |existing| > 0 ==> p.reps == MinInt(LatestSet(existing).reps + 2, 15)
  {
    if |existing| == 0 then Proposal(0.0, 8)
    else
      var last := LatestSet(existing);
      Proposal(last.weight * (1.0 - ReductionPercentage(|existing|)), MinInt(last.reps + 2, 15))
  }

  /** The set `addSetToExercise` creates. */
  function NextSet(st: SessionState, e: ExerciseId, setId: SetId, now: Time): (s: ExerciseSet)
    ensures s.exercise == Some(e) && s.id == setId
  {
    var p := ProposeNextSet(Filter(st.workout.sets, IsOf(e)));
    NewSet(setId, p.weight, p.reps, e, now, Some(st.workout.id))
  }

  /** `addSetToExercise`: appends the proposed set (unrounded weight) and
      saves the workout. */
  function AddSetToExercise(st: SessionState, e: ExerciseId, setId: SetId, now: Time): (r: SessionState)
    ensures var p := ProposeNextSet(Filter(st.workout.sets, IsOf(e)));
      r.workout.sets == st.workout.sets + [NewSet(setId, p.weight, p.reps, e, now, Some(st.workout.id))]
    ensures r.workout == SaveWorkout(st.workout, now).(sets := r.workout.sets)
    ensures r.groups == AppendToGroup(st.groups, e, NextSet(st, e, setId, now))
    ensures r.order == (if e in st.groups || e in st.order then st.order else st.order + [e])
    ensures r.workoutName == st.workoutName && r.showingRestTimer == st.showingRestTimer
    ensures r.currentRestDuration == st.currentRestDuration
  {
    var s := NextSet(st, e, setId, now);
    st.(workout := SaveWorkout(st.workout.(sets := st.workout.sets + [s]), now),
        groups := AppendToGroup(st.groups, e, s),
        order := if e in st.groups || e in st.order then st.order else st.order + [e])
  }

  /** The proposal's worked cases: a first set is 0 × 8; after 225 × 6 the
      second set is 202.5 × 8; reps never exceed 15. */
  lemma ProposalExamples(a: ExerciseSet, b: ExerciseSet)
    requires a.weight == 225.0 && a.reps == 6
    requires b.reps == 14 && b.completedAt > a.completedAt
    ensures ProposeNextSet([]) == Proposal(0.0, 8)
    ensures ProposeNextSet([a]) == Proposal(202.5, 8)
    ensures ProposeNextSet([a, b]).reps == 15
    ensures ProposeNextSet([a, b]).weight == b.weight * 0.85
  {
    assert LatestSet([a]) == a;
    var l := LatestSet([a, b]);
    assert l == a || l == b;
  }

  lemma AddSetToExercisePreservesInv(st: SessionState, e: ExerciseId, setId: SetId, now: Time)
    requires Inv(st)
    requires setId !in SetIds(st.workout.sets)
    ensures Inv(AddSetToExercise(st, e, setId, now))
  {
    var ids := ExerciseIds(st.workout.sets);
    ListingMembers(st.order, ids);
    assert (e in st.groups || e in st.order) <==> e in ids;
    AppendPreservesInv(st, NextSet(st, e, setId, now), e, AddSetToExercise(st, e, setId, now));
  }

  // ---------------------------------------------------------------------
  // updateSet
  // ---------------------------------------------------------------------

  /** The edit as the source performs it: the weight is assigned before the
      "first time this set gets a weight" test, so the test compares the new
      weight with 0 and with itself. */
  function EditSetAsWritten(s: ExerciseSet, weight: real, reps: int, rpe: Option<int>, now: Time): (r: ExerciseSet)
    ensures r == s.(weight := weight, reps := reps, rpe := rpe)
  {
    var s1 := s.(weight := weight, reps := reps, rpe := rpe);
    if s1.weight == 0.0 && weight > 0.0 then s1.(completedAt := now) else s1
  }

  /** As written, the re-stamping branch can never run. */
  lemma EditSetAsWrittenNeverRestamps(s: ExerciseSet, weight: real, reps: int, rpe: Option<int>, now: Time)
    ensures EditSetAsWritten(s, weight, reps, rpe, now) == s.(weight := weight, reps := reps, rpe := rpe)
  {
  }

  /** The intended edit: a set that had no weight and now gets one is
      stamped as completed now. */
  function EditSet(s: ExerciseSet, weight: real, reps: int, rpe: Option<int>, now: Time): (r: ExerciseSet)
    ensures r.weight == weight && r.reps == reps && r.rpe == rpe
    ensures r.completedAt == (if s.weight == 0.0 && weight > 0.0 then now else s.completedAt)
    ensures r == s.(weight := weight, reps := reps, rpe := rpe, completedAt := r.completedAt)
  {
    var stamp := if s.weight == 0.0 && weight > 0.0 then now else s.completedAt;
    s.(weight := weight, reps := reps, rpe := rpe, completedAt := stamp)
  }

  /** The input that shows the difference: an unweighted set stamped at 0
      receiving 100 lb at time 50 keeps stamp 0 as written, but is
      re-stamped to 50 as intended. */
  lemma EditSetDiscrepancy(s: ExerciseSet)
    requires s.weight == 0.0 && s.completedAt == 0.0
    ensures EditSetAsWritten(s, 100.0, 5, None, 50.0).completedAt == 0.0
    ensures EditSet(s, 100.0, 5, None, 50.0).completedAt == 50.0
  {
  }

  /** Applies the edit, as the source performs it, to the set with id
      `target`: only its weight, reps and RPE change. */
  function EditById(sets: seq<ExerciseSet>, target: SetId, weight: real, reps: int, rpe: Option<int>,
                    now: Time): (r: seq<ExerciseSet>)
    ensures |r| == |sets|
    ensures forall i :: 0 <= i < |r| ==>
      r[i] == (if sets[i].id == target then sets[i].(weight := weight, reps := reps, rpe := rpe) else sets[i])
  {
    seq(|sets|, i requires 0 <= i < |sets| =>
      if sets[i].id == target then EditSetAsWritten(sets[i], weight, reps, rpe, now) else sets[i])
  }

  /** Editing leaves every set's id and exercise as they were. */
  lemma EditByIdKeepsShape(sets: seq<ExerciseSet>, target: SetId, weight: real, reps: int, rpe: Option<int>,
                           now: Time)
    ensures var r := EditById(sets, target, weight, reps, rpe, now);
      && ExerciseIds(r) == ExerciseIds(sets)
      && (AllAttached(sets) ==> AllAttached(r))
      && (UniqueIds(sets) ==> UniqueIds(r))
  {
    var r := EditById(sets, target, weight, reps, rpe, now);
    forall e | e in ExerciseIds(sets)
      ensures e in ExerciseIds(r)
    {
      var s :| s in sets && s.exercise == Some(e);
      var i :| 0 <= i < |sets| && sets[i] == s;
      assert r[i].exercise == Some(e);
    }
    forall e | e in ExerciseIds(r)
      ensures e in ExerciseIds(sets)
    {
      var s :| s in r && s.exercise == Some(e);
      var i :| 0 <= i < |r| && r[i] == s;
      assert sets[i].exercise == Some(e);
    }
  }

  /** `updateSet(_:weight:reps:rpe:)` as the source performs it (the set keeps
      its completion time, see `EditSetAsWritten`), a save of the workout,
      and a rebuild of the grouping that maintains the order. */
  function UpdateSet(st: SessionState, target: SetId, weight: real, reps: int, rpe: Option<int>, now: Time,
                     keys: seq<ExerciseId>): (r: SessionState)
    requires AllAttached(st.workout.sets)
    requires IsListing(keys, ExerciseIds(st.workout.sets))
    ensures r.workout.sets == EditById(st.workout.sets, target, weight, reps, rpe, now)
    ensures r.workout == SaveWorkout(st.workout, now).(sets := r.workout.sets)
    ensures r.groups == Project(r.workout.sets)
  {
    var sets := EditById(st.workout.sets, target, weight, reps, rpe, now);
    EditByIdKeepsShape(st.workout.sets, target, weight, reps, rpe, now);
    Rebuild(st.(workout := SaveWorkout(st.workout.(sets := sets), now)), true, keys)
  }

  /** Updating a set changes only that set, keeps the session consistent and
      leaves the exercise order exactly as it was. */
  lemma UpdateSetPreservesInv(st: SessionState, target: SetId, weight: real, reps: int, rpe: Option<int>,
                              now: Time, keys: seq<ExerciseId>)
    requires Inv(st)
    requires IsListing(keys, ExerciseIds(st.workout.sets))
    ensures Inv(UpdateSet(st, target, weight, reps, rpe, now, keys))
    ensures UpdateSet(st, target, weight, reps, rpe, now, keys).order == st.order
  {
    var sets := st.workout.sets;
    var sets' := EditById(sets, target, weight, reps, rpe, now);
    EditByIdKeepsShape(sets, target, weight, reps, rpe, now);
    ListingNoDup(st.order, ExerciseIds(sets));
    MaintainedOrderUnchanged(st.order, sets', keys);
  }

  // ---------------------------------------------------------------------
  // deleteSet
  // ---------------------------------------------------------------------

  /** `if let i = sets.firstIndex(where: { $0.id == id }) { sets.remove(at: i) }`:
      the first set with the id is removed, if there is one. */
  function RemoveFirstId(sets: seq<ExerciseSet>, id: SetId): (r: seq<ExerciseSet>)
    ensures (forall k :: 0 <= k < |sets| ==> sets[k].id != id) ==> r == sets
  {
    if |sets| == 0 then []
    else if sets[0].id == id then sets[1..]
    else [sets[0]] + RemoveFirstId(sets[1..], id)
  }

  /** When `i` is the first position holding the id, exactly that position goes. */
  lemma {:induction false} RemoveFirstIdAt(sets: seq<ExerciseSet>, id: SetId, i: nat)
    requires i < |sets| && sets[i].id == id
    requires forall k :: 0 <= k < i ==> sets[k].id != id
    ensures RemoveFirstId(sets, id) == sets[..i] + sets[i + 1..]
  {
    if i > 0 {
      RemoveFirstIdAt(sets[1..], id, i - 1);
      assert sets[..i] == [sets[0]] + sets[1..][..i - 1];
      assert sets[i + 1..] == sets[1..][i..];
    }
  }

  /** Predicate constructor: the set's id differs from `id`. */
  function NotId(id: SetId): ExerciseSet -> bool
  {
    (s: ExerciseSet) => s.id != id
  }

  /** `deleteSet(_:)`: a set without an exercise is ignored, and nothing is
      saved. Otherwise the set leaves the workout and its group; an exercise
      whose group becomes empty (or was missing) leaves the grouping and the
      order; the workout is saved. */
  function DeleteSet(st: SessionState, s: ExerciseSet, now: Time): (r: SessionState)
    ensures s.exercise.None? ==> r == st
    ensures s.exercise.Some? ==>
      r.workout == SaveWorkout(st.workout, now).(sets := RemoveFirstId(st.workout.sets, s.id))
    ensures s.exercise.Some? ==>
      var e := s.exercise.value;
      var emptied := e !in st.groups || |Filter(st.groups[e], NotId(s.id))| == 0;
      && (emptied ==> r.groups == st.groups - {e} && r.order == RemoveFirst(st.order, e))
      && (!emptied ==> r.groups == st.groups[e := Filter(st.groups[e], NotId(s.id))] && r.order == st.order)
    ensures r.workoutName == st.workoutName && r.showingRestTimer == st.showingRestTimer
  {
    match s.exercise
    case None => st
    case Some(e) =>
      var w := SaveWorkout(st.workout.(sets := RemoveFirstId(st.workout.sets, s.id)), now);
      var g := if e in st.groups then Filter(st.groups[e], NotId(s.id)) else [];
      if e !in st.groups || |g| == 0 then
        st.(workout := w, groups := st.groups - {e}, order := RemoveFirst(st.order, e))
      else
        st.(workout := w, groups := st.groups[e := g])
  }

  /** With unique ids, removing the first set with an id removes every set
      with that id: the result is the filter that drops it. */
  lemma {:induction false} RemoveFirstIdIsFilter(sets: seq<ExerciseSet>, id: SetId)
    requires UniqueIds(sets)
    ensures RemoveFirstId(sets, id) == Filter(sets, NotId(id))
  {
    if |sets| > 0 {
      var tail := sets[1..];
      assert UniqueIds(tail) by {
        forall i, j | 0 <= i < j < |tail|
          ensures tail[i].id != tail[j].id
        {
          assert tail[i] == sets[i + 1] && tail[j] == sets[j + 1];
        }
      }
      if sets[0].id == id {
        forall x | x in tail
          ensures NotId(id)(x)
        {
          var k :| 0 <= k < |tail| && tail[k] == x;
          assert sets[k + 1] == x;
        }
        FilterAll(tail, NotId(id));
      } else {
        RemoveFirstIdIsFilter(tail, id);
      }
    }
  }

  lemma {:induction false} UniqueIdsFilter(sets: seq<ExerciseSet>, p: ExerciseSet -> bool)
    requires UniqueIds(sets)
    ensures UniqueIds(Filter(sets, p))
  {
    if |sets| > 0 {
      var tail := sets[1..];
      assert UniqueIds(tail) by {
        forall i, j | 0 <= i < j < |tail|
          ensures tail[i].id != tail[j].id
        {
          assert tail[i] == sets[i + 1] && tail[j] == sets[j + 1];
        }
      }
      UniqueIdsFilter(tail, p);
      var t := Filter(tail, p);
      if p(sets[0]) {
        var f := [sets[0]] + t;
        assert Filter(sets, p) == f;
        forall i, j | 0 <= i < j < |f|
          ensures f[i].id != f[j].id
        {
          assert f[j] == t[j - 1];
          if i == 0 {
            FilterMember(tail, p, t[j - 1]);
            var k :| 0 <= k < |tail| && tail[k] == t[j - 1];
            assert sets[k + 1] == f[j];
          } else {
            assert f[i] == t[i - 1];
          }
        }
      } else {
        assert Filter(sets, p) == t;
      }
    }
  }

  /** An exercise is present exactly when its filter is non-empty. */
  lemma InIdsIffGroupNonEmpty(sets: seq<ExerciseSet>, x: ExerciseId)
    ensures x in ExerciseIds(sets) <==> |Filter(sets, IsOf(x))| > 0
  {
    if x in ExerciseIds(sets) {
      var t :| t in sets && t.exercise == Some(x);
      FilterMember(sets, IsOf(x), t);
    }
    if |Filter(sets, IsOf(x))| > 0 {
      FilterMember(sets, IsOf(x), Filter(sets, IsOf(x))[0]);
    }
  }

  /** The grouping of a filtered workout: each group filtered, empty ones gone. */
  lemma GroupOfFilter(sets: seq<ExerciseSet>, q: ExerciseSet -> bool, x: ExerciseId)
    ensures x in ExerciseIds(Filter(sets, q)) <==> |Filter(Filter(sets, IsOf(x)), q)| > 0
    ensures Filter(Filter(sets, q), IsOf(x)) == Filter(Filter(sets, IsOf(x)), q)
  {
    FilterCommute(sets, q, IsOf(x));
    InIdsIffGroupNonEmpty(Filter(sets, q), x);
  }

  /** Only `s` itself carries `s`'s id. */
  lemma OnlyOneWithId(sets: seq<ExerciseSet>, s: ExerciseSet, t: ExerciseSet)
    requires UniqueIds(sets) && s in sets && t in sets && t.id == s.id
    ensures t == s
  {
    var a :| 0 <= a < |sets| && sets[a] == s;
    var b :| 0 <= b < |sets| && sets[b] == t;
  }

  /** Grouping after dropping one set, exercise by exercise. */
  lemma GroupWithoutSetAt(sets: seq<ExerciseSet>, s: ExerciseSet, e: ExerciseId, x: ExerciseId)
    requires UniqueIds(sets) && s in sets && s.exercise == Some(e)
    ensures var g := Filter(Filter(sets, IsOf(e)), NotId(s.id));
      var sets' := Filter(sets, NotId(s.id));
      && (x in ExerciseIds(sets') <==> x in ExerciseIds(sets) && (x != e || |g| > 0))
      && (x != e ==> Filter(sets', IsOf(x)) == Filter(sets, IsOf(x)))
      && Filter(sets', IsOf(e)) == g
  {
    var q := NotId(s.id);
    InIdsIffGroupNonEmpty(sets, x);
    GroupOfFilter(sets, q, x);
    GroupOfFilter(sets, q, e);
    if x != e {
      forall t | t in Filter(sets, IsOf(x))
        ensures q(t)
      {
        FilterMember(sets, IsOf(x), t);
        if t.id == s.id {
          OnlyOneWithId(sets, s, t);
        }
      }
      FilterAll(Filter(sets, IsOf(x)), q);
    }
  }

  /** Grouping after dropping the last set of an exercise: its group goes. */
  lemma GroupsWithoutLastSetAt(groups: map<ExerciseId, seq<ExerciseSet>>, sets: seq<ExerciseSet>, s: ExerciseSet,
                             e: ExerciseId, x: ExerciseId)
    requires GroupsOf(groups, sets)
    requires UniqueIds(sets) && s in sets && s.exercise == Some(e)
    requires |Filter(Filter(sets, IsOf(e)), NotId(s.id))| == 0
    ensures x in groups - {e} <==> x in ExerciseIds(Filter(sets, NotId(s.id)))
    ensures x in groups - {e} ==> (groups - {e})[x] == Filter(Filter(sets, NotId(s.id)), IsOf(x))
  {
    GroupWithoutSetAt(sets, s, e, x);
  }

  lemma GroupsWithoutLastSet(groups: map<ExerciseId, seq<ExerciseSet>>, sets: seq<ExerciseSet>, s: ExerciseSet,
                             e: ExerciseId)
    requires GroupsOf(groups, sets)
    requires UniqueIds(sets) && s in sets && s.exercise == Some(e)
    requires |Filter(Filter(sets, IsOf(e)), NotId(s.id))| == 0
    ensures GroupsOf(groups - {e}, Filter(sets, NotId(s.id)))
  {
    forall x: ExerciseId
      ensures x in groups - {e} <==> x in ExerciseIds(Filter(sets, NotId(s.id)))
      ensures x in groups - {e} ==> (groups - {e})[x] == Filter(Filter(sets, NotId(s.id)), IsOf(x))
    {
      GroupsWithoutLastSetAt(groups, sets, s, e, x);
    }
  }

  lemma GroupsWithoutOtherSetAt(groups: map<ExerciseId, seq<ExerciseSet>>, sets: seq<ExerciseSet>, s: ExerciseSet,
                                e: ExerciseId, g: seq<ExerciseSet>, x: ExerciseId)
    requires GroupsOf(groups, sets)
    requires UniqueIds(sets) && s in sets && s.exercise == Some(e)
    requires g == Filter(Filter(sets, IsOf(e)), NotId(s.id)) && |g| > 0
    ensures x == e || x in groups <==> x in ExerciseIds(Filter(sets, NotId(s.id)))
    ensures x != e && x in groups ==> groups[x] == Filter(Filter(sets, NotId(s.id)), IsOf(x))
    ensures g == Filter(Filter(sets, NotId(s.id)), IsOf(e))
  {
    assert e in ExerciseIds(sets);
    GroupWithoutSetAt(sets, s, e, x);
  }

  lemma GroupsPointwise(m: map<ExerciseId, seq<ExerciseSet>>, sets: seq<ExerciseSet>)
    requires forall x: ExerciseId :: x in m <==> x in ExerciseIds(sets)
    requires forall x: ExerciseId :: x in m ==> m[x] == Filter(sets, IsOf(x))
    ensures GroupsOf(m, sets)
  {
  }

  /** Grouping after dropping a set whose exercise keeps other sets. */
  lemma GroupsWithoutOtherSet(groups: map<ExerciseId, seq<ExerciseSet>>, sets: seq<ExerciseSet>, s: ExerciseSet,
                              e: ExerciseId, g: seq<ExerciseSet>)
    requires GroupsOf(groups, sets)
    requires UniqueIds(sets) && s in sets && s.exercise == Some(e)
    requires g == Filter(Filter(sets, IsOf(e)), NotId(s.id)) && |g| > 0
    ensures GroupsOf(groups[e := g], Filter(sets, NotId(s.id)))
  {
    var sets' := Filter(sets, NotId(s.id));
    var ids' := ExerciseIds(sets');
    forall x: ExerciseId
      ensures x == e || x in groups <==> x in ids'
      ensures x != e && x in groups ==> groups[x] == Filter(sets', IsOf(x))
    {
      GroupsWithoutOtherSetAt(groups, sets, s, e, g, x);
    }
    GroupsWithoutOtherSetAt(groups, sets, s, e, g, e);
    GroupsUpdate(groups, e, g, sets');
  }

  lemma GroupsUpdate(groups: map<ExerciseId, seq<ExerciseSet>>, e: ExerciseId, g: seq<ExerciseSet>,
                     sets: seq<ExerciseSet>)
    requires forall x: ExerciseId :: x == e || x in groups <==> x in ExerciseIds(sets)
    requires forall x: ExerciseId :: x != e && x in groups ==> groups[x] == Filter(sets, IsOf(x))
    requires g == Filter(sets, IsOf(e))
    ensures GroupsOf(groups[e := g], sets)
  {
  }

  /** Grouping after dropping one set: only its exercise's group shrinks,
      and disappears once empty. */
  lemma GroupsWithoutSet(groups: map<ExerciseId, seq<ExerciseSet>>, sets: seq<ExerciseSet>, s: ExerciseSet,
                         e: ExerciseId)
    requires GroupsOf(groups, sets)
    requires UniqueIds(sets) && s in sets && s.exercise == Some(e)
    ensures e in groups
    ensures var g := Filter(groups[e], NotId(s.id));
      GroupsOf(if |g| == 0 then groups - {e} else groups[e := g], Filter(sets, NotId(s.id)))
  {
    assert e in ExerciseIds(sets);
    if |Filter(groups[e], NotId(s.id))| == 0 {
      GroupsWithoutLastSet(groups, sets, s, e);
    } else {
      GroupsWithoutOtherSet(groups, sets, s, e, Filter(groups[e], NotId(s.id)));
    }
  }

  /** Deleting a set of the session keeps the session consistent. */
  lemma DeleteSetPreservesInv(st: SessionState, s: ExerciseSet, now: Time)
    requires Inv(st)
    requires s in st.workout.sets
    ensures Inv(DeleteSet(st, s, now))
  {
    var e := s.exercise.value;
    assert e in st.groups;
    DeleteSetShape(st, s, e, now);
    var saved := st.(workout := SaveWorkout(st.workout, now));
    assert saved.workout.sets == st.workout.sets;
    assert Inv(saved);
    DeletedInv(saved, s, e);
    var g := Filter(st.groups[e], NotId(s.id));
    assert DeleteSet(st, s, now) ==
      saved.(workout := saved.workout.(sets := Filter(saved.workout.sets, NotId(s.id))),
             groups := if |g| == 0 then saved.groups - {e} else saved.groups[e := g],
             order := if |g| == 0 then RemoveFirst(saved.order, e) else saved.order);
  }

  /** With unique ids, the deletion is a filter of the sets. */
  lemma DeleteSetShape(st: SessionState, s: ExerciseSet, e: ExerciseId, now: Time)
    requires UniqueIds(st.workout.sets) && s.exercise == Some(e) && e in st.groups
    ensures var g := Filter(st.groups[e], NotId(s.id));
      DeleteSet(st, s, now) == st.(workout := SaveWorkout(st.workout, now).(sets := Filter(st.workout.sets, NotId(s.id))),
                              groups := if |g| == 0 then st.groups - {e} else st.groups[e := g],
                              order := if |g| == 0 then RemoveFirst(st.order, e) else st.order)
  {
    RemoveFirstIdIsFilter(st.workout.sets, s.id);
  }

  /** The state the deletion produces satisfies the invariant. */
  lemma DeletedInv(st: SessionState, s: ExerciseSet, e: ExerciseId)
    requires Inv(st) && s in st.workout.sets && s.exercise == Some(e) && e in st.groups
    ensures var g := Filter(st.groups[e], NotId(s.id));
      Inv(st.(workout := st.workout.(sets := Filter(st.workout.sets, NotId(s.id))),
              groups := if |g| == 0 then st.groups - {e} else st.groups[e := g],
              order := if |g| == 0 then RemoveFirst(st.order, e) else st.order))
  {
    if |Filter(st.groups[e], NotId(s.id))| == 0 {
      DeletedLastInv(st, s, e);
    } else {
      DeletedOtherInv(st, s, e);
    }
  }

  /** The deleted set was the exercise's last one. */
  lemma DeletedLastInv(st: SessionState, s: ExerciseSet, e: ExerciseId)
    requires Inv(st) && s in st.workout.sets && s.exercise == Some(e) && e in st.groups
    requires |Filter(st.groups[e], NotId(s.id))| == 0
    ensures Inv(st.(workout := st.workout.(sets := Filter(st.workout.sets, NotId(s.id))),
                    groups := st.groups - {e}, order := RemoveFirst(st.order, e)))
  {
    var sets := st.workout.sets;
    var sets' := Filter(sets, NotId(s.id));
    UniqueIdsFilter(sets, NotId(s.id));
    AttachedFilter(sets, NotId(s.id));
    GroupsWithoutSet(st.groups, sets, s, e);
    assert ExerciseIds(sets') == ExerciseIds(sets) - {e};
    RemoveFirstListing(st.order, ExerciseIds(sets), e);
  }

  /** The exercise keeps other sets. */
  lemma DeletedOtherInv(st: SessionState, s: ExerciseSet, e: ExerciseId)
    requires Inv(st) && s in st.workout.sets && s.exercise == Some(e) && e in st.groups
    requires |Filter(st.groups[e], NotId(s.id))| > 0
    ensures Inv(st.(workout := st.workout.(sets := Filter(st.workout.sets, NotId(s.id))),
                    groups := st.groups[e := Filter(st.groups[e], NotId(s.id))]))
  {
    var sets := st.workout.sets;
    var sets' := Filter(sets, NotId(s.id));
    var g := Filter(st.groups[e], NotId(s.id));
    UniqueIdsFilter(sets, NotId(s.id));
    AttachedFilter(sets, NotId(s.id));
    GroupsWithoutOtherSet(st.groups, sets, s, e, g);
    assert st.groups[e := g].Keys == st.groups.Keys;
    assert ExerciseIds(sets') == ExerciseIds(sets);
  }

  // ---------------------------------------------------------------------
  // deleteExerciseFromWorkout
  // ---------------------------------------------------------------------

  /** `deleteExerciseFromWorkout(_:)`: every set of the exercise goes, and so
      do its group and its first entry in the order; the workout is saved. */
  function DeleteExercise(st: SessionState, e: ExerciseId, now: Time): (r: SessionState)
    ensures r.workout.sets == Filter(st.workout.sets, Not(IsOf(e)))
    ensures r.workout == SaveWorkout(st.workout, now).(sets := r.workout.sets)
    ensures r.groups == st.groups - {e}
    ensures r.order == RemoveFirst(st.order, e)
  {
    st.(workout := SaveWorkout(st.workout.(sets := Filter(st.workout.sets, Not(IsOf(e)))), now),
        groups := st.groups - {e},
        order := RemoveFirst(st.order, e))
  }

  /** No set of the exercise remains, and every other exercise keeps exactly
      its sets in their relative order. */
  lemma DeleteExerciseEffects(st: SessionState, e: ExerciseId, x: ExerciseId, now: Time)
    ensures Filter(DeleteExercise(st, e, now).workout.sets, IsOf(e)) == []
    ensures x != e ==> Filter(DeleteExercise(st, e, now).workout.sets, IsOf(x)) == Filter(st.workout.sets, IsOf(x))
  {
    var sets := st.workout.sets;
    FilterCommute(sets, Not(IsOf(e)), IsOf(e));
    FilterNone(Filter(sets, IsOf(e)), Not(IsOf(e)));
    FilterCommute(sets, Not(IsOf(e)), IsOf(x));
    if x != e {
      FilterAll(Filter(sets, IsOf(x)), Not(IsOf(e)));
    }
  }

  lemma GroupsWithoutExerciseAt(groups: map<ExerciseId, seq<ExerciseSet>>, sets: seq<ExerciseSet>,
                                e: ExerciseId, x: ExerciseId)
    requires GroupsOf(groups, sets)
    ensures x in groups - {e} <==> x in ExerciseIds(Filter(sets, Not(IsOf(e))))
    ensures x in groups - {e} ==> (groups - {e})[x] == Filter(Filter(sets, Not(IsOf(e))), IsOf(x))
  {
    InIdsIffGroupNonEmpty(sets, x);
    InIdsIffGroupNonEmpty(Filter(sets, Not(IsOf(e))), x);
    FilterCommute(sets, Not(IsOf(e)), IsOf(x));
    if x == e {
      FilterNone(Filter(sets, IsOf(e)), Not(IsOf(e)));
    } else {
      FilterAll(Filter(sets, IsOf(x)), Not(IsOf(e)));
    }
  }

  /** Grouping after dropping every set of an exercise: its group goes. */
  lemma GroupsWithoutExercise(groups: map<ExerciseId, seq<ExerciseSet>>, sets: seq<ExerciseSet>, e: ExerciseId)
    requires GroupsOf(groups, sets)
    ensures GroupsOf(groups - {e}, Filter(sets, Not(IsOf(e))))
    ensures ExerciseIds(Filter(sets, Not(IsOf(e)))) == ExerciseIds(sets) - {e}
  {
    forall x: ExerciseId
      ensures x in groups - {e} <==> x in ExerciseIds(Filter(sets, Not(IsOf(e))))
      ensures x in groups - {e} ==> (groups - {e})[x] == Filter(Filter(sets, Not(IsOf(e))), IsOf(x))
    {
      GroupsWithoutExerciseAt(groups, sets, e, x);
    }
  }

  lemma DeleteExercisePreservesInv(st: SessionState, e: ExerciseId, now: Time)
    requires Inv(st)
    ensures Inv(DeleteExercise(st, e, now))
  {
    var sets := st.workout.sets;
    UniqueIdsFilter(sets, Not(IsOf(e)));
    AttachedFilter(sets, Not(IsOf(e)));
    GroupsWithoutExercise(st.groups, sets, e);
    RemoveFirstListing(st.order, ExerciseIds(sets), e);
  }

  // ---------------------------------------------------------------------
  // Name, rest timer
  // ---------------------------------------------------------------------

  /** `updateWorkoutName()`: copies the edited name into the workout. */
  function UpdateWorkoutName(st: SessionState): (r: SessionState)
    ensures r.workout.name == st.workoutName
    ensures r == st.(workout := st.workout.(name := st.workoutName))
  {
    st.(workout := st.workout.(name := st.workoutName))
  }

  /** `startRestTimer()`: the duration comes from the settings. */
  function StartRestTimer(st: SessionState, settingsRestDuration: int): (r: SessionState)
    ensures r.showingRestTimer && r.currentRestDuration == settingsRestDuration
    ensures r.workout == st.workout && r.groups == st.groups && r.order == st.order
  {
    st.(currentRestDuration := settingsRestDuration, showingRestTimer := true)
  }

  /** `cancelRestTimer()`. */
  function CancelRestTimer(st: SessionState): (r: SessionState)
    ensures !r.showingRestTimer
    ensures r == st.(showingRestTimer := false)
  {
    st.(showingRestTimer := false)
  }

  /** Starting and cancelling the timer restores the flags and keeps the
      chosen duration. */
  lemma RestTimerRoundTrip(st: SessionState, d: int)
    requires !st.showingRestTimer
    ensures CancelRestTimer(StartRestTimer(st, d)) == st.(currentRestDuration := d)
  {
  }

  // ---------------------------------------------------------------------
  // populateWithPreviousWeights
  // ---------------------------------------------------------------------

  /** Some set of the sequence carries weight. */
  predicate HasWeight(sets: seq<ExerciseSet>)
  {
    exists i :: 0 <= i < |sets| && sets[i].weight > 0.0
  }

  /** Some set of the sequence has weight 0. */
  predicate HasUnweighted(sets: seq<ExerciseSet>)
  {
    exists i :: 0 <= i < |sets| && sets[i].weight == 0.0
  }

  /** Position of the first history entry with a weighted set: the most
      recent one, as the history is newest first. */
  function FirstWeighted(history: seq<seq<ExerciseSet>>): (r: Option<nat>)
    ensures r.Some? ==> r.value < |history| && HasWeight(history[r.value])
    ensures r.Some? ==> forall k :: 0 <= k < r.value ==> !HasWeight(history[k])
    ensures r.None? ==> forall k :: 0 <= k < |history| ==> !HasWeight(history[k])
  {
    if |history| == 0 then None
    else if HasWeight(history[0]) then Some(0)
    else match FirstWeighted(history[1..])
      case None => None
      case Some(k) => Some(k + 1)
  }

  /** A set takes over weight and RPE of the previous set at its position,
      and its reps only when it has none. */
  function Refill(s: ExerciseSet, prev: ExerciseSet): (r: ExerciseSet)
    ensures r.weight == prev.weight && r.rpe == prev.rpe
    ensures r.reps == (if s.reps == 0 then prev.reps else s.reps)
    ensures r.id == s.id && r.exercise == s.exercise && r.completedAt == s.completedAt
    ensures r.isWarmup == s.isWarmup && r.notes == s.notes && r.workout == s.workout
  {
    s.(weight := prev.weight, reps := if s.reps == 0 then prev.reps else s.reps, rpe := prev.rpe)
  }

  /** What the population does to one set: the `k`-th set of its exercise by
      completion time is refilled from the `k`-th set by completion time of
      that exercise's most recent weighted workout, when there is one. */
  function PopulatedSet(st: SessionState, history: ExerciseId -> seq<seq<ExerciseSet>>, s: ExerciseSet)
    : (r: ExerciseSet)
    ensures r.id == s.id && r.exercise == s.exercise && r.completedAt == s.completedAt
  {
    match s.exercise
    case None => s
    case Some(e) =>
      if e !in st.order || e !in st.groups then s
      else match FirstWeighted(history(e))
        case None => s
        case Some(h) =>
          var prev := SortBy(history(e)[h], CompletedAt);
          match FirstIndexOf(SortBy(st.groups[e], CompletedAt), s)
          case None => s
          case Some(k) => if k < |prev| then Refill(s, prev[k]) else s
  }

  function Populator(st: SessionState, history: ExerciseId -> seq<seq<ExerciseSet>>): ExerciseSet -> ExerciseSet
  {
    (s: ExerciseSet) => PopulatedSet(st, history, s)
  }

  /** `populateWithPreviousWeights()`: runs only for a workout started from a
      template that still has a set of weight 0; then every set of every
      exercise in the order is refilled. The groups hold the very same set
      objects in the source, so they change along. `history(e)` stands for
      `getWorkoutHistory(for: e)`, each entry being one workout's sets. */
  function Populate(st: SessionState, history: ExerciseId -> seq<seq<ExerciseSet>>): (r: SessionState)
    ensures !(st.workout.startedFromTemplate.Some? && HasUnweighted(st.workout.sets)) ==> r == st
    ensures r.workout == st.workout.(sets := r.workout.sets)
    ensures r.groups.Keys == st.groups.Keys
    ensures r.order == st.order && r.workoutName == st.workoutName
    ensures |r.workout.sets| == |st.workout.sets|
  {
    if st.workout.startedFromTemplate.Some? && HasUnweighted(st.workout.sets) then
      var f := Populator(st, history);
      st.(workout := st.workout.(sets := MapSeq(st.workout.sets, f)),
          groups := map e | e in st.groups :: MapSeq(st.groups[e], f))
    else st
  }

  /** Rewriting sets without touching ids and exercises keeps the exercises
      and the uniqueness of ids. */
  lemma MapKeepsIdentity(sets: seq<ExerciseSet>, f: ExerciseSet -> ExerciseSet)
    requires forall s: ExerciseSet :: f(s).id == s.id && f(s).exercise == s.exercise
    ensures ExerciseIds(MapSeq(sets, f)) == ExerciseIds(sets)
    ensures AllAttached(sets) ==> AllAttached(MapSeq(sets, f))
    ensures UniqueIds(sets) ==> UniqueIds(MapSeq(sets, f))
  {
    var r := MapSeq(sets, f);
    forall e | e in ExerciseIds(sets)
      ensures e in ExerciseIds(r)
    {
      var i :| 0 <= i < |sets| && sets[i].exercise == Some(e);
      assert r[i].exercise == Some(e);
    }
    forall e | e in ExerciseIds(r)
      ensures e in ExerciseIds(sets)
    {
      var i :| 0 <= i < |r| && r[i].exercise == Some(e);
      assert sets[i].exercise == Some(e);
    }
  }

  /** Rewriting every set in place, in the workout and in the groups alike,
      keeps the grouping. */
  lemma GroupsMapped(groups: map<ExerciseId, seq<ExerciseSet>>, sets: seq<ExerciseSet>,
                     f: ExerciseSet -> ExerciseSet)
    requires GroupsOf(groups, sets)
    requires forall s: ExerciseSet :: f(s).id == s.id && f(s).exercise == s.exercise
    ensures GroupsOf(map e | e in groups :: MapSeq(groups[e], f), MapSeq(sets, f))
  {
    MapKeepsIdentity(sets, f);
    var m := map e | e in groups :: MapSeq(groups[e], f);
    forall e | e in m
      ensures m[e] == Filter(MapSeq(sets, f), IsOf(e))
    {
      GroupMapped(sets, f, e);
    }
    GroupsPointwise(m, MapSeq(sets, f));
  }

  lemma GroupMapped(sets: seq<ExerciseSet>, f: ExerciseSet -> ExerciseSet, e: ExerciseId)
    requires forall s: ExerciseSet :: f(s).exercise == s.exercise
    ensures MapSeq(Filter(sets, IsOf(e)), f) == Filter(MapSeq(sets, f), IsOf(e))
  {
    FilterMap(sets, f, IsOf(e));
  }

  lemma PopulatePreservesInv(st: SessionState, history: ExerciseId -> seq<seq<ExerciseSet>>)
    requires Inv(st)
    ensures Inv(Populate(st, history))
  {
    if st.workout.startedFromTemplate.Some? && HasUnweighted(st.workout.sets) {
      var f := Populator(st, history);
      MapKeepsIdentity(st.workout.sets, f);
      GroupsMapped(st.groups, st.workout.sets, f);
    }
  }

  lemma UniqueIdsNoDup(sets: seq<ExerciseSet>)
    requires UniqueIds(sets)
    ensures NoDup(sets)
  {
  }

  /** Under the invariant a set's position within its exercise's sorted
      group is well defined. */
  lemma RankInGroup(st: SessionState, e: ExerciseId, k: nat)
    requires Inv(st) && e in st.groups
    requires k < |st.groups[e]|
    ensures var cur := SortBy(st.groups[e], CompletedAt);
      && cur[k].exercise == Some(e)
      && FirstIndexOf(cur, cur[k]) == Some(k)
      && e in st.order
  {
    var g := st.groups[e];
    var cur := SortBy(g, CompletedAt);
    SortByMembers(g, CompletedAt, cur[k]);
    FilterMember(st.workout.sets, IsOf(e), cur[k]);
    UniqueIdsNoDup(st.workout.sets);
    FilterKeepsNoDup(st.workout.sets, IsOf(e));
    PermutationKeepsNoDup(g, cur);
    ListingMembers(st.order, ExerciseIds(st.workout.sets));
  }

  /** The promise of the population: after it, the `k`-th set of an
      exercise by completion time carries the weight and RPE of the `k`-th
      set by completion time of the exercise's most recent weighted workout,
      and reps from there only if it had none; sets beyond the previous
      workout's count are left alone. */
  lemma PopulateFollowsHistory(st: SessionState, history: ExerciseId -> seq<seq<ExerciseSet>>,
                               e: ExerciseId, h: nat, k: nat)
    requires Inv(st)
    requires st.workout.startedFromTemplate.Some? && HasUnweighted(st.workout.sets)
    requires e in st.groups && FirstWeighted(history(e)) == Some(h)
    requires k < |st.groups[e]|
    ensures e in Populate(st, history).groups
    ensures var cur := SortBy(st.groups[e], CompletedAt);
      var prev := SortBy(history(e)[h], CompletedAt);
      var now := SortBy(Populate(st, history).groups[e], CompletedAt);
      && |now| == |cur|
      && (k < |prev| ==> now[k] == Refill(cur[k], prev[k]))
      && (k >= |prev| ==> now[k] == cur[k])
  {
    PopulatedGroupSorted(st, history, e);
    RankInGroup(st, e, k);
    PopulatedSetAt(st, history, e, h, k);
  }

  /** Population commutes with sorting by completion time, since it never
      touches completion times. */
  lemma PopulatedGroupSorted(st: SessionState, history: ExerciseId -> seq<seq<ExerciseSet>>, e: ExerciseId)
    requires st.workout.startedFromTemplate.Some? && HasUnweighted(st.workout.sets)
    requires e in st.groups
    ensures e in Populate(st, history).groups
    ensures SortBy(Populate(st, history).groups[e], CompletedAt)
         == MapSeq(SortBy(st.groups[e], CompletedAt), Populator(st, history))
  {
    var f := Populator(st, history);
    var g := st.groups[e];
    assert Populate(st, history).groups[e] == MapSeq(g, f);
    SortByMap(g, f, CompletedAt);
  }

  lemma PopulatedSetAt(st: SessionState, history: ExerciseId -> seq<seq<ExerciseSet>>,
                       e: ExerciseId, h: nat, k: nat)
    requires e in st.groups && e in st.order && FirstWeighted(history(e)) == Some(h)
    requires k < |st.groups[e]|
    requires SortBy(st.groups[e], CompletedAt)[k].exercise == Some(e)
    requires FirstIndexOf(SortBy(st.groups[e], CompletedAt), SortBy(st.groups[e], CompletedAt)[k]) == Some(k)
    ensures var cur := SortBy(st.groups[e], CompletedAt);
      var prev := SortBy(history(e)[h], CompletedAt);
      PopulatedSet(st, history, cur[k]) == if k < |prev| then Refill(cur[k], prev[k]) else cur[k]
  {
  }

  /** An exercise without any weighted workout in its history keeps its sets. */
  lemma PopulateWithoutHistory(st: SessionState, history: ExerciseId -> seq<seq<ExerciseSet>>, e: ExerciseId)
    requires Inv(st)
    requires e in st.groups && FirstWeighted(history(e)).None?
    ensures Populate(st, history).groups[e] == st.groups[e]
  {
    var f := Populator(st, history);
    if st.workout.startedFromTemplate.Some? && HasUnweighted(st.workout.sets) {
      var g := st.groups[e];
      forall i | 0 <= i < |g|
        ensures f(g[i]) == g[i]
      {
        FilterMember(st.workout.sets, IsOf(e), g[i]);
      }
      MapSeqIdentity(g, f);
    }
  }
}

=== FILE: set_row.dfy ===
/** The editing logic of one set row (`ExerciseSetRowView`): the quick
    adjust buttons and the save action, over text fields that are already
    parsed (`Double(text)` / `Int(text)` are inputs, `None` when the text
    does not parse). */
module SetRow {
  import opened Basics

  /** The nearest integer, a tie going to the even neighbour: the rounding
      of a correctly rounded `printf` conversion in the default
      round-to-nearest-even mode. */
  function RoundHalfEven(x: real): (n: int)
    ensures x - 0.5 <= n as real <= x + 0.5
    ensures x - 0.5 < n as real < x + 0.5 || n % 2 == 0
  {
    var f := x.Floor;
    var frac := x - f as real;
    if frac < 0.5 then f
    else if frac > 0.5 then f + 1
    else if f % 2 == 0 then f
    else f + 1
  }

  /** The value the text `String(format: "%.1f", x)` denotes: `x` rounded
      to one decimal. */
  function Tenths(x: real): (r: real)
    ensures x - 0.05 <= r <= x + 0.05
    ensures r == RoundHalfEven(x * 10.0) as real / 10.0
  {
    RoundHalfEven(x * 10.0) as real / 10.0
  }

  /** A value on the 0.1 grid is written back exactly. */
  lemma TenthsOnGrid(k: int)
    ensures Tenths(k as real / 10.0) == k as real / 10.0
  {
    assert k as real / 10.0 * 10.0 == k as real;
    assert RoundHalfEven(k as real) == k;
  }

  /** `adjustWeight(by:)`: the new field value, written with one decimal,
      or `None` when the text is left alone (it does not parse and the step
      is not an increase). */
  function AdjustWeight(current: Option<real>, amount: real): (r: Option<real>)
    ensures current.Some? ==> r == Some(Tenths(MaxReal(0.0, current.value + amount)))
    ensures current.None? && amount > 0.0 ==> r == Some(Tenths(amount))
    ensures current.None? && amount <= 0.0 ==> r.None?
    ensures r.Some? ==> r.value >= 0.0
    ensures r.Some? && current.Some? ==>
      MaxReal(0.0, current.value + amount) - 0.05 <= r.value <= MaxReal(0.0, current.value + amount) + 0.05
  {
    match current
    case Some(w) => Some(Tenths(MaxReal(0.0, w + amount)))
    case None => if amount > 0.0 then Some(Tenths(if amount < 0.0 then -amount else amount)) else None
  }

  /** `adjustReps(by:)`, the same rule over integers. */
  function AdjustReps(current: Option<int>, amount: int): (r: Option<int>)
    ensures current.Some? ==> r == Some(MaxInt(0, current.value + amount))
    ensures current.None? && amount > 0 ==> r == Some(amount)
    ensures current.None? && amount <= 0 ==> r.None?
    ensures r.Some? ==> r.value >= 0
  {
    match current
    case Some(n) => Some(MaxInt(0, n + amount))
    case None => if amount > 0 then Some(if amount < 0 then -amount else amount) else None
  }

  /** On the 0.1 grid, pressing "+a" and then "-a" on a field holding at
      least `a` restores it; and an adjusted field never goes below zero, so
      pressing "-" repeatedly settles at 0. */
  lemma AdjustRoundTrip(k: nat, m: nat, n: int, b: int)
    requires b >= 0 && n >= 0
    ensures var w, a := k as real / 10.0, m as real / 10.0;
      AdjustWeight(AdjustWeight(Some(w), a), -a) == Some(w)
    ensures AdjustReps(AdjustReps(Some(n), b), -b) == Some(n)
    ensures var w := k as real / 10.0; AdjustWeight(Some(w), -(w + 1.0)) == Some(0.0)
    ensures AdjustReps(AdjustReps(Some(n), -(n + 1)), -1) == Some(0)
  {
    var w, a := k as real / 10.0, m as real / 10.0;
    assert w + a == (k + m) as real / 10.0;
    TenthsOnGrid(k + m);
    assert (k + m) as real / 10.0 - a == w;
    TenthsOnGrid(k);
    TenthsOnGrid(0);
  }

  /** Off the grid the one-decimal text makes the round trip approximate:
      the field comes back within 0.1 of where it was. */
  lemma AdjustRoundTripWithin(w: real, a: real)
    requires w >= 0.0 && a >= 0.0
    ensures var r := AdjustWeight(AdjustWeight(Some(w), a), -a).value; w - 0.1 <= r <= w + 0.1
  {
  }

  /** A typed 0.25 stepped by +2.5 reads 2.8, and stepping back by 2.5
      gives 0.3, not 0.25. */
  lemma AdjustShowsOneDecimal()
    ensures AdjustWeight(Some(0.25), 2.5) == Some(2.8)
    ensures AdjustWeight(Some(2.8), -2.5) == Some(0.3)
  {
    assert RoundHalfEven(27.5) == 28;
    assert RoundHalfEven(3.0) == 3;
  }

  /** What saving the row hands to the session. */
  datatype Saved = Saved(weight: real, reps: int, rpe: Option<int>, updateDropSets: bool, startRestTimer: bool)

  /** `rpe.map { min(10, max(1, $0)) }`. */
  function ClampRpe(rpe: Option<int>): (r: Option<int>)
    ensures r.None? <==> rpe.None?
    ensures r.Some? ==> 1 <= r.value <= 10
    ensures r.Some? && 1 <= rpe.value <= 10 ==> r == rpe
  {
    match rpe
    case None => None
    case Some(v) => Some(if v > 10 then 10 else if v < 1 then 1 else v)
  }

  /** `saveSet()`: nothing happens unless weight and reps both parse. The
      values are clamped; the drop-set callback fires only for the first
      set with a positive weight (and only when one is installed), and the
      rest timer is scheduled only for a positive weight (and only when a
      callback is installed). An empty RPE field, like an unparsable one,
      gives no RPE. */
  function SaveSet(weight: Option<real>, reps: Option<int>, rpeEmpty: bool, rpe: Option<int>,
                   isFirstSet: bool, hasDropSets: bool, hasRestTimer: bool): (r: Option<Saved>)
    ensures r.Some? <==> weight.Some? && reps.Some?
    ensures r.Some? ==> r.value.weight >= 0.0 && r.value.reps >= 0
    ensures r.Some? ==> r.value.weight == MaxReal(0.0, weight.value) && r.value.reps == MaxInt(0, reps.value)
    ensures r.Some? ==> r.value.rpe == if rpeEmpty then None else ClampRpe(rpe)
    ensures r.Some? ==> (r.value.updateDropSets <==> isFirstSet && r.value.weight > 0.0 && hasDropSets)
    ensures r.Some? ==> (r.value.startRestTimer <==> r.value.weight > 0.0 && hasRestTimer)
  {
    if weight.Some? && reps.Some? then
      var w := MaxReal(0.0, weight.value);
      Some(Saved(w, MaxInt(0, reps.value), ClampRpe(if rpeEmpty then None else rpe),
                 isFirstSet && w > 0.0 && hasDropSets, w > 0.0 && hasRestTimer))
    else None
  }

  /** Saving values that are already valid stores them unchanged: clamping
      is idempotent. */
  lemma SaveSetIdempotent(weight: Option<real>, reps: Option<int>, rpeEmpty: bool, rpe: Option<int>,
                          isFirstSet: bool, hasDropSets: bool, hasRestTimer: bool)
    requires SaveSet(weight, reps, rpeEmpty, rpe, isFirstSet, hasDropSets, hasRestTimer).Some?
    ensures var s := SaveSet(weight, reps, rpeEmpty, rpe, isFirstSet, hasDropSets, hasRestTimer).value;
      SaveSet(Some(s.weight), Some(s.reps), s.rpe.None?, s.rpe, isFirstSet, hasDropSets, hasRestTimer) == Some(s)
  {
  }

  /** A negative weight is saved as 0, which neither propagates drop sets
      nor starts the rest timer; an RPE of 12 becomes 10. */
  lemma SaveSetExamples()
    ensures SaveSet(Some(-5.0), Some(-2), false, Some(12), true, true, true)
         == Some(Saved(0.0, 0, Some(10), false, false))
    ensures SaveSet(Some(185.0), None, true, None, true, true, true).None?
    ensures SaveSet(Some(185.0), Some(8), true, Some(7), true, true, false)
         == Some(Saved(185.0, 8, None, true, false))
  {
  }
}

=== FILE: settings.dfy ===
/** User settings (`UserSettings`) and their manager (`SettingsManager`):
    default values, the validating updates, their non-throwing variants and
    the reset. Persisting a change is an outcome supplied by the caller
    (`saveOk`): the store itself is not modelled. */
module Settings {
  import opened Basics
  import RPT

  datatype DarkModePreference = Light | Dark | System

  /** Every case, in declaration order (`CaseIterable`). */
  const AllDarkModes: seq<DarkModePreference> := [Light, Dark, System]

  datatype UserSettings = UserSettings(restTimerDuration: int, defaultRPTPercentageDrops: seq<real>,
                                       showRPE: bool, darkModePreference: DarkModePreference)

  /** `UserSettings()` with every argument defaulted. */
  const Defaults: UserSettings := UserSettings(90, [0.0, 0.10, 0.15], true, System)

  datatype SettingsError = FetchFailed | SaveFailed | SettingsNotFound | InvalidValue

  function Description(e: SettingsError): (r: string)
    ensures |r| > 0
  {
    match e
    case FetchFailed => "Failed to fetch settings"
    case SaveFailed => "Failed to save settings"
    case SettingsNotFound => "Settings not found"
    case InvalidValue => "Invalid setting value"
  }

  /** Distinct errors read differently. */
  lemma DescriptionInjective(a: SettingsError, b: SettingsError)
    requires Description(a) == Description(b)
    ensures a == b
  {
  }

  /** The manager's in-memory settings after an operation, and the error it
      threw, if any. A failed save still leaves the in-memory change. */
  datatype Outcome = Outcome(settings: UserSettings, error: Option<SettingsError>)

  /** The manager's start: the stored settings when the fetch finds some,
      otherwise the defaults (which are inserted when the fetch succeeded
      with nothing found). The second component says whether a new record
      was inserted. */
  function Start(fetched: Option<Option<UserSettings>>): (r: (UserSettings, bool))
    ensures fetched.Some? && fetched.value.Some? ==> r == (fetched.value.value, false)
    ensures fetched.None? ==> r == (Defaults, false)
    ensures fetched == Some(None) ==> r == (Defaults, true)
  {
    match fetched
    case None => (Defaults, false)
    case Some(None) => (Defaults, true)
    case Some(Some(s)) => (s, false)
  }

  /** `updateSettings()`: saving either succeeds or throws `saveFailed`. */
  function UpdateSettings(s: UserSettings, saveOk: bool): (r: Outcome)
    ensures r.settings == s
    ensures r.error.None? <==> saveOk
    ensures r.error.Some? ==> r.error.value == SaveFailed
  {
    Outcome(s, if saveOk then None else Some(SaveFailed))
  }

  predicate ValidRestDuration(seconds: int)
  {
    0 < seconds <= 3600
  }

  /** `updateRestTimerDuration(seconds:)`. */
  function UpdateRestTimerDuration(s: UserSettings, seconds: int, saveOk: bool): (r: Outcome)
    ensures !ValidRestDuration(seconds) ==> r == Outcome(s, Some(InvalidValue))
    ensures ValidRestDuration(seconds) ==> r.settings == s.(restTimerDuration := seconds)
    ensures r.error.None? <==> ValidRestDuration(seconds) && saveOk
  {
    if !(seconds > 0 && seconds <= 3600) then Outcome(s, Some(InvalidValue))
    else UpdateSettings(s.(restTimerDuration := seconds), saveOk)
  }

  /** The drop table the manager accepts: non-empty, starting at 0 and with
      every drop a fraction between 0 and 1. */
  predicate ValidDrops(drops: seq<real>)
  {
    |drops| > 0 && drops[0] == 0.0 && forall i :: 0 <= i < |drops| ==> 0.0 <= drops[i] <= 1.0
  }

  /** `updateRPTPercentageDrops(drops:)`. */
  function UpdateRPTPercentageDrops(s: UserSettings, drops: seq<real>, saveOk: bool): (r: Outcome)
    ensures !ValidDrops(drops) ==> r == Outcome(s, Some(InvalidValue))
    ensures ValidDrops(drops) ==> r.settings == s.(defaultRPTPercentageDrops := drops)
    ensures r.error.None? <==> ValidDrops(drops) && saveOk
  {
    if |drops| == 0 || SafeGet(drops, 0) != Some(0.0) || !AllFractions(drops) then Outcome(s, Some(InvalidValue))
    else UpdateSettings(s.(defaultRPTPercentageDrops := drops), saveOk)
  }

  /** `allSatisfy { $0 >= 0.0 && $0 <= 1.0 }`, element by element. */
  function AllFractions(drops: seq<real>): (r: bool)
    ensures r <==> forall i :: 0 <= i < |drops| ==> 0.0 <= drops[i] <= 1.0
  {
    if |drops| == 0 then true
    else 0.0 <= drops[0] <= 1.0 && AllFractions(drops[1..])
  }

  /** The drop tables of the tests: a list whose first drop is not 0, one
      with a drop above 1 and the empty list are refused, the value already
      stored staying in place. */
  lemma RejectedDrops(s: UserSettings, saveOk: bool)
    ensures UpdateRPTPercentageDrops(s, [0.1, 0.2], saveOk) == Outcome(s, Some(InvalidValue))
    ensures UpdateRPTPercentageDrops(s, [0.0, 1.5], saveOk) == Outcome(s, Some(InvalidValue))
    ensures UpdateRPTPercentageDrops(s, [], saveOk) == Outcome(s, Some(InvalidValue))
  {
    assert !ValidDrops([0.0, 1.5]) by {
      assert !(0.0 <= [0.0, 1.5][1] <= 1.0);
    }
  }

  function UpdateShowRPE(s: UserSettings, show: bool, saveOk: bool): (r: Outcome)
    ensures r.settings == s.(showRPE := show)
    ensures r.error.None? <==> saveOk
  {
    UpdateSettings(s.(showRPE := show), saveOk)
  }

  function UpdateDarkModePreference(s: UserSettings, p: DarkModePreference, saveOk: bool): (r: Outcome)
    ensures r.settings == s.(darkModePreference := p)
    ensures r.error.None? <==> saveOk
  {
    UpdateSettings(s.(darkModePreference := p), saveOk)
  }

  /** `resetToDefaults()`: rest 180 seconds (not the 90 of a new record),
      drops 0 %, 10 %, 15 %, RPE shown and the system appearance. */
  function ResetToDefaults(s: UserSettings, saveOk: bool): (r: Outcome)
    ensures r.settings == UserSettings(180, [0.0, 0.10, 0.15], true, System)
    ensures r.error.None? <==> saveOk
  {
    UpdateSettings(s.(restTimerDuration := 180, defaultRPTPercentageDrops := [0.0, 0.10, 0.15],
                      showRPE := true, darkModePreference := System), saveOk)
  }

  /** The `...Safely` variants: the same change, and `true` exactly when
      nothing was thrown. */
  function Safely(o: Outcome): (r: (UserSettings, bool))
    ensures r.0 == o.settings && (r.1 <==> o.error.None?)
  {
    (o.settings, o.error.None?)
  }

  /** Each Safely variant reports success exactly when the value is valid
      and the save went through; a refused value changes nothing, while a
      failed save of a valid value keeps the change in memory. */
  lemma SafelyReportsSuccess(s: UserSettings, seconds: int, drops: seq<real>, saveOk: bool)
    ensures Safely(UpdateRestTimerDuration(s, seconds, saveOk)).1 <==> ValidRestDuration(seconds) && saveOk
    ensures Safely(UpdateRPTPercentageDrops(s, drops, saveOk)).1 <==> ValidDrops(drops) && saveOk
    ensures !ValidRestDuration(seconds) ==> Safely(UpdateRestTimerDuration(s, seconds, saveOk)).0 == s
    ensures !ValidDrops(drops) ==> Safely(UpdateRPTPercentageDrops(s, drops, saveOk)).0 == s
    ensures ValidRestDuration(seconds) ==>
      Safely(UpdateRestTimerDuration(s, seconds, saveOk)).0.restTimerDuration == seconds
  {
  }

  /** The defaults are valid settings: the default drop table passes the
      manager's validation, and so do both rest durations; the default rest
      (90) is not the reset value (180), while the drop tables agree. */
  lemma DefaultsValid(s: UserSettings)
    ensures ValidDrops(Defaults.defaultRPTPercentageDrops)
    ensures ValidRestDuration(Defaults.restTimerDuration)
    ensures ResetToDefaults(s, true).settings.restTimerDuration != Defaults.restTimerDuration
    ensures ResetToDefaults(s, true).settings == Defaults.(restTimerDuration := 180)
    ensures ValidRestDuration(ResetToDefaults(s, true).settings.restTimerDuration)
  {
  }

  /** A reset is idempotent and forgets everything about the settings it
      started from. */
  lemma ResetForgets(s: UserSettings, t: UserSettings, saveOk: bool)
    ensures ResetToDefaults(s, saveOk) == ResetToDefaults(t, saveOk)
    ensures ResetToDefaults(ResetToDefaults(s, saveOk).settings, saveOk) == ResetToDefaults(s, saveOk)
  {
  }

  /** The appearance preference has exactly three cases. */
  lemma DarkModeCases(p: DarkModePreference)
    ensures p in AllDarkModes
    ensures |AllDarkModes| == 3 && NoDup(AllDarkModes)
  {
  }

  /** `calculateRPTExample(firstSetWeight:)` over the stored drop table,
      100 by default. */
  function CalculateRPTExample(s: UserSettings, firstSetWeight: int := 100): (r: string)
    ensures |r| >= 3 && r[|r| - 3..] == " lb"
    ensures |s.defaultRPTPercentageDrops| <= 1 ==> r == " lb"
  {
    RPT.CalculateRPTExample(firstSetWeight, s.defaultRPTPercentageDrops)
  }

  /** With the drops of the formatting tests the example reads
      "180 → 160 lb" for a 200 lb first set. */
  lemma CalculateRPTExampleOfTests(s: UserSettings)
    requires s.defaultRPTPercentageDrops == [0.0, 0.1, 0.2]
    ensures CalculateRPTExample(s, 200) == "180 → 160 lb"
    ensures CalculateRPTExample(s, 225) == "205 → 180 lb"
  {
    RPT.ExampleStrings();
  }
}

=== FILE: sorting.dfy ===
/** Stable sorting by a real-valued key, the behaviour of Swift's
    `sorted(by: { key($0) < key($1) })`: ascending, and elements with equal
    keys keep their original relative order. */
module Sorting {
  import opened Basics

  predicate SortedBy<T>(xs: seq<T>, key: T -> real)
  {
    forall i, j :: 0 <= i < j < |xs| ==> key(xs[i]) <= key(xs[j])
  }

  /** Inserts `x` in front of the first element whose key is not below `x`'s. */
  function Insert<T>(x: T, xs: seq<T>, key: T -> real): (r: seq<T>)
    requires SortedBy(xs, key)
    ensures SortedBy(r, key)
    ensures multiset(r) == multiset(xs) + multiset{x}
    ensures |r| == |xs| + 1
    ensures r[0] == x || (|xs| > 0 && r[0] == xs[0])
  {
    if |xs| == 0 then [x]
    else if key(x) <= key(xs[0]) then
      SortedCons(x, xs, key);
      [x] + xs
    else
      assert SortedBy(xs[1..], key);
      var rest := Insert(x, xs[1..], key);
      assert |xs| > 1 ==> key(xs[0]) <= key(xs[1]);
      SortedCons(xs[0], rest, key);
      assert xs == [xs[0]] + xs[1..];
      [xs[0]] + rest
  }

  /** Putting an element no heavier than the head in front keeps the order. */
  lemma SortedCons<T>(a: T, rest: seq<T>, key: T -> real)
    requires SortedBy(rest, key)
    requires |rest| > 0 ==> key(a) <= key(rest[0])
    ensures SortedBy([a] + rest, key)
  {
    var r := [a] + rest;
    forall i, j | 0 <= i < j < |r|
      ensures key(r[i]) <= key(r[j])
    {
      if i == 0 {
        assert r[j] == rest[j - 1];
        if j > 1 {
          assert key(rest[0]) <= key(rest[j - 1]);
        }
      } else {
        assert r[i] == rest[i - 1] && r[j] == rest[j - 1];
      }
    }
  }

  /** The stable ascending sort of `xs` by `key`. */
  function SortBy<T>(xs: seq<T>, key: T -> real): (r: seq<T>)
    ensures SortedBy(r, key)
    ensures multiset(r) == multiset(xs)
    ensures |r| == |xs|
  {
    if |xs| == 0 then []
    else
      assert xs == [xs[0]] + xs[1..];
      Insert(xs[0], SortBy(xs[1..], key), key)
  }

  /** Membership is unchanged by sorting. */
  lemma SortByMembers<T>(xs: seq<T>, key: T -> real, x: T)
    ensures x in SortBy(xs, key) <==> x in xs
  {
    assert x in SortBy(xs, key) <==> x in multiset(SortBy(xs, key));
    assert x in xs <==> x in multiset(xs);
  }

  /** The last element of a sorted copy is an element of the input with the
      largest key. */
  lemma SortByLastIsMax<T>(xs: seq<T>, key: T -> real)
    requires |xs| > 0
    ensures SortBy(xs, key)[|xs| - 1] in xs
    ensures forall i :: 0 <= i < |xs| ==> key(xs[i]) <= key(SortBy(xs, key)[|xs| - 1])
  {
    var sorted := SortBy(xs, key);
    SortByMembers(xs, key, sorted[|xs| - 1]);
    forall i | 0 <= i < |xs| ensures key(xs[i]) <= key(sorted[|xs| - 1]) {
      SortByMembers(xs, key, xs[i]);
      var j :| 0 <= j < |sorted| && sorted[j] == xs[i];
    }
  }

  /** Sorting an already sorted sequence changes nothing. */
  lemma {:induction false} SortBySorted<T>(xs: seq<T>, key: T -> real)
    requires SortedBy(xs, key)
    ensures SortBy(xs, key) == xs
  {
    if |xs| > 0 {
      SortBySorted(xs[1..], key);
      if |xs| > 1 {
        assert key(xs[0]) <= key(xs[1]);
      }
    }
  }

  /** Predicate constructor: has key exactly `k`. */
  function HasKey<T>(key: T -> real, k: real): T -> bool
  {
    x => key(x) == k
  }

  lemma {:induction false} InsertKeepsTies<T>(x: T, xs: seq<T>, key: T -> real, k: real)
    requires SortedBy(xs, key)
    ensures Filter(Insert(x, xs, key), HasKey(key, k))
         == (if key(x) == k then [x] else []) + Filter(xs, HasKey(key, k))
  {
    var p := HasKey(key, k);
    if |xs| == 0 {
      assert Insert(x, xs, key) == [x];
    } else if key(x) <= key(xs[0]) {
      assert Insert(x, xs, key) == [x] + xs;
      FilterAppend([x], xs, p);
    } else {
      InsertKeepsTies(x, xs[1..], key, k);
      assert xs == [xs[0]] + xs[1..];
      // xs[0] lies strictly below key(x), so it is kept only when x is not
      FilterPastHead(xs[0], Insert(x, xs[1..], key), xs[1..], p, if key(x) == k then [x] else []);
    }
  }

  /** One step of the stability argument: a head that is not kept when the
      inserted element is kept commutes with it under the filter. */
  lemma FilterPastHead<T>(a: T, rest: seq<T>, tail: seq<T>, p: T -> bool, fx: seq<T>)
    requires Filter(rest, p) == fx + Filter(tail, p)
    requires fx == [] || !p(a)
    ensures Filter([a] + rest, p) == fx + Filter([a] + tail, p)
  {
    FilterAppend([a], rest, p);
    FilterAppend([a], tail, p);
    var fa, ft := Filter([a], p), Filter(tail, p);
    if fx == [] {
      assert fa + (fx + ft) == fx + (fa + ft);
    } else {
      assert fa == [] by {
        assert Filter([a][1..], p) == [];
      }
      assert fa + (fx + ft) == fx + (fa + ft);
    }
  }

  /** Stability: among elements with one and the same key, sorting keeps the
      original order. Together with `SortedBy` and the multiset equality this
      pins down the result completely. */
  lemma {:induction false} SortByStable<T>(xs: seq<T>, key: T -> real, k: real)
    ensures Filter(SortBy(xs, key), HasKey(key, k)) == Filter(xs, HasKey(key, k))
  {
    if |xs| > 0 {
      SortByStable(xs[1..], key, k);
      SortByStableStep(xs, key, k);
    }
  }

  lemma SortByStableStep<T>(xs: seq<T>, key: T -> real, k: real)
    requires |xs| > 0
    requires Filter(SortBy(xs[1..], key), HasKey(key, k)) == Filter(xs[1..], HasKey(key, k))
    ensures Filter(SortBy(xs, key), HasKey(key, k)) == Filter(xs, HasKey(key, k))
  {
    var p := HasKey(key, k);
    var tail := SortBy(xs[1..], key);
    assert SortBy(xs, key) == Insert(xs[0], tail, key);
    InsertKeepsTies(xs[0], tail, key, k);
    HeadFilter(xs, p);
  }

  /** Filtering splits off the head. */
  lemma HeadFilter<T>(xs: seq<T>, p: T -> bool)
    requires |xs| > 0
    ensures Filter(xs, p) == (if p(xs[0]) then [xs[0]] else []) + Filter(xs[1..], p)
  {
  }

  /** Rewriting elements without touching their keys commutes with sorting:
      the rewritten elements end up exactly where the originals were. */
  lemma {:induction false} SortByMap<T>(xs: seq<T>, f: T -> T, key: T -> real)
    requires forall i :: 0 <= i < |xs| ==> key(f(xs[i])) == key(xs[i])
    ensures SortBy(MapSeq(xs, f), key) == MapSeq(SortBy(xs, key), f)
  {
    if |xs| > 0 {
      var m := MapSeq(xs, f);
      assert m[1..] == MapSeq(xs[1..], f);
      SortByMap(xs[1..], f, key);
      var tail := SortBy(xs[1..], key);
      forall i | 0 <= i < |tail|
        ensures key(f(tail[i])) == key(tail[i])
      {
        SortByMembers(xs[1..], key, tail[i]);
        var j :| 0 <= j < |xs[1..]| && xs[1..][j] == tail[i];
      }
      InsertMap(xs[0], tail, f, key);
    }
  }

  lemma {:induction false} InsertMap<T>(x: T, ys: seq<T>, f: T -> T, key: T -> real)
    requires SortedBy(ys, key)
    requires key(f(x)) == key(x)
    requires forall i :: 0 <= i < |ys| ==> key(f(ys[i])) == key(ys[i])
    ensures SortedBy(MapSeq(ys, f), key)
    ensures Insert(f(x), MapSeq(ys, f), key) == MapSeq(Insert(x, ys, key), f)
  {
    MapKeepsSorted(ys, f, key);
    var m := MapSeq(ys, f);
    if |ys| == 0 {
      assert MapSeq([x], f) == [f(x)];
    } else if key(x) <= key(ys[0]) {
      MapCons(x, ys, f);
    } else {
      MapTail(ys, f);
      assert SortedBy(ys[1..], key);
      InsertMap(x, ys[1..], f, key);
      MapCons(ys[0], Insert(x, ys[1..], key), f);
    }
  }

  lemma MapKeepsSorted<T>(ys: seq<T>, f: T -> T, key: T -> real)
    requires SortedBy(ys, key)
    requires forall i :: 0 <= i < |ys| ==> key(f(ys[i])) == key(ys[i])
    ensures SortedBy(MapSeq(ys, f), key)
  {
  }

  lemma MapCons<T>(a: T, r: seq<T>, f: T -> T)
    ensures MapSeq([a] + r, f) == [f(a)] + MapSeq(r, f)
  {
    assert ([a] + r)[1..] == r;
  }

  lemma MapTail<T>(ys: seq<T>, f: T -> T)
    requires |ys| > 0
    ensures MapSeq(ys, f)[1..] == MapSeq(ys[1..], f)
  {
  }

  /** A prefix of a sorted sequence is sorted and drawn from it. */
  lemma SortedPrefix<T>(xs: seq<T>, n: nat, key: T -> real)
    requires SortedBy(xs, key) && n <= |xs|
    ensures SortedBy(xs[..n], key)
    ensures multiset(xs[..n]) <= multiset(xs)
  {
    assert xs == xs[..n] + xs[n..];
  }
}

=== FILE: templates.dfy ===
/** Workout templates: a template exercise's rep ranges and their
    normalisation (`TemplateExercise.init`), the exercise editor's resize rule
    and steppers (`TemplateExerciseEditView`), and the template manager's
    operations (`TemplateManager`), including turning a template into a
    workout. */
module Templates {
  import opened Basics
  import opened Sorting
  import opened Domain

  /** `TemplateRepRange`. */
  datatype RepRange = RepRange(setNumber: int, minReps: int, maxReps: int, percentageOfFirstSet: Option<real>)

  /** A template exercise's `UUID` is modelled as a number. */
  type TemplateExerciseId = nat

  /** `TemplateExercise`: the exercise is referred to by name. */
  datatype TemplateExercise = TemplateExercise(id: TemplateExerciseId, exerciseName: string, suggestedSets: int,
                                               repRanges: seq<RepRange>, notes: string)

  datatype WorkoutTemplate = WorkoutTemplate(id: string, name: string, exercises: seq<TemplateExercise>, notes: string)

  /** Template exercises compare (and hash) by id alone. */
  predicate SameExercise(a: TemplateExercise, b: TemplateExercise)
  {
    a.id == b.id
  }

  // ---------------------------------------------------------------------
  // TemplateExercise.init
  // ---------------------------------------------------------------------

  /** Some range is for set `k`. */
  predicate HasSet(ranges: seq<RepRange>, k: int)
  {
    exists i :: 0 <= i < |ranges| && ranges[i].setNumber == k
  }

  /** Ranges for sets numbered at most `n`. */
  function AtMost(n: int): RepRange -> bool
  {
    (r: RepRange) => r.setNumber <= n
  }

  /** The range `init` makes up for a missing set `k`: 6–8 reps for the
      first set and two more per later set, capped at 15–20, at a weight
      falling by 10 % per set down to half the first set's. */
  function Synthesized(k: int): (r: RepRange)
    ensures r.setNumber == k
  {
    var percentage := if k == 1 then 1.0 else MaxReal(1.0 - (k - 1) as real * 0.1, 0.5);
    RepRange(k, MinInt(6 + (k - 1) * 2, 15), MinInt(8 + (k - 1) * 2, 20), Some(percentage))
  }

  /** A made-up range is a proper range: at least 6 reps, fewer than its
      maximum, and a share of the first set's weight between a half and all
      of it; later sets never ask for fewer reps or more weight. */
  lemma SynthesizedBounds(k: int, k': int)
    requires 1 <= k <= k'
    ensures 6 <= Synthesized(k).minReps < Synthesized(k).maxReps <= 20
    ensures 0.5 <= Synthesized(k).percentageOfFirstSet.value <= 1.0
    ensures Synthesized(k).minReps <= Synthesized(k').minReps
    ensures Synthesized(k).maxReps <= Synthesized(k').maxReps
    ensures Synthesized(k').percentageOfFirstSet.value <= Synthesized(k).percentageOfFirstSet.value
  {
  }

  /** The loop over set numbers `k ..= n`: each number without a range gets
      a made-up one at the end. */
  function Fill(acc: seq<RepRange>, k: int, n: int): (r: seq<RepRange>)
    decreases n - k + 1
    ensures |r| >= |acc| && r[..|acc|] == acc
  {
    if k > n then acc
    else Fill(if HasSet(acc, k) then acc else acc + [Synthesized(k)], k + 1, n)
  }

  /** Every set from `lo` to `hi` has a range. */
  predicate Covers(ranges: seq<RepRange>, lo: int, hi: int)
  {
    forall s :: lo <= s <= hi ==> HasSet(ranges, s)
  }

  /** Everything after the prefix `acc` is a made-up range for a set between
      `lo` and `hi` that `acc` lacks. */
  predicate MadeUpTail(r: seq<RepRange>, acc: seq<RepRange>, lo: int, hi: int)
  {
    forall i :: |acc| <= i < |r| ==>
      r[i] == Synthesized(r[i].setNumber) && lo <= r[i].setNumber <= hi && !HasSet(acc, r[i].setNumber)
  }

  /** Set numbers strictly increase from position `from` on. */
  predicate IncreasingFrom(r: seq<RepRange>, from: int)
  {
    forall i, j :: 0 <= i < j < |r| && from <= i ==> r[i].setNumber < r[j].setNumber
  }

  /** A range present before a step of the loop is present after it. */
  lemma HasSetPrefix(acc: seq<RepRange>, r: seq<RepRange>, s: int)
    requires |r| >= |acc| && r[..|acc|] == acc && HasSet(acc, s)
    ensures HasSet(r, s)
  {
    var i :| 0 <= i < |acc| && acc[i].setNumber == s;
    assert r[i] == acc[i];
  }

  /** The loop leaves every set from `k` to `n` covered. */
  lemma {:induction false} FillCovers(acc: seq<RepRange>, k: int, n: int)
    decreases n - k + 1
    ensures Covers(Fill(acc, k, n), k, n)
  {
    if k <= n {
      var next := if HasSet(acc, k) then acc else acc + [Synthesized(k)];
      FillCovers(next, k + 1, n);
      assert HasSet(next, k) by {
        if !HasSet(acc, k) {
          assert next[|acc|].setNumber == k;
        }
      }
      HasSetPrefix(next, Fill(next, k + 1, n), k);
    }
  }

  /** The loop only appends made-up ranges, for missing sets, in
      increasing set number. */
  lemma {:induction false} FillTail(acc: seq<RepRange>, k: int, n: int)
    decreases n - k + 1
    ensures MadeUpTail(Fill(acc, k, n), acc, k, n)
    ensures IncreasingFrom(Fill(acc, k, n), |acc|)
  {
    if k <= n {
      var next := if HasSet(acc, k) then acc else acc + [Synthesized(k)];
      FillTail(next, k + 1, n);
      var r := Fill(next, k + 1, n);
      assert r == Fill(acc, k, n);
      forall i | |acc| <= i < |r|
        ensures r[i] == Synthesized(r[i].setNumber) && k <= r[i].setNumber <= n && !HasSet(acc, r[i].setNumber)
      {
        if i >= |next| {
          if HasSet(acc, r[i].setNumber) {
            HasSetPrefix(acc, next, r[i].setNumber);
          }
        } else {
          assert r[i] == next[i] == Synthesized(k);
        }
      }
    }
  }

  /** When every set is covered already the loop adds nothing. */
  lemma {:induction false} FillCovered(acc: seq<RepRange>, k: int, n: int)
    requires Covers(acc, k, n)
    decreases n - k + 1
    ensures Fill(acc, k, n) == acc
  {
    if k <= n {
      assert HasSet(acc, k);
      FillCovered(acc, k + 1, n);
    }
  }

  /** `TemplateExercise.init`: ranges beyond the set count are dropped, and
      every set from 1 to the count that has no range gets a made-up one.
      The count must be at least 1, as `1...suggestedSets` traps below that. */
  function MakeExercise(id: TemplateExerciseId, exerciseName: string, suggestedSets: int,
                        repRanges: seq<RepRange>, notes: string): (r: TemplateExercise)
    requires suggestedSets >= 1
    ensures r.id == id && r.exerciseName == exerciseName && r.suggestedSets == suggestedSets && r.notes == notes
    ensures Normalised(r)
  {
    var filtered := Filter(repRanges, AtMost(suggestedSets));
    var ranges := Fill(filtered, 1, suggestedSets);
    FillCovers(filtered, 1, suggestedSets);
    FillTail(filtered, 1, suggestedSets);
    assert forall i :: 0 <= i < |ranges| ==> ranges[i].setNumber <= suggestedSets by {
      forall i | 0 <= i < |ranges| ensures ranges[i].setNumber <= suggestedSets {
        if i < |filtered| {
          assert ranges[i] == filtered[i];
        }
      }
    }
    TemplateExercise(id, exerciseName, suggestedSets, ranges, notes)
  }

  /** What `init` guarantees: a range for every set from 1 to the count, and
      none beyond it. */
  predicate Normalised(x: TemplateExercise)
  {
    && x.suggestedSets >= 1
    && (forall s :: 1 <= s <= x.suggestedSets ==> HasSet(x.repRanges, s))
    && (forall i :: 0 <= i < |x.repRanges| ==> x.repRanges[i].setNumber <= x.suggestedSets)
  }

  /** The given ranges that survive come first, in their order and with any
      duplicates or non-positive set numbers kept; the made-up ranges follow
      in increasing set number, one for each missing set. */
  lemma MakeExerciseShape(id: TemplateExerciseId, name: string, n: int, ranges: seq<RepRange>, notes: string)
    requires n >= 1
    ensures var r := MakeExercise(id, name, n, ranges, notes).repRanges;
      var kept := Filter(ranges, AtMost(n));
      && |r| >= |kept| && r[..|kept|] == kept
      && (forall x :: x in kept <==> x in ranges && x.setNumber <= n)
      && MadeUpTail(r, kept, 1, n)
      && IncreasingFrom(r, |kept|)
  {
    var kept := Filter(ranges, AtMost(n));
    forall x ensures x in kept <==> x in ranges && x.setNumber <= n {
      FilterMember(ranges, AtMost(n), x);
    }
    FillTail(kept, 1, n);
  }

  /** Normalising a normalised exercise changes nothing; in particular
      normalisation is idempotent. */
  lemma MakeExerciseIdempotent(x: TemplateExercise)
    requires Normalised(x)
    ensures MakeExercise(x.id, x.exerciseName, x.suggestedSets, x.repRanges, x.notes) == x
  {
    FilterAll(x.repRanges, AtMost(x.suggestedSets));
    FillCovered(x.repRanges, 1, x.suggestedSets);
  }

  /** A three-set exercise given ranges for sets 1 and 5 keeps the first,
      drops the fifth and makes up sets 2 and 3. */
  lemma MakeExerciseExample()
    ensures MakeExercise(7, "Squat", 3, [RepRange(1, 5, 5, Some(1.0)), RepRange(5, 1, 2, None)], "").repRanges
         == [RepRange(1, 5, 5, Some(1.0)), RepRange(2, 8, 10, Some(0.9)), RepRange(3, 10, 12, Some(0.8))]
  {
    var given := [RepRange(1, 5, 5, Some(1.0)), RepRange(5, 1, 2, None)];
    assert Filter(given, AtMost(3)) == [given[0]] by {
      assert Filter(given[1..], AtMost(3)) == [];
    }
    var a := [given[0]];
    assert HasSet(a, 1);
    assert !HasSet(a, 2);
    var b := a + [Synthesized(2)];
    assert !HasSet(b, 3);
  }

  // ---------------------------------------------------------------------
  // TemplateExerciseEditView
  // ---------------------------------------------------------------------

  function SetKey(r: RepRange): real
  {
    r.setNumber as real
  }

  /** `sortedRepRanges.last`, or a set-0 range of 8–10 reps when there are no
      ranges: a range with the largest set number. */
  function LastBySetNumber(ranges: seq<RepRange>): (r: RepRange)
    ensures |ranges| == 0 ==> r == RepRange(0, 8, 10, Some(1.0))
    ensures |ranges| > 0 ==> r in ranges && forall i :: 0 <= i < |ranges| ==> ranges[i].setNumber <= r.setNumber
  {
    if |ranges| == 0 then RepRange(0, 8, 10, Some(1.0))
    else
      SortByLastIsMax(ranges, SetKey);
      SortBy(ranges, SetKey)[|ranges| - 1]
  }

  /** The share of the first set's weight for an added set `k`. */
  function AddedPercentage(k: int): real
  {
    MaxReal(1.0 - (k - 1) as real * 0.1, 0.5)
  }

  /** The range added for set `k`: two reps more than the base range, capped
      at 15–20. */
  function AddedRange(base: RepRange, k: int): RepRange
  {
    RepRange(k, MinInt(base.minReps + 2, 15), MinInt(base.maxReps + 2, 20), Some(AddedPercentage(k)))
  }

  /** The ranges appended when the count rises from `oldCount` to
      `newCount`, one per new set, all derived from `base`. */
  function AddedRanges(base: RepRange, oldCount: int, newCount: int): (r: seq<RepRange>)
    requires oldCount < newCount
    ensures |r| == newCount - oldCount
    ensures forall i :: 0 <= i < |r| ==> r[i] == AddedRange(base, oldCount + 1 + i)
  {
    seq(newCount - oldCount, i requires 0 <= i < newCount - oldCount => AddedRange(base, oldCount + 1 + i))
  }

  /** The ranges that survive when the count falls to `newCount`. */
  function KeptRanges(ranges: seq<RepRange>, newCount: int): (r: seq<RepRange>)
    ensures forall x :: x in r <==> x in ranges && x.setNumber <= newCount
    ensures IsSubsequence(r, ranges)
  {
    FilterIsSubsequence(ranges, AtMost(newCount));
    forall x ensures x in Filter(ranges, AtMost(newCount)) <==> x in ranges && x.setNumber <= newCount {
      FilterMember(ranges, AtMost(newCount), x);
    }
    Filter(ranges, AtMost(newCount))
  }

  /** `updateRepRangesForSets(oldValue:newValue:)`. Raising the count appends
      one range per new set, all derived from the same base: the range with
      the largest set number before the change. Lowering it drops the ranges
      beyond the new count. */
  function UpdateRepRangesForSets(ranges: seq<RepRange>, oldCount: int, newCount: int): (r: seq<RepRange>)
    ensures newCount > oldCount ==>
      && |r| == |ranges| + (newCount - oldCount) && r[..|ranges|] == ranges
      && (forall i :: |ranges| <= i < |r| ==> r[i] == AddedRange(LastBySetNumber(ranges), oldCount + 1 + (i - |ranges|)))
    ensures newCount < oldCount ==> forall x :: x in r <==> x in ranges && x.setNumber <= newCount
    ensures newCount < oldCount ==> IsSubsequence(r, ranges)
    ensures newCount == oldCount ==> r == ranges
  {
    if newCount > oldCount then
      var added := AddedRanges(LastBySetNumber(ranges), oldCount, newCount);
      assert (ranges + added)[..|ranges|] == ranges;
      ranges + added
    else if newCount < oldCount then KeptRanges(ranges, newCount)
    else ranges
  }

  /** With no ranges, every added set asks for 10–12 reps. */
  lemma AddedToEmpty(oldCount: int, newCount: int, i: int)
    requires oldCount < newCount && 0 <= i < newCount - oldCount
    ensures UpdateRepRangesForSets([], oldCount, newCount)[i].minReps == 10
    ensures UpdateRepRangesForSets([], oldCount, newCount)[i].maxReps == 12
  {
  }

  /** Raising the count and lowering it back restores ranges that were all
      within the old count. */
  lemma GrowThenShrink(ranges: seq<RepRange>, oldCount: int, newCount: int)
    requires oldCount < newCount
    requires forall i :: 0 <= i < |ranges| ==> ranges[i].setNumber <= oldCount
    ensures UpdateRepRangesForSets(UpdateRepRangesForSets(ranges, oldCount, newCount), newCount, oldCount) == ranges
  {
    var grown := UpdateRepRangesForSets(ranges, oldCount, newCount);
    var added := grown[|ranges|..];
    assert grown == ranges + added;
    FilterAppend(ranges, added, AtMost(oldCount));
    FilterAll(ranges, AtMost(oldCount));
    FilterNone(added, AtMost(oldCount));
  }

  /** The editor keeps an exercise normalised: from ranges covering exactly
      the sets up to the old count, resizing gives ranges covering exactly
      the sets up to the new one. */
  lemma ResizeKeepsNormalised(x: TemplateExercise, newCount: int)
    requires Normalised(x) && newCount >= 1
    ensures Normalised(x.(suggestedSets := newCount,
                          repRanges := UpdateRepRangesForSets(x.repRanges, x.suggestedSets, newCount)))
  {
    if newCount > x.suggestedSets {
      GrowKeepsNormalised(x, newCount);
    } else if newCount < x.suggestedSets {
      ShrinkKeepsNormalised(x, newCount);
    }
  }

  lemma GrowKeepsNormalised(x: TemplateExercise, newCount: int)
    requires Normalised(x) && newCount > x.suggestedSets
    ensures Normalised(x.(suggestedSets := newCount,
                          repRanges := UpdateRepRangesForSets(x.repRanges, x.suggestedSets, newCount)))
  {
    var r := UpdateRepRangesForSets(x.repRanges, x.suggestedSets, newCount);
    forall s | 1 <= s <= newCount ensures HasSet(r, s) {
      if s <= x.suggestedSets {
        assert HasSet(x.repRanges, s);
        HasSetPrefix(x.repRanges, r, s);
      } else {
        assert r[|x.repRanges| + (s - x.suggestedSets - 1)].setNumber == s;
      }
    }
    forall i | 0 <= i < |r| ensures r[i].setNumber <= newCount {
      if i < |x.repRanges| {
        assert r[i] == x.repRanges[i];
      }
    }
  }

  lemma ShrinkKeepsNormalised(x: TemplateExercise, newCount: int)
    requires Normalised(x) && 1 <= newCount < x.suggestedSets
    ensures Normalised(x.(suggestedSets := newCount,
                          repRanges := UpdateRepRangesForSets(x.repRanges, x.suggestedSets, newCount)))
  {
    var r := UpdateRepRangesForSets(x.repRanges, x.suggestedSets, newCount);
    forall s | 1 <= s <= newCount ensures HasSet(r, s) {
      assert HasSet(x.repRanges, s);
      var i :| 0 <= i < |x.repRanges| && x.repRanges[i].setNumber == s;
      assert x.repRanges[i] in r;
      var j :| 0 <= j < |r| && r[j] == x.repRanges[i];
    }
    forall i | 0 <= i < |r| ensures r[i].setNumber <= newCount {
      assert r[i] in r;
    }
  }

  /** The set-count stepper: confined to 1…5. */
  function StepSetCount(count: int, up: bool): (r: int)
    ensures 1 <= count <= 5 ==> 1 <= r <= 5
    ensures up && count < 5 ==> r == count + 1
    ensures up && count >= 5 ==> r == 5
    ensures !up && count > 1 ==> r == count - 1
    ensures !up && count <= 1 ==> r == 1
  {
    if up then MinInt(count + 1, 5) else MaxInt(count - 1, 1)
  }

  /** The percentage stepper: 0.5…1.0 in steps of 0.05, an unset value read
      as 1.0. */
  function StepPercentage(p: Option<real>, up: bool): (r: Option<real>)
    ensures r.Some?
    ensures 0.5 <= GetOr(p, 1.0) <= 1.0 ==> 0.5 <= r.value <= 1.0
    ensures up && GetOr(p, 1.0) <= 0.95 ==> r.value == GetOr(p, 1.0) + 0.05
    ensures !up && GetOr(p, 1.0) >= 0.55 ==> r.value == GetOr(p, 1.0) - 0.05
  {
    var v := GetOr(p, 1.0);
    Some(if up then MinReal(v + 0.05, 1.0) else MaxReal(v - 0.05, 0.5))
  }

  /** The rep stepper: both ends move together; a decrement is refused when
      the minimum is already 1. */
  function StepReps(r: RepRange, up: bool): (q: RepRange)
    ensures q.maxReps - q.minReps == r.maxReps - r.minReps
    ensures q.setNumber == r.setNumber && q.percentageOfFirstSet == r.percentageOfFirstSet
    ensures r.minReps >= 1 ==> q.minReps >= 1
    ensures !up && r.minReps <= 1 ==> q == r
  {
    if up then r.(minReps := r.minReps + 1, maxReps := r.maxReps + 1)
    else if r.minReps > 1 then r.(minReps := r.minReps - 1, maxReps := r.maxReps - 1)
    else r
  }

  /** Stepping up and then down restores a range whose minimum is at least
      one; stepping down from 1 and then up does not. */
  lemma StepRepsRoundTrip(r: RepRange)
    requires r.minReps >= 1
    ensures StepReps(StepReps(r, true), false) == r
    ensures r.minReps == 1 ==> StepReps(StepReps(r, false), true) != r
  {
  }

  // ---------------------------------------------------------------------
  // TemplateManager
  // ---------------------------------------------------------------------

  /** `updateTemplate(_:name:exercises:notes:)`: every exercise is rebuilt
      through `init` with its id kept, so its ranges are normalised again. */
  function UpdateTemplate(t: WorkoutTemplate, name: string, exercises: seq<TemplateExercise>, notes: string): (r: WorkoutTemplate)
    requires forall i :: 0 <= i < |exercises| ==> exercises[i].suggestedSets >= 1
    ensures r.id == t.id && r.name == name && r.notes == notes
    ensures |r.exercises| == |exercises|
    ensures forall i :: 0 <= i < |exercises| ==>
      SameExercise(r.exercises[i], exercises[i]) && Normalised(r.exercises[i])
      && r.exercises[i].suggestedSets == exercises[i].suggestedSets
  {
    var rebuilt := seq(|exercises|, i requires 0 <= i < |exercises| =>
      var x := exercises[i];
      MakeExercise(x.id, x.exerciseName, x.suggestedSets, x.repRanges, x.notes));
    WorkoutTemplate(t.id, name, rebuilt, notes)
  }

  /** Saving exercises that are already normalised stores them as they
      are. */
  lemma UpdateTemplateKeepsNormalised(t: WorkoutTemplate, name: string, exercises: seq<TemplateExercise>, notes: string)
    requires forall i :: 0 <= i < |exercises| ==> exercises[i].suggestedSets >= 1 && Normalised(exercises[i])
    ensures UpdateTemplate(t, name, exercises, notes).exercises == exercises
  {
    var r := UpdateTemplate(t, name, exercises, notes).exercises;
    forall i | 0 <= i < |exercises| ensures r[i] == exercises[i] {
      MakeExerciseIdempotent(exercises[i]);
    }
  }

  /** The three ranges a newly added exercise starts with. */
  const DefaultRanges: seq<RepRange> :=
    [RepRange(1, 6, 8, Some(1.0)), RepRange(2, 8, 10, Some(0.9)), RepRange(3, 10, 12, Some(0.8))]

  /** `addExerciseToTemplate(_:exerciseName:)`: a three-set exercise with
      6–8, 8–10 and 10–12 reps at 100 %, 90 % and 80 % is appended. */
  function AddExerciseToTemplate(t: WorkoutTemplate, id: TemplateExerciseId, exerciseName: string): (r: WorkoutTemplate)
    ensures r.id == t.id && r.name == t.name && r.notes == t.notes
    ensures |r.exercises| == |t.exercises| + 1 && r.exercises[..|t.exercises|] == t.exercises
    ensures r.exercises[|t.exercises|] == TemplateExercise(id, exerciseName, 3, DefaultRanges, "")
  {
    var x := TemplateExercise(id, exerciseName, 3, DefaultRanges, "");
    assert DefaultRanges[0].setNumber == 1 && DefaultRanges[1].setNumber == 2 && DefaultRanges[2].setNumber == 3;
    assert HasSet(DefaultRanges, 1) && HasSet(DefaultRanges, 2) && HasSet(DefaultRanges, 3);
    MakeExerciseIdempotent(x);
    t.(exercises := t.exercises + [MakeExercise(id, exerciseName, 3, DefaultRanges, "")])
  }

  /** Position of the first exercise with the given id. */
  function FirstWithId(xs: seq<TemplateExercise>, id: TemplateExerciseId): (r: Option<nat>)
    ensures r.Some? ==> r.value < |xs| && xs[r.value].id == id
    ensures r.Some? ==> forall k :: 0 <= k < r.value ==> xs[k].id != id
    ensures r.None? ==> forall k :: 0 <= k < |xs| ==> xs[k].id != id
  {
    if |xs| == 0 then None
    else if xs[0].id == id then Some(0)
    else match FirstWithId(xs[1..], id)
      case None => None
      case Some(k) => Some(k + 1)
  }

  /** `updateTemplateExercise(_:exerciseId:updatedExercise:)`: the first
      exercise with the id is replaced; without one nothing changes. */
  function UpdateTemplateExercise(t: WorkoutTemplate, exerciseId: TemplateExerciseId, updated: TemplateExercise): (r: WorkoutTemplate)
    ensures r.id == t.id && r.name == t.name && r.notes == t.notes
    ensures |r.exercises| == |t.exercises|
    ensures (forall k :: 0 <= k < |t.exercises| ==> t.exercises[k].id != exerciseId) ==> r == t
    ensures forall k :: 0 <= k < |t.exercises| ==>
      r.exercises[k] == (if FirstWithId(t.exercises, exerciseId) == Some(k) then updated else t.exercises[k])
  {
    match FirstWithId(t.exercises, exerciseId)
    case None => t
    case Some(k) => t.(exercises := t.exercises[k := updated])
  }

  /** Only the first of several exercises sharing an id is replaced. */
  lemma UpdateTemplateExerciseFirstOnly(t: WorkoutTemplate, exerciseId: TemplateExerciseId, updated: TemplateExercise, j: nat)
    requires 0 < j < |t.exercises|
    requires t.exercises[0].id == exerciseId && t.exercises[j].id == exerciseId
    ensures UpdateTemplateExercise(t, exerciseId, updated).exercises[0] == updated
    ensures UpdateTemplateExercise(t, exerciseId, updated).exercises[j] == t.exercises[j]
  {
  }

  function NotExerciseId(id: TemplateExerciseId): TemplateExercise -> bool
  {
    (x: TemplateExercise) => x.id != id
  }

  /** `removeExerciseFromTemplate(_:exerciseId:)`: every exercise with the id
      goes, the others stay in their order. */
  function RemoveExerciseFromTemplate(t: WorkoutTemplate, exerciseId: TemplateExerciseId): (r: WorkoutTemplate)
    ensures r.id == t.id && r.name == t.name && r.notes == t.notes
    ensures forall x :: x in r.exercises <==> x in t.exercises && x.id != exerciseId
    ensures IsSubsequence(r.exercises, t.exercises)
  {
    var kept := Filter(t.exercises, NotExerciseId(exerciseId));
    forall x ensures x in kept <==> x in t.exercises && x.id != exerciseId {
      FilterMember(t.exercises, NotExerciseId(exerciseId), x);
    }
    FilterIsSubsequence(t.exercises, NotExerciseId(exerciseId));
    t.(exercises := kept)
  }

  /** Adding an exercise under an id no exercise has and removing that id
      gives the template back. */
  lemma AddThenRemove(t: WorkoutTemplate, id: TemplateExerciseId, exerciseName: string)
    requires forall k :: 0 <= k < |t.exercises| ==> t.exercises[k].id != id
    ensures RemoveExerciseFromTemplate(AddExerciseToTemplate(t, id, exerciseName), id) == t
  {
    var added := AddExerciseToTemplate(t, id, exerciseName).exercises;
    assert added == t.exercises + [added[|t.exercises|]];
    FilterAppend(t.exercises, [added[|t.exercises|]], NotExerciseId(id));
    FilterAll(t.exercises, NotExerciseId(id));
    assert Filter([added[|t.exercises|]], NotExerciseId(id)) == [];
  }

  // ---------------------------------------------------------------------
  // createWorkoutFromTemplate
  // ---------------------------------------------------------------------

  /** `(minReps + maxReps) / 2`, truncating. */
  function TargetReps(r: RepRange): int
  {
    QuotTrunc(r.minReps + r.maxReps, 2)
  }

  /** The target lies within a non-negative range. */
  lemma TargetRepsWithin(r: RepRange)
    requires 0 <= r.minReps <= r.maxReps
    ensures r.minReps <= TargetReps(r) <= r.maxReps
  {
  }

  /** Set `k` of template exercise `index` is stamped `now + index + k/10`. */
  function Stamp(now: Time, index: nat, k: nat): Time
  {
    StampBase(now, index) + k as real / 10.0
  }

  /** Exercise `index`'s first stamp, `now + index`. */
  function StampBase(now: Time, index: nat): Time
  {
    now + index as real
  }

  /** An exercise's sets: one per range in set-number order, with no weight,
      the target reps and staggered stamps. Set ids are allocated from
      `nextId` on. */
  function SetsForExercise(x: TemplateExercise, index: nat, e: ExerciseId, wid: WorkoutId, now: Time,
                           nextId: nat): (r: seq<ExerciseSet>)
    ensures |r| == |x.repRanges|
    ensures forall k :: 0 <= k < |r| ==>
      && r[k].id == nextId + k && r[k].weight == 0.0 && r[k].exercise == Some(e) && r[k].workout == Some(wid)
      && r[k].completedAt == Stamp(now, index, k)
      && r[k].reps == TargetReps(SortBy(x.repRanges, SetKey)[k])
  {
    PlannedRun(SortBy(x.repRanges, SetKey), 0, index, e, wid, now, nextId)
  }

  /** The sets for `ranges`, which are an exercise's ranges from its `k`-th
      on: one per range, in order. */
  function PlannedRun(ranges: seq<RepRange>, k: nat, index: nat, e: ExerciseId, wid: WorkoutId,
                       now: Time, nextId: nat): (r: seq<ExerciseSet>)
    ensures |r| == |ranges|
    ensures forall m :: 0 <= m < |r| ==>
      && r[m].id == nextId + k + m && r[m].weight == 0.0 && r[m].exercise == Some(e) && r[m].workout == Some(wid)
      && r[m].completedAt == Stamp(now, index, k + m) && r[m].reps == TargetReps(ranges[m])
    decreases |ranges|
  {
    if |ranges| == 0 then []
    else
      var rest := PlannedRun(ranges[1..], k + 1, index, e, wid, now, nextId);
      var r := [NewSet(nextId + k, 0.0, TargetReps(ranges[0]), e, now, Some(wid), Some(Stamp(now, index, k)))] + rest;
      assert forall m :: 1 <= m < |r| ==> r[m] == rest[m - 1] && ranges[m] == ranges[1..][m - 1];
      r
  }

  /** How many sets one template exercise yields: its ranges when the
      library knows it, none otherwise. */
  function PlannedOne(x: TemplateExercise, lookup: string -> Option<ExerciseId>): nat
  {
    if lookup(x.exerciseName).Some? then |x.repRanges| else 0
  }

  /** How many sets a list of template exercises yields. */
  function PlannedSets(xs: seq<TemplateExercise>, lookup: string -> Option<ExerciseId>): nat
  {
    if |xs| == 0 then 0 else PlannedOne(xs[0], lookup) + PlannedSets(xs[1..], lookup)
  }

  /** The loop over the template's exercises from position `index` on: each
      exercise's sets (`SetsIfKnown`) follow those of the exercises before
      it, and an exercise the library does not know (`lookup`, by name)
      yields nothing but still uses up its position. */
  function Instantiate(xs: seq<TemplateExercise>, index: nat, lookup: string -> Option<ExerciseId>,
                       wid: WorkoutId, now: Time, nextId: nat): (r: seq<ExerciseSet>)
    ensures |r| == PlannedSets(xs, lookup)
    ensures forall j :: 0 <= j < |r| ==> FreshSet(r[j], nextId + j, wid)
    ensures AtMostTenRanges(xs) ==> StampedInOrder(r, StampBase(now, index), StampBase(now, index + |xs|))
  {
    KnownBlocksFacts(lookup, wid, now);
    LayLength(xs, index, nextId, lookup, KnownBlocks(lookup, wid, now));
    LayFresh(xs, index, nextId, wid, KnownBlocks(lookup, wid, now));
    LayStamps(xs, index, nextId, now, KnownBlocks(lookup, wid, now));
    Lay(xs, index, nextId, KnownBlocks(lookup, wid, now))
  }

  /** A planned set as created: the given id, no weight, attached to the
      workout and to an exercise. */
  predicate FreshSet(s: ExerciseSet, id: int, wid: WorkoutId)
  {
    s.id == id && s.weight == 0.0 && s.workout == Some(wid) && s.exercise.Some?
  }

  /** Exercise `x`'s sets when it is template position `j` and its ids
      start at `n`. */
  function KnownBlocks(lookup: string -> Option<ExerciseId>, wid: WorkoutId, now: Time)
    : (TemplateExercise, nat, nat) -> seq<ExerciseSet>
  {
    (x: TemplateExercise, j: nat, n: nat) => SetsIfKnown(x, j, lookup, wid, now, n)
  }

  /** What each exercise's block contributes, whatever its position. */
  lemma KnownBlocksFacts(lookup: string -> Option<ExerciseId>, wid: WorkoutId, now: Time)
    ensures forall x: TemplateExercise, j: nat, n: nat :: |KnownBlocks(lookup, wid, now)(x, j, n)| == PlannedOne(x, lookup)
    ensures forall x: TemplateExercise, j: nat, n: nat, m :: 0 <= m < |KnownBlocks(lookup, wid, now)(x, j, n)| ==>
      FreshSet(KnownBlocks(lookup, wid, now)(x, j, n)[m], n + m, wid)
    ensures forall x: TemplateExercise, j: nat, n: nat :: |x.repRanges| <= 10 ==>
      StampedInOrder(KnownBlocks(lookup, wid, now)(x, j, n), StampBase(now, j), StampBase(now, j + 1))
  {
    var blk := KnownBlocks(lookup, wid, now);
    forall x, j: nat, n: nat ensures |blk(x, j, n)| == PlannedOne(x, lookup) {
      KnownBlocksApply(lookup, wid, now, x, j, n);
    }
    forall x, j: nat, n: nat, m | 0 <= m < |blk(x, j, n)| ensures FreshSet(blk(x, j, n)[m], n + m, wid) {
      KnownBlocksApply(lookup, wid, now, x, j, n);
    }
    forall x: TemplateExercise, j: nat, n: nat | |x.repRanges| <= 10
      ensures StampedInOrder(blk(x, j, n), StampBase(now, j), StampBase(now, j + 1))
    {
      KnownBlocksApply(lookup, wid, now, x, j, n);
    }
  }

  /** A block is what `SetsIfKnown` makes of that exercise, position and
      first id. */
  lemma KnownBlocksApply(lookup: string -> Option<ExerciseId>, wid: WorkoutId, now: Time,
                         x: TemplateExercise, j: nat, n: nat)
    ensures KnownBlocks(lookup, wid, now)(x, j, n) == SetsIfKnown(x, j, lookup, wid, now, n)
  {
  }

  /** One exercise's sets, or none when the library does not know it. */
  function SetsIfKnown(x: TemplateExercise, index: nat, lookup: string -> Option<ExerciseId>,
                       wid: WorkoutId, now: Time, nextId: nat): (r: seq<ExerciseSet>)
    ensures |r| == PlannedOne(x, lookup)
    ensures forall j :: 0 <= j < |r| ==> FreshSet(r[j], nextId + j, wid)
    ensures |x.repRanges| <= 10 ==>
      StampedInOrder(r, StampBase(now, index), StampBase(now, index + 1))
    ensures lookup(x.exerciseName).Some? ==> forall k :: 0 <= k < |r| ==>
      && r[k].exercise == lookup(x.exerciseName) && r[k].completedAt == Stamp(now, index, k)
      && r[k].reps == TargetReps(SortBy(x.repRanges, SetKey)[k])
  {
    match lookup(x.exerciseName)
    case None => []
    case Some(e) =>
      SetsForExerciseStamps(x, index, e, wid, now, nextId);
      SetsForExercise(x, index, e, wid, now, nextId)
  }

  /** Blocks laid end to end: item `i` of `xs` contributes
      `blk(xs[i], index + i, n)`, where `n` is `nextId` plus the length of
      the blocks before it. */
  function Lay<X, T>(xs: seq<X>, index: nat, nextId: nat, blk: (X, nat, nat) -> seq<T>): seq<T>
    decreases |xs|
  {
    if |xs| == 0 then []
    else blk(xs[0], index, nextId) + Lay(xs[1..], index + 1, nextId + |blk(xs[0], index, nextId)|, blk)
  }

  /** Element `k` of block `i` sits right after the blocks of the items
      before it. */
  lemma {:induction false} LayBlock<X, T>(xs: seq<X>, index: nat, nextId: nat, blk: (X, nat, nat) -> seq<T>, i: nat, k: nat)
    requires i < |xs| && k < |blk(xs[i], index + i, nextId + |Lay(xs[..i], index, nextId, blk)|)|
    ensures |Lay(xs[..i], index, nextId, blk)| + k < |Lay(xs, index, nextId, blk)|
    ensures Lay(xs, index, nextId, blk)[|Lay(xs[..i], index, nextId, blk)| + k]
      == blk(xs[i], index + i, nextId + |Lay(xs[..i], index, nextId, blk)|)[k]
    decreases i
  {
    var here := blk(xs[0], index, nextId);
    var rest := Lay(xs[1..], index + 1, nextId + |here|, blk);
    assert Lay(xs, index, nextId, blk) == here + rest;
    if i == 0 {
      assert xs[..0] == [];
    } else {
      assert xs[..i][0] == xs[0] && xs[..i][1..] == xs[1..][..i - 1];
      assert xs[1..][i - 1] == xs[i];
      assert Lay(xs[..i], index, nextId, blk) == here + Lay(xs[1..][..i - 1], index + 1, nextId + |here|, blk);
      LayBlock(xs[1..], index + 1, nextId + |here|, blk, i - 1, k);
    }
  }

  /** Blocks sized by `PlannedOne` lay out `PlannedSets` sets. */
  lemma {:induction false} LayLength(xs: seq<TemplateExercise>, index: nat, nextId: nat, lookup: string -> Option<ExerciseId>,
                                     blk: (TemplateExercise, nat, nat) -> seq<ExerciseSet>)
    requires forall x: TemplateExercise, j: nat, n: nat :: |blk(x, j, n)| == PlannedOne(x, lookup)
    ensures |Lay(xs, index, nextId, blk)| == PlannedSets(xs, lookup)
    decreases |xs|
  {
    if |xs| > 0 {
      LayLength(xs[1..], index + 1, nextId + |blk(xs[0], index, nextId)|, lookup, blk);
    }
  }

  /** Blocks of fresh sets numbered from their start id lay out fresh sets
      numbered from `nextId`. */
  lemma {:induction false} LayFresh(xs: seq<TemplateExercise>, index: nat, nextId: nat, wid: WorkoutId,
                                    blk: (TemplateExercise, nat, nat) -> seq<ExerciseSet>)
    requires forall x: TemplateExercise, j: nat, n: nat, m :: 0 <= m < |blk(x, j, n)| ==> FreshSet(blk(x, j, n)[m], n + m, wid)
    ensures forall m :: 0 <= m < |Lay(xs, index, nextId, blk)| ==> FreshSet(Lay(xs, index, nextId, blk)[m], nextId + m, wid)
    decreases |xs|
  {
    if |xs| > 0 {
      var here := blk(xs[0], index, nextId);
      var rest := Lay(xs[1..], index + 1, nextId + |here|, blk);
      LayFresh(xs[1..], index + 1, nextId + |here|, wid, blk);
      var r := Lay(xs, index, nextId, blk);
      assert r == here + rest;
      forall m | 0 <= m < |r| ensures FreshSet(r[m], nextId + m, wid) {
        if m < |here| {
          assert r[m] == here[m];
        } else {
          assert r[m] == rest[m - |here|];
        }
      }
    }
  }

  /** Blocks stamped within their own position's second lay out stamps
      that increase across the whole run. */
  lemma {:induction false} LayStamps(xs: seq<TemplateExercise>, index: nat, nextId: nat, now: Time,
                                     blk: (TemplateExercise, nat, nat) -> seq<ExerciseSet>)
    requires forall x: TemplateExercise, j: nat, n: nat :: |x.repRanges| <= 10 ==>
      StampedInOrder(blk(x, j, n), StampBase(now, j), StampBase(now, j + 1))
    ensures AtMostTenRanges(xs) ==>
      StampedInOrder(Lay(xs, index, nextId, blk), StampBase(now, index), StampBase(now, index + |xs|))
    decreases |xs|
  {
    if |xs| > 0 && AtMostTenRanges(xs) {
      var here := blk(xs[0], index, nextId);
      var rest := Lay(xs[1..], index + 1, nextId + |here|, blk);
      LayStamps(xs[1..], index + 1, nextId + |here|, now, blk);
      TenRangesTail(xs);
      StampBaseMonotone(now, index, index + 1, index + |xs|);
      assert index + 1 + |xs[1..]| == index + |xs|;
      ConcatStamps(here, rest, StampBase(now, index), StampBase(now, index + 1), StampBase(now, index + |xs|));
      assert Lay(xs, index, nextId, blk) == here + rest;
    }
  }

  /** With blocks sized by `PlannedOne`, element `k` of block `i` sits
      right after the sets planned for the items before it, and the block is
      numbered on from `nextId` plus that count. */
  lemma LayBlockPlanned(xs: seq<TemplateExercise>, index: nat, nextId: nat, lookup: string -> Option<ExerciseId>,
                        blk: (TemplateExercise, nat, nat) -> seq<ExerciseSet>, i: nat, k: nat)
    requires forall x: TemplateExercise, j: nat, n: nat :: |blk(x, j, n)| == PlannedOne(x, lookup)
    requires i < |xs| && k < PlannedOne(xs[i], lookup)
    ensures PlannedSets(xs[..i], lookup) + k < |Lay(xs, index, nextId, blk)|
    ensures Lay(xs, index, nextId, blk)[PlannedSets(xs[..i], lookup) + k]
      == blk(xs[i], index + i, nextId + PlannedSets(xs[..i], lookup))[k]
  {
    LayLength(xs[..i], index, nextId, lookup, blk);
    LayBlock(xs, index, nextId, blk, i, k);
  }

  /** Every block has the planned length. */
  lemma KnownBlocksLength(lookup: string -> Option<ExerciseId>, wid: WorkoutId, now: Time)
    ensures forall x: TemplateExercise, j: nat, n: nat :: |KnownBlocks(lookup, wid, now)(x, j, n)| == PlannedOne(x, lookup)
  {
    forall x, j: nat, n: nat ensures |KnownBlocks(lookup, wid, now)(x, j, n)| == PlannedOne(x, lookup) {
      KnownBlocksApply(lookup, wid, now, x, j, n);
    }
  }

  /** The created sets are the exercises' blocks laid end to end: set `k`
      of exercise `i`'s block comes right after the sets planned for the
      exercises before it, and the block is the one `SetsIfKnown` makes for
      position `index + i` with ids from `nextId` plus that count (see
      `KnownBlocksApply`). */
  lemma InstantiateBlock(xs: seq<TemplateExercise>, index: nat, lookup: string -> Option<ExerciseId>,
                         wid: WorkoutId, now: Time, nextId: nat, i: nat, k: nat)
    requires i < |xs| && k < PlannedOne(xs[i], lookup)
    ensures PlannedSets(xs[..i], lookup) + k < |Instantiate(xs, index, lookup, wid, now, nextId)|
    ensures Instantiate(xs, index, lookup, wid, now, nextId)[PlannedSets(xs[..i], lookup) + k]
      == KnownBlocks(lookup, wid, now)(xs[i], index + i, nextId + PlannedSets(xs[..i], lookup))[k]
  {
    KnownBlocksLength(lookup, wid, now);
    LayBlockPlanned(xs, index, nextId, lookup, KnownBlocks(lookup, wid, now), i, k);
  }

  /** Every exercise has at most ten ranges. */
  predicate AtMostTenRanges(xs: seq<TemplateExercise>)
  {
    forall i :: 0 <= i < |xs| ==> |xs[i].repRanges| <= 10
  }

  /** All stamps lie in `[lo, hi)`. */
  predicate StampedWithin(sets: seq<ExerciseSet>, lo: Time, hi: Time)
  {
    forall j :: 0 <= j < |sets| ==> lo <= sets[j].completedAt < hi
  }

  /** Stamps lie in `[lo, hi)` and strictly increase along the sequence. */
  predicate StampedInOrder(sets: seq<ExerciseSet>, lo: Time, hi: Time)
  {
    StampedWithin(sets, lo, hi) && StampsIncrease(sets)
  }

  /** Stamps strictly increase along the sequence. */
  predicate StampsIncrease(sets: seq<ExerciseSet>)
  {
    forall a, b :: 0 <= a < b < |sets| ==> sets[a].completedAt < sets[b].completedAt
  }

  /** The stamps of exercise `index` lie in `[now + index, now + index + 1)`
      when it has at most ten ranges, and grow with the set. */
  lemma SetsForExerciseStamps(x: TemplateExercise, index: nat, e: ExerciseId, wid: WorkoutId, now: Time, nextId: nat)
    ensures var r := SetsForExercise(x, index, e, wid, now, nextId);
      |x.repRanges| <= 10 ==> StampedInOrder(r, StampBase(now, index), StampBase(now, index + 1))
  {
  }

  /** Two increasing runs, the first entirely before the second, make one. */
  lemma ConcatStamps(a: seq<ExerciseSet>, b: seq<ExerciseSet>, lo: Time, mid: Time, hi: Time)
    requires StampedInOrder(a, lo, mid) && StampedInOrder(b, mid, hi) && lo <= mid <= hi
    ensures StampedInOrder(a + b, lo, hi)
  {
    var r := a + b;
    forall i, j | 0 <= i < j < |r| ensures r[i].completedAt < r[j].completedAt {
      if j < |a| {
        assert r[i] == a[i] && r[j] == a[j];
      } else if i >= |a| {
        assert r[i] == b[i - |a|] && r[j] == b[j - |a|];
      } else {
        assert r[i] == a[i] && r[j] == b[j - |a|];
      }
    }
    forall j | 0 <= j < |r| ensures lo <= r[j].completedAt < hi {
      if j < |a| {
        assert r[j] == a[j];
      } else {
        assert r[j] == b[j - |a|];
      }
    }
  }

  /** Later positions are stamped later. */
  lemma StampBaseMonotone(now: Time, i: nat, j: nat, k: nat)
    requires i <= j <= k
    ensures StampBase(now, i) <= StampBase(now, j) <= StampBase(now, k)
  {
  }

  lemma TenRangesTail(xs: seq<TemplateExercise>)
    requires AtMostTenRanges(xs) && |xs| > 0
    ensures |xs[0].repRanges| <= 10 && AtMostTenRanges(xs[1..])
  {
    forall i | 0 <= i < |xs[1..]| ensures |xs[1..][i].repRanges| <= 10 {
      assert xs[1..][i] == xs[i + 1];
    }
  }

  /** Past ten ranges the stagger no longer separates exercises: the
      eleventh set of the first exercise and the first set of the second
      share a stamp. */
  lemma StampsCollideBeyondTen(now: Time)
    ensures Stamp(now, 0, 10) == Stamp(now, 1, 0)
  {
  }

  /** An unknown exercise contributes nothing, yet the next exercise is
      stamped as the second one. */
  lemma UnknownExerciseKeepsPosition(x: TemplateExercise, y: TemplateExercise, lookup: string -> Option<ExerciseId>,
                                     wid: WorkoutId, now: Time, nextId: nat)
    requires lookup(x.exerciseName).None? && lookup(y.exerciseName).Some? && |y.repRanges| > 0
    ensures var r := Instantiate([x, y], 0, lookup, wid, now, nextId);
      |r| == |y.repRanges| && r[0].completedAt == now + 1.0
  {
    var xs := [x, y];
    assert xs[1..] == [y] && [y][1..] == [] && xs[..1] == [x] && [x][1..] == [];
    assert PlannedSets([y], lookup) == |y.repRanges|;
    assert PlannedSets(xs, lookup) == |y.repRanges| && PlannedSets(xs[..1], lookup) == 0;
    InstantiateBlock(xs, 0, lookup, wid, now, nextId, 1, 0);
    KnownBlocksApply(lookup, wid, now, y, 1, nextId);
  }

  /** `createWorkoutFromTemplate(_:)`: a workout named after the template and
      marked as started from it, holding the template's planned sets; it is
      added to the store `ws`. */
  function CreateWorkoutFromTemplate(ws: seq<Workout>, t: WorkoutTemplate, wid: WorkoutId, now: Time,
                                     lookup: string -> Option<ExerciseId>, nextId: nat): (r: (seq<Workout>, Workout))
    ensures r.0 == ws + [r.1]
    ensures r.1.id == wid && r.1.name == t.name && r.1.startedFromTemplate == Some(t.name)
    ensures !r.1.isCompleted && r.1.date == now
    ensures |r.1.sets| == PlannedSets(t.exercises, lookup)
    ensures AllAttached(r.1.sets) && UniqueIds(r.1.sets)
    ensures forall j :: 0 <= j < |r.1.sets| ==> r.1.sets[j].weight == 0.0 && r.1.sets[j].workout == Some(wid)
    ensures AtMostTenRanges(t.exercises) ==> StampsIncrease(r.1.sets)
  {
    var w := NewWorkout(wid, now, t.name, Some(t.name));
    var sets := Instantiate(t.exercises, 0, lookup, wid, now, nextId);
    var created := w.(sets := sets);
    (ws + [created], created)
  }

  /** In the created workout, set `k` of template exercise `i` comes right
      after the sets planned for the exercises before it, and is that
      exercise's set `k` when stamped as position `i`. */
  lemma CreatedSetsPerExercise(ws: seq<Workout>, t: WorkoutTemplate, wid: WorkoutId, now: Time,
                               lookup: string -> Option<ExerciseId>, nextId: nat, i: nat, k: nat)
    requires i < |t.exercises| && k < PlannedOne(t.exercises[i], lookup)
    ensures var sets := CreateWorkoutFromTemplate(ws, t, wid, now, lookup, nextId).1.sets;
      var off := PlannedSets(t.exercises[..i], lookup);
      && off + k < |sets|
      && sets[off + k] == KnownBlocks(lookup, wid, now)(t.exercises[i], i, nextId + off)[k]
  {
    CreatedSetsAreInstantiated(ws, t, wid, now, lookup, nextId);
    InstantiateBlock(t.exercises, 0, lookup, wid, now, nextId, i, k);
  }

  /** The created workout holds exactly the template's planned sets. */
  lemma CreatedSetsAreInstantiated(ws: seq<Workout>, t: WorkoutTemplate, wid: WorkoutId, now: Time,
                                   lookup: string -> Option<ExerciseId>, nextId: nat)
    ensures CreateWorkoutFromTemplate(ws, t, wid, now, lookup, nextId).1.sets
      == Instantiate(t.exercises, 0, lookup, wid, now, nextId)
  {
  }
}

=== FILE: users.dfy ===
/** The user record and the user repository: statistics folded in when a
    workout is completed, personal bests per exercise name, body-mass index,
    partial profile edits and the ranked list of bests.

    The store holds the users as a sequence; "the current user" is its
    first element, as the source fetches with a limit of one. Exercise names
    come from a lookup `nameOf`, the shared `Exercise` object's name. */
module Users {
  import opened Basics
  import opened Sorting
  import opened Domain

  /** How the calendar day of the user's latest workout relates to today. */
  datatype LatestDay = SameDayAsToday | DayBeforeToday | EarlierOrNone

  /** `Calendar.startOfDay` as a day number; the calendar is an input, so
      the model holds for any time zone and day length. */
  type DayOf = Time -> int

  datatype User = User(
    id: UserId,
    username: string,
    email: string,
    dateJoined: Time,
    height: Option<real>,
    weight: Option<real>,
    birthdate: Option<Time>,
    profileImageName: Option<string>,
    lastActive: Time,
    workoutStreak: int,
    totalWorkouts: int,
    totalVolume: real,
    personalBests: map<string, real>,
    workouts: seq<WorkoutId>)

  /** `User.init` with its defaults: joined and active now, no statistics. */
  function NewUser(id: UserId, username: string, email: string, now: Time): (u: User)
    ensures u.totalWorkouts == 0 && u.totalVolume == 0.0 && u.workoutStreak == 0
    ensures u.personalBests == map[] && u.workouts == []
    ensures u.height.None? && u.weight.None? && u.birthdate.None? && u.profileImageName.None?
    ensures u.id == id && u.username == username && u.email == email
    ensures u.dateJoined == now && u.lastActive == now
  {
    User(id, username, email, now, None, None, None, None, now, 0, 0, 0.0, map[], [])
  }

  // ---------------------------------------------------------------------
  // Body-mass index
  // ---------------------------------------------------------------------

  /** `bmi`: 703 × weight(lb) / height(in)², defined only when both are
      known and the height is positive. */
  function Bmi(height: Option<real>, weight: Option<real>): (r: Option<real>)
    ensures r.Some? <==> height.Some? && weight.Some? && height.value > 0.0
    ensures r.Some? ==> r.value * (height.value * height.value) == 703.0 * weight.value
  {
    if height.Some? && weight.Some? && height.value > 0.0 then
      Some(703.0 * weight.value / (height.value * height.value))
    else None
  }

  /** For a fixed height the index is proportional to the weight, and a
      heavier user has the larger index. */
  lemma BmiMonotone(h: real, w1: real, w2: real)
    requires h > 0.0 && w1 <= w2
    ensures Bmi(Some(h), Some(w1)).value <= Bmi(Some(h), Some(w2)).value
  {
    var h2 := h * h;
    PositiveSquare(h);
    var b1, b2 := Bmi(Some(h), Some(w1)).value, Bmi(Some(h), Some(w2)).value;
    assert b1 * h2 == 703.0 * w1;
    assert b2 * h2 == 703.0 * w2;
    if b1 > b2 {
      PositiveProduct(b1 - b2, h2);
      assert false;
    }
  }

  lemma PositiveProduct(a: real, b: real)
    requires a > 0.0 && b > 0.0
    ensures a * b > 0.0
  {
    assert a * b > 0.0 * b;
  }

  lemma PositiveSquare(h: real)
    requires h > 0.0
    ensures h * h > 0.0
  {
    assert h * h > 0.0 * h;
  }

  // ---------------------------------------------------------------------
  // Personal bests
  // ---------------------------------------------------------------------

  /** The set belongs to an exercise named `n`. */
  predicate Named(s: ExerciseSet, nameOf: ExerciseId -> string, n: string)
  {
    s.exercise.Some? && nameOf(s.exercise.value) == n
  }

  /** One iteration of `updatePersonalBests`: a missing best counts as 0, and
      only a strictly heavier set replaces it; sets without an exercise are
      skipped. */
  function BestStep(bests: map<string, real>, s: ExerciseSet, nameOf: ExerciseId -> string): map<string, real>
  {
    match s.exercise
    case None => bests
    case Some(e) =>
      var n := nameOf(e);
      var current := if n in bests then bests[n] else 0.0;
      if s.weight > current then bests[n := s.weight] else bests
  }

  /** `updatePersonalBests(with:)` over the workout's sets in order. Bests
      never decrease, and a best that was not there before is positive. */
  function UpdatePersonalBests(bests: map<string, real>, sets: seq<ExerciseSet>, nameOf: ExerciseId -> string)
    : (r: map<string, real>)
    ensures forall n :: n in bests ==> n in r && r[n] >= bests[n]
    ensures forall n :: n in r && n !in bests ==> r[n] > 0.0
    decreases |sets|
  {
    if |sets| == 0 then bests
    else UpdatePersonalBests(BestStep(bests, sets[0], nameOf), sets[1..], nameOf)
  }

  /** Every set with an exercise is covered by its exercise's best: a best
      exists once a positive weight was lifted, and a best is at least every
      weight lifted for that exercise. */
  lemma {:induction false} BestsCoverSets(bests: map<string, real>, sets: seq<ExerciseSet>,
                                          nameOf: ExerciseId -> string, i: nat)
    requires i < |sets| && sets[i].exercise.Some?
    ensures var r, n := UpdatePersonalBests(bests, sets, nameOf), nameOf(sets[i].exercise.value);
      (sets[i].weight > 0.0 ==> n in r) && (n in r ==> r[n] >= sets[i].weight)
    decreases |sets|
  {
    var b1 := BestStep(bests, sets[0], nameOf);
    var r := UpdatePersonalBests(bests, sets, nameOf);
    assert r == UpdatePersonalBests(b1, sets[1..], nameOf);
    if i == 0 {
      var n := nameOf(sets[0].exercise.value);
      if n in b1 {
        assert b1[n] >= sets[0].weight;
      }
    } else {
      BestsCoverSets(b1, sets[1..], nameOf, i - 1);
      assert sets[1..][i - 1] == sets[i];
    }
  }

  /** Every best after the update is either the old best, untouched, or the
      weight of one of the workout's sets of that exercise. With
      `BestsCoverSets` and monotonicity this makes each best the maximum of
      the old best and the exercise's set weights. */
  lemma {:induction false} BestsAttained(bests: map<string, real>, sets: seq<ExerciseSet>,
                                         nameOf: ExerciseId -> string, n: string)
    requires n in UpdatePersonalBests(bests, sets, nameOf)
    ensures var r := UpdatePersonalBests(bests, sets, nameOf);
      (n in bests && r[n] == bests[n])
      || exists i :: 0 <= i < |sets| && Named(sets[i], nameOf, n) && r[n] == sets[i].weight
    decreases |sets|
  {
    var r := UpdatePersonalBests(bests, sets, nameOf);
    if |sets| > 0 {
      var b1 := BestStep(bests, sets[0], nameOf);
      BestsAttained(b1, sets[1..], nameOf, n);
      if n in b1 && r[n] == b1[n] {
        if !(n in bests && b1[n] == bests[n]) {
          assert Named(sets[0], nameOf, n) && r[n] == sets[0].weight;
        }
      } else {
        var i :| 0 <= i < |sets[1..]| && Named(sets[1..][i], nameOf, n) && r[n] == sets[1..][i].weight;
        assert sets[i + 1] == sets[1..][i];
      }
    }
  }

  /** Sets that name no exercise leave the bests alone. */
  lemma {:induction false} UnattachedSetsIgnored(bests: map<string, real>, sets: seq<ExerciseSet>,
                                                 nameOf: ExerciseId -> string)
    requires forall i :: 0 <= i < |sets| ==> sets[i].exercise.None?
    ensures UpdatePersonalBests(bests, sets, nameOf) == bests
    decreases |sets|
  {
    if |sets| > 0 {
      UnattachedSetsIgnored(bests, sets[1..], nameOf);
    }
  }

  // ---------------------------------------------------------------------
  // updateStats and the streak
  // ---------------------------------------------------------------------

  /** `updateWorkoutStreak()`: unchanged when the latest workout is already
      today, one more when it was yesterday, and restarted at 1 otherwise. */
  function UpdateStreak(streak: int, latest: LatestDay): (r: int)
    ensures latest.SameDayAsToday? ==> r == streak
    ensures latest.DayBeforeToday? ==> r == streak + 1
    ensures latest.EarlierOrNone? ==> r == 1
  {
    match latest
    case SameDayAsToday => streak
    case DayBeforeToday => streak + 1
    case EarlierOrNone => 1
  }

  /** A streak is never broken on a day that already counts, and after any
      update a non-negative streak is at least 1 unless the day already
      counted. */
  lemma StreakAtLeastOne(streak: int, latest: LatestDay)
    requires streak >= 0
    ensures !latest.SameDayAsToday? ==> UpdateStreak(streak, latest) >= 1
    ensures UpdateStreak(streak, latest) >= streak || latest.EarlierOrNone?
  {
  }

  /** `workouts.map { $0.date }.max()`: the latest of the dates, if any. */
  function LatestDate(dates: seq<Time>): (r: Option<Time>)
    ensures r.None? <==> |dates| == 0
    ensures r.Some? ==> r.value in dates && forall i :: 0 <= i < |dates| ==> dates[i] <= r.value
  {
    if |dates| == 0 then None
    else
      match LatestDate(dates[1..])
      case None => Some(dates[0])
      case Some(t) => Some(MaxReal(dates[0], t))
  }

  /** The comparison of `updateWorkoutStreak()`: the day of the latest date
      against today and yesterday. Without any date the source compares
      `Date.distantPast`, which is neither. */
  function RelateLatest(dates: seq<Time>, dayOf: DayOf, now: Time): (d: LatestDay)
    ensures |dates| == 0 ==> d == EarlierOrNone
    ensures |dates| > 0 ==> (d.SameDayAsToday? <==> dayOf(LatestDate(dates).value) == dayOf(now))
    ensures |dates| > 0 ==> (d.DayBeforeToday? <==> dayOf(LatestDate(dates).value) == dayOf(now) - 1)
  {
    match LatestDate(dates)
    case None => EarlierOrNone
    case Some(t) =>
      if dayOf(t) == dayOf(now) then SameDayAsToday
      else if dayOf(t) == dayOf(now) - 1 then DayBeforeToday
      else EarlierOrNone
  }

  /** Where the user's latest workout falls, the workouts' dates looked up
      by id in the store. */
  function LatestWorkoutDay(u: User, dateOf: WorkoutId -> Time, dayOf: DayOf, now: Time): LatestDay
  {
    RelateLatest(MapSeq(u.workouts, dateOf), dayOf, now)
  }

  /** `updateStats(with:)`: one more workout, its volume (warm-ups
      included) added, active now, streak and bests updated. The streak
      reads the user's own workouts, whatever they are by then. */
  function UpdateStats(u: User, w: Workout, now: Time, dateOf: WorkoutId -> Time, dayOf: DayOf,
                       nameOf: ExerciseId -> string): (r: User)
    ensures r.workoutStreak == UpdateStreak(u.workoutStreak, LatestWorkoutDay(u, dateOf, dayOf, now))
    ensures r.totalWorkouts == u.totalWorkouts + 1
    ensures r.totalVolume == u.totalVolume + TotalVolume(w.sets)
    ensures r.lastActive == now
    ensures forall n :: n in u.personalBests ==> n in r.personalBests && r.personalBests[n] >= u.personalBests[n]
    ensures r == u.(lastActive := now, totalWorkouts := r.totalWorkouts, totalVolume := r.totalVolume,
                    workoutStreak := r.workoutStreak, personalBests := r.personalBests)
  {
    u.(lastActive := now,
       totalWorkouts := u.totalWorkouts + 1,
       totalVolume := u.totalVolume + TotalVolume(w.sets),
       workoutStreak := UpdateStreak(u.workoutStreak, LatestWorkoutDay(u, dateOf, dayOf, now)),
       personalBests := UpdatePersonalBests(u.personalBests, w.sets, nameOf))
  }

  /** Completing workouts one after the other adds up their volumes and
      counts: the statistics are a running sum. */
  lemma UpdateStatsAccumulates(u: User, w1: Workout, w2: Workout, t1: Time, t2: Time,
                               dateOf: WorkoutId -> Time, dayOf: DayOf, nameOf: ExerciseId -> string)
    ensures var r := UpdateStats(UpdateStats(u, w1, t1, dateOf, dayOf, nameOf), w2, t2, dateOf, dayOf, nameOf);
      r.totalWorkouts == u.totalWorkouts + 2
      && r.totalVolume == u.totalVolume + TotalVolume(w1.sets + w2.sets)
  {
    TotalVolumeAppend(w1.sets, w2.sets);
  }

  // ---------------------------------------------------------------------
  // UserManager
  // ---------------------------------------------------------------------

  /** `getCurrentUser()`: the first stored user, if any. */
  function CurrentUser(users: seq<User>): (r: Option<User>)
    ensures r.None? <==> |users| == 0
    ensures r.Some? ==> r.value == users[0]
  {
    SafeGet(users, 0)
  }

  /** `createDefaultUserIfNeeded()`: an empty store receives the user
      "User" <user@example.com>; a non-empty one is left alone. */
  function CreateDefaultUserIfNeeded(users: seq<User>, id: UserId, now: Time): (r: seq<User>)
    ensures |r| >= 1
    ensures |users| > 0 ==> r == users
    ensures |users| == 0 ==> r == [NewUser(id, "User", "user@example.com", now)]
  {
    if |users| > 0 then users else [NewUser(id, "User", "user@example.com", now)]
  }

  /** Seeding twice is seeding once. */
  lemma CreateDefaultUserIdempotent(users: seq<User>, id1: UserId, id2: UserId, t1: Time, t2: Time)
    ensures var once := CreateDefaultUserIfNeeded(users, id1, t1);
      CreateDefaultUserIfNeeded(once, id2, t2) == once
  {
  }

  /** The arguments of `updateUserProfile`; `None` means "leave as is". */
  datatype ProfileEdit = ProfileEdit(
    username: Option<string>,
    email: Option<string>,
    height: Option<real>,
    weight: Option<real>,
    birthdate: Option<Time>,
    profileImageName: Option<string>)

  /** The value a field takes: the argument when given, else the old one. */
  function Pick<T>(arg: Option<T>, prior: T): T
  {
    if arg.Some? then arg.value else prior
  }

  function PickOpt<T>(arg: Option<T>, prior: Option<T>): Option<T>
  {
    if arg.Some? then arg else prior
  }

  function ApplyProfile(u: User, p: ProfileEdit): (r: User)
    ensures p.username.Some? ==> r.username == p.username.value
    ensures p.username.None? ==> r.username == u.username
    ensures p.email.Some? ==> r.email == p.email.value
    ensures p.email.None? ==> r.email == u.email
    ensures p.height.Some? ==> r.height == p.height
    ensures p.height.None? ==> r.height == u.height
    ensures p.weight.Some? ==> r.weight == p.weight
    ensures p.weight.None? ==> r.weight == u.weight
    ensures p.birthdate.Some? ==> r.birthdate == p.birthdate
    ensures p.birthdate.None? ==> r.birthdate == u.birthdate
    ensures p.profileImageName.Some? ==> r.profileImageName == p.profileImageName
    ensures p.profileImageName.None? ==> r.profileImageName == u.profileImageName
    ensures r == u.(username := r.username, email := r.email, height := r.height, weight := r.weight,
                    birthdate := r.birthdate, profileImageName := r.profileImageName)
  {
    u.(username := Pick(p.username, u.username),
       email := Pick(p.email, u.email),
       height := PickOpt(p.height, u.height),
       weight := PickOpt(p.weight, u.weight),
       birthdate := PickOpt(p.birthdate, u.birthdate),
       profileImageName := PickOpt(p.profileImageName, u.profileImageName))
  }

  /** Two edits in a row are one edit in which the later arguments win. */
  function Then(p: ProfileEdit, q: ProfileEdit): ProfileEdit
  {
    ProfileEdit(PickOpt(q.username, p.username), PickOpt(q.email, p.email),
                PickOpt(q.height, p.height), PickOpt(q.weight, p.weight),
                PickOpt(q.birthdate, p.birthdate), PickOpt(q.profileImageName, p.profileImageName))
  }

  lemma ProfileEditsCompose(u: User, p: ProfileEdit, q: ProfileEdit)
    ensures ApplyProfile(ApplyProfile(u, p), q) == ApplyProfile(u, Then(p, q))
    ensures ApplyProfile(ApplyProfile(u, p), p) == ApplyProfile(u, p)
    ensures ApplyProfile(u, ProfileEdit(None, None, None, None, None, None)) == u
  {
  }

  /** `updateUserProfile(...)`: edits the current user; no user, no change. */
  function UpdateUserProfile(users: seq<User>, p: ProfileEdit): (r: seq<User>)
    ensures |r| == |users|
    ensures |users| > 0 ==> r[0] == ApplyProfile(users[0], p) && r[1..] == users[1..]
  {
    if |users| == 0 then users else users[0 := ApplyProfile(users[0], p)]
  }

  /** The store's dates with the completed workout's own date for its id. */
  function WithDate(dateOf: WorkoutId -> Time, w: Workout): WorkoutId -> Time
  {
    (id: WorkoutId) => if id == w.id then w.date else dateOf(id)
  }

  /** `processCompletedWorkout(_:)`: without a user nothing happens;
      otherwise the workout is linked to the current user, appended to the
      user's workouts, and the user's statistics are updated once. The
      append comes first, so the streak update already sees the workout. */
  function ProcessCompletedWorkout(users: seq<User>, w: Workout, now: Time, dateOf: WorkoutId -> Time,
                                   dayOf: DayOf, nameOf: ExerciseId -> string): (r: (seq<User>, Workout))
    ensures |users| == 0 ==> r == (users, w)
    ensures |users| > 0 ==> r.1 == w.(user := Some(users[0].id))
    ensures |users| > 0 ==> |r.0| == |users| && r.0[1..] == users[1..]
    ensures |users| > 0 ==> r.0[0].workouts == users[0].workouts + [w.id]
    ensures |users| > 0 ==> r.0[0].totalWorkouts == users[0].totalWorkouts + 1
    ensures |users| > 0 ==> r.0[0].totalVolume == users[0].totalVolume + TotalVolume(w.sets)
    ensures |users| > 0 ==> (r.0[0].workoutStreak ==
      UpdateStreak(users[0].workoutStreak,
                   RelateLatest(MapSeq(users[0].workouts, WithDate(dateOf, w)) + [w.date], dayOf, now)))
  {
    if |users| == 0 then (users, w)
    else
      var u := users[0];
      var linked := u.(workouts := u.workouts + [w.id]);
      assert MapSeq(linked.workouts, WithDate(dateOf, w)) == MapSeq(u.workouts, WithDate(dateOf, w)) + [w.date];
      (users[0 := UpdateStats(linked, w, now, WithDate(dateOf, w), dayOf, nameOf)], w.(user := Some(u.id)))
  }

  /** The latest of dates that all lie at or before `t`, followed by `t`,
      is `t`. */
  lemma LatestIsLast(dates: seq<Time>, t: Time)
    requires forall i :: 0 <= i < |dates| ==> dates[i] <= t
    ensures LatestDate(dates + [t]) == Some(t)
  {
    var all := dates + [t];
    var m := LatestDate(all).value;
    assert t <= m by {
      assert all[|dates|] == t;
    }
    var i :| 0 <= i < |all| && all[i] == m;
    if i < |dates| {
      assert all[i] == dates[i];
    }
  }

  /** As written, a workout dated today that is the user's newest never
      moves the streak: the append puts its own date first in line, so the
      update always finds a workout "already counted for today". */
  lemma TodaysWorkoutKeepsStreak(users: seq<User>, w: Workout, now: Time, dateOf: WorkoutId -> Time,
                                 dayOf: DayOf, nameOf: ExerciseId -> string)
    requires |users| > 0 && dayOf(w.date) == dayOf(now)
    requires forall i :: 0 <= i < |users[0].workouts| ==> dateOf(users[0].workouts[i]) <= w.date
    ensures ProcessCompletedWorkout(users, w, now, dateOf, dayOf, nameOf).0[0].workoutStreak
         == users[0].workoutStreak
  {
    var dates := MapSeq(users[0].workouts, WithDate(dateOf, w));
    LatestIsLast(dates, w.date);
  }

  /** Corrected (intended) processing: the streak compares today with the
      user's latest workout before this one; everything else is as
      written. */
  function ProcessCompletedWorkoutIntended(users: seq<User>, w: Workout, now: Time, dateOf: WorkoutId -> Time,
                                           dayOf: DayOf, nameOf: ExerciseId -> string): (r: (seq<User>, Workout))
    ensures r.1 == ProcessCompletedWorkout(users, w, now, dateOf, dayOf, nameOf).1
    ensures |users| == 0 ==> r.0 == users
    ensures |users| > 0 ==> |r.0| == |users| && r.0[1..] == users[1..]
    ensures |users| > 0 ==> (r.0[0].workoutStreak ==
      UpdateStreak(users[0].workoutStreak, LatestWorkoutDay(users[0], dateOf, dayOf, now)))
    ensures |users| > 0 ==> r.0[0] == ProcessCompletedWorkout(users, w, now, dateOf, dayOf, nameOf).0[0]
                                        .(workoutStreak := r.0[0].workoutStreak)
    ensures |users| > 0 && |users[0].workouts| == 0 ==> r.0[0].workoutStreak == 1
  {
    var done := ProcessCompletedWorkout(users, w, now, dateOf, dayOf, nameOf);
    if |users| == 0 then done
    else
      var streak := UpdateStreak(users[0].workoutStreak, LatestWorkoutDay(users[0], dateOf, dayOf, now));
      (done.0[0 := done.0[0].(workoutStreak := streak)], done.1)
  }

  /** A new user completing a first workout today: as written the streak
      stays 0, as intended it starts at 1. */
  lemma StreakDiscrepancy(id: UserId, joined: Time, w: Workout, now: Time, dateOf: WorkoutId -> Time,
                          dayOf: DayOf, nameOf: ExerciseId -> string)
    requires dayOf(w.date) == dayOf(now)
    ensures var users := [NewUser(id, "User", "user@example.com", joined)];
      && ProcessCompletedWorkout(users, w, now, dateOf, dayOf, nameOf).0[0].workoutStreak == 0
      && ProcessCompletedWorkoutIntended(users, w, now, dateOf, dayOf, nameOf).0[0].workoutStreak == 1
  {
    TodaysWorkoutKeepsStreak([NewUser(id, "User", "user@example.com", joined)], w, now, dateOf, dayOf, nameOf);
  }

  /** `getUserStats()`: (workouts, volume, streak) of the current user, or
      zeros. */
  function GetUserStats(users: seq<User>): (r: (int, real, int))
    ensures |users| == 0 ==> r == (0, 0.0, 0)
    ensures |users| > 0 ==> r == (users[0].totalWorkouts, users[0].totalVolume, users[0].workoutStreak)
  {
    match CurrentUser(users)
    case None => (0, 0.0, 0)
    case Some(u) => (u.totalWorkouts, u.totalVolume, u.workoutStreak)
  }

  /** After a workout is processed the reported count and volume have grown
      by exactly that workout. */
  lemma StatsAfterProcessing(users: seq<User>, w: Workout, now: Time, dateOf: WorkoutId -> Time, dayOf: DayOf,
                             nameOf: ExerciseId -> string)
    requires |users| > 0
    ensures var before, after := GetUserStats(users),
                                 GetUserStats(ProcessCompletedWorkout(users, w, now, dateOf, dayOf, nameOf).0);
      after.0 == before.0 + 1 && after.1 == before.1 + TotalVolume(w.sets)
  {
  }

  /** One entry of the bests list: exercise name and weight. */
  type BestEntry = (string, real)

  function Entries(bests: map<string, real>, keys: seq<string>): (r: seq<BestEntry>)
    requires forall i :: 0 <= i < |keys| ==> keys[i] in bests
    ensures |r| == |keys|
    ensures forall i :: 0 <= i < |r| ==> r[i] == (keys[i], bests[keys[i]])
  {
    if |keys| == 0 then [] else [(keys[0], bests[keys[0]])] + Entries(bests, keys[1..])
  }

  function NegatedWeight(e: BestEntry): real
  {
    -e.1
  }

  /** `getPersonalBests()`: every stored best once, heaviest first. The
      dictionary's enumeration order is the input `keys`. */
  function GetPersonalBests(users: seq<User>, keys: seq<string>): (r: seq<BestEntry>)
    requires |users| > 0 ==> IsListing(keys, users[0].personalBests.Keys)
    ensures |users| == 0 ==> r == []
    ensures forall i, j :: 0 <= i < j < |r| ==> r[i].1 >= r[j].1
  {
    if |users| == 0 then []
    else
      var bests := users[0].personalBests;
      ListingMembers(keys, bests.Keys);
      var r := SortBy(Entries(bests, keys), NegatedWeight);
      assert SortedBy(r, NegatedWeight);
      r
  }

  /** The ranked list holds exactly the stored bests, each once. */
  lemma PersonalBestsListed(users: seq<User>, keys: seq<string>, n: string)
    requires |users| > 0 && IsListing(keys, users[0].personalBests.Keys)
    ensures var r, bests := GetPersonalBests(users, keys), users[0].personalBests;
      |r| == |bests|
      && (forall i :: 0 <= i < |r| ==> r[i].0 in bests && r[i].1 == bests[r[i].0])
      && (n in bests ==> (n, bests[n]) in r)
  {
    var bests := users[0].personalBests;
    ListingMembers(keys, bests.Keys);
    var es := Entries(bests, keys);
    var r := GetPersonalBests(users, keys);
    assert r == SortBy(es, NegatedWeight);
    assert |multiset(keys)| == |multiset(bests.Keys)|;
    assert |r| == |bests|;
    forall i | 0 <= i < |r|
      ensures r[i].0 in bests && r[i].1 == bests[r[i].0]
    {
      SortByMembers(es, NegatedWeight, r[i]);
    }
    if n in bests {
      assert n in keys;
      var k :| 0 <= k < |keys| && keys[k] == n;
      assert es[k] == (n, bests[n]);
      SortByMembers(es, NegatedWeight, (n, bests[n]));
    }
  }
}

=== FILE: workout_manager.dfy ===
/** The workout repository (`WorkoutManager`): workout and set bookkeeping
    over the persistent store, the date-ordered queries, the exercise
    history that seeds new sessions, and the statistics with the choice of
    display form.

    The store is the sequence of all workouts; a workout owns its sets, so
    removing a workout removes its sets with it, as the cascade rule of
    `Workout.sets` does. The store's own order among workouts with equal
    dates is not specified by the source; the model keeps store order. */
module WorkoutManager {
  import opened Basics
  import opened Sorting
  import opened Domain
  import opened Users
  import Session

  // ---------------------------------------------------------------------
  // Workout lifecycle
  // ---------------------------------------------------------------------

  predicate HasId(ws: seq<Workout>, id: WorkoutId)
  {
    exists i :: 0 <= i < |ws| && ws[i].id == id
  }

  /** `createWorkout(name:fromTemplate:)`: a fresh empty workout dated now is
      inserted into the store. */
  function CreateWorkout(ws: seq<Workout>, id: WorkoutId, now: Time, name: string := "Workout",
                         template: Option<string> := None): (r: (seq<Workout>, Workout))
    ensures r.0 == ws + [r.1]
    ensures r.1 == NewWorkout(id, now, name, template)
  {
    var w := NewWorkout(id, now, name, template);
    (ws + [w], w)
  }

  /** Saving and then completing keeps the duration the save recorded, and a
      second save changes nothing, unless the first one happened at the
      very instant the workout started. */
  lemma SaveThenComplete(w: Workout, t1: Time, t2: Time)
    requires w.duration != 0.0 || t1 != w.date
    ensures SaveWorkout(SaveWorkout(w, t1), t2) == SaveWorkout(w, t1)
    ensures Complete(SaveWorkout(w, t1), t2).duration == SaveWorkout(w, t1).duration
    ensures Complete(SaveWorkout(w, t1), t2) == SaveWorkout(w, t1).(isCompleted := true)
  {
  }

  /** `completeWorkout(_:)`: the workout is completed and handed to the user
      repository, which links it to the current user and updates the
      statistics. */
  function CompleteWorkout(users: seq<User>, w: Workout, now: Time, dateOf: WorkoutId -> Time, dayOf: DayOf,
                           nameOf: ExerciseId -> string): (r: (seq<User>, Workout))
    ensures r.1.isCompleted
    ensures r.1.sets == w.sets && r.1.id == w.id && r.1.name == w.name
    ensures r.1.duration == (if w.duration == 0.0 then now - w.date else w.duration)
    ensures |users| == 0 ==> r.0 == users && r.1.user == w.user
    ensures |users| > 0 ==> r.1.user == Some(users[0].id) && |r.0| == |users|
    ensures |users| > 0 ==> r.0[0].totalWorkouts == users[0].totalWorkouts + 1
    ensures |users| > 0 ==> r.0[0].totalVolume == users[0].totalVolume + TotalVolume(w.sets)
  {
    ProcessCompletedWorkout(users, Complete(w, now), now, dateOf, dayOf, nameOf)
  }

  /** Predicate constructor: the workout's id differs from `id`. */
  function NotWorkout(id: WorkoutId): Workout -> bool
  {
    (w: Workout) => w.id != id
  }

  /** `deleteWorkout(_:)`: the workout leaves the store, and its sets go with
      it. */
  function DeleteWorkout(ws: seq<Workout>, id: WorkoutId): (r: seq<Workout>)
    ensures !HasId(r, id)
    ensures forall x :: x in r <==> x in ws && x.id != id
    ensures IsSubsequence(r, ws)
  {
    FilterExactly(ws, NotWorkout(id));
    Filter(ws, NotWorkout(id))
  }

  /** Every set in the store, workout by workout. */
  function StoredSets(ws: seq<Workout>): seq<ExerciseSet>
  {
    if |ws| == 0 then [] else ws[0].sets + StoredSets(ws[1..])
  }

  /** After the deletion the store holds exactly the sets of the other
      workouts: the cascade leaves no orphaned set behind and takes nobody
      else's. */
  lemma {:induction false} DeleteWorkoutCascades(ws: seq<Workout>, id: WorkoutId, s: ExerciseSet)
    ensures s in StoredSets(DeleteWorkout(ws, id))
        <==> exists i :: 0 <= i < |ws| && ws[i].id != id && s in ws[i].sets
  {
    if |ws| > 0 {
      DeleteWorkoutCascades(ws[1..], id, s);
      var r := DeleteWorkout(ws, id);
      if ws[0].id != id {
        assert r == [ws[0]] + DeleteWorkout(ws[1..], id);
        assert r[1..] == DeleteWorkout(ws[1..], id);
      } else {
        assert r == DeleteWorkout(ws[1..], id);
      }
      if exists i :: 0 <= i < |ws| && ws[i].id != id && s in ws[i].sets {
        var i :| 0 <= i < |ws| && ws[i].id != id && s in ws[i].sets;
        if i > 0 {
          assert ws[1..][i - 1] == ws[i];
        }
      }
      if exists i :: 0 <= i < |ws[1..]| && ws[1..][i].id != id && s in ws[1..][i].sets {
        var i :| 0 <= i < |ws[1..]| && ws[1..][i].id != id && s in ws[1..][i].sets;
        assert ws[i + 1] == ws[1..][i];
      }
    }
  }

  /** Deleting a workout that was just created with a fresh id restores the
      store: creation and deletion are inverse. */
  lemma CreateThenDelete(ws: seq<Workout>, id: WorkoutId, now: Time, name: string, template: Option<string>)
    requires !HasId(ws, id)
    ensures DeleteWorkout(CreateWorkout(ws, id, now, name, template).0, id) == ws
  {
    var w := NewWorkout(id, now, name, template);
    FilterAppend(ws, [w], NotWorkout(id));
    FilterAll(ws, NotWorkout(id));
    assert Filter([w], NotWorkout(id)) == [] by {
      assert Filter([w][1..], NotWorkout(id)) == [];
    }
  }

  // ---------------------------------------------------------------------
  // Sets and exercises of one workout
  // ---------------------------------------------------------------------

  /** `addExercise(to:exercise:)`: one new set of the exercise with weight 0
      and 8 reps, attached to the workout; `addSet(to:for:...)` is
      `Domain.AddSet`. */
  function AddExercise(w: Workout, setId: SetId, e: ExerciseId, now: Time): (r: (Workout, ExerciseSet))
    ensures r.0.sets == w.sets + [r.1]
    ensures r.1.weight == 0.0 && r.1.reps == 8 && r.1.exercise == Some(e) && r.1.workout == Some(w.id)
    ensures !r.1.isWarmup && r.1.rpe.None? && r.1.completedAt == now
    ensures r.0 == w.(sets := r.0.sets) && r.1.id == setId
  {
    AddSet(w, setId, e, 0.0, 8, now)
  }

  /** `removeExercise(_:from:)`: every set of that exercise goes; sets
      without an exercise stay. */
  function RemoveExercise(w: Workout, e: ExerciseId): (r: Workout)
    ensures r == w.(sets := r.sets)
    ensures forall i :: 0 <= i < |r.sets| ==> r.sets[i].exercise != Some(e)
  {
    var sets := Filter(w.sets, Not(IsOf(e)));
    assert forall i :: 0 <= i < |sets| ==> Not(IsOf(e))(sets[i]);
    w.(sets := sets)
  }

  /** What removal keeps: exactly the other sets, in their original order,
      and the exercise leaves the workout's exercise list. */
  lemma RemoveExerciseEffect(w: Workout, e: ExerciseId, s: ExerciseSet)
    ensures s in RemoveExercise(w, e).sets <==> s in w.sets && s.exercise != Some(e)
    ensures IsSubsequence(RemoveExercise(w, e).sets, w.sets)
    ensures ExerciseIds(RemoveExercise(w, e).sets) == ExerciseIds(w.sets) - {e}
  {
    var r := RemoveExercise(w, e).sets;
    FilterMember(w.sets, Not(IsOf(e)), s);
    FilterIsSubsequence(w.sets, Not(IsOf(e)));
    forall x | x in ExerciseIds(w.sets) && x != e
      ensures x in ExerciseIds(r)
    {
      var t :| t in w.sets && t.exercise == Some(x);
      FilterMember(w.sets, Not(IsOf(e)), t);
    }
    forall x | x in ExerciseIds(r)
      ensures x in ExerciseIds(w.sets) && x != e
    {
      var t :| t in r && t.exercise == Some(x);
      FilterMember(w.sets, Not(IsOf(e)), t);
    }
  }

  /** Adding an exercise and removing it again leaves the same sets as
      removing it straight away. */
  lemma AddThenRemoveExercise(w: Workout, setId: SetId, e: ExerciseId, now: Time)
    ensures RemoveExercise(AddExercise(w, setId, e, now).0, e) == RemoveExercise(w, e)
  {
    var s := AddExercise(w, setId, e, now).1;
    FilterAppend(w.sets, [s], Not(IsOf(e)));
    assert Filter([s], Not(IsOf(e))) == [] by {
      assert Filter([s][1..], Not(IsOf(e))) == [];
    }
  }

  /** `deleteSet(_:)`: deleting the set object removes it from the workout
      that holds it (the workout relationship is nullified, the workout
      stays). */
  function DeleteSet(w: Workout, id: SetId): (r: Workout)
    ensures r == w.(sets := r.sets)
    ensures forall i :: 0 <= i < |r.sets| ==> r.sets[i].id != id
    ensures forall s :: s in r.sets <==> s in w.sets && s.id != id
    ensures IsSubsequence(r.sets, w.sets)
  {
    FilterExactly(w.sets, Session.NotId(id));
    var sets := Filter(w.sets, Session.NotId(id));
    assert forall i :: 0 <= i < |sets| ==> Session.NotId(id)(sets[i]);
    w.(sets := sets)
  }

  /** Adding a set with a fresh id and deleting it again is no change. */
  lemma AddThenDeleteSet(w: Workout, setId: SetId, e: ExerciseId, weight: real, reps: int, now: Time,
                         isWarmup: bool, rpe: Option<int>)
    requires forall i :: 0 <= i < |w.sets| ==> w.sets[i].id != setId
    ensures DeleteSet(AddSet(w, setId, e, weight, reps, now, isWarmup, rpe).0, setId) == w
  {
    var s := AddSet(w, setId, e, weight, reps, now, isWarmup, rpe).1;
    FilterAppend(w.sets, [s], Session.NotId(setId));
    FilterAll(w.sets, Session.NotId(setId));
    assert Filter([s], Session.NotId(setId)) == [] by {
      assert Filter([s][1..], Session.NotId(setId)) == [];
    }
  }

  /** `updateSet(_:weight:reps:rpe:)` as written: the weight is assigned
      before the first-weight test, so no set is ever re-stamped. */
  function UpdateSetAsWritten(w: Workout, target: SetId, weight: real, reps: int, rpe: Option<int>, now: Time)
    : (r: Workout)
    ensures r == w.(sets := r.sets) && |r.sets| == |w.sets|
    ensures forall i :: 0 <= i < |w.sets| && w.sets[i].id != target ==> r.sets[i] == w.sets[i]
  {
    w.(sets := Session.EditById(w.sets, target, weight, reps, rpe, now))
  }

  /** As written, every set keeps its completion time, including a set that
      receives its first weight. */
  lemma UpdateSetAsWrittenNeverRestamps(w: Workout, target: SetId, weight: real, reps: int, rpe: Option<int>,
                                        now: Time, i: nat)
    requires i < |w.sets|
    ensures UpdateSetAsWritten(w, target, weight, reps, rpe, now).sets[i].completedAt == w.sets[i].completedAt
    ensures w.sets[i].id == target ==>
      UpdateSetAsWritten(w, target, weight, reps, rpe, now).sets[i]
        == w.sets[i].(weight := weight, reps := reps, rpe := rpe)
  {
    Session.EditSetAsWrittenNeverRestamps(w.sets[i], weight, reps, rpe, now);
  }

  /** The intended `updateSet`: a set that had weight 0 and receives a
      positive weight is stamped as completed now. */
  function UpdateSet(w: Workout, target: SetId, weight: real, reps: int, rpe: Option<int>, now: Time)
    : (r: Workout)
    ensures r == w.(sets := r.sets) && |r.sets| == |w.sets|
    ensures forall i :: 0 <= i < |w.sets| && w.sets[i].id != target ==> r.sets[i] == w.sets[i]
    ensures forall i :: 0 <= i < |w.sets| && w.sets[i].id == target ==>
      r.sets[i].weight == weight && r.sets[i].reps == reps && r.sets[i].rpe == rpe
      && r.sets[i].completedAt == (if w.sets[i].weight == 0.0 && weight > 0.0 then now else w.sets[i].completedAt)
  {
    w.(sets := seq(|w.sets|, i requires 0 <= i < |w.sets| =>
      if w.sets[i].id == target then Session.EditSet(w.sets[i], weight, reps, rpe, now) else w.sets[i]))
  }

  /** The two differ exactly on a set that gets its first weight: an
      unweighted set stamped at 0 that receives 100 lb at time 50. */
  lemma UpdateSetDiscrepancy(s: ExerciseSet, w: Workout)
    requires w.sets == [s] && s.weight == 0.0 && s.completedAt == 0.0
    ensures UpdateSetAsWritten(w, s.id, 100.0, 5, None, 50.0).sets[0].completedAt == 0.0
    ensures UpdateSet(w, s.id, 100.0, 5, None, 50.0).sets[0].completedAt == 50.0
  {
    UpdateSetAsWrittenNeverRestamps(w, s.id, 100.0, 5, None, 50.0, 0);
  }

  // ---------------------------------------------------------------------
  // Date-ordered queries
  // ---------------------------------------------------------------------

  function NegatedDate(w: Workout): real
  {
    -w.date
  }

  function WorkoutDate(w: Workout): real
  {
    w.date
  }

  /** `getRecentWorkouts(limit:)`: the `limit` most recent workouts, newest
      first. */
  function GetRecentWorkouts(ws: seq<Workout>, limit: nat := 10): (r: seq<Workout>)
    requires limit >= 1
    ensures |r| == MinNat(limit, |ws|)
    ensures forall i, j :: 0 <= i < j < |r| ==> r[i].date >= r[j].date
    ensures multiset(r) <= multiset(ws)
  {
    var sorted := SortBy(ws, NegatedDate);
    SortedPrefix(sorted, MinNat(limit, |ws|), NegatedDate);
    sorted[..MinNat(limit, |ws|)]
  }

  /** Nothing left out is newer than anything returned. */
  lemma RecentWorkoutsAreNewest(ws: seq<Workout>, limit: nat, w: Workout)
    requires limit >= 1
    requires w in ws && w !in GetRecentWorkouts(ws, limit)
    ensures forall i :: 0 <= i < |GetRecentWorkouts(ws, limit)| ==> GetRecentWorkouts(ws, limit)[i].date >= w.date
  {
    var sorted := SortBy(ws, NegatedDate);
    var r := GetRecentWorkouts(ws, limit);
    SortByMembers(ws, NegatedDate, w);
    var k :| 0 <= k < |sorted| && sorted[k] == w;
    assert r == sorted[..|r|];
    forall i | 0 <= i < |r|
      ensures r[i].date >= w.date
    {
      assert NegatedDate(sorted[i]) <= NegatedDate(sorted[k]);
    }
  }

  /** Predicate constructor: dated within the closed interval. */
  function DatedWithin(from: Time, to: Time): Workout -> bool
  {
    (w: Workout) => from <= w.date <= to
  }

  /** `getWorkouts(from:to:)`: the workouts dated within the closed interval,
      oldest first. */
  function GetWorkouts(ws: seq<Workout>, from: Time, to: Time): (r: seq<Workout>)
    ensures forall i, j :: 0 <= i < j < |r| ==> r[i].date <= r[j].date
    ensures multiset(r) == multiset(Filter(ws, DatedWithin(from, to)))
  {
    var r := SortBy(Filter(ws, DatedWithin(from, to)), WorkoutDate);
    assert SortedBy(r, WorkoutDate);
    r
  }

  /** A workout is returned exactly when it is stored and in range. */
  lemma GetWorkoutsMembers(ws: seq<Workout>, from: Time, to: Time, w: Workout)
    ensures w in GetWorkouts(ws, from, to) <==> w in ws && from <= w.date <= to
  {
    var f := Filter(ws, DatedWithin(from, to));
    FilterMember(ws, DatedWithin(from, to), w);
    assert w in GetWorkouts(ws, from, to) <==> w in multiset(GetWorkouts(ws, from, to));
    assert w in f <==> w in multiset(f);
  }

  // ---------------------------------------------------------------------
  // getWorkoutHistory(for:)
  // ---------------------------------------------------------------------

  datatype HistoryEntry = HistoryEntry(workout: Workout, sets: seq<ExerciseSet>)

  /** The exercise's sets of one workout, by completion time. */
  function SetsOfIn(w: Workout, e: ExerciseId): seq<ExerciseSet>
  {
    SortBy(Filter(w.sets, IsOf(e)), CompletedAt)
  }

  /** Predicate-like constructor: a workout's sets of exercise `e`. */
  function SetsOf(e: ExerciseId): Workout -> seq<ExerciseSet>
  {
    (w: Workout) => SetsOfIn(w, e)
  }

  /** One entry per workout of `sorted` whose picked sets are non-empty, in
      the order of `sorted`. */
  function HistoryOf(sorted: seq<Workout>, pick: Workout -> seq<ExerciseSet>): (r: seq<HistoryEntry>)
    ensures forall i :: 0 <= i < |r| ==> r[i].workout in sorted && r[i].sets == pick(r[i].workout)
    ensures forall i :: 0 <= i < |r| ==> |r[i].sets| > 0
  {
    if |sorted| == 0 then []
    else
      var sets := pick(sorted[0]);
      var rest := HistoryOf(sorted[1..], pick);
      assert forall x :: x in sorted[1..] ==> x in sorted;
      if |sets| > 0 then
        var r := [HistoryEntry(sorted[0], sets)] + rest;
        assert forall i :: 0 < i < |r| ==> r[i] == rest[i - 1];
        r
      else rest
  }

  /** Entries whose workouts run from newest to oldest. */
  predicate NewestFirst(r: seq<HistoryEntry>)
  {
    forall i, j :: 0 <= i < j < |r| ==> r[i].workout.date >= r[j].workout.date
  }

  lemma ConsNewestFirst(h: HistoryEntry, rest: seq<HistoryEntry>)
    requires NewestFirst(rest)
    requires forall i :: 0 <= i < |rest| ==> h.workout.date >= rest[i].workout.date
    ensures NewestFirst([h] + rest)
  {
    var r := [h] + rest;
    forall i, j | 0 <= i < j < |r|
      ensures r[i].workout.date >= r[j].workout.date
    {
      assert r[j] == rest[j - 1];
      if i > 0 {
        assert r[i] == rest[i - 1];
      }
    }
  }

  /** The entries come in the order of the workouts they are taken from. */
  lemma {:induction false} HistoryOrdered(sorted: seq<Workout>, pick: Workout -> seq<ExerciseSet>)
    requires SortedBy(sorted, NegatedDate)
    ensures NewestFirst(HistoryOf(sorted, pick))
  {
    if |sorted| > 0 {
      assert SortedBy(sorted[1..], NegatedDate);
      HistoryOrdered(sorted[1..], pick);
      var rest := HistoryOf(sorted[1..], pick);
      var h := HistoryEntry(sorted[0], pick(sorted[0]));
      forall i | 0 <= i < |rest|
        ensures h.workout.date >= rest[i].workout.date
      {
        var k :| 0 <= k < |sorted[1..]| && sorted[1..][k] == rest[i].workout;
        assert NegatedDate(sorted[0]) <= NegatedDate(sorted[k + 1]);
      }
      if |pick(sorted[0])| > 0 {
        assert HistoryOf(sorted, pick) == [h] + rest;
        ConsNewestFirst(h, rest);
      } else {
        assert HistoryOf(sorted, pick) == rest;
      }
    }
  }

  /** `getWorkoutHistory(for:)`: for every workout, newest first, that has a
      set of the exercise, that workout with its sets of the exercise in
      order of completion. */
  function GetWorkoutHistory(ws: seq<Workout>, e: ExerciseId): (r: seq<HistoryEntry>)
    ensures forall i :: 0 <= i < |r| ==> |r[i].sets| > 0
  {
    HistoryOf(SortBy(ws, NegatedDate), SetsOf(e))
  }

  /** Each entry is a stored workout with exactly its sets of the exercise,
      in order of completion. */
  lemma GetWorkoutHistoryEntry(ws: seq<Workout>, e: ExerciseId, i: nat, s: ExerciseSet)
    requires i < |GetWorkoutHistory(ws, e)|
    ensures var h := GetWorkoutHistory(ws, e)[i];
      && h.workout in ws
      && SortedBy(h.sets, CompletedAt)
      && (s in h.sets <==> s in h.workout.sets && s.exercise == Some(e))
  {
    var h := GetWorkoutHistory(ws, e)[i];
    SortByMembers(ws, NegatedDate, h.workout);
    assert h.sets == SetsOfIn(h.workout, e);
    HistorySetsOfExercise(h.workout, e, s);
  }

  /** The entries run from the newest workout to the oldest. */
  lemma GetWorkoutHistoryOrdered(ws: seq<Workout>, e: ExerciseId)
    ensures NewestFirst(GetWorkoutHistory(ws, e))
  {
    HistoryOrdered(SortBy(ws, NegatedDate), SetsOf(e));
  }

  /** An entry's sets are exactly the workout's sets of the exercise. */
  lemma HistorySetsOfExercise(w: Workout, e: ExerciseId, s: ExerciseSet)
    ensures s in SetsOfIn(w, e) <==> s in w.sets && s.exercise == Some(e)
  {
    SortByMembers(Filter(w.sets, IsOf(e)), CompletedAt, s);
    FilterMember(w.sets, IsOf(e), s);
  }

  /** Every workout with something picked has an entry. */
  lemma {:induction false} HistoryComplete(sorted: seq<Workout>, pick: Workout -> seq<ExerciseSet>, w: Workout)
    requires w in sorted && |pick(w)| > 0
    ensures exists i :: 0 <= i < |HistoryOf(sorted, pick)| && HistoryOf(sorted, pick)[i].workout == w
  {
    var r := HistoryOf(sorted, pick);
    if sorted[0] == w {
      assert r[0].workout == w;
    } else {
      HistoryComplete(sorted[1..], pick, w);
      var rest := HistoryOf(sorted[1..], pick);
      var i :| 0 <= i < |rest| && rest[i].workout == w;
      if |pick(sorted[0])| > 0 {
        assert r[i + 1] == rest[i];
      } else {
        assert r[i] == rest[i];
      }
    }
  }

  /** Every stored workout with a set of the exercise has an entry. */
  lemma GetWorkoutHistoryComplete(ws: seq<Workout>, e: ExerciseId, w: Workout, s: ExerciseSet)
    requires w in ws && s in w.sets && s.exercise == Some(e)
    ensures exists i :: 0 <= i < |GetWorkoutHistory(ws, e)| && GetWorkoutHistory(ws, e)[i].workout == w
  {
    SortByMembers(ws, NegatedDate, w);
    HistorySetsOfExercise(w, e, s);
    assert |SetsOf(e)(w)| > 0;
    HistoryComplete(SortBy(ws, NegatedDate), SetsOf(e), w);
    assert GetWorkoutHistory(ws, e) == HistoryOf(SortBy(ws, NegatedDate), SetsOf(e));
  }

  function EntrySets(h: HistoryEntry): seq<ExerciseSet>
  {
    h.sets
  }

  /** The history the active session reads when it is opened: per exercise,
      the sets of each past workout, newest workout first. */
  function SessionHistory(ws: seq<Workout>): ExerciseId -> seq<seq<ExerciseSet>>
  {
    (e: ExerciseId) => MapSeq(GetWorkoutHistory(ws, e), EntrySets)
  }

  /** Every history entry the session reads is non-empty, belongs to the
      exercise and is in completion order. */
  lemma SessionHistoryShape(ws: seq<Workout>, e: ExerciseId, k: nat, i: nat)
    requires k < |SessionHistory(ws)(e)| && i < |SessionHistory(ws)(e)[k]|
    ensures |SessionHistory(ws)(e)[k]| > 0
    ensures SessionHistory(ws)(e)[k][i].exercise == Some(e)
    ensures SortedBy(SessionHistory(ws)(e)[k], CompletedAt)
  {
    var h := GetWorkoutHistory(ws, e);
    assert SessionHistory(ws)(e)[k] == h[k].sets;
    GetWorkoutHistoryEntry(ws, e, k, h[k].sets[i]);
  }

  // ---------------------------------------------------------------------
  // calculateRPTWeights lives in module RPT; statistics
  // ---------------------------------------------------------------------

  function SumVolume(ws: seq<Workout>): real
  {
    if |ws| == 0 then 0.0 else TotalVolume(ws[0].sets) + SumVolume(ws[1..])
  }

  function SumDuration(ws: seq<Workout>): real
  {
    if |ws| == 0 then 0.0 else ws[0].duration + SumDuration(ws[1..])
  }

  datatype Stats = Stats(count: nat, totalVolume: real, averageDuration: real)

  /** `calculateWorkoutStats(timeframe:)`: the workouts dated from the
      timeframe's start (an input, as the calendar arithmetic is) up to
      now, their count, summed volume and mean duration. */
  function WorkoutStats(ws: seq<Workout>, start: Time, now: Time): (r: Stats)
    ensures r.count == |Filter(ws, DatedWithin(start, now))|
    ensures r.count == 0 ==> r.averageDuration == 0.0
    ensures r.averageDuration == Mean(SumDuration(GetWorkouts(ws, start, now)), r.count)
    ensures r.totalVolume == SumVolume(GetWorkouts(ws, start, now))
  {
    var picked := GetWorkouts(ws, start, now);
    SameLength(picked, Filter(ws, DatedWithin(start, now)));
    Stats(|picked|, SumVolume(picked), Mean(SumDuration(picked), |picked|))
  }

  /** `count > 0 ? total / Double(count) : 0`. */
  function Mean(total: real, count: nat): (r: real)
    ensures count == 0 ==> r == 0.0
    ensures count > 0 ==> r * count as real == total
    ensures count > 0 && total >= 0.0 ==> r >= 0.0
  {
    if count > 0 then total / count as real else 0.0
  }

  lemma SameLength<T>(a: seq<T>, b: seq<T>)
    requires multiset(a) == multiset(b)
    ensures |a| == |b|
  {
    assert |a| == |multiset(a)|;
  }

  /** An empty store gives the empty statistics. */
  lemma EmptyStats(start: Time, now: Time)
    ensures WorkoutStats([], start, now) == Stats(0, 0.0, 0.0)
  {
    assert GetWorkouts([], start, now) == [];
  }

  /** The display form `formatVolume(_:)` chooses: thousands with a "k"
      strictly above 1000, plain pounds otherwise; the figure shown with one
      decimal is the value carried here. */
  datatype VolumeText = Kilo(thousands: real) | Pounds(pounds: real)

  function FormatVolume(volume: real): (r: VolumeText)
    ensures r.Kilo? <==> volume > 1000.0
    ensures r.Kilo? ==> r.thousands * 1000.0 == volume
    ensures r.Pounds? ==> r.pounds == volume
  {
    if volume > 1000.0 then Kilo(volume / 1000.0) else Pounds(volume)
  }

  /** The boundary: exactly 1000 is still shown in pounds; 1500 is 1.5k. */
  lemma FormatVolumeBoundary()
    ensures FormatVolume(1000.0) == Pounds(1000.0)
    ensures FormatVolume(1500.0) == Kilo(1.5)
    ensures FormatVolume(0.0) == Pounds(0.0)
  {
  }

  /** `"%d:%02d"` of `Int(d / 60)` and `Int(d.truncatingRemainder(dividingBy: 60))`. */
  function DurationMinutes(d: real): int
  {
    TruncReal(d / 60.0)
  }

  function DurationSeconds(d: real): int
  {
    TruncReal(d - 60.0 * DurationMinutes(d) as real)
  }

  function FormatDuration(d: real): (r: string)
  {
    IntToString(DurationMinutes(d)) + ":" + Pad2(DurationSeconds(d))
  }

  /** For a non-negative mean duration the two fields are whole minutes and
      the leftover seconds, 0 to 59, which recombine to the whole seconds. */
  lemma DurationSplit(d: real)
    requires d >= 0.0
    ensures DurationMinutes(d) >= 0 && 0 <= DurationSeconds(d) < 60
    ensures 60 * DurationMinutes(d) + DurationSeconds(d) == d.Floor
  {
    var m := DurationMinutes(d);
    assert m as real <= d / 60.0 < m as real + 1.0;
    assert 60.0 * (m as real) <= d < 60.0 * (m as real) + 60.0;
    var rest := d - 60.0 * m as real;
    assert 0.0 <= rest < 60.0;
    var s := DurationSeconds(d);
    assert s as real <= rest < s as real + 1.0;
    assert (60 * m + s) as real <= d < (60 * m + s) as real + 1.0;
  }

  /** `calculateWorkoutStatsFormatted(timeframe:)`. */
  function WorkoutStatsFormatted(ws: seq<Workout>, start: Time, now: Time): (r: (nat, VolumeText, string))
    ensures r.0 == WorkoutStats(ws, start, now).count
    ensures r.1 == FormatVolume(WorkoutStats(ws, start, now).totalVolume)
    ensures r.2 == FormatDuration(WorkoutStats(ws, start, now).averageDuration)
  {
    var s := WorkoutStats(ws, start, now);
    (s.count, FormatVolume(s.totalVolume), FormatDuration(s.averageDuration))
  }

  /** With no workouts the formatted statistics are 0, zero pounds and
      "0:00". */
  lemma EmptyStatsFormatted(start: Time, now: Time)
    ensures WorkoutStatsFormatted([], start, now) == (0, Pounds(0.0), "0:00")
  {
    EmptyStats(start, now);
    assert DurationMinutes(0.0) == 0 && DurationSeconds(0.0) == 0;
    assert IntToString(0) == "0";
    assert Pad2(0) == "00";
    assert FormatDuration(0.0) == "0:00";
  }

  /** A mean of 125.7 seconds reads "2:05". */
  lemma DurationExample()
    ensures FormatDuration(125.7) == "2:05"
  {
    assert DurationMinutes(125.7) == 2;
    assert DurationSeconds(125.7) == 5;
    assert IntToString(2) == "2" && IntToString(5) == "5";
  }
}
